=== FILE: README.md ===
# mflow_nodes in Dafny

A model of the Python node library of mflow_nodes. The library builds
processing nodes for detector data streams. Each node receives mflow messages
over ZMQ, hands them to a processor, and is steered through a small REST
interface. The model covers:

- **Message dispatch.** The per-`htype` message handlers and the three
  functions that pick a handler by the header's `htype`.
- **Processors.** The stub processors (`set_parameter`, the lifecycle
  hooks), the two proxy processors and the LZ4 compression processor with its
  12-byte size/block prefix.
- **HDF5 writers.** The chunked writer (dataset growth and compaction), the
  NXMX writer (validation, file names, start/stop guards, parameter merging),
  the h5 helpers (attribute keys, parent groups, dataset creation), the
  NeXus schema validator and NXDL tree walk, header-to-NXMX conversion,
  external-link naming and the frame-index writer plugin.
- **Node control.** The node manager and the external-process wrapper
  (start/stop guards, the parameter record and queue, merged parameters),
  the REST-interfaced process defaults, route formatting and host
  stripping.
- **Statistics and configuration.** The bounded newest-first statistics
  buffer and its rates. The script helpers that merge parameters and config
  files in order of precedence.
- **The example ring buffer.** Slots, full/empty flags, the cursor, and the
  write/read/release errors.

The h5py file is a map from normalised path to node (`H5.File`). Python
values are one datatype (`Values.Value`). Exceptions are the `Error` cases of
`Wrappers.Result`. Sockets, threads, the file system, remote calls,
`bitshuffle.compress_lz4` and the user's proxy functions are parameters of
the operations that use them. `Text`, `Values`, `Ordered` and `H5` hold the
Python and h5py behaviour the library relies on: `str` methods, indexing,
sorting, `require_group`/`create_dataset`/`resize`; `H5Filters` holds h5py's
checks of the storage arguments of `create_dataset` (compression filter,
options, chunk shape).

## Model

| member | source | states |
|---|---|---|
| Messages.Part | mflow_tools/message_handlers/array_1_0.py:6-7 | `message.data[key]` succeeds exactly when the part exists, and gives that part |
| Messages.Field | mflow_tools/message_handlers/array_1_0.py:10-11 | `message.data[part][key]` succeeds exactly when the part is a dict holding the key, and gives that entry |
| Messages.GetHeader | mflow_tools/message_handlers/dheader_1_0.py:6-7 | every handler's header is the `"header"` part, failing exactly when it is absent |
| Messages.GetFrameIndex | mflow_tools/message_handlers/dheader_1_0.py:10-11 | the series-header and series-end handlers give -1; every other handler reads `header["frame"]` |
| Messages.GetData | mflow_tools/message_handlers/dheader_1_0.py:18-29 | array handlers give `data["data"][0]`; dimage gives `part_3_raw`; series-end gives None; series-header returns None exactly when `part_2` and the appendix are accepted by `dict.update`, the header has `header_detail`, and, when that is "all", every detail part is present and accepted; it raises TypeError without `part_2`; raw gives a single part unwrapped, else the whole list |
| Messages.MergePart | mflow_tools/message_handlers/dheader_1_0.py:24-29 | `data.update(message.data[key])` raises KeyError for a missing part and otherwise succeeds exactly when `dict.update` accepts the part |
| Messages.Mergeable | mflow_tools/message_handlers/dheader_1_0.py:20-29 | `dict.update(v)` succeeds exactly for a dict, an empty string or byte string, or a list or tuple whose every element is a key-value pair; a number, None or function raises TypeError |
| Messages.UpdatePair | mflow_tools/message_handlers/dheader_1_0.py:20-29 | one element of the update sequence is accepted exactly when it is a pair with a hashable key; a wrong length raises ValueError naming the element's index and length, a non-iterable or unhashable key TypeError |
| Messages.UpdatePairs | mflow_tools/message_handlers/dheader_1_0.py:20-29 | the update sequence is accepted exactly when every element is a pair |
| Messages.MergeParts | mflow_tools/message_handlers/dheader_1_0.py:24-29 | merging the detail parts in turn succeeds exactly when every part is present and accepted by `dict.update`; a missing first part raises KeyError naming it |
| Messages.GetDataLength | mflow_tools/message_handlers/array_1_0.py:14-15 | the array handler gives the length of the first data element; dimage gives `part_2["size"]`; the older array handler returns None; the series handlers give `message.data.__sizeof__()`; the raw handler gives the summed lengths of the part names |
| Messages.NameLengthsOrderFree | mflow_nodes/stream_tools/message_handlers/raw_1_0.py:15 | the raw length does not depend on the order the dict yields its keys: two listings of the same distinct names give the same sum |
| Messages.RawLengthCountsNames | mflow_nodes/stream_tools/message_handlers/raw_1_0.py:15 | as written, the raw handler gives 10 for any message with just a header and a data part, whatever the payload |
| Messages.RawPayloadLength | mflow_nodes/stream_tools/message_handlers/raw_1_0.py:15-23 | corrected: the summed lengths of the items of the `data` part, failing exactly when one has no length |
| Messages.PayloadLengthIsDataLength | mflow_nodes/stream_tools/message_handlers/raw_1_0.py:15-21 | for a single-item payload, the corrected length is the length of what `get_data` returns |
| Messages.GetFrameSize | mflow_tools/message_handlers/dimage_1_0.py:22-24 | header-reading handlers give `header["shape"]`; the older dimage handler gives `part_2["shape"]`; the series handlers raise ValueError("No frame size in message.") |
| Messages.GetFrameDtype | mflow_tools/message_handlers/dimage_1_0.py:27-28 | header-reading handlers give `header["type"]`; dimage handlers give `part_2["type"]`; the series handlers raise ValueError("No dtype in message.") |
| Messages.DImageShapeReversed | mflow_tools/message_handlers/dimage_1_0.py:22-24 | the dimage handler reports the reverse of the (X, Y) shape; reversing it again gives the shape; the older handler passes it on unreversed |
| Messages.HtypeName | mflow_tools/mflow_message.py:7-10 | exactly the four handlers of the shared table have an `htype` name |
| Messages.HandlerFor | mflow_nodes/stream_tools/mflow_message.py:8-11 | the table lookup finds a handler only for a string naming it; an unhashable value (a list, a dict, or a tuple holding one) raises TypeError; any other value finds nothing |
| Messages.HandlerForName | mflow_tools/mflow_message.py:7-10 | each table handler is found again under its own name |
| Messages.WrappedHeader | mflow_nodes/stream_tools/mflow_message.py:48-49 | the header value that `str(wrapper)` prints: the raw message's `"header"` part, as every handler's `get_header` reads it; KeyError exactly when the message has no header |
| Messages.Htype | mflow_nodes/stream_tools/mflow_message.py:23 | the `htype` is read exactly when the header is a dict holding it; a missing header or a missing key raises KeyError naming it |
| Messages.GetMflowMessage | mflow_nodes/stream_tools/mflow_message.py:14-29 | None stays None; the wrapper keeps the raw message and its `htype` and binds the handler named by it; a string `htype` outside the table is dropped, and only then |
| Messages.GetToolsMessage | mflow_tools/mflow_message.py:13-22 | the tools dispatcher decides exactly as the node library's does |
| Messages.WrappedShowsItsHtype | mflow_nodes/stream_tools/mflow_message.py:23-49 | a wrapped message's header holds the wrapper's `htype`, a string naming the bound handler, and both dispatchers wrap it alike |
| Messages.GetStreamMessage | mflow_node/utils/stream_message.py:51-63 | only `dimage-1.0` and `array-1.0` are wrapped, each with its own handler; every other `htype` is dropped |
| Processors.SetParameter | mflow_nodes/processors/base.py:25-44 | a non-tuple raises ValueError; a `(name, value)` tuple sets `name` to `value` and leaves every other attribute alone |
| Processors.LaterSetWins | mflow_node/processor.py:39-44 | setting a name twice is the same as setting it once to the second value |
| Processors.DistinctSetsCommute | mflow_node/processor.py:39-44 | setting two different names gives the same attributes in either order |
| Processors.IsRunning | mflow_nodes/processors/base.py:53-58 | the stub processor always reports itself running |
| Processors.LifecycleKeepsParameters | mflow_node/processor.py:11-24 | the base hooks are stubs (`pass`): the model records that `start`, any number of `process_message` calls and `stop` leave the attributes as they were |
| Proxies.FormatInteger | mflow_processor/proxy.py:55 | `"%d" % v` succeeds exactly for numbers and raises TypeError otherwise |
| Proxies.LogFrame | mflow_processor/proxy.py:55 | the debug line needs a numeric `header["frame"]` |
| Proxies.Send | mflow_node/processor.py:86-96 | the older forwarder appends exactly one (header, data) frame; it succeeds exactly when the frame index formats and the header has a JSON form, and a header holding a byte string, numpy string or function raises TypeError |
| Proxies.Forward | mflow_nodes/stream_tools/mflow_forwarder.py:39-46 | the newer forwarder appends the message unchanged, failing only when it has no header |
| Proxies.ProxyValidationMessage | mflow_processor/proxy.py:29-40 | the accumulated text is empty exactly when the address is truthy and the function callable; the address line comes first |
| Proxies.NewProxy | mflow_processor/proxy.py:21-27 | a new proxy has no forwarder and no forwarding address |
| Proxies.ValidateProxy | mflow_processor/proxy.py:29-40 | validation raises ValueError with the accumulated text exactly when the address is falsy or the function not callable |
| Proxies.StartProxy | mflow_processor/proxy.py:42-49 | `start` validates first; a valid proxy gets a fresh stream on its address and nothing else changes |
| Proxies.ForwardedFrame | mflow_processor/proxy.py:56-60 | a falsy proxy result forwards the original header and data; a truthy one forwards `(result[0], result[1])` |
| Proxies.ProcessMessage | mflow_processor/proxy.py:51-62 | a processed message appends exactly one frame, after those already sent: the proxy's frame when its result is truthy, the original otherwise; it succeeds exactly when the message is processable (which includes a JSON-encodable header to send) and a forwarder exists, and without a forwarder it raises AttributeError |
| Proxies.OneSendPerMessage | mflow_processor/proxy.py:62 | a run that goes through sends one frame per message after the earlier frames and changes nothing else |
| Proxies.RunSucceeds | mflow_processor/proxy.py:51-62 | a started proxy gets through a run exactly when every message of it is processable, its sent header encoding as JSON included |
| Proxies.StopProxy | mflow_processor/proxy.py:64-65 | `stop` disconnects the stream and raises when there is none |
| Proxies.NewNodeProxy | mflow_nodes/processors/proxy.py:23-34 | a new proxy has no forwarder and no binding address |
| Proxies.ValidateNodeProxy | mflow_nodes/processors/proxy.py:36-47 | validation raises ValueError exactly when the binding address is falsy or the function not callable |
| Proxies.StartNodeProxy | mflow_nodes/processors/proxy.py:49-56 | `start` validates before a forwarder exists |
| Proxies.ProcessNodeMessage | mflow_nodes/processors/proxy.py:58-63 | a truthy decision forwards the raw message unchanged; a falsy one forwards nothing; the frame index must format first |
| Proxies.Selected | mflow_nodes/processors/proxy.py:60-63 | at most one forwarded message per message |
| Proxies.ForwardsSelected | mflow_nodes/processors/proxy.py:58-63 | a started proxy forwards exactly the messages its function selects, in arrival order and unchanged |
| Proxies.StopNodeProxy | mflow_nodes/processors/proxy.py:65-66 | `stop` disconnects the stream and raises when there is none |
| Lz4Framing.ToBigEndian | mflow_processor/lz4_compressor.py:48-49 | big-endian encoding gives exactly `n` bytes |
| Lz4Framing.FromBigEndian | mflow_processor/lz4_compressor.py:48-49 | decoding `n` bytes gives a number below 256^n |
| Lz4Framing.FromToBigEndian | mflow_processor/lz4_compressor.py:48-49 | decoding an encoded number gives the number back |
| Lz4Framing.ToFromBigEndian | mflow_processor/lz4_compressor.py:48-49 | encoding a decoded byte string gives the bytes back |
| Lz4Framing.PackSigned | mflow_processor/lz4_compressor.py:48-49 | `struct.pack('>q')`/`('>i')` succeed exactly for values in the signed range, give 8 or 4 bytes, and raise struct.error otherwise |
| Lz4Framing.UnpackSigned | mflow_processor/lz4_compressor.py:48-49 | unpacking gives a value in the signed range |
| Lz4Framing.PackUnpack | mflow_processor/lz4_compressor.py:48-49 | unpacking a packed value gives it back |
| Lz4Framing.UnpackPack | mflow_processor/lz4_compressor.py:48-49 | packing an unpacked value gives the bytes back |
| Lz4Framing.PayloadParts | mflow_processor/lz4_compressor.py:50 | the 8-byte size, 4-byte block and compressed bytes can be split off the payload again |
| Lz4Framing.BlockBytes | mflow_processor/lz4_compressor.py:49 | `block_size * itemsize` packs exactly for an integral block size; None, dicts and functions raise TypeError, other values struct.error |
| Lz4Framing.CompressAsChunk | mflow_processor/lz4_compressor.py:45-51 | the payload is 12 prefix bytes plus the compressed bytes; the prefix decodes to rows·cols·itemsize and block_size·itemsize; it succeeds exactly when the compressor did, the frame has two axes and both sizes pack; a compressor error passes through |
| Lz4Framing.ParseChunk | mflow_processor/lz4_compressor.py:47-50 | a payload parses exactly when it holds the 12-byte prefix |
| Lz4Framing.ChunkRoundTrip | mflow_processor/lz4_compressor.py:46-51 | parsing a framed chunk gives back the two sizes and the compressed bytes |
| Lz4Framing.EncodedHeader | mflow_processor/lz4_compressor.py:55-56 | the sent header is the original plus `"encoding": "bitshuffle_lz4"`, every other key unchanged |
| Lz4Framing.NewCompressor | mflow_processor/lz4_compressor.py:27-30 | a new compressor has block size 2048 and no forwarding address |
| Lz4Framing.ValidationMessage | mflow_processor/lz4_compressor.py:32-43 | the text is empty exactly when block size and forwarding address are truthy; the block-size line comes first |
| Lz4Framing.Start | mflow_processor/proxy.py:42-49 | the inherited `start` validates first and raises ValueError with the text; a valid compressor gets a fresh stream |
| Lz4Framing.ProcessMessage | mflow_processor/lz4_compressor.py:53-68 | a processed frame appends the encoded header (sent first) with the framed payload; it succeeds exactly when the message has a header and data, the compressor and the framing succeed, a stream exists and the new header encodes as JSON (TypeError otherwise); a compressor error passes through |
| Lz4Framing.SentFrameDecodes | mflow_processor/lz4_compressor.py:45-68 | the last frame sent decodes to the frame's byte count, the block size in bytes and the compressor's output, under the encoded header; the block size was integral |
| WriterPlugins.WriteFrameIndexToDataset | mflow_processor/utils/writer_plugins.py:1-11 | the factory binds the target dataset name it is given |
| WriterPlugins.Apply | mflow_processor/utils/writer_plugins.py:7-9 | an absent target becomes `[index]`; a list target gets the index appended; a non-list target raises AttributeError; other datasets stay as they were |
| WriterPlugins.FrameIndices | mflow_processor/utils/writer_plugins.py:9 | one frame index per message, in order |
| WriterPlugins.CollectStep | mflow_processor/utils/writer_plugins.py:9 | one more message extends the collected list by its frame index |
| WriterPlugins.CollectsFrameIndices | mflow_processor/utils/writer_plugins.py:7-9 | starting without the target, the plugin collects every message's frame index in arrival order and leaves the other datasets alone |
| RestServer.FieldClose | mflow_nodes/rest_api/rest_server.py:32-33 | a replacement field ends at the first closing brace after its start, and there is none exactly when none is found |
| RestServer.FormatLiteral | mflow_nodes/rest_api/rest_server.py:32-33 | `str.format` copies literal text without braces through unchanged and fails exactly when the rest fails |
| RestServer.FormatNamedField | mflow_nodes/rest_api/rest_server.py:32-33 | a field naming the keyword argument is replaced by its value |
| RestServer.FormatEscapes | mflow_nodes/config.py:20-21 | `{{` and `}}` each stand for one literal brace |
| RestServer.UrlUnder | mflow_nodes/rest_api/rest_server.py:44-69 | a request path belongs under a route prefix exactly when it starts with it, and the remainder completes the path |
| RestServer.FillUrl | mflow_nodes/rest_api/rest_server.py:37-39 | the second fill puts the `url` value after the instance prefix |
| RestServer.FillUrlTail | mflow_nodes/config.py:20-21 | the escaped `{{url}}` tail survives the first fill as a `{url}` field |
| RestServer.FillEscapedUrl | mflow_nodes/config.py:20-21 | the escaped `{{url}}` fills to the field `{url}`, whatever keyword is passed |
| RestServer.FillInstance | mflow_nodes/rest_api/rest_server.py:32-33 | filling the instance name in a template leaves `"/{url}"` for the second fill |
| RestServer.FillBoth | mflow_nodes/rest_api/rest_server.py:32-44 | both fills together give prefix, instance, `/` and url |
| RestServer.ApiPathShape | mflow_nodes/rest_api/rest_server.py:32 | the API route for a brace-free instance name is `/api/v1/<instance>/<url>` |
| RestServer.HtmlPathShape | mflow_nodes/rest_api/rest_server.py:33 | the HTML route for a brace-free instance name is `/<instance>/<url>` |
| RestServer.ApiRouteRoundTrip | mflow_nodes/rest_api/rest_server.py:44-69 | the `url` part of an API route is recovered from the path, and a path has that `url` exactly when it is the route built from it |
| RestServer.HtmlRouteRoundTrip | mflow_nodes/rest_api/rest_server.py:37-42 | the same round trip for the HTML routes |
| RestServer.UnknownFieldRejected | mflow_nodes/rest_api/rest_server.py:32 | a field naming anything but the keyword raises KeyError with that name |
| RestServer.BracedTemplate | mflow_nodes/rest_api/rest_server.py:32 | a braced part inside the instance name is copied into the first fill's result unchanged |
| RestServer.BracedInstanceRejected | mflow_nodes/rest_api/rest_server.py:32-44 | an instance name holding a `{name}` field other than `url` makes the second fill raise KeyError |
| RestServer.StripSchemeKeepsBareHost | mflow_nodes/rest_api/rest_server.py:150 | a host that mentions neither scheme is left as it is |
| RestServer.StripSchemeOfUrl | mflow_nodes/rest_api/rest_server.py:150 | removing `http://` and then `https://` strips either scheme from a bare host |
| RestServer.DefaultHostBindsAllInterfaces | mflow_nodes/config.py:8 | the default REST host `http://0.0.0.0` binds to `0.0.0.0` |
| RestServer.GetProcessName | mflow_nodes/rest_api/rest_server.py:166-171 | the name is the `__name__` attribute when there is one, else the class name |
| RestServer.GetProcessHelp | mflow_nodes/rest_api/rest_server.py:173-178 | the help is the docstring when it is truthy, else "Sorry, no help available.", and is always truthy |
| RestServer.PublicAttributes | mflow_nodes/rest_api/rest_server.py:205-207 | exactly the attributes whose names do not start with `_`, values unchanged |
| RestServer.GetParameters | mflow_nodes/rest_api/rest_server.py:200-207 | the default parameters list every public attribute once, in strictly ascending name order, with its value |
| RestServer.SetParameterIsReported | mflow_nodes/processors/base.py:44 | after `set_parameter((name, v))` the reported parameters are the old ones with `name` at `v`, unless `name` is private, in which case they do not change |
| RestServer.Perform | mflow_nodes/rest_api/rest_server.py:180-191 | the default hooks are stubs (`pass`): `start`, `stop`, `set_parameters` and `reset` leave the process as it was; the node manager does not override the plural `set_parameters` (lines 209-214), so this stub is what the web interface reaches there |
| RestServer.IsRunning | mflow_nodes/rest_api/rest_server.py:193-198 | the default `is_running` returns a falsy None |
| RestServer.GetStatisticsRaw | mflow_nodes/rest_api/rest_server.py:223-228 | the default raw statistics are None |
| RestServer.GetStatistics | mflow_nodes/rest_api/rest_server.py:216-221 | delegation only: `get_statistics` returns what `get_statistics_raw` returns |
| ManagedProcess.NewChannel | mflow_nodes/node_manager.py:47-53 | the record starts as the initial parameters, or empty when there are none, with nothing queued |
| ManagedProcess.Put | mflow_nodes/node_manager.py:111-118 | `set_parameter` records the value under its name, keeps every other name, and queues the tuple last |
| ManagedProcess.LastValue | mflow_node/stream_node.py:92-93 | a name has a last queued value exactly when some queued tuple names it |
| ManagedProcess.PutAgrees | mflow_nodes/node_manager.py:111-118 | `set_parameter` keeps the queue in agreement with the record: the last queued value of each name is its recorded value |
| ManagedProcess.ReplayCurrent | mflow_nodes/node_manager.py:120-122 | re-setting every recorded parameter leaves the record as it was and queues the parameters in iteration order |
| ManagedProcess.ReplayedLast | mflow_nodes/node_manager.py:120-122 | after the replay, every replayed name's last queued value is its recorded value |
| ManagedProcess.DrainLastWins | mflow_node/stream_node.py:67-69 | the processor taking every queued tuple ends with each named attribute at its last queued value and every other attribute unchanged |
| ManagedProcess.StartDeliversCurrent | mflow_node/stream_node.py:67-69 | after a start, draining the queue leaves the processor with every recorded parameter at its recorded value |
| ManagedProcess.ProcessName | mflow_nodes/node_manager.py:56-58 | the process name is "Unknown processor" without an instance, else the instance's name |
| ManagedProcess.ProcessHelp | mflow_nodes/node_manager.py:127-128 | the help is always truthy: the fallback text without an instance, the docstring when it is truthy |
| ManagedProcess.GetParameters | mflow_nodes/node_manager.py:130-136 | the parameters are the instance's public attributes updated with the recorded ones, and only the recorded ones without an instance; the external-process wrapper's `get_parameters` (mflow_node/stream_node.py:196-202) computes the same |
| NodeManager.New | mflow_nodes/node_manager.py:28-58 | a new manager is not running, has no threads, a clear stop event and the initial record |
| NodeManager.Start | mflow_nodes/node_manager.py:68-89 | `start` raises "External process is already running." exactly when running; otherwise both threads run and every recorded parameter is queued again |
| NodeManager.Stop | mflow_nodes/node_manager.py:91-109 | `stop` raises "External process is already stopped." exactly when not running; otherwise both handles are dropped and the stop event is clear |
| NodeManager.ThreadExits | mflow_nodes/node_manager.py:60-66 | one thread ending on its own makes the manager not running |
| NodeManager.SetParameter | mflow_nodes/node_manager.py:111-118 | `set_parameter` records and queues, whether or not the node is running |
| NodeManager.StartStopCycle | mflow_nodes/node_manager.py:68-109 | from a stopped manager: start succeeds, a second start is refused, stop succeeds, a second stop is refused, the record is kept and a restart succeeds |
| NodeManager.DeadThreadBlocksStop | mflow_nodes/node_manager.py:60-66 | after a thread dies, `stop` is refused and `start` is accepted |
| NodeManager.SetParameterReachesProcessor | mflow_nodes/node_manager.py:111-122 | a parameter set while stopped reaches the processor with its value after the next start |
| StreamNode.NewStatistics | mflow_node/stream_node.py:212-215 | the constructor starts with an empty shared list |
| StreamNode.Head | mflow_node/stream_node.py:221 | Python's `xs[:k]` is a prefix of `xs` whose length follows the negative-index rule |
| StreamNode.Save | mflow_node/stream_node.py:217-221 | `save_statistics` puts the new record first and keeps at most `buffer_length` records, dropping the oldest |
| StreamNode.Raw | mflow_node/stream_node.py:223-224 | the raw statistics are at most `buffer_length` newest-first records |
| StreamNode.PrependNewest | mflow_node/stream_node.py:217-221 | one more save on the newest-first view of all records but the last gives the view of all of them |
| StreamNode.KeepsNewest | mflow_node/stream_node.py:217-224 | from a fresh buffer, the list and the raw statistics are the last `buffer_length` saved records, newest first |
| StreamNode.TotalAppend | mflow_node/stream_node.py:233-234 | adding one more number adds its value to the total |
| StreamNode.Sum | mflow_node/stream_node.py:233-234 | `sum` succeeds exactly for numbers, raises TypeError otherwise, and gives their mathematical total |
| StreamNode.Times | mflow_node/stream_node.py:233 | one number per record |
| StreamNode.Lengths | mflow_node/stream_node.py:234 | one message length per record, in order |
| StreamNode.GetStatistics | mflow_node/stream_node.py:226-242 | `{}` without records; TypeError for a non-numeric length; ZeroDivisionError for a zero total time; otherwise frames and bytes per second over the kept records |
| StreamNode.ConstantTotal | mflow_node/stream_node.py:233-234 | `n` copies of one number add up to `n` times it |
| StreamNode.Cancel | mflow_node/stream_node.py:236-237 | a common record count cancels in both rates |
| StreamNode.SteadyRates | mflow_node/stream_node.py:226-242 | a steady stream of `b`-byte messages each taking `t` seconds reports `1/t` frames and `b/t` bytes per second |
| StreamNode.NullLengthRaises | mflow_node/stream_node.py:218 | a record whose length is None makes `get_statistics` raise TypeError |
| StreamNode.NewWrapper | mflow_node/stream_node.py:108-130 | a new wrapper has no process and the initial record |
| StreamNode.Start | mflow_node/stream_node.py:139-153 | `start` raises exactly when the process is alive; otherwise a live process and every recorded parameter queued again |
| StreamNode.Stop | mflow_node/stream_node.py:155-172 | `stop` raises only when there is no process handle, even a dead one; otherwise the handle is dropped |
| StreamNode.ProcessExits | mflow_node/stream_node.py:132-137 | a process that ends on its own is no longer running |
| StreamNode.SetParameter | mflow_node/stream_node.py:177-184 | records and queues the parameter without touching the process |
| StreamNode.GetProcessHelp | mflow_node/stream_node.py:193-194 | the help is always truthy |
| StreamNode.WrapperStatistics | mflow_node/stream_node.py:204-208 | neither `get_statistics` nor `get_statistics_raw` has a `return`, so the wrapper reports None for both |
| StreamNode.WrapperStartStopCycle | mflow_node/stream_node.py:139-172 | from no process: start, a refused second start, stop, a refused second stop, and a restart |
| StreamNode.DeadProcessCanBeStopped | mflow_node/stream_node.py:155-172 | unlike the node manager, the wrapper stops a process that died on its own |
| StreamNode.WrapperDeliversParameter | mflow_node/stream_node.py:67-69 | a parameter set before a start reaches the listener's processor |
| ConfigHelpers.ReadJsonObject | mflow_nodes/script_tools/helpers.py:91-92 | `json.load(open(path))` succeeds exactly for a readable file holding a JSON object, and gives its entries; a missing file and malformed text each raise their own error |
| ConfigHelpers.ConfigFileEntries | mflow_nodes/script_tools/helpers.py:90-92 | the config file contributes nothing unless `config_file` is given and non-empty, and then its object |
| ConfigHelpers.ConstructProcessorParameters | mflow_nodes/script_tools/helpers.py:76-97 | the processor parameters are the binding address, overridden by the config file, overridden by the explicit parameters; None counts as none; a failing config file fails the whole |
| ConfigHelpers.LegacyConstructProcessorParameters | mflow_nodes/script_tools.py:37-58 | the older version raises AttributeError without a `config_file` attribute and otherwise merges in the same order |
| ConfigHelpers.NoneParametersAreEmpty | mflow_nodes/script_tools/helpers.py:95 | passing None and passing `{}` give the same parameters, in both versions |
| ConfigHelpers.VersionsCompared | mflow_nodes/script_tools.py:37-58 | the two versions agree when the binding address is absent or truthy; a falsy binding address that nothing overrides is reported by the older version only |
| ConfigHelpers.ArgumentOr | mflow_nodes/script_tools/helpers.py:111-119 | an argument's value when it is given and truthy, else the default |
| ConfigHelpers.StartArgumentsWith | mflow_nodes/script_tools/helpers.py:100-133 | the helper passes the merged parameters, the instance name, the connect address and the host and port falling back to the defaults; a failing merge or a missing positional argument fails it |
| ConfigHelpers.StartArgumentsAsWritten | mflow_nodes/script_tools/helpers.py:121-124 | without `--raw`, `receive_raw` is the REST port number |
| ConfigHelpers.StartArguments | mflow_nodes/script_tools/helpers.py:121-124 | corrected: `receive_raw` is truthy exactly when `--raw` was given |
| ConfigHelpers.HelperDefaults | mflow_nodes/script_tools/helpers.py:111-124 | with no optional arguments the node is controlled at `http://0.0.0.0:41000`; as written it receives raw messages anyway, corrected it does not |
| ConfigHelpers.TagInstances | mflow_nodes/script_tools/helpers.py:147-148 | each instance gets `config_file` set to the file name, every other key unchanged; a non-dict instance raises TypeError |
| ConfigHelpers.LoadConfigFile | mflow_nodes/script_tools/helpers.py:136-153 | nothing for an empty name or an unreadable file; a malformed file raises; otherwise the file's instances, each tagged with the file name |
| ConfigHelpers.LoadScriptsConfigAsWritten | mflow_nodes/script_tools/helpers.py:166 | every call raises AttributeError, since the configuration module defines no `MANAGE_MACHINE_FILENAME` |
| ConfigHelpers.MergedConfig | mflow_nodes/script_tools/helpers.py:162-169 | an instance comes from the most important source that defines it, in the order machine, user, current directory, specified |
| ConfigHelpers.LoadScriptsConfig | mflow_nodes/script_tools/helpers.py:156-176 | an empty merge raises ValueError listing the four files; otherwise the instances in strictly ascending name order, each with its merged configuration |
| ConfigHelpers.GetInstanceConfig | mflow_nodes/script_tools/helpers.py:193-207 | the instance's configuration when it is defined and truthy, else ValueError naming the instance and the defined names |
| ConfigHelpers.ControlAddress | mflow_nodes/script_tools/helpers.py:188-189 | `"%s:%s" % (host, port)` is the host's text, a colon, then the port's text; it is defined exactly when each is None, a bool, an int or a str |
| ConfigHelpers.GetInstanceClientParameters | mflow_nodes/script_tools/helpers.py:179-190 | the client gets the recorded host and port, falling back to the defaults, and the recorded instance name; it succeeds exactly when the instance is defined and truthy, its `input_args` is a dict with `instance_name`, and the address formats |
| ConfigHelpers.DefaultControlAddress | mflow_nodes/config.py:8-9 | an instance that records neither host nor port is controlled at `http://0.0.0.0:41000` |
| ConfigHelpers.SpecifiedFileWins | mflow_nodes/script_tools/helpers.py:164-169 | an instance defined in the specified file takes that file's configuration, tagged with its name, whatever the other files say |
| ConfigHelpers.ScriptsConfigNamesMismatch | mflow_nodes/config.py:2-4 | with a configuration in the current directory, the code as written raises while the corrected one finds the instance |
| H5Utils.SplitAttributeKey | mflow_processor/utils/h5_utils.py:85 | unpacking `key.split(":")` succeeds exactly for keys with one colon, into two colon-free names that rebuild the key; otherwise ValueError |
| H5Utils.AttributeKeyRoundTrip | mflow_processor/utils/h5_utils.py:85 | splitting `object:attribute` gives back both names |
| H5Utils.ParentGroupPath | mflow_processor/utils/h5_utils.py:44 | the text before the last slash names the parent group of the object the name designates |
| H5Utils.StrippedParent | mflow_processor/utils/h5_utils.py:43-47 | after stripping trailing slashes the group text names the dataset's parent, and is empty exactly when there is no group to require |
| H5Utils.CompressionOptions | mflow_processor/utils/h5_utils.py:49 | falsy options become None; a list or tuple becomes its items; anything else must convert to a tuple |
| H5Utils.UnboundedFirst | mflow_processor/utils/h5_utils.py:52 | the maxshape is None on the first axis and the frame size on the others |
| H5Utils.CreateDataset | mflow_processor/utils/h5_utils.py:29-57 | creation succeeds exactly when the options convert, h5py accepts the storage arguments (filter, options, frame axes, initial frame count) and the stripped name is new and not blocked by a dataset on its way; an argument error is raised even when the name is taken; the new dataset has `initial_frame_count` frames of `frame_size`, an unbounded first axis, one-frame chunks, the dtype and compression, and the rest of the file is kept |
| H5Utils.RequireGroupIfNamed | mflow_processor/utils/h5_utils.py:46-47 | the parent group is required only when named, fails exactly when a dataset blocks it, and leaves the dataset's own path as it was |
| H5Utils.StoredContent | mflow_processor/utils/h5_utils.py:67-75 | a `"S"` dtype stores a fixed-length string; another listed dtype is passed on; an unlisted name lets h5py choose |
| H5Utils.CreateDatasetsFromData | mflow_processor/utils/h5_utils.py:60-75 | every item becomes a new dataset holding its stored value and the rest of the file is kept; an item naming an existing object, or a value h5py cannot store, makes it fail |
| H5Utils.CreateDatasetFromValue | mflow_processor/utils/h5_utils.py:67-75 | `create_dataset(name, data=value)` raises TypeError for None without a dtype and for a dict or callable (an object array), before anything is created; otherwise it creates the dataset exactly when the name is new and unblocked |
| H5Utils.UnstorableValueRaises | mflow_processor/utils/h5_utils.py:75 | a single None, dict or callable item without a dtype makes `create_datasets_from_data` raise TypeError |
| H5Utils.SetGroupAttribute | mflow_processor/utils/h5_utils.py:85-88 | one item sets one attribute of a (possibly new) group to the fixed-length string and changes nothing else; a malformed key raises ValueError |
| H5Utils.SetGroupAttributes | mflow_processor/utils/h5_utils.py:78-88 | every attribute ends with the value of the last item naming it, targets are groups, untargeted objects and attributes are kept, and a malformed key fails the call |
| H5Utils.DatasetAttributeValue | mflow_processor/utils/h5_utils.py:103-104 | a `str` is stored as a fixed-length string, any other value as given |
| H5Utils.SetDatasetAttribute | mflow_processor/utils/h5_utils.py:98-108 | one item sets one attribute of an existing object and creates nothing; a missing object raises ValueError("Dataset '…' does not exist.") |
| H5Utils.SetDatasetAttributes | mflow_processor/utils/h5_utils.py:91-108 | the last item naming an attribute wins, no object is created, and a malformed key or a missing object fails the call |
| H5Utils.PopulateH5File | mflow_processor/utils/h5_utils.py:13-26 | group attributes, then datasets, then dataset attributes; None arguments act as empty and leave the file unchanged; every dataset item ends up stored, each with a value h5py can store, and no group-attribute target is a dataset item |
| H5Utils.ExpandDataset | mflow_processor/utils/h5_utils.py:111-123 | the first axis becomes `index + step` long, so with a positive step the received frame fits; the frames inside the new extent keep their values, and every other object and the attributes are unchanged |
| H5Utils.CompactDataset | mflow_processor/utils/h5_utils.py:126-134 | the first axis becomes `max_index + 1` long; exactly the frames up to `max_index` stay, with their values, and every other object and the attributes are unchanged |
| ChunkedWriter.NewWriter | mflow_processor/h5_chunked_writer.py:30-50 | a new writer has no file or dataset, max frame index 0, one initial frame, an increase step of 1000 and no required parameter set |
| ChunkedWriter.ValidationMessage | mflow_processor/h5_chunked_writer.py:52-71 | the text is empty exactly when name, file, frame size and dtype are set and both counts are at least 1; the dataset-name line comes first |
| ChunkedWriter.ValidateParameters | mflow_processor/h5_chunked_writer.py:52-75 | validation raises ValueError with the accumulated text exactly when some check fails |
| H5Filters.GzipOptionsError | mflow_processor/h5_chunked_writer.py:98-99 | gzip refuses every options tuple: a one-item tuple raises ValueError, any other count raises TypeError |
| H5Filters.SzipOptions | mflow_processor/h5_chunked_writer.py:98-99 | szip options pass exactly as a pair of `'ec'` or `'nn'` and an even pixel count from 2 to 32; another length raises the unpacking ValueError, a bad method or integer count the szip ValueError |
| H5Filters.ResolveFilter | mflow_processor/h5_chunked_writer.py:98-99 | no compression takes no options (TypeError otherwise); `True` and `"gzip"` succeed exactly without options; `"lzf"` refuses options with ValueError; `"szip"` succeeds exactly without options or with a valid pair; a legacy level 0-9 conflicts with options (TypeError); another int selects that numbered filter; an unhashable value raises TypeError; an unknown name, byte string or function raises ValueError |
| H5Filters.OptionsOnlyForSzipOrNumbered | mflow_processor/h5_chunked_writer.py:98-99 | options are accepted only with szip, as a valid pair, or with a numbered filter |
| H5Filters.NoOptionsAccepted | mflow_processor/h5_chunked_writer.py:98-99 | no compression, a bool, an int, `"gzip"`, `"lzf"` and `"szip"` are all accepted without options |
| H5Filters.ChunkDimensions | mflow_processor/h5_chunked_writer.py:97 | a chunk shape passes exactly when every axis is positive; a negative axis overflows, and otherwise an empty axis raises ValueError |
| H5Filters.UnsignedOption | mflow_processor/h5_chunked_writer.py:99 | an integer option passes exactly when it fits a C unsigned int and keeps its value, overflowing otherwise; None, containers and functions raise TypeError |
| H5Filters.FilterValues | mflow_processor/h5_chunked_writer.py:99 | the options of a numbered filter pass exactly when each does, keeping their order and values |
| H5Filters.NumberedFilter | mflow_processor/h5_chunked_writer.py:98-99 | a numbered filter passes exactly when it is registered and its options fit; a number beyond a C int overflows, an unregistered one raises ValueError naming it |
| H5Filters.DatasetArguments | mflow_processor/h5_chunked_writer.py:93-99 | the storage arguments pass exactly when the filter resolves, every frame axis is positive, a numbered filter is registered with fitting options and the initial frame count is not negative; a filter error is raised first, then a negative axis overflows |
| H5Filters.GzipOptionsRejected | mflow_processor/h5_chunked_writer.py:98-99 | gzip with the options `(4,)` raises the gzip ValueError |
| H5Filters.BitshuffleConfigurationAccepted | scripts/write_node.py:22-23 | the node script's bitshuffle configuration, filter 32008 with options `(2048, 2)`, is accepted for positive frame axes |
| H5Filters.UnregisteredFilterRejected | mflow_processor/h5_chunked_writer.py:17 | an unregistered filter number from 10 up raises ValueError naming it |
| H5Filters.EmptyFrameAxisRejected | mflow_processor/h5_chunked_writer.py:94-97 | a frame shape with an empty axis and no negative one raises the chunk-shape ValueError |
| H5Filters.UncompressedArguments | mflow_processor/h5_chunked_writer.py:49-50 | without compression the arguments pass exactly when every frame axis is positive and the initial frame count is not negative |
| ChunkedWriter.OptionsAsWritten | mflow_processor/h5_chunked_writer.py:99 | `tuple(None)` raises TypeError; a list or tuple gives its items |
| ChunkedWriter.Options | mflow_processor/h5_chunked_writer.py:99 | corrected: None options stay None, everything else converts as written |
| ChunkedWriter.Open | mflow_processor/h5_chunked_writer.py:84-99 | a fresh file holds the parent group and the dataset under the stripped name; it fails exactly when h5py refuses the storage arguments, with that error, or the stripped name designates no object |
| ChunkedWriter.FreshParent | mflow_processor/h5_chunked_writer.py:90-93 | in a fresh file, creating the missing parent group leaves the dataset's path free and unblocked |
| ChunkedWriter.StartAsWritten | mflow_processor/h5_chunked_writer.py:77-99 | as written, `start` validates first and then needs the options to convert with `tuple` |
| ChunkedWriter.Start | mflow_processor/h5_chunked_writer.py:77-99 | corrected: `start` succeeds exactly when validation passes, the options convert, h5py accepts the storage arguments and the name designates an object; a refused argument raises h5py's error; the dataset's first axis is `dataset_initial_frame_count` long |
| ChunkedWriter.DefaultOptionsRejected | mflow_processor/h5_chunked_writer.py:50 | a fully configured writer with the default None options cannot start as written; once corrected it starts exactly when h5py accepts its compression without options and its frame shape, so always without compression and with positive frame axes |
| ChunkedWriter.ReadFrame | mflow_processor/h5_chunked_writer.py:110-114 | a message is readable exactly when it has an integer `header["frame"]` and bytes at `data["data"][0]`, and gives both |
| ChunkedWriter.ResizeDataset | mflow_processor/h5_chunked_writer.py:101-107 | the first axis grows to index plus step, so with a positive step the frame fits |
| ChunkedWriter.ProcessMessage | mflow_processor/h5_chunked_writer.py:109-126 | a frame past the end grows the dataset; the frame's bytes are stored at its index and nothing else changes; the max index becomes the larger of the two; a negative index raises, and so does a dataset of other than three axes (TypeError), as the chunk offset `(frame, 0, 0)` has three entries; errors leave the max index alone |
| ChunkedWriter.OtherFrameRanksRaise | mflow_processor/h5_chunked_writer.py:121 | a started writer whose `frame_size` is not two-dimensional raises TypeError on its first frame |
| ChunkedWriter.GrownFile | mflow_processor/h5_chunked_writer.py:116-118 | the file a frame is written into is still a well-formed file with the resizable dataset; with a positive increase step a non-negative index always fits afterwards, the dataset never shrinks, and growing keeps every stored frame |
| ChunkedWriter.Stop | mflow_processor/h5_chunked_writer.py:128-144 | `stop` compacts the dataset to `max_frame_index + 1` frames, keeps exactly the frames up to that index and hands back the closed file |
| ChunkedWriter.ReadFrameMessage | mflow_processor/h5_chunked_writer.py:110-112 | a frame message is read back as its index and payload |
| ChunkedWriter.ProcessFrames | mflow_processor/h5_chunked_writer.py:109-126 | processing frames in order keeps the writer valid and the dataset and step unchanged |
| ChunkedWriter.FramesWritten | mflow_processor/h5_chunked_writer.py:109-126 | after frames 0 .. n-1 into a three-axis dataset, each frame sits at its index, nothing else is stored, and the max index is n-1 |
| ChunkedWriter.AppendFrame | mflow_processor/h5_chunked_writer.py:117-124 | one more frame in order extends what was written by that frame |
| ChunkedWriter.StopAfterFrames | mflow_processor/h5_chunked_writer.py:128-134 | stopping after frames 0 .. n-1 leaves a dataset of exactly those n frames |
| ChunkedWriter.StartWriteStop | mflow_processor/h5_chunked_writer.py:77-144 | a started writer with two-dimensional frames that receives frames 0 .. n-1 and then stops leaves a dataset of exactly n frames, each holding what was sent for it |
| NxValidator.Required | mflow_processor/utils/nx_validator.py:13-16 | exactly the definitions whose `required` flag is set |
| NxValidator.NewValidator | mflow_processor/utils/nx_validator.py:9-16 | the validator keeps both definition dicts and the required subsets of each |
| NxValidator.Find | mflow_processor/utils/nx_validator.py:23 | `file_handle.get(name)` finds exactly the object stored at the name's path |
| NxValidator.CheckGroup | mflow_processor/utils/nx_validator.py:22-35 | a required group is missing, not a group, without `NX_class`, or with the wrong class, checked in that order, and conforms exactly when none applies |
| NxValidator.CheckDataset | mflow_processor/utils/nx_validator.py:38-45 | a required dataset is missing or not a dataset, and conforms exactly when neither applies |
| NxValidator.GroupErrors | mflow_processor/utils/nx_validator.py:22-35 | the group loop adds no text exactly when every required group conforms |
| NxValidator.DatasetErrors | mflow_processor/utils/nx_validator.py:38-45 | the dataset loop adds no text exactly when every required dataset conforms |
| NxValidator.ValidateH5File | mflow_processor/utils/nx_validator.py:18-48 | validation passes exactly when every required group and dataset conforms, and otherwise raises ValueError with a non-empty text |
| NxValidator.GroupsOnlyBlocked | mflow_processor/utils/nx_validator.py:52 | adding groups and group attributes leaves blocking by datasets as it was |
| NxValidator.GroupsOnlyTransitive | mflow_processor/utils/nx_validator.py:51-53 | two rounds of group-only changes are a group-only change |
| NxValidator.AppendClass | mflow_processor/utils/nx_validator.py:52-53 | one more `require_group` and class attribute keeps every earlier last-written class |
| NxValidator.CreateGroups | mflow_processor/utils/nx_validator.py:51-53 | the loop succeeds exactly when no dataset blocks a path, otherwise raises TypeError; it only adds groups and group attributes and leaves each group with its last definition's class |
| NxValidator.CreateRequiredGroups | mflow_processor/utils/nx_validator.py:50-53 | `create_required_groups` succeeds exactly when no dataset blocks a required path, and changes only groups and group attributes |
| NxValidator.CreatedGroupsValidate | mflow_processor/utils/nx_validator.py:50-53 | after `create_required_groups`, the group checks of `validate_h5_file` all pass |
| NxValidator.CreatedGroupsPassValidation | mflow_processor/utils/nx_validator.py:18-53 | a file whose required datasets conformed passes validation once the required groups are created |
| NxValidator.ItemsMap | mflow_processor/utils/nx_validator.py:13-14 | `dict(items)` has exactly the items' keys, each mapped to a value listed with it |
| NxValidator.GetRequiredGroupAttributes | mflow_processor/utils/nx_validator.py:55-60 | one `"<path>:NX_class"` key per required path, returned beside the paths themselves, in strictly ascending path order, with the class of the definition kept under that path; every required group is listed |
| NxValidator.Attribute | mflow_processor/utils/nx_validator.py:89 | `element.attrib[key]` succeeds exactly when the key is present and raises KeyError otherwise |
| NxValidator.StripDoc | mflow_processor/utils/nx_validator.py:85-86 | the stripped doc has no tab or newline and no surrounding whitespace, is unchanged for text without whitespace, and None raises |
| NxValidator.JoinedLines | mflow_processor/utils/nx_validator.py:86 | removing tabs and replacing newlines leaves neither in the text |
| NxValidator.NoSpaceUnchanged | mflow_processor/utils/nx_validator.py:86 | text without whitespace passes the replacements and the strip unchanged |
| NxValidator.GroupName | mflow_processor/utils/nx_validator.py:119 | a non-empty `name` attribute wins; otherwise the type without its first two characters |
| NxValidator.UnderChild | mflow_processor/utils/nx_validator.py:120 | a path below a child group is below its parent |
| NxValidator.ChildIsUnder | mflow_processor/utils/nx_validator.py:120 | a child's path is below its parent's |
| NxValidator.ProcessGroup | mflow_processor/utils/nx_validator.py:117-138 | a group without `type` raises KeyError; otherwise its path is `parent/name`, recorded with its class and required flag, and every other change lies below the parent |
| NxValidator.GroupChanges | mflow_processor/utils/nx_validator.py:120-130 | entering a child group and walking its children changes only entries below the parent |
| NxValidator.ProcessGroupNodes | mflow_processor/utils/nx_validator.py:127-138 | walking a group's children keeps its class and flag, loses no entry, and changes only entries below the group |
| NxValidator.ProcessDataset | mflow_processor/utils/nx_validator.py:96-115 | a field without `name` raises KeyError; otherwise it is recorded at `group/name` with its type (or None) and required flag, and nothing else changes |
| NxValidator.ProcessDatasetNodes | mflow_processor/utils/nx_validator.py:104-115 | a field's children change only that field's doc, attributes and rank |
| NxValidator.ProcessDatasetNode | mflow_processor/utils/nx_validator.py:105-115 | one child of a field never changes its type or required flag |
| NxValidator.FindChild | mflow_processor/utils/nx_validator.py:141 | `root.find(tag)` gives a child with that tag, and none exactly when no child has it |
| NxValidator.ParseNxDefinition | mflow_processor/utils/nx_validator.py:63-141 | a root tag without `}` raises ValueError; the top group is recorded at `/name`; every collected path starts with `/` |
| NxValidator.ChildrenRecorded | mflow_processor/utils/nx_validator.py:127-133 | after a successful walk over a group's children, every `group` child has an entry at `group/name` and every `field` child at `group/field name` |
| NxValidator.GroupChildrenRecorded | mflow_processor/utils/nx_validator.py:117-133 | a group that `process_group` walks successfully has an entry for each of its `group` and `field` children |
| NxValidator.ParsedChildrenRecorded | mflow_processor/utils/nx_validator.py:127-141 | a parsed definition has an entry for every `group` and `field` child of the root's first group, at its path under that group |
| Text.ParseInt | mflow_processor/utils/nx_validator.py:113 | `int(rank)` reads exactly an optionally signed, whitespace-padded run of digit groups joined by single underscores, and raises ValueError otherwise |
| Text.ParseIntToString | mflow_processor/utils/nx_validator.py:113 | `int(str(n)) == n` for every integer |
| Text.ParseIntPaddedGroups | mflow_processor/utils/nx_validator.py:113 | `int(" 1_0 ")` is 10 |
| Text.ParseIntRefusesDoubleUnderscore | mflow_processor/utils/nx_validator.py:113 | `int` refuses `"1__0"` (two underscores in a row) with ValueError |
| Text.ParseIntRefusesLeadingUnderscore | mflow_processor/utils/nx_validator.py:113 | `int` refuses `"_1"` (an underscore before the first digit) with ValueError |
| Text.ParseIntRefusesEmpty | mflow_processor/utils/nx_validator.py:113 | `int` refuses the empty string with ValueError |
| NxValidator.ParseNxDefinitionSorted | mflow_processor/utils/nx_validator.py:143-144 | both listings are in strictly ascending path order, list every collected entry once, and carry its definition |
| NxValidator.ParsedGroupDict | mflow_processor/utils/nx_validator.py:124-136 | the parser stores a group as its class under `attributes`, its required flag and an optional doc, and never under a `"type"` key |
| NxValidator.GroupDefinitionAsWritten | mflow_processor/utils/nx_validator.py:50-57 | as written (here and at lines 14 and 34), a group definition is read through `definition["required"]` and `definition["type"]`, and fails exactly when either lookup does |
| NxValidator.ParsedGroupLacksType | mflow_processor/utils/nx_validator.py:53 | every parsed group raises `KeyError('type')` when its class is read as written |
| NxValidator.GroupDefinitionOf | mflow_processor/utils/nx_validator.py:124-125 | corrected: the class is read from `definition["attributes"]["NX_class"]`; a non-dict `attributes` raises TypeError and a missing class KeyError |
| NxValidator.ParsedGroupRead | mflow_processor/utils/nx_validator.py:124-125 | the corrected reading recovers each parsed group's class and required flag |
| NxValidator.ParsedDefinitions | mflow_processor/utils/nx_validator.py:124-125 | each parsed group becomes the definition of its class and flag, at the same path and position |
| NxValidator.ParsedClassesCreated | mflow_processor/utils/nx_validator.py:50-53 | corrected: creating the required groups of a parsed definition gives each required group the class its NXDL document declares |
| NxmxUtils.LinkName | mflow_processor/utils/nxmx_utils.py:23-24 | a data file links as `/entry/data/` plus its basename from just after the `_` of the first `_data_` up to the last `.h5`; without either marker `str.index`/`str.rindex` raise ValueError |
| NxmxUtils.FirstDataMarker | mflow_processor/utils/nxmx_utils.py:12 | when the experiment id has no underscore, the first `_data_` of a data file name is the one right after the id |
| NxmxUtils.DataFileMarkers | mflow_processor/utils/nxmx_utils.py:12 | a name made from the data file template has no slash, its first `_data_` after the id and its last `.h5` at the end of the stem |
| NxmxUtils.LinkNameOfDataFile | mflow_processor/utils/nxmx_utils.py:12-24 | data file `n` of an experiment links as `/entry/data/data_` plus `n` padded to six digits |
| NxmxUtils.AppendLink | mflow_processor/utils/nxmx_utils.py:22-26 | one more link keeps every earlier one |
| NxmxUtils.CreateExternalDataFilesLinks | mflow_processor/utils/nxmx_utils.py:16-26 | every data file gets an external link at its link name to `entry/data/data` in the file of its basename; it succeeds exactly when every file has a link name and its path fits with the earlier ones; besides the links only their missing parent groups appear |
| NxmxUtils.LinkPaths | mflow_processor/utils/nxmx_utils.py:22-24 | one link path per data file, in order |
| NxmxUtils.NextLink | mflow_processor/utils/nxmx_utils.py:22-26 | once the earlier links are made, the next link can be made exactly when all the link paths fit |
| NxmxUtils.NextLinkOnlyAdds | mflow_processor/utils/nxmx_utils.py:26 | making one more link adds only it and empty groups on its way |
| NxmxUtils.FittingPathIsFree | mflow_processor/utils/nxmx_utils.py:26 | a path that fits with the earlier ones is free once they are made |
| NxmxUtils.FreePathFits | mflow_processor/utils/nxmx_utils.py:26 | a path free after the earlier links fits with them |
| NxmxUtils.FreePathIsApart | mflow_processor/utils/nxmx_utils.py:26 | a free path neither sits under nor above an existing non-group object |
| NxmxUtils.PathsFitPrefix | mflow_processor/utils/nxmx_utils.py:22-26 | the link paths of a prefix of the files still fit |
| NxmxUtils.NextPathOnlyAdds | mflow_processor/utils/nxmx_utils.py:26 | the objects a new path adds are it and empty groups on its way |
| NxmxUtils.LinkPathsPrefix | mflow_processor/utils/nxmx_utils.py:22-24 | the link paths of a prefix are the prefix of the link paths |
| NxmxUtils.NamedStep | mflow_processor/utils/nxmx_utils.py:23-24 | every file has a link name when the earlier ones and the last one do |
| NxmxUtils.LinkedAllHolds | mflow_processor/utils/nxmx_utils.py:26 | a file holding every link holds it at each link path |
| NxmxUtils.AllFieldsListed | mflow_processor/utils/nxmx_utils.py:96-137 | the table lists every directly mapped field |
| NxmxUtils.FindField | mflow_processor/utils/nxmx_utils.py:41-43 | the search finds a listed field with that header key, and finds none exactly when no listed field has it |
| NxmxUtils.FieldOf | mflow_processor/utils/nxmx_utils.py:41-43 | a header key is directly mapped exactly when some field has it as its key |
| NxmxUtils.AllAxesListed | mflow_processor/utils/nxmx_utils.py:83-94 | the table lists every calculated axis |
| NxmxUtils.FindAxis | mflow_processor/utils/nxmx_utils.py:44-46 | the search finds a listed axis with that start or step key, and none exactly when no listed axis has it |
| NxmxUtils.StartSuffix | mflow_processor/utils/nxmx_utils.py:50 | only an axis's start key ends with `_start` |
| NxmxUtils.AxisOf | mflow_processor/utils/nxmx_utils.py:44-56 | a header key names an axis start or step exactly when some axis has it, and names the start exactly when it ends with `_start` |
| NxmxUtils.AngleSeries | mflow_processor/utils/nxmx_utils.py:65-70 | one angle per image, image `i` at `start + i*step`; a zero step repeats the start |
| NxmxUtils.Angle | mflow_processor/utils/nxmx_utils.py:69-70 | the angle of image `i` is `start + i*step` |
| NxmxUtils.ShiftAll | mflow_processor/utils/nxmx_utils.py:78 | `angles + step` adds the step to every angle |
| NxmxUtils.TotalRange | mflow_processor/utils/nxmx_utils.py:66-74 | the total range is `image_count * step`, zero for a zero step |
| NxmxUtils.AxisValues | mflow_processor/utils/nxmx_utils.py:61-78 | an axis with numeric start and step gets its start, total range, increment, average range, per-image angles and end angles; a missing or non-numeric one raises TypeError |
| NxmxUtils.CalculatedValues | mflow_processor/utils/nxmx_utils.py:61-78 | every present axis gets its six values and only present axes get any; the loop fails exactly when a present axis lacks a numeric start or step |
| NxmxUtils.DirectValues | mflow_processor/utils/nxmx_utils.py:40-43 | every directly mapped header value is copied under its field, and only those |
| NxmxUtils.ConvertHeader | mflow_processor/utils/nxmx_utils.py:29-80 | directly mapped values are copied, every present axis gets its six calculated values, nothing else appears, and it fails exactly when a present axis lacks a numeric start or step |
| NxmxUtils.UnmappedKeyIgnored | mflow_processor/utils/nxmx_utils.py:57-58 | a header key that is neither mapped nor an axis key contributes no converted value |
| NxmxWriter.Assigned | mflow_processor/h5_nxmx_writer.py:135-141 | a non-dict value replaces the attribute; a dict value is merged into the current dict (or `{}`), its own entries winning and the others kept; merging into a non-dict raises AttributeError |
| NxmxWriter.SetParameter | mflow_processor/h5_nxmx_writer.py:131-141 | `set_parameter` changes attribute `name` alone, to the assigned value, and raises exactly when the assignment does |
| NxmxWriter.SetParameters | mflow_processor/h5_nxmx_writer.py:45-46 | applying parameters in turn changes only attributes |
| NxmxWriter.NewWriter | mflow_processor/h5_nxmx_writer.py:29-46 | a new writer is not running and holds no file; with no initial parameters it has exactly the constructor's attributes |
| NxmxWriter.ParametersApplied | mflow_processor/h5_nxmx_writer.py:45-46 | applying distinct parameters in turn succeeds exactly when each can be assigned, gives each its assigned value, and keeps every unnamed attribute |
| NxmxWriter.AppendParameter | mflow_processor/h5_nxmx_writer.py:45-46 | one more parameter extends what the earlier ones applied |
| NxmxWriter.ConstructorAppliesParameters | mflow_processor/h5_nxmx_writer.py:44-46 | the constructor succeeds exactly when every initial parameter can be assigned over the initial attributes, and each ends with its assigned value |
| NxmxWriter.MissingLines | mflow_processor/h5_nxmx_writer.py:51-67 | no text exactly when the first `n` required attributes are truthy |
| NxmxWriter.ValidationMessage | mflow_processor/h5_nxmx_writer.py:48-67 | the text is empty exactly when every required attribute is truthy; the writer-address line comes first |
| NxmxWriter.MissingLinesFirst | mflow_processor/h5_nxmx_writer.py:51-52 | an unset writer address puts its line first |
| NxmxWriter.ValidateParameters | mflow_processor/h5_nxmx_writer.py:48-71 | validation raises ValueError with the non-empty accumulated text exactly when a required attribute is falsy |
| NxmxWriter.PathJoin | mflow_processor/h5_nxmx_writer.py:82-83 | `os.path.join` keeps an absolute second part, and otherwise starts with the first and ends with the second |
| NxmxWriter.AbsPath | mflow_processor/h5_nxmx_writer.py:79 | `os.path.abspath` under an absolute working directory is absolute |
| NxmxWriter.ExperimentId | mflow_processor/h5_nxmx_writer.py:81 | the experiment id is the master filename up to its last `_master.h5`; without one `rindex` raises ValueError |
| NxmxWriter.ExperimentIdOfMaster | mflow_processor/h5_nxmx_writer.py:81 | naming the master file `<id>_master.h5` gives back `<id>` |
| NxmxWriter.DataFilenameFormat | mflow_processor/h5_nxmx_writer.py:79-83 | for an absolute master name, the data filename format is the experiment id followed by `_data_{chunk_number:06d}.h5` |
| NxmxWriter.AbsoluteExperimentId | mflow_processor/h5_nxmx_writer.py:79-83 | an absolute master filename gives an absolute data filename format |
| NxmxWriter.CheckResponse | mflow_processor/h5_nxmx_writer.py:96-97 | a response passes exactly when its status is `"ok"`; otherwise ValueError carrying the response's message |
| NxmxWriter.Start | mflow_processor/h5_nxmx_writer.py:73-107 | `start` raises when running, then validates; it succeeds exactly when the id, the parameters post and the start request all succeed, and then runs with a fresh master file and the derived data filename format |
| NxmxWriter.Glob | mflow_processor/h5_nxmx_writer.py:120 | the globbed files are exactly the listed paths matching the prefix and `.h5` |
| NxmxWriter.FilesToLink | mflow_processor/h5_nxmx_writer.py:120 | cutting the format at the last marker succeeds exactly when the marker occurs, and otherwise raises ValueError |
| NxmxWriter.ItemsArgument | mflow_processor/utils/h5_utils.py:24-26 | a falsy attribute gives no items, a dict its items, and anything else raises AttributeError |
| NxmxWriter.StopWith | mflow_processor/h5_nxmx_writer.py:109-126 | `stop` raises when not running or when the data writer does not answer `"ok"`; on success the writer stops and releases the file; a later raise leaves it running with its file open, holding the links already made |
| NxmxWriter.LinkFile | mflow_processor/utils/nxmx_utils.py:22-26 | one link keeps the file well formed and only extends it |
| NxmxWriter.LinksMade | mflow_processor/utils/nxmx_utils.py:22-26 | linking file by file keeps the file well formed and only extends it, up to the first raise |
| NxmxWriter.LinksMadeAgrees | mflow_processor/utils/nxmx_utils.py:16-26 | linking file by file raises exactly when linking all files does, with the same error, and otherwise ends with the same file |
| NxmxWriter.ApplyItem | mflow_processor/utils/h5_utils.py:24-26 | one group attribute, dataset or dataset attribute keeps every external link |
| NxmxWriter.ItemsApplied | mflow_processor/utils/h5_utils.py:24-26 | a pass applied item by item keeps every external link, up to the first raise |
| NxmxWriter.ItemsAppliedAgrees | mflow_processor/utils/h5_utils.py:24-26 | a pass item by item raises exactly when the whole pass does, with the same error, and otherwise ends with the same file |
| NxmxWriter.StopPass | mflow_processor/h5_nxmx_writer.py:123 | a pass whose dict attribute cannot be listed raises before touching the file; every pass keeps the external links |
| NxmxWriter.PassesAgree | mflow_processor/utils/h5_utils.py:13-26 | the three passes one after another raise exactly when `populate_h5_file` does and otherwise end with its file |
| NxmxWriter.StopWrites | mflow_processor/h5_nxmx_writer.py:109-126 | `stop` closes the master file exactly when the writer can stop, and the closed file is what linking and `populate_h5_file` make of the open one |
| NxmxWriter.PopulatedContent | mflow_processor/utils/h5_utils.py:13-26 | `populate_h5_file` keeps every external link and stores every dataset of `h5_datasets` with its value |
| NxmxWriter.ClosedFileContent | mflow_processor/h5_nxmx_writer.py:120-123 | linking then populating leaves every data file's link and every dataset of `h5_datasets` in the file |
| NxmxWriter.StopLinksAndPopulates | mflow_processor/h5_nxmx_writer.py:109-126 | the master file a successful `stop` closes links every globbed data file at its link name to `entry/data/data` and holds every dataset of `h5_datasets` with its value |
| NxmxWriter.TakenLinkBlocks | mflow_processor/utils/nxmx_utils.py:26 | a link name already in the file blocks linking that data file again |
| NxmxWriter.RetriedStopRaises | mflow_processor/h5_nxmx_writer.py:109-126 | a `stop` that raises after linking leaves the writer running with the links made, so a second `stop` raises too, whatever parameters were set in between |
| NxmxWriter.StopAsWritten | mflow_processor/h5_nxmx_writer.py:120 | as written, `stop` can only close the master file when the data filename format holds a `%` |
| NxmxWriter.Stop | mflow_processor/h5_nxmx_writer.py:109-126 | corrected: `stop` cuts the glob at the chunk-number field; it closes the master file exactly when the writer can stop, and then stops and releases it; a raise keeps the writer running and its attributes |
| NxmxWriter.NoPercentInSuffix | mflow_processor/h5_nxmx_writer.py:12 | the data filename template holds no `%` |
| NxmxWriter.StopAsWrittenRaises | mflow_processor/h5_nxmx_writer.py:120 | after a successful start from a master filename without `%`, `stop` as written always raises |
| NxmxWriter.StopGlobsDataFiles | mflow_processor/h5_nxmx_writer.py:120-121 | after a successful start, the corrected `stop` links exactly the listed files named `<experiment id>_data_*.h5` |
| NxmxWriter.FormatGlobsDataFiles | mflow_processor/h5_nxmx_writer.py:12 | cutting `<experiment id>_data_{chunk_number:06d}.h5` at its last `{` gives the glob prefix `<experiment id>_data_` |
| NxmxWriter.GlobbedFilesHaveLinkNames | mflow_processor/utils/nxmx_utils.py:22-24 | every file the corrected `stop` globs has a link name, so linking cannot fail on a name |
| NxmxWriter.GlobbedLinkName | mflow_processor/utils/nxmx_utils.py:24 | a globbed path holds both markers the link name needs |
| RingBuffer.New | tests/example_ringbuffer.py:24-35 | the constructor records the sizes and maps nothing yet |
| RingBuffer.SlotInterval | tests/example_ringbuffer.py:62-66 | every slot spans exactly `slot_bytes` bytes |
| RingBuffer.SlotWithin | tests/example_ringbuffer.py:62-66 | a slot below `n_slots` lies inside the `n_slots * slot_bytes` data map |
| RingBuffer.SlotsDisjoint | tests/example_ringbuffer.py:62-66 | an earlier slot ends at or before a later one begins |
| RingBuffer.SliceBounds | tests/example_ringbuffer.py:94 | Python slice bounds are clamped to the sequence and leave in-range bounds alone |
| RingBuffer.HeaderSlot | tests/example_ringbuffer.py:99 | a header index in `-n .. n-1` names a flag, in-range ones as given; anything else is an IndexError |
| RingBuffer.WrapAround | tests/example_ringbuffer.py:74 | the cursor moves to the next slot and wraps to 0 after the last |
| RingBuffer.NextSlot | tests/example_ringbuffer.py:68-76 | an explicit index is used as given and moves nothing; without one the cursor's slot is used and the cursor moves on, wrapping at the end |
| RingBuffer.InitializeForWriting | tests/example_ringbuffer.py:40-49 | initialising for writing gives a zero-filled data map, every slot empty and the cursor at slot 0 |
| RingBuffer.InitializeForReading | tests/example_ringbuffer.py:51-60 | initialising for reading maps the file's first `n_slots * slot_bytes` bytes, with every header flag cleared and the cursor at slot 0 |
| RingBuffer.Assign | tests/example_ringbuffer.py:122 | a slice assignment succeeds exactly for data of the slice's length or a single byte, writes only the slice, and otherwise raises the broadcast ValueError |
| RingBuffer.Store | tests/example_ringbuffer.py:117-124 | a full slot raises "already full"; an out-of-range index raises IndexError; a stored slot becomes full and nothing outside it changes; a raising store changes nothing |
| RingBuffer.WriteSpan | tests/example_ringbuffer.py:104-124 | `write` checks initialisation, then bytes, then length, before it takes an index; the cursor moves before the store can raise |
| RingBuffer.Write | tests/example_ringbuffer.py:104-124 | as written: a successful write was given bytes of at most one slot |
| RingBuffer.WriteCorrected | tests/example_ringbuffer.py:104-124 | corrected: a successful write was given bytes of at most one slot |
| RingBuffer.Read | tests/example_ringbuffer.py:78-96 | `read` takes its index as `write` does, and a ready slot gives exactly that full slot's bytes |
| RingBuffer.SlotContents | tests/example_ringbuffer.py:92-94 | a slot's view has `slot_bytes` bytes |
| RingBuffer.Release | tests/example_ringbuffer.py:98-102 | releasing a full slot clears its flag alone; an empty slot raises "already released"; no header map raises TypeError |
| RingBuffer.ExactWriteReadsBack | tests/example_ringbuffer.py:104-124 | a slot-sized write into an empty slot reads back as written and marks the slot full |
| RingBuffer.ShortWriteRaises | tests/example_ringbuffer.py:120-122 | as written, a write shorter than the slot (other than one byte) raises the broadcast error after the cursor has moved |
| RingBuffer.CorrectedWriteReadsBack | tests/example_ringbuffer.py:111-124 | corrected, any data up to a slot's length lands at the start of the slot, the rest of the slot is kept, and `read` gives the slot |
| RingBuffer.ReleaseCycle | tests/example_ringbuffer.py:98-124 | a written slot can be released, a second release raises, and the released slot can be written again |
| RingBuffer.WriteAll | tests/example_ringbuffer.py:154-166 | writing in turn keeps the sizes and role |
| RingBuffer.StoreWholeSlot | tests/example_ringbuffer.py:120-124 | a slot-sized store replaces exactly that slot's bytes and sets its flag |
| RingBuffer.Splice | tests/example_ringbuffer.py:122 | a spliced range holds the new bytes and earlier ranges keep theirs |
| RingBuffer.AppendSlot | tests/example_ringbuffer.py:104-124 | an automatic slot-sized write into the empty slot under the cursor fills that slot, advances the cursor and keeps every earlier slot |
| RingBuffer.FillStep | tests/example_ringbuffer.py:104-124 | one more automatic write extends the filled prefix by one slot |
| RingBuffer.FillsPrefix | tests/example_ringbuffer.py:154-166 | writing up to `n_slots` items fills slots 0 .. n-1 in order |
| RingBuffer.FillsInOrder | tests/example_ringbuffer.py:154-166 | writing up to `n_slots` slot-sized items into a fresh writer puts item `j` in slot `j`, marks exactly those slots full and leaves the cursor after them, wrapped to 0 when all are used |
| RingBuffer.OverfullWriteRaises | tests/example_ringbuffer.py:115-118 | once every slot is full, the next automatic write raises "already full" for slot 0 while the cursor moves to slot 1 |
| H5.RequireGroup | mflow_processor/utils/h5_utils.py:46-47 | `require_group` fails exactly when some prefix of the path is a dataset or an external link; otherwise the path is a group afterwards, the file stays well formed, every existing object is kept and only groups along the path are added |
| H5.CreateNode | mflow_processor/utils/h5_utils.py:50-56 | creating an object succeeds exactly when the path is new and its parent path is not blocked; the object sits at the path, nothing existing changes and every other new object is an empty group on the way to it |
| H5.Resize | mflow_processor/h5_chunked_writer.py:107 | resizing succeeds exactly on a chunked dataset with an unbounded first axis and a non-negative size; it sets the first extent, keeps the other extents and drops the chunks beyond the new size, leaving every other object alone |
| H5.WriteChunk | mflow_processor/h5_chunked_writer.py:121 | writing a direct chunk succeeds exactly on a chunked dataset whose rank equals the offset's length and an index within its first extent (a length mismatch raises TypeError), stores the bytes at that index and changes no other object |
| H5.SetAttr | mflow_processor/utils/h5_utils.py:106 | setting an attribute succeeds exactly on an existing group or dataset, keeps its kind and every other object, and the attribute reads back |
| Ordered.SortedItems | mflow_nodes/script_tools/helpers.py:176 | `sorted(d.items())` lists every key of the dict once, in strictly increasing order, each with its own value |
| Ordered.SortedKeys | mflow_processor/utils/nx_validator.py:143-144 | sorting a set of names yields a strictly increasing sequence holding exactly those names |

## Left out

- I/O, sockets, threads and processes are not modelled: ZeroMQ sockets, the Bottle web server, `multiprocessing`, `threading` and the logging setup are replaced by explicit parameters (received messages, the files a directory listing returns, the current directory, the response of a remote node, the compressor and the proxy callbacks) or by an `alive` flag per thread or process.
- Thread and process loops (`zmq_listener`, the receiver and processor functions of the node manager, the wrapper's stop-event polling and `terminate` fallback) are reduced to their effect on the parameter queue and on the running state.
- NodeManager: the manager's throughput statistics come from the messaging library, which is not part of this model.
- The newer library's per-message handler files under `mflow_nodes/stream_tools/message_handlers` are not part of this model; both dispatch tables are modelled on the handlers of the `mflow` tools package.
- Web routes (`start_web_interface`) are modelled only through their URL templates and the host rewriting; the route handlers for run, kill and the HTML page, and the JSON bodies of responses, are left out.
- `start_stream_node`, `add_default_arguments`, `load_logging_config_files` and `setup_logging` are argument parsing and process set-up around the modelled helpers and are left out.
- `tests/example_ringbuffer.py`: the processor and receiver functions and the script at the end use `print`, sockets and sleeps and are left out; ring sizes below one slot are not modelled, and reading never blocks (a read of an empty slot returns a waiting outcome instead of polling with a timeout).
- Floating point: statistics, NXMX angle series and the writer's sizes use mathematical reals or integers, so rounding and `numpy.arange`'s float length are not modelled; numpy dtypes are carried as names only.
- RestServer.UnknownFieldRejected: Python `str.format` is modelled for plain named fields; format specs, conversions and attribute or index access inside a field are not. A positional field such as `{0}` raises IndexError in Python when only keywords are given; the model raises KeyError for it.
- `repr` of strings is modelled without quote escaping; numpy's `string_` is the `FixedStr` value.
- Dictionary iteration order is not derived: where the source iterates a dict, the order is a parameter that must enumerate the keys.
- File system paths: `expanduser`, `abspath` of the current directory and `os.access` are parameters or left out; configuration files are a map from path to already parsed JSON, and a top level that is not a JSON object is not modelled.
- NxValidator.ParseNxDefinition: an unknown tag builds a `ValueError` that is never raised, so the model ignores such tags.
- NxValidator.NewValidator: the validator is given definitions already read into `GroupDefinition` values; the corrected reading of parsed dicts is `NxValidator.GroupDefinitionOf`. As written, Python reads `definition["type"]` only when a class is compared, set or listed, so its `KeyError('type')` comes at that point, after any earlier groups were created; `NxValidator.GroupDefinitionAsWritten` records that it is raised, not when.
- NxValidator.Find: an external link resolves to no object, since the linked file is outside the model.
- RingBuffer.Write: numpy's byte sign and dtype conversion are not modelled; bytes are values 0 .. 255. A `numpy.bytes_` value passes the source's `isinstance(data, bytes)` check, but the model knows its bytes only as text, so it is refused as a non-bytes value.
- StreamNode.GetStatistics: the `OrderedDict` key order is not modelled, only the keys and values.
- Messages.WrappedHeader: models the newer `__str__` of the message wrapper; the older one returns the text of a bound method, which is not a property of the message.
- Messages.GetDataLength: `message.data.__sizeof__()` of the series handlers is CPython's in-memory size of the dict, which depends on the interpreter; it is the parameter `sizeOf`. The raw handler's result is modelled as written; the payload length it evidently means is `Messages.RawPayloadLength`, which nothing else in the model needs: the stream node's statistics take each message's length as a recorded value (mflow_node/stream_node.py:218 uses the older library's handlers, not the raw one).
- ChunkedWriter.StartAsWritten: a raise after the file is opened (`tuple(None)` on the default options) leaves the truncated output file, the stripped `dataset_name` and the created parent group behind; the model returns only the error, not that state.
- ChunkedWriter.Start: a raise from `create_dataset` likewise leaves the opened file and the parent group behind; the model returns only the error.
- H5Filters.DatasetArguments: the dtype is not checked (numpy raises TypeError for an unknown dtype before any storage argument is looked at), and neither are HDF5's limits on a chunk (4 GB in all, 2^32 - 1 per axis) or a filter's own check of its options when the dataset is made (the bitshuffle filter's block size, say); such arguments are accepted.
- H5Filters.NumberedFilter: the registered numbered filters are LZF (32000, registered by h5py) and bitshuffle (32008, registered by `bitshuffle.h5`, which the node scripts import); filters HDF5 loads as plugins are not modelled and are refused. A negative filter number that fits a C int makes HDF5 report an error whose kind is not modelled, so it gives `Unmodelled`.
- H5Filters.ResolveFilter: szip is taken to be available, though HDF5 builds without an szip encoder refuse it as unavailable. The names `"shuffle"`, `"fletcher32"` and `"scaleoffset"`, which h5py also lists as filters, give `Unmodelled`. A legacy gzip level written as a float (`4.0`) reaches HDF5 as a C integer, which is not followed, so it gives `Unmodelled`; so does a float szip pixel count that passes the checks and a numpy string as pixel count.
- H5Filters.UnsignedOption: `int()` of a string or byte string parses text (signs, underscores, surrounding spaces); such options give `Unmodelled`.
- H5Filters: where h5py's message embeds the `repr` or `str` of an argument (the gzip level message, the unavailable-filter message for a value that is not a string), only the text before the value is kept. The chunk-shape message is HDF5's reason, without the context h5py prefixes to it.
- Messages.Mergeable: a numpy string, given as a part or as an element of a part, gives `Unmodelled`, since its bytes are not known to the model.
- ChunkedWriter.ReadFrame: a payload that is not a byte string (a numpy array converted with `tobytes()`) gives `Err(Unmodelled)`, since values have no array type here.
- Text.ParseInt: Python's `int` also accepts non-ASCII decimal digits (such as Arabic-Indic digits); the model accepts ASCII digits only.
- NxmxWriter.StopWith: a pass that raises in the middle of `set_group_attributes` (or the other two) may already have written some of its items; the model records the file after the items before the failing one, and says nothing about a partly written item.
- NxmxWriter.ItemsArgument: `populate_h5_file` is called without `dtypes`, so every value keeps its own type.
- ConfigHelpers.ControlAddress: Python's `"%s"` formats every value, but the text of a float, a byte string, a list, tuple or dict, a numpy string or a function depends on float printing, dict order or object addresses, which the model does not fix; such a host or port gives `Unmodelled` instead of an address.
- ConfigHelpers.GetInstanceClientParameters: for the same reason its success condition asks for a host and port that are None, a bool, an int or a str; a configuration with a float port, say, succeeds in Python but not in the model.
- NxmxWriter.CheckResponse: a refused response whose message is of those kinds raises ValueError in Python; the model gives `Unmodelled`, as the message text is not fixed.
- ChunkedWriter.Stop: the source closes the file but keeps the closed file and dataset on the writer; the model drops them, so a second `stop` or a later `process_message` fails on the missing dataset rather than on a closed h5py object.
- NxmxWriter.AbsPath: `os.path.abspath` also normalises the path (`.`, `..` and doubled separators); the model only makes it absolute.
- H5Utils.CreateDatasetsFromData: storability is decided by the value's own kind; a list holding None, dicts or items of unequal length, which numpy also turns into an object array, is stored.

## Findings

| source | as written | input that shows it | evidently intended | confidence | as-written member | corrected member |
|---|---|---|---|---|---|---|
| mflow_processor/h5_chunked_writer.py:99 | `tuple(self.compression_opts)` is applied even when `compression_opts` keeps its default `None` | a writer started with the default parameters: `tuple(None)` raises `TypeError` | pass `None` through when no options are set, as `create_dataset` in h5_utils.py does | not executed | ChunkedWriter.StartAsWritten | ChunkedWriter.Start |
| mflow_processor/h5_nxmx_writer.py:120 | the data-file prefix is cut at `rindex("%")` of the file name format | the default format `..._data_{chunk_number:06d}.h5` contains no `%`, so `stop` raises `ValueError` before linking | cut at the start of the `{chunk_number` field | not executed | NxmxWriter.StopAsWritten | NxmxWriter.Stop |
| tests/example_ringbuffer.py:120-122 | a write shorter than a slot is assigned to the whole slot | a two-byte write into a four-byte slot passes the length check and then fails numpy's broadcast (a one-byte write broadcasts) | store the bytes at the start of the slot | not executed | RingBuffer.Write | RingBuffer.WriteCorrected |
| mflow_nodes/script_tools/helpers.py:121-124 | `receive_raw` falls back to `DEFAULT_REST_PORT` | no `receive_raw` argument: the processor is asked for raw messages because 41000 is truthy | fall back to `False` | not executed | ConfigHelpers.StartArgumentsAsWritten | ConfigHelpers.StartArguments |
| mflow_nodes/script_tools/helpers.py:166-169 | reads `config.MANAGE_MACHINE_FILENAME`, `MANAGE_USER_FILENAME` and `MANAGE_PWD_FILENAME` | any call: config.py defines `MACHINE_FILENAME`, `USER_FILENAME` and `PWD_FILENAME`, so the attribute lookup raises `AttributeError` | read the names config.py defines | not executed | ConfigHelpers.LoadScriptsConfigAsWritten | ConfigHelpers.LoadScriptsConfig |
| mflow_processor/utils/nx_validator.py:53 | the class of a group is read as `definition["type"]` (also at lines 34 and 57) | a validator built from `parse_nx_definition`'s groups, which are `{"attributes": {"NX_class": ...}, "required": ...}` (lines 124-125): `create_required_groups` raises `KeyError('type')` | read the class from `definition["attributes"]["NX_class"]`, where the parser stores it | not executed | NxValidator.ParsedGroupLacksType | NxValidator.ParsedClassesCreated |
| mflow_nodes/stream_tools/message_handlers/raw_1_0.py:15 | `sum(len(data) for data in message.data)` iterates the dict's keys, so it sums the lengths of the part names | a message with parts `header` and `data` gives 10 whatever its payload | sum the lengths of the items of `message.data["data"]` | not executed | Messages.RawLengthCountsNames | Messages.RawPayloadLength |

=== FILE: chunked_writer.dfy ===
/** The chunked HDF5 writer: one chunked dataset, written frame by frame as
    direct chunks, grown when a frame falls past its end and compacted to the
    highest frame index on stop. */
module ChunkedWriter {
  import opened Wrappers
  import opened Values
  import opened H5
  import Text
  import Messages
  import H5Utils
  import H5Filters

  /** The writer's state. Unset string and list parameters are empty; the
      file and dataset are present between `start` and `stop`. */
  datatype Writer = Writer(
    datasetName: string,
    outputFile: string,
    frameSize: seq<int>,
    dtype: Value,
    initialFrameCount: int,
    increaseStep: int,
    compression: Value,
    compressionOpts: Value,
    file: Option<File>,
    dataset: Option<Path>,
    maxFrameIndex: int)

  /** The constructor's defaults. */
  function NewWriter(): (w: Writer)
    ensures w.file.None? && w.dataset.None? && w.maxFrameIndex == 0
    ensures w.initialFrameCount == 1 && w.increaseStep == 1000
    ensures w.datasetName == "" && w.outputFile == "" && w.frameSize == [] && !Truthy(w.dtype)
  {
    Writer("", "", [], Null, 1, 1000, Null, Null, None, None, 0)
  }

  const DatasetNameMissing := "Parameter 'dataset_name' not set.\n"
  const OutputFileMissing := "Parameter 'output_file' not set.\n"
  const FrameShapeMissing := "Parameter 'frame_shape' not set.\n"
  const DtypeMissing := "Parameter 'dtype' not set.\n"
  const FrameCountInvalid := "Invalid values for parameter 'expected_frames_in_dataset'. Must be more than 0.\n"
  const IncreaseStepInvalid := "Invalid values for parameter 'dataset_frames_increase_step'. Must be more than 0.\n"

  /** The message `_validate_parameters` accumulates: one line per failed check. */
  function ValidationMessage(w: Writer): (r: string)
    ensures r == "" <==> && w.datasetName != "" && w.outputFile != "" && |w.frameSize| > 0
                         && Truthy(w.dtype) && w.initialFrameCount >= 1 && w.increaseStep >= 1
    ensures w.datasetName == "" ==> Text.StartsWith(r, DatasetNameMissing)
  {
    var first := if w.datasetName == "" then DatasetNameMissing else "";
    var rest := (if w.outputFile == "" then OutputFileMissing else "")
      + (if |w.frameSize| == 0 then FrameShapeMissing else "")
      + (if !Truthy(w.dtype) then DtypeMissing else "")
      + (if w.initialFrameCount < 1 then FrameCountInvalid else "")
      + (if w.increaseStep < 1 then IncreaseStepInvalid else "");
    assert (first + rest)[..|first|] == first;
    first + rest
  }

  /** `_validate_parameters`. */
  function ValidateParameters(w: Writer): (r: Result<()>)
    ensures r.Ok? <==> && w.datasetName != "" && w.outputFile != "" && |w.frameSize| > 0
                       && Truthy(w.dtype) && w.initialFrameCount >= 1 && w.increaseStep >= 1
    ensures r.Err? ==> r.error == ValueError(ValidationMessage(w))
  {
    RaiseIfAny(ValidationMessage(w))
  }

  /** `tuple(self.compression_opts)` as written: None is not iterable. */
  function OptionsAsWritten(opts: Value): (r: Result<Option<seq<Value>>>)
    ensures opts.Null? ==> r == Err(TypeError)
    ensures (opts.List? || opts.Tuple?) ==> r == Ok(Some(opts.items))
  {
    var t :- AsTuple(opts);
    Ok(Some(t))
  }

  /** The evidently intended conversion: no options stay None, as
      h5py's default for `compression_opts` is. */
  function Options(opts: Value): (r: Result<Option<seq<Value>>>)
    ensures opts.Null? ==> r == Ok(None)
    ensures !opts.Null? ==> r == OptionsAsWritten(opts)
  {
    if opts.Null? then Ok(None) else OptionsAsWritten(opts)
  }

  /** The dataset node `start` creates: `initialFrameCount` empty frames of
      `frameSize`, an unbounded first axis and one frame per chunk. */
  function InitialDataset(w: Writer, opts: Option<seq<Value>>): Node {
    Dataset(Chunked([w.initialFrameCount] + w.frameSize, H5Utils.UnboundedFirst(w.frameSize), [1] + w.frameSize,
                    w.dtype, w.compression, opts, map[]), map[])
  }

  /** h5py's checks of the dataset's storage arguments. */
  function Arguments(w: Writer, opts: Option<seq<Value>>): Result<H5Filters.Filter> {
    H5Filters.DatasetArguments(w.initialFrameCount, w.frameSize, w.compression, opts)
  }

  /** The body of `start` once the compression options are converted: a
      fresh file, the parent group when it is named and absent, the dataset.
      h5py checks the storage arguments before it links the dataset under
      its name, so their errors come first. */
  function Open(w: Writer, opts: Option<seq<Value>>): (r: Result<Writer>)
    ensures r.Ok? <==> Arguments(w, opts).Ok? && PathOf(Text.RStripChar(w.datasetName, '/')) != []
    ensures Arguments(w, opts).Err? ==> r == Err(Arguments(w, opts).error)
    ensures r.Ok? ==>
              var p := PathOf(Text.RStripChar(w.datasetName, '/'));
              && r.value == w.(datasetName := Text.RStripChar(w.datasetName, '/'),
                               file := r.value.file, dataset := Some(p))
              && r.value.file.Some? && WellFormed(r.value.file.value)
              && p in r.value.file.value.nodes && r.value.file.value.nodes[p] == InitialDataset(w, opts)
  {
    var f := Fresh();
    var name := Text.RStripChar(w.datasetName, '/');
    var group := H5Utils.ParentGroupName(name);
    var p := PathOf(name);
    H5Utils.StrippedParent(w.datasetName);
    var _ :- Arguments(w, opts);
    if p == [] then
      assert group == "";
      Err(ValueError("name already exists"))
    else
      var withGroup := if group != "" && PathOf(group) !in f.nodes then CreateNode(f, PathOf(group), Group(map[])) else Ok(f);
      FreshParent(p);
      var g := withGroup.value;
      var created := CreateNode(g, p, InitialDataset(w, opts));
      Ok(w.(datasetName := name, file := Some(created.value), dataset := Some(p)))
  }

  /** Only groups on the way to `Parent(p)` exist after the parent group is
      created in a fresh file, so the dataset itself can be created. */
  lemma FreshParent(p: Path)
    requires p != []
    ensures Parent(p) !in Fresh().nodes ==> CreateNode(Fresh(), Parent(p), Group(map[])).Ok?
    ensures var g := if Parent(p) !in Fresh().nodes then CreateNode(Fresh(), Parent(p), Group(map[])).value else Fresh();
            forall node :: CreateNode(g, p, node).Ok?
  {
    var f := Fresh();
    var g := if Parent(p) !in f.nodes then CreateNode(f, Parent(p), Group(map[])).value else f;
    assert forall q :: q in g.nodes ==> |q| < |p| && g.nodes[q].Group?;
    assert !Blocked(g, Parent(p));
  }

  /** `start` as written, converting `None` options with `tuple`. */
  function StartAsWritten(w: Writer): (r: Result<Writer>)
    ensures ValidateParameters(w).Err? ==> r == Err(ValidateParameters(w).error)
    ensures r.Ok? ==> OptionsAsWritten(w.compressionOpts).Ok?
  {
    var _ :- ValidateParameters(w);
    var opts :- OptionsAsWritten(w.compressionOpts);
    Open(w, opts)
  }

  /** `start`: validates before touching the file, then opens it and creates
      the dataset, whose first axis is `initialFrameCount` long. */
  function Start(w: Writer): (r: Result<Writer>)
    ensures r.Ok? <==> && ValidateParameters(w).Ok? && Options(w.compressionOpts).Ok?
                       && Arguments(w, Options(w.compressionOpts).value).Ok?
                       && PathOf(Text.RStripChar(w.datasetName, '/')) != []
    ensures ValidateParameters(w).Err? ==> r == Err(ValidateParameters(w).error)
    ensures && ValidateParameters(w).Ok? && Options(w.compressionOpts).Ok?
            && Arguments(w, Options(w.compressionOpts).value).Err? ==>
              r == Err(Arguments(w, Options(w.compressionOpts).value).error)
    ensures r.Ok? ==> Valid(r.value) && r.value.dataset == Some(PathOf(Text.RStripChar(w.datasetName, '/')))
    ensures r.Ok? ==> Length(r.value.file.value, r.value.dataset.value) == w.initialFrameCount
                      && r.value.file.value.nodes[r.value.dataset.value].content.frames == map[]
    ensures r.Ok? ==> r.value.maxFrameIndex == w.maxFrameIndex && r.value.increaseStep == w.increaseStep
    ensures r.Ok? ==> Rank(r.value.file.value, r.value.dataset.value) == 1 + |w.frameSize|
  {
    var _ :- ValidateParameters(w);
    var opts :- Options(w.compressionOpts);
    Open(w, opts)
  }

  /** A writer with all parameters set and the default (None) compression
      options cannot start as written; the corrected conversion starts it
      whenever h5py accepts its compression without options and its frame
      shape, in particular without compression and with positive frame
      axes. */
  lemma DefaultOptionsRejected(w: Writer)
    requires ValidateParameters(w).Ok? && w.compressionOpts == Null
    requires PathOf(Text.RStripChar(w.datasetName, '/')) != []
    ensures StartAsWritten(w) == Err(TypeError)
    ensures Start(w).Ok? <==> Arguments(w, None).Ok?
    ensures w.compression.Null? && (forall i :: 0 <= i < |w.frameSize| ==> w.frameSize[i] > 0) ==> Start(w).Ok?
  {
    H5Filters.UncompressedArguments(w.initialFrameCount, w.frameSize);
  }

  /** Between `start` and `stop`: the dataset is a resizable chunked dataset
      of a well-formed file. */
  ghost predicate Valid(w: Writer) {
    && (w.file.Some? <==> w.dataset.Some?)
    && (w.file.Some? ==> WellFormed(w.file.value) && Resizable(w.file.value, w.dataset.value)
                         && FramesInside(w.file.value, w.dataset.value))
  }

  /** Every stored frame lies within the first axis. */
  predicate FramesInside(f: File, p: Path)
    requires Resizable(f, p)
  {
    forall i :: i in f.nodes[p].content.frames ==> 0 <= i < Length(f, p)
  }

  /** The length of the chunk offset `(frame_header["frame"], 0, 0)`: a
      direct chunk can only be written into a dataset of three axes, that is,
      of two-dimensional frames. */
  const ChunkOffsetRank: nat := 3

  /** The frame index and the bytes of a message: `header["frame"]` and
      `data[0]`, which must already be bytes. */
  function ReadFrame(m: Messages.Message): (r: Result<(int, seq<byte>)>)
    ensures r.Ok? ==> Messages.Field(m, "header", "frame") == Ok(Int(r.value.0))
    ensures r.Ok? ==> Messages.GetData(Messages.ArrayHandler, m) == Ok(Bytes(r.value.1))
    ensures Messages.Field(m, "header", "frame").Ok? && Messages.Field(m, "header", "frame").value.Int?
            && Messages.GetData(Messages.ArrayHandler, m).Ok? && Messages.GetData(Messages.ArrayHandler, m).value.Bytes?
            ==> r.Ok?
  {
    var header :- Messages.Part(m, "header");
    var data :- Messages.Part(m, "data");
    var first :- Index(data, 0);
    var frame :- Lookup(header, "frame");
    if !frame.Int? then Err(TypeError)
    else if !first.Bytes? then Err(Unmodelled)
    else Ok((frame.i, first.bs))
  }

  /** The outcome of a step: the state afterwards, and the exception raised,
      if any. A step may change the file before it raises. */
  datatype Step = Step(writer: Writer, outcome: Result<()>)

  /** `_resize_dataset`: the dataset grows to the frame index plus the
      increase step. */
  function ResizeDataset(w: Writer, receivedFrameIndex: int): (r: Result<File>)
    requires Valid(w) && w.dataset.Some?
    ensures r.Ok? <==> receivedFrameIndex + w.increaseStep >= 0
    ensures r.Ok? ==> WellFormed(r.value) && Resizable(r.value, w.dataset.value)
    ensures r.Ok? ==> Length(r.value, w.dataset.value) == receivedFrameIndex + w.increaseStep
    ensures r.Ok? && w.increaseStep >= 1 && receivedFrameIndex >= 0 ==>
              receivedFrameIndex < Length(r.value, w.dataset.value)
    ensures r.Ok? ==> Rank(r.value, w.dataset.value) == Rank(w.file.value, w.dataset.value)
  {
    H5Utils.ExpandDataset(w.file.value, w.dataset.value, receivedFrameIndex, w.increaseStep)
  }

  /** The file a frame is written into: the open one when the frame index
      lies within the dataset, otherwise the one `_resize_dataset` returns.
      Growing keeps every stored frame. */
  function GrownFile(w: Writer, index: int): (r: Result<File>)
    requires Valid(w) && w.dataset.Some?
    ensures r.Ok? ==> var p := w.dataset.value;
              && WellFormed(r.value) && Resizable(r.value, p) && FramesInside(r.value, p)
              && Rank(r.value, p) == Rank(w.file.value, p)
              && (0 <= index < Length(r.value, p) ==>
                    r.value.nodes[p].content.frames == w.file.value.nodes[p].content.frames)
    ensures w.increaseStep >= 1 ==>
              && (index >= 0 ==> r.Ok? && index < Length(r.value, w.dataset.value))
              && (r.Ok? ==> Length(r.value, w.dataset.value) >= Length(w.file.value, w.dataset.value))
  {
    var p := w.dataset.value;
    var f := w.file.value;
    if index < Length(f, p) then Ok(f) else ResizeDataset(w, index)
  }

  /** `process_message`: grows the dataset when the frame falls past its end,
      writes the frame as the chunk at its index and records the highest
      index seen. */
  function ProcessMessage(w: Writer, m: Messages.Message): (r: Step)
    requires Valid(w)
    ensures Valid(r.writer)
    ensures ReadFrame(m).Err? ==> r == Step(w, Err(ReadFrame(m).error))
    ensures w.dataset.None? ==> r.writer == w && r.outcome.Err?
    ensures r.writer.dataset == w.dataset && r.writer.increaseStep == w.increaseStep
    ensures w.dataset.Some? && ReadFrame(m).Ok? && w.increaseStep >= 1 ==>
              (r.outcome.Ok? <==> ReadFrame(m).value.0 >= 0 && Rank(w.file.value, w.dataset.value) == ChunkOffsetRank)
    ensures (&& w.dataset.Some? && ReadFrame(m).Ok? && w.increaseStep >= 1 && ReadFrame(m).value.0 >= 0
             && Rank(w.file.value, w.dataset.value) != ChunkOffsetRank) ==> r.outcome == Err(TypeError)
    ensures w.dataset.Some? ==> Rank(r.writer.file.value, w.dataset.value) == Rank(w.file.value, w.dataset.value)
    ensures r.outcome.Ok? ==>
              var (index, bytes) := ReadFrame(m).value;
              var p := w.dataset.value;
              && 0 <= index < Length(r.writer.file.value, p)
              && r.writer.file.value.nodes[p].content.frames == w.file.value.nodes[p].content.frames[index := bytes]
              && r.writer.maxFrameIndex == (if index > w.maxFrameIndex then index else w.maxFrameIndex)
    ensures w.dataset.Some? && w.increaseStep >= 1 ==>
              Length(r.writer.file.value, w.dataset.value) >= Length(w.file.value, w.dataset.value)
    ensures r.outcome.Err? ==> r.writer.maxFrameIndex == w.maxFrameIndex
  {
    match ReadFrame(m)
    case Err(e) => Step(w, Err(e))
    case Ok((index, bytes)) =>
      if w.dataset.None? then Step(w, Err(AttributeError("shape")))
      else
        var p := w.dataset.value;
        match GrownFile(w, index)
        case Err(e) => Step(w, Err(e))
        case Ok(g) =>
          match WriteChunk(g, p, ChunkOffsetRank, index, bytes)
          case Err(e) => Step(w.(file := Some(g)), Err(e))
          case Ok(h) =>
            Step(w.(file := Some(h), maxFrameIndex := if index > w.maxFrameIndex then index else w.maxFrameIndex), Ok(()))
  }

  /** `stop`: compacts the dataset to `maxFrameIndex + 1` frames and closes
      the file, which is returned with the writer that no longer holds it. */
  function Stop(w: Writer): (r: Result<(Writer, File)>)
    requires Valid(w)
    ensures r.Ok? <==> w.dataset.Some? && w.maxFrameIndex >= -1
    ensures r.Ok? ==> r.value.0 == w.(file := None, dataset := None)
    ensures r.Ok? ==> var p := w.dataset.value;
              && WellFormed(r.value.1) && Resizable(r.value.1, p)
              && Length(r.value.1, p) == w.maxFrameIndex + 1
              && (forall i :: i in r.value.1.nodes[p].content.frames <==>
                                i in w.file.value.nodes[p].content.frames && i <= w.maxFrameIndex)
              && (forall i :: i in r.value.1.nodes[p].content.frames ==>
                                r.value.1.nodes[p].content.frames[i] == w.file.value.nodes[p].content.frames[i])
  {
    if w.dataset.None? then Err(AttributeError("resize"))
    else
      var f :- H5Utils.CompactDataset(w.file.value, w.dataset.value, w.maxFrameIndex);
      Ok((w.(file := None, dataset := None), f))
  }

  /** A message carrying frame `index` with payload `data`. */
  function FrameMessage(index: int, data: seq<byte>): Messages.Message {
    Messages.Message(map["header" := Dict(map["frame" := Int(index)]), "data" := List([Bytes(data)])])
  }

  lemma ReadFrameMessage(index: int, data: seq<byte>)
    ensures ReadFrame(FrameMessage(index, data)) == Ok((index, data))
  {
    var m := FrameMessage(index, data);
    assert Messages.Part(m, "header") == Ok(Dict(map["frame" := Int(index)]));
    assert Messages.Part(m, "data") == Ok(List([Bytes(data)]));
  }

  /** Processes the frames in order, frame `i` carrying index `i`, stopping at
      the first exception. */
  function ProcessFrames(w: Writer, frames: seq<seq<byte>>): (r: Step)
    requires Valid(w)
    ensures Valid(r.writer) && r.writer.dataset == w.dataset && r.writer.increaseStep == w.increaseStep
  {
    if |frames| == 0 then Step(w, Ok(()))
    else
      var n := |frames| - 1;
      var before := ProcessFrames(w, frames[..n]);
      if before.outcome.Err? then before
      else ProcessMessage(before.writer, FrameMessage(n, frames[n]))
  }

  /** After frames 0 .. n-1 have been written in order into a freshly started
      dataset, each frame sits at its index and nothing else is stored. */
  lemma {:induction false} FramesWritten(w: Writer, frames: seq<seq<byte>>)
    requires Valid(w) && w.dataset.Some? && w.increaseStep >= 1 && w.maxFrameIndex == 0
    requires w.file.value.nodes[w.dataset.value].content.frames == map[]
    requires Length(w.file.value, w.dataset.value) >= 1
    requires Rank(w.file.value, w.dataset.value) == ChunkOffsetRank
    ensures WrittenInOrder(w, ProcessFrames(w, frames), frames)
  {
    if |frames| > 0 {
      var n := |frames| - 1;
      FramesWritten(w, frames[..n]);
      var before := ProcessFrames(w, frames[..n]);
      ReadFrameMessage(n, frames[n]);
      var r := ProcessMessage(before.writer, FrameMessage(n, frames[n]));
      assert ProcessFrames(w, frames) == r;
      AppendFrame(w, before, r, frames);
    }
  }

  /** `r` is the state after frames 0 .. |frames|-1 were written without error. */
  ghost predicate WrittenInOrder(w: Writer, r: Step, frames: seq<seq<byte>>)
    requires Valid(w) && w.dataset.Some?
  {
    var p := w.dataset.value;
    && r.outcome.Ok? && Valid(r.writer) && r.writer.dataset == w.dataset
    && r.writer.maxFrameIndex == (if |frames| == 0 then 0 else |frames| - 1)
    && |frames| <= Length(r.writer.file.value, p)
    && Rank(r.writer.file.value, p) == Rank(w.file.value, p)
    && (forall i :: i in r.writer.file.value.nodes[p].content.frames <==> 0 <= i < |frames|)
    && (forall i :: 0 <= i < |frames| ==> r.writer.file.value.nodes[p].content.frames[i] == frames[i])
  }

  lemma AppendFrame(w: Writer, before: Step, r: Step, frames: seq<seq<byte>>)
    requires Valid(w) && w.dataset.Some? && w.increaseStep >= 1 && |frames| > 0
    requires Rank(w.file.value, w.dataset.value) == ChunkOffsetRank
    requires WrittenInOrder(w, before, frames[..|frames| - 1])
    requires before.writer.increaseStep == w.increaseStep
    requires ReadFrame(FrameMessage(|frames| - 1, frames[|frames| - 1])) == Ok((|frames| - 1, frames[|frames| - 1]))
    requires r == ProcessMessage(before.writer, FrameMessage(|frames| - 1, frames[|frames| - 1]))
    ensures WrittenInOrder(w, r, frames)
  {
    var n := |frames| - 1;
    var p := w.dataset.value;
    assert r.outcome.Ok? && r.writer.dataset == w.dataset;
    assert r.writer.maxFrameIndex == n;
    WrittenStep(w, before, r, frames);
  }

  /** The frame written last extends frames written in order before it. */
  lemma WrittenStep(w: Writer, before: Step, r: Step, frames: seq<seq<byte>>)
    requires Valid(w) && w.dataset.Some? && |frames| > 0
    requires WrittenInOrder(w, before, frames[..|frames| - 1])
    requires r.outcome.Ok? && Valid(r.writer) && r.writer.dataset == w.dataset
    requires r.writer.maxFrameIndex == |frames| - 1
    requires var p := w.dataset.value;
             && |frames| - 1 < Length(r.writer.file.value, p)
             && Rank(r.writer.file.value, p) == Rank(w.file.value, p)
             && r.writer.file.value.nodes[p].content.frames
                == before.writer.file.value.nodes[p].content.frames[|frames| - 1 := frames[|frames| - 1]]
    ensures WrittenInOrder(w, r, frames)
  {
    var n := |frames| - 1;
    forall i | 0 <= i < n ensures frames[..n][i] == frames[i] { }
  }

  /** Stopping after frames 0 .. n-1 were written in order compacts the
      dataset to exactly those frames. */
  lemma StopAfterFrames(w: Writer, written: Step, frames: seq<seq<byte>>)
    requires Valid(w) && w.dataset.Some? && |frames| >= 1
    requires WrittenInOrder(w, written, frames)
    ensures var p := w.dataset.value;
            && Stop(written.writer).Ok?
            && var f := Stop(written.writer).value.1;
            && Length(f, p) == |frames|
            && (forall i :: i in f.nodes[p].content.frames <==> 0 <= i < |frames|)
            && (forall i :: 0 <= i < |frames| ==> f.nodes[p].content.frames[i] == frames[i])
  {
  }

  /** The writer's end-to-end behaviour: a started writer that receives
      frames 0 .. n-1 and then stops leaves a dataset of exactly n frames,
      each holding what was sent for it. */
  lemma StartWriteStop(w: Writer, frames: seq<seq<byte>>)
    requires Start(w).Ok? && w.maxFrameIndex == 0 && |frames| >= 1 && |w.frameSize| == 2
    ensures var started := Start(w).value;
            var written := ProcessFrames(started, frames);
            var p := started.dataset.value;
            && written.outcome.Ok?
            && Stop(written.writer).Ok?
            && var f := Stop(written.writer).value.1;
            && Length(f, p) == |frames|
            && (forall i :: i in f.nodes[p].content.frames <==> 0 <= i < |frames|)
            && (forall i :: 0 <= i < |frames| ==> f.nodes[p].content.frames[i] == frames[i])
  {
    var started := Start(w).value;
    FramesWritten(started, frames);
    StopAfterFrames(started, ProcessFrames(started, frames), frames);
  }

  /** A started writer whose frames are not two-dimensional raises TypeError
      on the first frame it is sent, after growing the dataset if needed:
      the chunk offset has three entries, the dataset another number of axes. */
  lemma OtherFrameRanksRaise(w: Writer, index: int, data: seq<byte>)
    requires Start(w).Ok? && |w.frameSize| != 2 && index >= 0
    ensures ProcessMessage(Start(w).value, FrameMessage(index, data)).outcome == Err(TypeError)
  {
    ReadFrameMessage(index, data);
  }
}

=== FILE: config.dfy ===
/** The library-wide defaults the node scripts and the REST layer share. */
module Config {
  /** Where the management script looks for instance configurations, from the
      most general to the most specific. */
  const MachineFilename: string := "/etc/mflow_nodes.json"
  const UserFilename: string := "~/.mflow_nodes_rc.json"
  const PwdFilename: string := "mflow_nodes.json"

  const DefaultConnectAddress: string := "tcp://127.0.0.1:40000"
  const DefaultRestHost: string := "http://0.0.0.0"
  const DefaultRestPort: int := 41000
  const DefaultStatisticsBufferLength: int := 100

  /** The REST URL templates; `{instance_name}` is filled in first, and the
      doubled braces survive as the `{url}` field of the second fill. */
  const ApiPathFormat: string := "/api/v1/{instance_name}/{{url}}"
  const HtmlPathFormat: string := "/{instance_name}/{{url}}"
}

=== FILE: config_helpers.dfy ===
/** The node scripts' configuration helpers: building a processor's
    parameters from the command line, a JSON file and explicit values;
    loading the layered instance configurations of the management script;
    and the defaults a node is started with. The file system is a map from
    the name a file is opened under to its parsed JSON content; path
    expansion is not modelled. */
module ConfigHelpers {
  import opened Wrappers
  import opened Values
  import Text
  import Ordered
  import Config

  /** A readable file's content: parsed JSON, or text `json.load` rejects. */
  datatype FileContent = Json(v: Value) | Malformed

  /** The readable files, by the name they are opened under. */
  type FileSystem = map<string, FileContent>

  /** Command-line arguments: the attributes the argument parser set. */
  type Arguments = map<string, Value>

  // ---------------------------------------------------------------------
  // construct_processor_parameters
  // ---------------------------------------------------------------------

  /** `json.load(open(path))` for a file whose top level must be an object
      (the caller `update`s a dict with it). */
  function ReadJsonObject(fs: FileSystem, path: Value): (r: Result<map<string, Value>>)
    ensures path.Str? && path.s !in fs ==> r == Err(FileNotFound(path.s))
    ensures path.Str? && path.s in fs && fs[path.s] == Malformed ==> r == Err(MalformedJson(path.s))
    ensures r.Ok? <==> path.Str? && path.s in fs && fs[path.s].Json? && fs[path.s].v.Dict?
    ensures r.Ok? ==> r.value == fs[path.s].v.entries
  {
    if !path.Str? then Err(TypeError)
    else if path.s !in fs then Err(FileNotFound(path.s))
    else match fs[path.s]
      case Malformed => Err(MalformedJson(path.s))
      case Json(v) => if v.Dict? then Ok(v.entries) else Err(Unmodelled)
  }

  /** The parameters the `--config_file` argument contributes: none unless
      it is given and non-empty. */
  function ConfigFileEntries(args: Arguments, fs: FileSystem): (r: Result<map<string, Value>>)
    ensures !("config_file" in args && Truthy(args["config_file"])) ==> r == Ok(map[])
    ensures "config_file" in args && Truthy(args["config_file"]) ==> r == ReadJsonObject(fs, args["config_file"])
  {
    if "config_file" in args && Truthy(args["config_file"]) then ReadJsonObject(fs, args["config_file"])
    else Ok(map[])
  }

  /** The binding address is taken only when given and non-empty. */
  predicate BindingGiven(args: Arguments) {
    "binding_address" in args && Truthy(args["binding_address"])
  }

  /** `construct_processor_parameters(input_args, parameters)`: the binding
      address, overridden by the config file, overridden by the explicit
      parameters; `None` parameters count as none. */
  function ConstructProcessorParameters(args: Arguments, fs: FileSystem, parameters: Option<map<string, Value>>)
    : (r: Result<map<string, Value>>)
    ensures r.Ok? <==> ConfigFileEntries(args, fs).Ok?
    ensures r.Err? ==> r.error == ConfigFileEntries(args, fs).error
    ensures r.Ok? ==>
              var file := ConfigFileEntries(args, fs).value;
              var explicit := parameters.GetOr(map[]);
              && (forall k :: k in r.value <==> k in explicit || k in file || (k == "binding_address" && BindingGiven(args)))
              && (forall k :: k in explicit ==> r.value[k] == explicit[k])
              && (forall k :: k !in explicit && k in file ==> r.value[k] == file[k])
              && (BindingGiven(args) && "binding_address" !in explicit && "binding_address" !in file ==>
                    r.value["binding_address"] == args["binding_address"])
  {
    var base: map<string, Value> := if BindingGiven(args) then map["binding_address" := args["binding_address"]] else map[];
    var file :- ConfigFileEntries(args, fs);
    Ok(base + file + parameters.GetOr(map[]))
  }

  /** The older `construct_processor_parameters` of `script_tools.py`: the
      binding address is copied whenever the attribute exists, even when it
      is `None`, and `config_file` must exist as an attribute. */
  function LegacyConstructProcessorParameters(args: Arguments, fs: FileSystem, parameters: Option<map<string, Value>>)
    : (r: Result<map<string, Value>>)
    ensures "config_file" !in args ==> r == Err(AttributeError("config_file"))
    ensures "config_file" in args ==> (r.Ok? <==> ConfigFileEntries(args, fs).Ok?)
    ensures r.Ok? ==>
              var file := ConfigFileEntries(args, fs).value;
              var explicit := parameters.GetOr(map[]);
              && (forall k :: k in r.value <==> k in explicit || k in file || (k == "binding_address" && "binding_address" in args))
              && (forall k :: k in explicit ==> r.value[k] == explicit[k])
              && (forall k :: k !in explicit && k in file ==> r.value[k] == file[k])
  {
    var base: map<string, Value> := if "binding_address" in args then map["binding_address" := args["binding_address"]] else map[];
    if "config_file" !in args then Err(AttributeError("config_file"))
    else
      var file :- ConfigFileEntries(args, fs);
      Ok(base + file + parameters.GetOr(map[]))
  }

  /** Passing `None` and passing `{}` as the explicit parameters are the
      same, in both versions. */
  lemma NoneParametersAreEmpty(args: Arguments, fs: FileSystem)
    ensures ConstructProcessorParameters(args, fs, None) == ConstructProcessorParameters(args, fs, Some(map[]))
    ensures LegacyConstructProcessorParameters(args, fs, None) == LegacyConstructProcessorParameters(args, fs, Some(map[]))
  {
  }

  /** The two versions agree whenever the `config_file` attribute exists and
      the binding address is absent or non-empty; with an empty or `None`
      binding address that nothing overrides, only the older one reports
      it. */
  lemma VersionsCompared(args: Arguments, fs: FileSystem, parameters: Option<map<string, Value>>)
    requires "config_file" in args
    ensures ("binding_address" in args ==> Truthy(args["binding_address"])) ==>
              ConstructProcessorParameters(args, fs, parameters) == LegacyConstructProcessorParameters(args, fs, parameters)
    ensures var now := ConstructProcessorParameters(args, fs, parameters);
            var legacy := LegacyConstructProcessorParameters(args, fs, parameters);
            "binding_address" in args && !Truthy(args["binding_address"]) && now.Ok?
            && "binding_address" !in parameters.GetOr(map[]) && "binding_address" !in ConfigFileEntries(args, fs).value ==>
              legacy.Ok? && "binding_address" !in now.value && legacy.value["binding_address"] == args["binding_address"]
  {
  }

  // ---------------------------------------------------------------------
  // start_stream_node_helper
  // ---------------------------------------------------------------------

  /** The arguments `start_stream_node_helper` passes to `start_stream_node`. */
  datatype NodeArguments = NodeArguments(
    instanceName: Value,
    processorParameters: map<string, Value>,
    connectionAddress: Value,
    controlHost: Value,
    controlPort: Value,
    receiveRaw: Value,
    startNodeImmediately: bool)

  /** An argument's value when given and non-empty, else the default. */
  function ArgumentOr(args: Arguments, name: string, default: Value): (r: Value)
    ensures name in args && Truthy(args[name]) ==> r == args[name]
    ensures !(name in args && Truthy(args[name])) ==> r == default
  {
    if name in args && Truthy(args[name]) then args[name] else default
  }

  /** `start_stream_node_helper`, with the value used when `--raw` is not
      set as a parameter. */
  function StartArgumentsWith(args: Arguments, fs: FileSystem, parameters: Option<map<string, Value>>,
                              startNow: bool, rawDefault: Value): (r: Result<NodeArguments>)
    ensures ConstructProcessorParameters(args, fs, parameters).Err? ==>
              r == Err(ConstructProcessorParameters(args, fs, parameters).error)
    ensures ConstructProcessorParameters(args, fs, parameters).Ok? && "instance_name" !in args ==>
              r == Err(AttributeError("instance_name"))
    ensures r.Ok? <==>
              ConstructProcessorParameters(args, fs, parameters).Ok? && "instance_name" in args && "connect_address" in args
    ensures r.Ok? ==>
              && r.value.processorParameters == ConstructProcessorParameters(args, fs, parameters).value
              && r.value.instanceName == args["instance_name"]
              && r.value.connectionAddress == args["connect_address"]
              && r.value.controlHost == ArgumentOr(args, "rest_host", Str(Config.DefaultRestHost))
              && r.value.controlPort == ArgumentOr(args, "rest_port", Int(Config.DefaultRestPort))
              && r.value.receiveRaw == ArgumentOr(args, "raw", rawDefault)
              && r.value.startNodeImmediately == startNow
  {
    var processorParameters :- ConstructProcessorParameters(args, fs, parameters);
    var host := ArgumentOr(args, "rest_host", Str(Config.DefaultRestHost));
    var port := ArgumentOr(args, "rest_port", Int(Config.DefaultRestPort));
    var raw := ArgumentOr(args, "raw", rawDefault);
    if "instance_name" !in args then Err(AttributeError("instance_name"))
    else if "connect_address" !in args then Err(AttributeError("connect_address"))
    else Ok(NodeArguments(args["instance_name"], processorParameters, args["connect_address"], host, port, raw, startNow))
  }

  /** As written: without `--raw`, `receive_raw` defaults to the REST port
      number. */
  function StartArgumentsAsWritten(args: Arguments, fs: FileSystem, parameters: Option<map<string, Value>>,
                                   startNow: bool): (r: Result<NodeArguments>)
    ensures r.Ok? ==> r.value.receiveRaw == ArgumentOr(args, "raw", Int(Config.DefaultRestPort))
  {
    StartArgumentsWith(args, fs, parameters, startNow, Int(Config.DefaultRestPort))
  }

  /** With `receive_raw` defaulting to `False`, the default of
      `start_stream_node` and of the `--raw` flag itself. */
  function StartArguments(args: Arguments, fs: FileSystem, parameters: Option<map<string, Value>>,
                          startNow: bool): (r: Result<NodeArguments>)
    ensures r.Ok? ==> r.value.receiveRaw == ArgumentOr(args, "raw", Bool(false))
    ensures r.Ok? ==> (Truthy(r.value.receiveRaw) <==> "raw" in args && Truthy(args["raw"]))
  {
    StartArgumentsWith(args, fs, parameters, startNow, Bool(false))
  }

  /** With none of the optional arguments given, a node is controlled on
      `http://0.0.0.0:41000`. As written it also receives in raw mode,
      although `--raw` was not given; corrected it does not. */
  lemma HelperDefaults(args: Arguments, fs: FileSystem, parameters: Option<map<string, Value>>, startNow: bool)
    requires "rest_host" !in args && "rest_port" !in args && "raw" !in args
    requires StartArguments(args, fs, parameters, startNow).Ok?
    ensures var a := StartArguments(args, fs, parameters, startNow).value;
            && a.controlHost == Str("http://0.0.0.0") && a.controlPort == Int(41000)
            && !Truthy(a.receiveRaw)
    ensures var w := StartArgumentsAsWritten(args, fs, parameters, startNow);
            && w.Ok?
            && Truthy(w.value.receiveRaw)
            && w.value == StartArguments(args, fs, parameters, startNow).value.(receiveRaw := Int(41000))
  {
  }

  // ---------------------------------------------------------------------
  // The management script's configuration files
  // ---------------------------------------------------------------------

  /** `instance["config_file"] = filename` for each instance of a file. */
  function TagInstances(instances: map<string, Value>, filename: Value): (r: Result<map<string, Value>>)
    ensures r.Ok? <==> forall k :: k in instances ==> instances[k].Dict?
    ensures r.Err? ==> r.error == TypeError
    ensures r.Ok? ==> r.value.Keys == instances.Keys
    ensures r.Ok? ==> forall k :: k in r.value ==>
              r.value[k] == Dict(instances[k].entries["config_file" := filename])
  {
    if forall k :: k in instances ==> instances[k].Dict? then
      Ok(map k | k in instances :: Dict(instances[k].entries["config_file" := filename]))
    else Err(TypeError)
  }

  /** `load_config_file(filename)`: nothing for an empty name or an
      unreadable file; otherwise the file's instances, each tagged with the
      name of the file it came from. */
  function LoadConfigFile(fs: FileSystem, filename: Value): (r: Result<map<string, Value>>)
    ensures !Truthy(filename) ==> r == Ok(map[])
    ensures filename.Str? && filename.s != [] && filename.s !in fs ==> r == Ok(map[])
    ensures filename.Str? && filename.s != [] && filename.s in fs && fs[filename.s] == Malformed ==>
              r == Err(MalformedJson(filename.s))
    ensures filename.Str? && filename.s != [] && filename.s in fs && fs[filename.s].Json? && fs[filename.s].v.Dict? ==>
              r == TagInstances(fs[filename.s].v.entries, filename)
    ensures r.Ok? && r.value != map[] ==>
              filename.Str? && filename.s in fs && fs[filename.s].Json? && fs[filename.s].v.Dict?
  {
    if !Truthy(filename) then Ok(map[])
    else if !filename.Str? then Err(TypeError)
    else if filename.s !in fs then Ok(map[])
    else match fs[filename.s]
      case Malformed => Err(MalformedJson(filename.s))
      case Json(v) => if v.Dict? then TagInstances(v.entries, filename) else Err(AttributeError("values"))
  }

  /** `load_scripts_config` as written: its first argument reads
      `config.MANAGE_MACHINE_FILENAME`, a name the configuration module does
      not define (it defines `MACHINE_FILENAME`), so every call raises. */
  function LoadScriptsConfigAsWritten(fs: FileSystem, specified: Value): (r: Result<seq<(string, Value)>>)
    ensures r == Err(AttributeError("MANAGE_MACHINE_FILENAME"))
  {
    Err(AttributeError("MANAGE_MACHINE_FILENAME"))
  }

  /** The four sources, from least to most important: machine, user, current
      directory, and the one the caller names. */
  function MergedConfig(fs: FileSystem, specified: Value): (r: Result<map<string, Value>>)
    ensures r.Ok? <==>
              && LoadConfigFile(fs, Str(Config.MachineFilename)).Ok?
              && LoadConfigFile(fs, Str(Config.UserFilename)).Ok?
              && LoadConfigFile(fs, Str(Config.PwdFilename)).Ok?
              && LoadConfigFile(fs, specified).Ok?
    ensures r.Ok? ==>
              var m1 := LoadConfigFile(fs, Str(Config.MachineFilename)).value;
              var m2 := LoadConfigFile(fs, Str(Config.UserFilename)).value;
              var m3 := LoadConfigFile(fs, Str(Config.PwdFilename)).value;
              var m4 := LoadConfigFile(fs, specified).value;
              && (forall k :: k in r.value <==> k in m1 || k in m2 || k in m3 || k in m4)
              && (forall k :: k in m4 ==> r.value[k] == m4[k])
              && (forall k :: k !in m4 && k in m3 ==> r.value[k] == m3[k])
              && (forall k :: k !in m4 && k !in m3 && k in m2 ==> r.value[k] == m2[k])
              && (forall k :: k !in m4 && k !in m3 && k !in m2 && k in m1 ==> r.value[k] == m1[k])
  {
    var m1 :- LoadConfigFile(fs, Str(Config.MachineFilename));
    var m2 :- LoadConfigFile(fs, Str(Config.UserFilename));
    var m3 :- LoadConfigFile(fs, Str(Config.PwdFilename));
    var m4 :- LoadConfigFile(fs, specified);
    Ok(m1 + m2 + m3 + m4)
  }

  /** The error text when no source defines any instance. */
  function NoConfigMessage(specified: Value): string {
    "No config files available. Checked files:\n'" + Config.MachineFilename + "',\n'" + Config.UserFilename
    + "',\n'" + Config.PwdFilename + "',\n'" + (if Truthy(specified) && specified.Str? then specified.s else "") + "'"
  }

  /** `load_scripts_config(specified)` with the configuration module's file
      names: the merged instances in ascending name order; no instances at
      all is an error. */
  method LoadScriptsConfig(fs: FileSystem, specified: Value) returns (r: Result<seq<(string, Value)>>)
    ensures MergedConfig(fs, specified).Err? ==> r == Err(MergedConfig(fs, specified).error)
    ensures MergedConfig(fs, specified).Ok? && MergedConfig(fs, specified).value == map[] ==>
              r == Err(ValueError(NoConfigMessage(specified)))
    ensures r.Ok? <==> MergedConfig(fs, specified).Ok? && MergedConfig(fs, specified).value != map[]
    ensures r.Ok? ==> forall i, j :: 0 <= i < j < |r.value| ==> Ordered.Less(r.value[i].0, r.value[j].0)
    ensures r.Ok? ==> Enumerates(r.value, MergedConfig(fs, specified).value)
  {
    var merged := MergedConfig(fs, specified);
    if merged.Err? {
      return Err(merged.error);
    }
    if merged.value == map[] {
      return Err(ValueError(NoConfigMessage(specified)));
    }
    var items := Ordered.SortedItems(merged.value);
    forall i, j | 0 <= i < j < |items| ensures items[i].0 != items[j].0 {
      if items[i].0 == items[j].0 { Ordered.LessIrreflexive(items[i].0); }
    }
    r := Ok(items);
  }

  /** Python's `repr` of a list of names (quote escaping is not modelled). */
  function NamesRepr(names: seq<string>): string {
    "[" + QuotedNames(names) + "]"
  }

  function QuotedNames(names: seq<string>): string
    decreases |names|
  {
    if |names| == 0 then ""
    else if |names| == 1 then "'" + names[0] + "'"
    else "'" + names[0] + "', " + QuotedNames(names[1..])
  }

  /** The error text for an instance that is not defined. */
  function UndefinedInstanceMessage(name: string, available: seq<string>): string {
    "The requested instance '" + name + "' is not defined.\nAvailable instances: " + NamesRepr(available)
  }

  /** `get_instance_config(name, config_file)`: the instance's configuration;
      a missing or empty one is an error that lists the defined names. */
  method GetInstanceConfig(fs: FileSystem, name: string, configFile: Value) returns (r: Result<Value>)
    ensures MergedConfig(fs, configFile).Err? ==> r == Err(MergedConfig(fs, configFile).error)
    ensures r.Ok? <==>
              MergedConfig(fs, configFile).Ok? && name in MergedConfig(fs, configFile).value
              && Truthy(MergedConfig(fs, configFile).value[name])
    ensures r.Ok? ==> r.value == MergedConfig(fs, configFile).value[name]
    ensures MergedConfig(fs, configFile).Ok? && MergedConfig(fs, configFile).value != map[] && r.Err? ==>
              r.error.ValueError?
  {
    var loaded := LoadScriptsConfig(fs, configFile);
    if loaded.Err? {
      return Err(loaded.error);
    }
    var items := loaded.value;
    var merged := MergedConfig(fs, configFile).value;
    if name in merged && Truthy(merged[name]) {
      return Ok(merged[name]);
    }
    r := Err(ValueError(UndefinedInstanceMessage(name, Names(items))));
  }

  /** The names of a listing of configurations, in order. */
  function Names(items: seq<(string, Value)>): (r: seq<string>)
    ensures |r| == |items| && forall i :: 0 <= i < |items| ==> r[i] == items[i].0
  {
    seq(|items|, i requires 0 <= i < |items| => items[i].0)
  }

  /** `"%s:%s" % (host, port)`. */
  function ControlAddress(host: Value, port: Value): (r: Result<string>)
    ensures r.Ok? <==> Display(host).Ok? && Display(port).Ok?
    ensures r.Ok? ==> Text.StartsWith(r.value, Display(host).value + ":")
                      && r.value[|Display(host).value| + 1..] == Display(port).value
    ensures host.Str? && port.Int? ==> r == Ok(host.s + ":" + Text.IntToString(port.i))
  {
    var h :- Display(host);
    var p :- Display(port);
    Ok(h + ":" + p)
  }

  /** An instance configuration a client can be pointed at: a dict whose
      `input_args` is a dict naming the instance, with a host and port that
      format. */
  predicate ClientReachable(config: Value) {
    && config.Dict? && "input_args" in config.entries
    && var inputArgs := config.entries["input_args"];
       && inputArgs.Dict? && "instance_name" in inputArgs.entries
       && ControlAddress(Get(inputArgs.entries, "rest_host", Str(Config.DefaultRestHost)),
                         Get(inputArgs.entries, "rest_port", Int(Config.DefaultRestPort))).Ok?
  }

  /** `get_instance_client_parameters(name, config_file)`: the control
      address, from the instance's `input_args` with the default host and
      port filling in what is missing, and the instance name recorded
      there. */
  method GetInstanceClientParameters(fs: FileSystem, name: string, configFile: Value)
    returns (r: Result<(string, Value)>)
    ensures MergedConfig(fs, configFile).Err? ==> r.Err?
    ensures r.Ok? <==>
              && MergedConfig(fs, configFile).Ok? && name in MergedConfig(fs, configFile).value
              && Truthy(MergedConfig(fs, configFile).value[name])
              && ClientReachable(MergedConfig(fs, configFile).value[name])
    ensures r.Ok? ==>
              && MergedConfig(fs, configFile).Ok? && name in MergedConfig(fs, configFile).value
              && var inputArgs := Lookup(MergedConfig(fs, configFile).value[name], "input_args");
                 && inputArgs.Ok? && inputArgs.value.Dict?
                 && "instance_name" in inputArgs.value.entries
                 && r.value.1 == inputArgs.value.entries["instance_name"]
                 && Ok(r.value.0) == ControlAddress(Get(inputArgs.value.entries, "rest_host", Str(Config.DefaultRestHost)),
                                                    Get(inputArgs.value.entries, "rest_port", Int(Config.DefaultRestPort)))
  {
    var config := GetInstanceConfig(fs, name, configFile);
    if config.Err? {
      return Err(config.error);
    }
    var inputArgs := Lookup(config.value, "input_args");
    if inputArgs.Err? {
      return Err(inputArgs.error);
    }
    var instanceName := Lookup(inputArgs.value, "instance_name");
    if instanceName.Err? {
      return Err(instanceName.error);
    }
    var entries := inputArgs.value.entries;
    var address := ControlAddress(Get(entries, "rest_host", Str(Config.DefaultRestHost)),
                                  Get(entries, "rest_port", Int(Config.DefaultRestPort)));
    if address.Err? {
      return Err(address.error);
    }
    r := Ok((address.value, instanceName.value));
  }

  /** The address a client uses when an instance records neither host nor
      port. */
  lemma DefaultControlAddress()
    ensures ControlAddress(Str(Config.DefaultRestHost), Int(Config.DefaultRestPort)) == Ok("http://0.0.0.0:41000")
  {
    assert Text.NatToString(4) == "4";
    assert Text.NatToString(41) == "41";
    assert Text.NatToString(410) == "410";
    assert Text.NatToString(4100) == "4100";
    assert Text.NatToString(41000) == "41000";
    assert Text.IntToString(Config.DefaultRestPort) == "41000";
    assert Config.DefaultRestHost + ":" + "41000" == "http://0.0.0.0:41000";
  }

  /** A more specific source overrides a less specific one: an instance
      defined in the named file is taken from it, tagged with its name,
      whatever the other three files say. */
  lemma SpecifiedFileWins(fs: FileSystem, specified: string, instance: string, entries: map<string, Value>)
    requires specified != [] && specified in fs && fs[specified].Json? && fs[specified].v.Dict?
    requires instance in fs[specified].v.entries && fs[specified].v.entries[instance] == Dict(entries)
    requires forall k :: k in fs[specified].v.entries ==> fs[specified].v.entries[k].Dict?
    requires MergedConfig(fs, Str(specified)).Ok?
    ensures instance in MergedConfig(fs, Str(specified)).value
    ensures MergedConfig(fs, Str(specified)).value[instance] == Dict(entries["config_file" := Str(specified)])
  {
    var m4 := LoadConfigFile(fs, Str(specified));
    assert m4 == TagInstances(fs[specified].v.entries, Str(specified));
  }

  /** Every call of `load_scripts_config` as written raises, while the same
      call with the defined file names succeeds once a single file defines an
      instance. */
  lemma ScriptsConfigNamesMismatch(name: string, instance: Value)
    requires instance.Dict?
    ensures LoadScriptsConfigAsWritten(map[Config.PwdFilename := Json(Dict(map[name := instance]))], Null).Err?
    ensures var fs := map[Config.PwdFilename := Json(Dict(map[name := instance]))];
            && MergedConfig(fs, Null).Ok?
            && MergedConfig(fs, Null).value == map[name := Dict(instance.entries["config_file" := Str(Config.PwdFilename)])]
  {
    var fs := map[Config.PwdFilename := Json(Dict(map[name := instance]))];
    assert Config.MachineFilename !in fs && Config.UserFilename !in fs;
  }
}

=== FILE: h5.dfy ===
/** An HDF5 file as h5py presents it to the writers: a map from normalised
    object path to node. Only the behaviour the library depends on is
    modelled: group creation with intermediate groups, dataset creation,
    resizing along the first axis, direct chunk writes, attributes and
    external links. */
module H5 {
  import opened Wrappers
  import opened Values
  import Text

  /** A normalised object path: the non-empty components between slashes.
      The root group is the empty path. */
  type Path = seq<string>

  function DropEmpty(parts: seq<string>): (r: seq<string>)
    ensures forall i :: 0 <= i < |r| ==> r[i] != "" && r[i] in parts
  {
    if |parts| == 0 then []
    else (if parts[0] == "" then [] else [parts[0]]) + DropEmpty(parts[1..])
  }

  /** How h5py resolves a name: `a/b`, `/a/b` and `a//b/` all denote the same object. */
  function PathOf(name: string): (p: Path)
    ensures forall i :: 0 <= i < |p| ==> p[i] != "" && '/' !in p[i]
  {
    DropEmpty(Text.Split(name, '/'))
  }

  lemma {:induction false} DropEmptyAppend(a: seq<string>, b: seq<string>)
    ensures DropEmpty(a + b) == DropEmpty(a) + DropEmpty(b)
    decreases |a|
  {
    if |a| > 0 {
      assert (a + b)[1..] == a[1..] + b;
      DropEmptyAppend(a[1..], b);
    } else {
      assert a + b == b;
    }
  }

  function Parent(p: Path): Path
    requires |p| > 0
  {
    p[..|p| - 1]
  }

  /** The storage of a dataset. */
  datatype Content =
      /** Created with an explicit shape; frames are written as direct chunks. */
    | Chunked(shape: seq<int>, maxShape: seq<Option<int>>, chunks: seq<int>, dtype: Value,
              compression: Value, compressionOpts: Option<seq<Value>>, frames: map<int, seq<byte>>)
      /** Created from a value (`create_dataset(name, data=...)`), with the
          dtype the caller asked for, if any. */
    | Stored(data: Value, requested: Option<Value>)

  datatype Node =
    | Group(attrs: map<string, Value>)
    | Dataset(content: Content, attrs: map<string, Value>)
    | ExternalLink(fileName: string, target: string)

  datatype File = File(nodes: map<Path, Node>)

  /** The root group exists and every object hangs under an existing group. */
  ghost predicate WellFormed(f: File) {
    && [] in f.nodes && f.nodes[[]].Group?
    && forall p :: p in f.nodes && p != [] ==> Parent(p) in f.nodes && f.nodes[Parent(p)].Group?
  }

  /** `h5py.File(name, "w")`: a truncated file holding only the root group. */
  function Fresh(): (f: File)
    ensures WellFormed(f)
    ensures f.nodes.Keys == {[]}
  {
    File(map[[] := Group(map[])])
  }

  /** Some prefix of `p` (possibly `p` itself) is an object that is not a group. */
  ghost predicate Blocked(f: File, p: Path) {
    exists k :: 0 <= k <= |p| && p[..k] in f.nodes && !f.nodes[p[..k]].Group?
  }

  lemma {:induction false} AncestorsAreGroups(f: File, p: Path, k: nat)
    requires WellFormed(f) && p in f.nodes && k < |p|
    ensures p[..k] in f.nodes && f.nodes[p[..k]].Group?
    decreases |p|
  {
    assert Parent(p) in f.nodes;
    if k < |p| - 1 {
      AncestorsAreGroups(f, Parent(p), k);
      assert Parent(p)[..k] == p[..k];
    } else {
      assert p[..k] == Parent(p);
    }
  }

  /** Everything `f` holds is still in `g`, unchanged. */
  ghost predicate Extends(f: File, g: File) {
    forall q :: q in f.nodes ==> q in g.nodes && g.nodes[q] == f.nodes[q]
  }

  predicate IsPrefix(q: Path, p: Path) {
    |q| <= |p| && q == p[..|q|]
  }

  /** Objects present in `g` but not in `f` are empty groups on the way to `p`. */
  ghost predicate OnlyGroupsTowards(f: File, g: File, p: Path) {
    forall q :: q in g.nodes && q !in f.nodes ==> IsPrefix(q, p) && g.nodes[q] == Group(map[])
  }

  /** Attaching a new object under an existing group keeps the file well formed. */
  lemma AddChildWellFormed(g: File, p: Path, node: Node)
    requires WellFormed(g) && p != [] && p !in g.nodes
    requires Parent(p) in g.nodes && g.nodes[Parent(p)].Group?
    ensures WellFormed(File(g.nodes[p := node]))
  {
    var h := File(g.nodes[p := node]);
    forall q | q in h.nodes && q != [] ensures Parent(q) in h.nodes && h.nodes[Parent(q)].Group? {
      if q != p {
        assert q in g.nodes;
      }
    }
  }

  /** A name that is not an object is blocked exactly when its parent is. */
  lemma BlockedStep(f: File, p: Path)
    requires p != [] && p !in f.nodes
    ensures Blocked(f, p) <==> Blocked(f, Parent(p))
  {
    var up := Parent(p);
    assert p[..|p|] == p;
    forall k | 0 <= k <= |up| ensures up[..k] == p[..k] { }
    if Blocked(f, p) {
      var k :| 0 <= k <= |p| && p[..k] in f.nodes && !f.nodes[p[..k]].Group?;
      assert k <= |up|;
    }
  }

  /** An existing group is never blocked: all its ancestors are groups. */
  lemma GroupNotBlocked(f: File, p: Path)
    requires WellFormed(f) && p in f.nodes && f.nodes[p].Group?
    ensures !Blocked(f, p)
  {
    forall k | 0 <= k <= |p| && p[..k] in f.nodes ensures f.nodes[p[..k]].Group? {
      if k < |p| { AncestorsAreGroups(f, p, k); } else { assert p[..k] == p; }
    }
  }

  /** `file.require_group(name)`: returns the existing group, or creates it
      together with any missing parent groups; raises TypeError when the name
      or one of its parents is an object of another kind. */
  function RequireGroup(f: File, p: Path): (r: Result<File>)
    requires WellFormed(f)
    ensures r.Err? <==> Blocked(f, p)
    ensures r.Ok? ==> WellFormed(r.value) && Extends(f, r.value)
    ensures r.Ok? ==> p in r.value.nodes && r.value.nodes[p].Group?
    ensures r.Ok? ==> OnlyGroupsTowards(f, r.value, p)
    decreases |p|
  {
    if p in f.nodes then
      if f.nodes[p].Group? then
        GroupNotBlocked(f, p);
        Ok(f)
      else
        assert p[..|p|] == p;
        Err(TypeError)
    else
      BlockedStep(f, p);
      var g :- RequireGroup(f, Parent(p));
      NewGroupUnderParent(f, g, p);
      Ok(File(g.nodes[p := Group(map[])]))
  }

  /** The last step of `require_group`: once the parent exists, adding the
      missing group keeps the file well formed and adds nothing off the
      path. */
  lemma NewGroupUnderParent(f: File, g: File, p: Path)
    requires p != [] && p !in f.nodes
    requires WellFormed(g) && Extends(f, g)
    requires Parent(p) in g.nodes && g.nodes[Parent(p)].Group?
    requires OnlyGroupsTowards(f, g, Parent(p))
    ensures p !in g.nodes
    ensures var h := File(g.nodes[p := Group(map[])]);
            WellFormed(h) && Extends(f, h) && OnlyGroupsTowards(f, h, p)
  {
    AddChildWellFormed(g, p, Group(map[]));
    var h := File(g.nodes[p := Group(map[])]);
    forall q | q in h.nodes && q !in f.nodes ensures IsPrefix(q, p) && h.nodes[q] == Group(map[]) {
      if q != p {
        assert IsPrefix(q, Parent(p));
        assert Parent(p)[..|q|] == p[..|q|];
      }
    }
  }

  /** Creates a new object at `p`, creating missing parent groups (h5py's
      link creation property list asks for intermediate groups). An existing
      name raises ValueError, as does the root. */
  function CreateNode(f: File, p: Path, node: Node): (r: Result<File>)
    requires WellFormed(f)
    ensures r.Ok? <==> p != [] && p !in f.nodes && !Blocked(f, Parent(p))
    ensures r.Ok? ==> WellFormed(r.value) && Extends(f, r.value)
    ensures r.Ok? ==> p in r.value.nodes && r.value.nodes[p] == node
    ensures r.Ok? ==> forall q :: q in r.value.nodes && q !in f.nodes && q != p ==>
                        IsPrefix(q, Parent(p)) && r.value.nodes[q] == Group(map[])
  {
    if p == [] || p in f.nodes then Err(ValueError("name already exists"))
    else
      var g :- RequireGroup(f, Parent(p));
      AddChildWellFormed(g, p, node);
      Ok(File(g.nodes[p := node]))
  }

  /** A chunked dataset whose first axis is unbounded, as the writers create them. */
  predicate Resizable(f: File, p: Path) {
    && p in f.nodes && f.nodes[p].Dataset? && f.nodes[p].content.Chunked?
    && |f.nodes[p].content.shape| >= 1 && |f.nodes[p].content.maxShape| >= 1
    && f.nodes[p].content.maxShape[0].None?
  }

  /** The extent of the first axis of a chunked dataset. */
  function Length(f: File, p: Path): int
    requires p in f.nodes && f.nodes[p].Dataset? && f.nodes[p].content.Chunked?
    requires |f.nodes[p].content.shape| >= 1
  {
    f.nodes[p].content.shape[0]
  }

  /** `dataset.resize(size, axis=0)` on a chunked dataset with an unbounded
      first axis; shrinking discards the frames past the new end. */
  function Resize(f: File, p: Path, size: int): (r: Result<File>)
    requires WellFormed(f)
    ensures r.Ok? ==> WellFormed(r.value) && r.value.nodes.Keys == f.nodes.Keys
    ensures r.Ok? <==> Resizable(f, p) && size >= 0
    ensures r.Ok? ==> var c := f.nodes[p].content;
                      r.value.nodes[p] == Dataset(c.(shape := [size] + c.shape[1..],
                                                     frames := map i | i in c.frames && i < size :: c.frames[i]),
                                                  f.nodes[p].attrs)
    ensures r.Ok? ==> forall q :: q in f.nodes && q != p ==> r.value.nodes[q] == f.nodes[q]
  {
    if p !in f.nodes || !f.nodes[p].Dataset? || !f.nodes[p].content.Chunked? then Err(TypeError)
    else
      var n := f.nodes[p];
      var c := n.content;
      if |c.shape| < 1 || |c.maxShape| < 1 || !c.maxShape[0].None? || size < 0 then Err(ValueError("invalid resize"))
      else
        var kept := map i | i in c.frames && i < size :: c.frames[i];
        Ok(File(f.nodes[p := Dataset(c.(shape := [size] + c.shape[1..], frames := kept), n.attrs)]))
  }

  /** The number of axes of a chunked dataset. */
  function Rank(f: File, p: Path): nat
    requires p in f.nodes && f.nodes[p].Dataset? && f.nodes[p].content.Chunked?
  {
    |f.nodes[p].content.shape|
  }

  /** `dataset.id.write_direct_chunk(offset, data)` with an offset
      `(index, 0, ..., 0)` of `offsetRank` entries: an offset whose length is
      not the dataset's rank raises TypeError; otherwise the frame is stored
      inside the current extent of the first axis. */
  function WriteChunk(f: File, p: Path, offsetRank: nat, index: int, data: seq<byte>): (r: Result<File>)
    requires WellFormed(f)
    ensures r.Ok? ==> WellFormed(r.value) && r.value.nodes.Keys == f.nodes.Keys
    ensures r.Ok? <==> p in f.nodes && f.nodes[p].Dataset? && f.nodes[p].content.Chunked?
                       && Rank(f, p) == offsetRank && offsetRank >= 1 && 0 <= index < f.nodes[p].content.shape[0]
    ensures p in f.nodes && f.nodes[p].Dataset? && f.nodes[p].content.Chunked? && Rank(f, p) != offsetRank ==>
              r == Err(TypeError)
    ensures r.Ok? ==> r.value.nodes[p].Dataset?
                      && r.value.nodes[p].content == f.nodes[p].content.(frames := f.nodes[p].content.frames[index := data])
    ensures r.Ok? ==> forall q :: q in f.nodes && q != p ==> r.value.nodes[q] == f.nodes[q]
  {
    if p !in f.nodes || !f.nodes[p].Dataset? || !f.nodes[p].content.Chunked? then Err(TypeError)
    else
      var n := f.nodes[p];
      var c := n.content;
      if |c.shape| != offsetRank then Err(TypeError)
      else if |c.shape| < 1 || !(0 <= index < c.shape[0]) then Err(ValueError("chunk offset outside the dataset"))
      else Ok(File(f.nodes[p := Dataset(c.(frames := c.frames[index := data]), n.attrs)]))
  }

  /** `obj.attrs[name] = value` on a group or dataset. */
  function SetAttr(f: File, p: Path, name: string, value: Value): (r: Result<File>)
    requires WellFormed(f)
    ensures r.Ok? <==> p in f.nodes && !f.nodes[p].ExternalLink?
    ensures r.Ok? ==> WellFormed(r.value) && r.value.nodes.Keys == f.nodes.Keys
    ensures r.Ok? ==> r.value.nodes[p].Group? == f.nodes[p].Group? && !r.value.nodes[p].ExternalLink?
                      && r.value.nodes[p].attrs == f.nodes[p].attrs[name := value]
                      && (f.nodes[p].Dataset? ==> r.value.nodes[p].content == f.nodes[p].content)
    ensures r.Ok? ==> forall q :: q in f.nodes && q != p ==> r.value.nodes[q] == f.nodes[q]
  {
    if p !in f.nodes then Err(KeyError(name))
    else match f.nodes[p]
      case Group(a) => Ok(File(f.nodes[p := Group(a[name := value])]))
      case Dataset(c, a) => Ok(File(f.nodes[p := Dataset(c, a[name := value])]))
      case ExternalLink(_, _) => Err(Unmodelled)
  }
}

=== FILE: h5_filters.dfy ===
/** h5py's checks of the storage arguments of `create_dataset`: the
    compression filter and its options, the chunk shape and the dataset
    shape. They run while the dataset is made, before it is linked into
    the file under its name, so an argument error is raised even when the
    name is already taken. Where h5py's message embeds the `repr` of a value
    the model keeps only the text before it. */
module H5Filters {
  import opened Wrappers
  import opened Values
  import Text

  /** The filter a dataset's chunks pass through. */
  datatype Filter = NoFilter | Gzip | Lzf | Szip | Numbered(id: int)

  /** The number under which h5py registers its LZF filter when imported.
      HDF5's own filters have the numbers 1 to 6, which `create_dataset`
      reads as gzip levels. */
  const LzfFilterId: int := 32000
  /** The bitshuffle filter, registered by importing `bitshuffle.h5`, which
      the node scripts do before they configure a writer with it. */
  const BitshuffleFilterId: int := 32008
  /** The numbered filters `filter_avail` finds. */
  const RegisteredFilters: set<int> := {LzfFilterId, BitshuffleFilterId}

  /** A C `int` holds -IntLimit .. IntLimit - 1; a C `unsigned int` holds
      0 .. UnsignedLimit - 1. */
  const IntLimit: int := 0x8000_0000
  const UnsignedLimit: int := 0x1_0000_0000

  const GzipLevelMessage: string := "GZIP setting must be an integer from 0-9, not "
  const LzfOptionsMessage: string := "LZF compression filter accepts no options"
  const SzipOptionsMessage: string := "SZIP options must be a 2-tuple ('ec'|'nn', even integer 0-32)"
  const UnavailablePrefix: string := "Compression filter \""
  /** HDF5's reason for refusing a chunk shape with an empty axis. */
  const ChunkDimensionsMessage: string := "all chunk dimensions must be positive"

  /** The names h5py lists as filters besides the three compressors. */
  const OtherFilterNames: set<string> := {"shuffle", "fletcher32", "scaleoffset"}

  /** `'Compression filter "%s" is unavailable' % compression`. */
  function UnavailableMessage(compression: Value): string {
    if compression.Str? then UnavailablePrefix + compression.s + "\" is unavailable" else UnavailablePrefix
  }

  function UnknownNumberMessage(id: int): string {
    "Unknown compression filter number: " + Text.IntToString(id)
  }

  /** `compression in frozenset(range(10))`: the legacy spelling of a gzip
      level, as an int, a bool or an integral float from 0 to 9. */
  predicate LegacyLevel(v: Value) {
    match v
    case Bool(_) => true
    case Int(i) => 0 <= i < 10
    case Float(x) => x.Floor as real == x && 0.0 <= x < 10.0
    case _ => false
  }

  /** Gzip refuses every options tuple: a tuple is never `in range(10)`.
      The message is built with `"... not %r" % compression_opts`, which
      takes the tuple's items as the format's arguments, so only a
      one-item tuple reaches the ValueError; any other count makes the
      formatting itself raise TypeError. */
  function GzipOptionsError(xs: seq<Value>): (e: Error)
    ensures |xs| == 1 <==> e.ValueError?
    ensures |xs| != 1 ==> e == TypeError
  {
    if |xs| == 1 then ValueError(GzipLevelMessage) else TypeError
  }

  /** A valid szip pixel count: an even integer from 2 to 32. */
  predicate SzipPixels(v: Value) {
    IsIntegral(v) && 0 < AsInt(v) <= 32 && AsInt(v) % 2 == 0
  }

  /** A valid szip options pair: a method `'ec'` or `'nn'` and a pixel count. */
  predicate SzipPair(xs: seq<Value>) {
    |xs| == 2 && (xs[0] == Str("ec") || xs[0] == Str("nn")) && SzipPixels(xs[1])
  }

  /** `szmethod, szpix = compression_opts` and the checks that follow. The
      unpacking raises ValueError for a tuple of another length; the pixel
      test `0 < szpix <= 32 and szpix % 2 == 0` raises TypeError for a value
      that does not compare with an int. A float that passes it reaches
      HDF5 as a C integer, which the model does not follow. */
  function SzipOptions(xs: seq<Value>): (r: Result<()>)
    ensures r.Ok? <==> SzipPair(xs)
    ensures |xs| > 2 ==> r == Err(ValueError("too many values to unpack (expected 2)"))
    ensures |xs| < 2 ==> r == Err(ValueError("not enough values to unpack (expected 2, got "
                                             + Text.IntToString(|xs|) + ")"))
    ensures |xs| == 2 && xs[0] != Str("ec") && xs[0] != Str("nn") ==> r == Err(ValueError(SzipOptionsMessage))
    ensures |xs| == 2 && (xs[0] == Str("ec") || xs[0] == Str("nn")) && IsIntegral(xs[1]) && !SzipPixels(xs[1]) ==>
              r == Err(ValueError(SzipOptionsMessage))
  {
    if |xs| > 2 then Err(ValueError("too many values to unpack (expected 2)"))
    else if |xs| < 2 then Err(ValueError("not enough values to unpack (expected 2, got " + Text.IntToString(|xs|) + ")"))
    else if xs[0] != Str("ec") && xs[0] != Str("nn") then Err(ValueError(SzipOptionsMessage))
    else
      match xs[1]
      case Bool(_) => Err(ValueError(SzipOptionsMessage))
      case Int(p) => if 0 < p <= 32 && p % 2 == 0 then Ok(()) else Err(ValueError(SzipOptionsMessage))
      case Float(x) =>
        if 0.0 < x <= 32.0 && (x / 2.0).Floor as real == x / 2.0 then Err(Unmodelled)
        else Err(ValueError(SzipOptionsMessage))
      case FixedStr(_) => Err(Unmodelled)
      case _ => Err(TypeError)
  }

  /** The filter `create_dataset(compression=..., compression_opts=opts)`
      selects, with `opts` already a tuple or None. In h5py's order: `True`
      means gzip (level 4 unless options are given); a value in
      `frozenset(range(10))` is a legacy gzip level, for which options
      conflict; an unhashable value fails that membership test; then the
      name must be an available filter or an int, and the named filters
      check their options. */
  function ResolveFilter(compression: Value, opts: Option<seq<Value>>): (r: Result<Filter>)
    ensures compression.Null? ==> (r.Ok? <==> opts.None?) && (r.Ok? ==> r.value == NoFilter)
    ensures compression.Null? && opts.Some? ==> r == Err(TypeError)
    ensures compression == Bool(true) || compression == Str("gzip") ==>
              (r.Ok? <==> opts.None?) && (r.Ok? ==> r.value == Gzip)
              && (opts.Some? ==> r == Err(GzipOptionsError(opts.value)))
    ensures compression == Str("lzf") ==>
              (r.Ok? <==> opts.None?) && (r.Ok? ==> r.value == Lzf)
              && (opts.Some? ==> r == Err(ValueError(LzfOptionsMessage)))
    ensures compression == Str("szip") ==>
              (r.Ok? <==> opts.None? || SzipPair(opts.value)) && (r.Ok? ==> r.value == Szip)
    ensures compression != Bool(true) && LegacyLevel(compression) && opts.Some? ==> r == Err(TypeError)
    ensures (compression == Bool(false) || (compression.Int? && LegacyLevel(compression))) && opts.None? ==>
              r == Ok(Gzip)
    ensures compression.Int? && !LegacyLevel(compression) ==> r == Ok(Numbered(compression.i))
    ensures !Hashable(compression) ==> r == Err(TypeError)
    ensures compression.Str? && compression.s !in OtherFilterNames + {"gzip", "lzf", "szip"} ==>
              r == Err(ValueError(UnavailableMessage(compression)))
    ensures compression.Bytes? || compression.FixedStr? || compression.Callable?
            || (compression.Float? && !LegacyLevel(compression)) ==>
              r == Err(ValueError(UnavailableMessage(compression)))
    ensures r.Ok? && r.value.Numbered? ==> compression == Int(r.value.id) && !LegacyLevel(compression)
  {
    if compression == Bool(true) then
      if opts.None? then Ok(Gzip) else Err(GzipOptionsError(opts.value))
    else if !Hashable(compression) then Err(TypeError)
    else if LegacyLevel(compression) then
      if opts.Some? then Err(TypeError)
      // A float level reaches HDF5 as a C integer, which the model does not follow.
      else if compression.Float? then Err(Unmodelled)
      else Ok(Gzip)
    else
      match compression
      case Null => if opts.None? then Ok(NoFilter) else Err(TypeError)
      case Int(i) => Ok(Numbered(i))
      case Str(s) =>
        if s == "gzip" then
          if opts.None? then Ok(Gzip) else Err(GzipOptionsError(opts.value))
        else if s == "lzf" then
          if opts.None? then Ok(Lzf) else Err(ValueError(LzfOptionsMessage))
        else if s == "szip" then
          if opts.None? then Ok(Szip)
          else
            var _ :- SzipOptions(opts.value);
            Ok(Szip)
        else if s in OtherFilterNames then Err(Unmodelled)
        else Err(ValueError(UnavailableMessage(compression)))
      // `'... "%s" ...' % compression` with a tuple: only one item formats.
      case Tuple(xs) => if |xs| == 1 then Err(ValueError(UnavailableMessage(compression))) else Err(TypeError)
      case _ => Err(ValueError(UnavailableMessage(compression)))
  }

  /** Options are accepted only by szip, as a valid pair, and by a numbered
      filter; gzip and lzf refuse them, and so does a missing filter. */
  lemma OptionsOnlyForSzipOrNumbered(compression: Value, xs: seq<Value>)
    requires ResolveFilter(compression, Some(xs)).Ok?
    ensures || (compression == Str("szip") && SzipPair(xs))
            || (compression.Int? && !LegacyLevel(compression))
  {
  }

  /** Every filter name h5py knows is accepted without options, apart from
      the legacy float levels and the other filters the model leaves open. */
  lemma NoOptionsAccepted(compression: Value)
    requires compression.Null? || compression.Bool? || compression.Int?
             || compression in {Str("gzip"), Str("lzf"), Str("szip")}
    ensures ResolveFilter(compression, None).Ok?
  {
  }

  /** `set_chunk(chunks)`: each axis is converted to an unsigned 64-bit
      size, so a negative one overflows; HDF5 then refuses an empty axis. */
  function ChunkDimensions(chunks: seq<int>): (r: Result<()>)
    ensures r.Ok? <==> forall i :: 0 <= i < |chunks| ==> chunks[i] > 0
    ensures (exists i :: 0 <= i < |chunks| && chunks[i] < 0) ==> r == Err(OverflowError)
    ensures r.Err? && (forall i :: 0 <= i < |chunks| ==> chunks[i] >= 0) ==> r == Err(ValueError(ChunkDimensionsMessage))
  {
    if exists i :: 0 <= i < |chunks| && chunks[i] < 0 then Err(OverflowError)
    else if exists i :: 0 <= i < |chunks| && chunks[i] == 0 then Err(ValueError(ChunkDimensionsMessage))
    else Ok(())
  }

  /** `int(x)` for a real: Python's `int` truncates toward zero. */
  function Truncate(x: real): (n: int)
    ensures x >= 0.0 ==> n as real <= x < n as real + 1.0
    ensures x < 0.0 ==> n as real - 1.0 < x <= n as real
  {
    if x >= 0.0 then x.Floor else -((-x).Floor)
  }

  /** One filter option as `set_filter` stores it: `int(value)` assigned to a
      C `unsigned int`. The text forms `int` parses are not modelled. */
  function UnsignedOption(v: Value): (r: Result<int>)
    ensures r.Ok? ==> 0 <= r.value < UnsignedLimit
    ensures IsIntegral(v) ==> (r.Ok? <==> 0 <= AsInt(v) < UnsignedLimit) && (r.Ok? ==> r.value == AsInt(v))
    ensures IsIntegral(v) && r.Err? ==> r == Err(OverflowError)
    ensures v.Null? || v.List? || v.Tuple? || v.Dict? || v.Callable? ==> r == Err(TypeError)
  {
    match v
    case Bool(_) => Ok(AsInt(v))
    case Int(i) => if 0 <= i < UnsignedLimit then Ok(i) else Err(OverflowError)
    case Float(x) => var n := Truncate(x); if 0 <= n < UnsignedLimit then Ok(n) else Err(OverflowError)
    case Str(_) => Err(Unmodelled)
    case Bytes(_) => Err(Unmodelled)
    case FixedStr(_) => Err(Unmodelled)
    case _ => Err(TypeError)
  }

  /** The options of a numbered filter, converted in order up to the first
      that fails. */
  function FilterValues(xs: seq<Value>): (r: Result<seq<int>>)
    ensures r.Ok? <==> forall i :: 0 <= i < |xs| ==> UnsignedOption(xs[i]).Ok?
    ensures r.Ok? ==> |r.value| == |xs| && forall i :: 0 <= i < |xs| ==> r.value[i] == UnsignedOption(xs[i]).value
    decreases |xs|
  {
    if |xs| == 0 then Ok([])
    else
      var first :- UnsignedOption(xs[0]);
      var rest :- FilterValues(xs[1..]);
      Ok([first] + rest)
  }

  /** `filter_avail(id)` and `set_filter(id, FLAG_OPTIONAL, opts)`: the
      number must fit a C int and name a registered filter, and each option
      must fit a C unsigned int. */
  function NumberedFilter(id: int, opts: Option<seq<Value>>): (r: Result<seq<int>>)
    ensures r.Ok? <==> id in RegisteredFilters && (opts.Some? ==> FilterValues(opts.value).Ok?)
    ensures !(-IntLimit <= id < IntLimit) ==> r == Err(OverflowError)
    ensures 0 <= id < IntLimit && id !in RegisteredFilters ==> r == Err(ValueError(UnknownNumberMessage(id)))
    ensures r.Ok? && opts.Some? ==> r == FilterValues(opts.value)
  {
    if !(-IntLimit <= id < IntLimit) then Err(OverflowError)
    // HDF5 reports an error for a negative filter number; its kind is not modelled.
    else if id < 0 then Err(Unmodelled)
    else if id !in RegisteredFilters then Err(ValueError(UnknownNumberMessage(id)))
    else if opts.None? then Ok([])
    else FilterValues(opts.value)
  }

  /** Every storage argument `create_dataset` checks, in its order, for a
      dataset of `initialCount` frames of `frameSize`, chunked one frame at a
      time with an unbounded first axis: the filter and its options, the
      chunk shape, the numbered filter's registration and options, and
      last the shape itself, whose first axis must not be negative. */
  function DatasetArguments(initialCount: int, frameSize: seq<int>, compression: Value,
                            opts: Option<seq<Value>>): (r: Result<Filter>)
    ensures r.Ok? <==> && ResolveFilter(compression, opts).Ok?
                       && (forall i :: 0 <= i < |frameSize| ==> frameSize[i] > 0)
                       && (ResolveFilter(compression, opts).value.Numbered? ==>
                             NumberedFilter(ResolveFilter(compression, opts).value.id, opts).Ok?)
                       && initialCount >= 0
    ensures r.Ok? ==> r == ResolveFilter(compression, opts)
    ensures ResolveFilter(compression, opts).Err? ==> r == Err(ResolveFilter(compression, opts).error)
    ensures ResolveFilter(compression, opts).Ok? && (exists i :: 0 <= i < |frameSize| && frameSize[i] < 0) ==>
              r == Err(OverflowError)
  {
    var filter :- ResolveFilter(compression, opts);
    var chunks := [1] + frameSize;
    assert forall i :: 0 <= i < |frameSize| ==> chunks[i + 1] == frameSize[i];
    assert forall j :: 0 < j < |chunks| ==> chunks[j] == frameSize[j - 1];
    var _ :- ChunkDimensions(chunks);
    var _ :- if filter.Numbered? then NumberedFilter(filter.id, opts) else Ok([]);
    if initialCount < 0 then Err(OverflowError) else Ok(filter)
  }

  /** Gzip with a one-level options tuple, `compression_opts=(4,)`, is refused:
      the level must be given bare, which a tuple never is. */
  lemma GzipOptionsRejected(initialCount: int, frameSize: seq<int>)
    ensures DatasetArguments(initialCount, frameSize, Str("gzip"), Some([Int(4)])) == Err(ValueError(GzipLevelMessage))
  {
  }

  /** The bitshuffle configuration of the node scripts, filter 32008 with
      a block size of 2048 and LZ4 (option 2), is accepted for any frame
      shape with positive axes. */
  lemma BitshuffleConfigurationAccepted(initialCount: nat, frameSize: seq<int>)
    requires forall i :: 0 <= i < |frameSize| ==> frameSize[i] > 0
    ensures DatasetArguments(initialCount, frameSize, Int(BitshuffleFilterId), Some([Int(2048), Int(2)]))
              == Ok(Numbered(BitshuffleFilterId))
  {
    assert FilterValues([Int(2)]).Ok?;
  }

  /** A numbered filter that is not registered is refused by number. */
  lemma UnregisteredFilterRejected(initialCount: int, frameSize: seq<int>, id: int)
    requires 10 <= id < IntLimit && id !in RegisteredFilters
    requires forall i :: 0 <= i < |frameSize| ==> frameSize[i] > 0
    ensures DatasetArguments(initialCount, frameSize, Int(id), None) == Err(ValueError(UnknownNumberMessage(id)))
  {
  }

  /** A frame with an empty axis cannot be chunked. */
  lemma EmptyFrameAxisRejected(initialCount: int, frameSize: seq<int>, i: nat)
    requires i < |frameSize| && frameSize[i] == 0
    requires forall j :: 0 <= j < |frameSize| ==> frameSize[j] >= 0
    ensures DatasetArguments(initialCount, frameSize, Null, None) == Err(ValueError(ChunkDimensionsMessage))
  {
    assert ([1] + frameSize)[i + 1] == 0;
  }

  /** Without compression, the arguments pass exactly when every frame axis
      is positive and the initial frame count is not negative. */
  lemma UncompressedArguments(initialCount: int, frameSize: seq<int>)
    ensures DatasetArguments(initialCount, frameSize, Null, None).Ok? <==>
              (forall i :: 0 <= i < |frameSize| ==> frameSize[i] > 0) && initialCount >= 0
  {
  }
}

=== FILE: h5_utils.dfy ===
/** The h5py helpers the writers share: `path:attribute` keys, parent-group
    creation, chunked dataset creation, datasets created from values, and
    growing or compacting the first axis of a dataset. */
module H5Utils {
  import opened Wrappers
  import opened Values
  import Text
  import opened H5
  import H5Filters

  /** Default extent of the first axis of a new chunked dataset. */
  const DatasetInitialFrameCount: int := 100
  /** Default growth of the first axis when a frame does not fit. */
  const DatasetFramesIncreaseStep: int := 100

  // ---------------------------------------------------------------------
  // "object:attribute" keys
  // ---------------------------------------------------------------------

  /** `object_name, attribute_name = key.split(":")`; unpacking anything but
      two pieces raises ValueError. */
  function SplitAttributeKey(key: string): (r: Result<(string, string)>)
    ensures r.Ok? <==> Text.CountChar(key, ':') == 1
    ensures r.Ok? ==> ':' !in r.value.0 && ':' !in r.value.1 && key == r.value.0 + ":" + r.value.1
    ensures r.Err? ==> r.error.ValueError?
  {
    var parts := Text.Split(key, ':');
    Text.SplitLength(key, ':');
    if |parts| != 2 then Err(ValueError("expected exactly one ':' in the key"))
    else
      Text.JoinSplit(key, ':');
      assert Text.Join(parts, ':') == parts[0] + [':'] + parts[1];
      Ok((parts[0], parts[1]))
  }

  /** Composing a key and splitting it again gives back both names. */
  lemma AttributeKeyRoundTrip(objectName: string, attributeName: string)
    requires ':' !in objectName && ':' !in attributeName
    ensures SplitAttributeKey(objectName + ":" + attributeName) == Ok((objectName, attributeName))
  {
    var parts := [objectName, attributeName];
    assert Text.Join(parts, ':') == objectName + ":" + attributeName;
    Text.SplitJoin(parts, ':');
    Text.SplitLength(objectName + ":" + attributeName, ':');
  }

  /** The object path and attribute name a key designates, when it splits. */
  function Target(key: string): Option<(Path, string)> {
    match SplitAttributeKey(key)
    case Ok(names) => Some((PathOf(names.0), names.1))
    case Err(_) => None
  }

  /** No later item sets the same attribute of the same object as item `i`. */
  predicate LastWriter(items: seq<(string, Value)>, i: nat)
    requires i < |items|
  {
    forall j :: i < j < |items| ==> Target(items[j].0) != Target(items[i].0)
  }

  /** No item sets attribute `a` of the object at `q`. */
  predicate Untargeted(items: seq<(string, Value)>, q: Path, a: string) {
    forall j :: 0 <= j < |items| ==> Target(items[j].0) != Some((q, a))
  }

  // ---------------------------------------------------------------------
  // Parent groups
  // ---------------------------------------------------------------------

  /** `"/".join(name.split("/")[:-1])`: the text before the last slash. */
  function ParentGroupName(name: string): string {
    var parts := Text.Split(name, '/');
    if |parts| == 1 then "" else Text.Join(parts[..|parts| - 1], '/')
  }

  /** For a name without a trailing slash, the group text names exactly the
      parent of the object the whole name designates. */
  lemma ParentGroupPath(name: string)
    requires name != "" && name[|name| - 1] != '/'
    ensures PathOf(name) != []
    ensures PathOf(ParentGroupName(name)) == Parent(PathOf(name))
  {
    var parts := Text.Split(name, '/');
    var n := |parts|;
    var init := parts[..n - 1];
    var last := parts[n - 1];
    assert parts == init + [last];
    LastPartNonEmpty(name);
    DropEmptyLast(init, last);
    if n == 1 {
      assert Text.Split("", '/') == [""];
      assert DropEmpty(init) == [];
    } else {
      Text.SplitJoin(init, '/');
    }
  }

  /** A name that does not end in a slash has a non-empty last piece. */
  lemma LastPartNonEmpty(name: string)
    requires name != "" && name[|name| - 1] != '/'
    ensures var parts := Text.Split(name, '/'); parts[|parts| - 1] != ""
  {
    var parts := Text.Split(name, '/');
    var n := |parts|;
    Text.JoinSplit(name, '/');
    if n > 1 {
      var init := parts[..n - 1];
      assert parts == init + [parts[n - 1]];
      Text.JoinAppend(init, parts[n - 1], '/');
    }
  }

  /** A non-empty last piece survives as the last path component. */
  lemma DropEmptyLast(init: seq<string>, last: string)
    requires last != ""
    ensures DropEmpty(init + [last]) == DropEmpty(init) + [last]
  {
    DropEmptyAppend(init, [last]);
    assert [last][1..] == [];
  }

  /** After stripping trailing slashes, the group text names the parent of the
      dataset, and it is empty when the stripped name designates no object. */
  lemma StrippedParent(name: string)
    ensures var s := Text.RStripChar(name, '/');
            && (PathOf(s) != [] ==> PathOf(ParentGroupName(s)) == Parent(PathOf(s)))
            && (PathOf(s) == [] ==> ParentGroupName(s) == "")
  {
    var s := Text.RStripChar(name, '/');
    if s != "" {
      ParentGroupPath(s);
    } else {
      assert Text.Split(s, '/') == [""];
    }
  }

  /** The path a dataset name designates once trailing slashes are stripped. */
  function DatasetPath(name: string): Path {
    PathOf(Text.RStripChar(name, '/'))
  }

  // ---------------------------------------------------------------------
  // create_dataset
  // ---------------------------------------------------------------------

  /** `tuple(opts) if opts else None`. */
  function CompressionOptions(opts: Value): (r: Result<Option<seq<Value>>>)
    ensures !Truthy(opts) ==> r == Ok(None)
    ensures Truthy(opts) && (opts.List? || opts.Tuple?) ==> r == Ok(Some(opts.items))
    ensures Truthy(opts) ==> (r.Ok? <==> AsTuple(opts).Ok?)
  {
    if Truthy(opts) then
      var t :- AsTuple(opts);
      Ok(Some(t))
    else Ok(None)
  }

  /** The maxshape of a chunked dataset: unbounded first axis, fixed frame axes. */
  function UnboundedFirst(frameSize: seq<int>): (r: seq<Option<int>>)
    ensures |r| == |frameSize| + 1 && r[0] == None
    ensures forall i :: 0 <= i < |frameSize| ==> r[i + 1] == Some(frameSize[i])
  {
    [None] + seq(|frameSize|, i requires 0 <= i < |frameSize| => Some(frameSize[i]))
  }

  /** `create_dataset`: strips trailing slashes, requires the parent group when
      the text before the last slash is non-empty, then creates an empty
      chunked dataset of `initialFrameCount` frames of `frameSize`. h5py
      checks the storage arguments before it links the dataset under its
      name, so their errors come before a clash with an existing object. */
  function CreateDataset(f: File, name: string, frameSize: seq<int>, dtype: Value, compression: Value,
                         compressionOpts: Value, initialFrameCount: int): (r: Result<File>)
    requires WellFormed(f)
    ensures r.Ok? <==> && CompressionOptions(compressionOpts).Ok?
                       && H5Filters.DatasetArguments(initialFrameCount, frameSize, compression,
                                                     CompressionOptions(compressionOpts).value).Ok?
                       && DatasetPath(name) != [] && DatasetPath(name) !in f.nodes
                       && !Blocked(f, Parent(DatasetPath(name)))
    ensures && DatasetPath(name) != [] && !Blocked(f, Parent(DatasetPath(name)))
            && CompressionOptions(compressionOpts).Ok?
            && H5Filters.DatasetArguments(initialFrameCount, frameSize, compression,
                                          CompressionOptions(compressionOpts).value).Err? ==>
              r == Err(H5Filters.DatasetArguments(initialFrameCount, frameSize, compression,
                                                  CompressionOptions(compressionOpts).value).error)
    ensures r.Ok? ==> WellFormed(r.value) && Extends(f, r.value)
    ensures r.Ok? ==> var p := DatasetPath(name);
                      && p in r.value.nodes && r.value.nodes[p].Dataset?
                      && r.value.nodes[p].attrs == map[]
                      && var c := r.value.nodes[p].content;
                      && c.Chunked?
                      && c.shape == [initialFrameCount] + frameSize
                      && c.maxShape == UnboundedFirst(frameSize)
                      && c.chunks == [1] + frameSize
                      && c.dtype == dtype && c.compression == compression
                      && Ok(c.compressionOpts) == CompressionOptions(compressionOpts)
                      && c.frames == map[]
  {
    var datasetName := Text.RStripChar(name, '/');
    var group := ParentGroupName(datasetName);
    var p := PathOf(datasetName);
    StrippedParent(name);
    var g :- RequireGroupIfNamed(f, group, p);
    var opts :- CompressionOptions(compressionOpts);
    var _ :- H5Filters.DatasetArguments(initialFrameCount, frameSize, compression, opts);
    var content := Chunked([initialFrameCount] + frameSize, UnboundedFirst(frameSize), [1] + frameSize,
                           dtype, compression, opts, map[]);
    CreateNode(g, p, Dataset(content, map[]))
  }

  /** `if group: file.require_group(group)`, with the facts `CreateDataset`
      needs about the object that is created next at `p`. */
  function RequireGroupIfNamed(f: File, group: string, p: Path): (r: Result<File>)
    requires WellFormed(f)
    requires p != [] ==> PathOf(group) == Parent(p)
    requires p == [] ==> group == ""
    ensures r.Ok? ==> WellFormed(r.value) && Extends(f, r.value)
    ensures p != [] ==> (r.Err? <==> Blocked(f, Parent(p)))
    ensures r.Ok? && p != [] ==> (p in r.value.nodes <==> p in f.nodes) && !Blocked(r.value, Parent(p))
    ensures group == "" ==> r == Ok(f)
  {
    if group == "" then
      GroupNotBlocked(f, []);
      assert PathOf("") == [] by { assert DropEmpty([""]) == []; }
      Ok(f)
    else
      var g :- RequireGroup(f, PathOf(group));
      GroupNotBlocked(g, Parent(p));
      Ok(g)
  }

  // ---------------------------------------------------------------------
  // create_datasets_from_data
  // ---------------------------------------------------------------------

  /** The stored value of a dataset created from data: `"S"` stores the value
      as a fixed-length string, another listed dtype is passed to h5py, and an
      unlisted name lets h5py choose. */
  function StoredContent(name: string, value: Value, dtypes: map<string, Value>): (c: Content)
    ensures name in dtypes && dtypes[name] == Str("S") ==> c == Stored(FixedStr(value), None)
    ensures name in dtypes && dtypes[name] != Str("S") ==> c == Stored(value, Some(dtypes[name]))
    ensures name !in dtypes ==> c == Stored(value, None)
  {
    if name in dtypes then
      if dtypes[name] == Str("S") then Stored(FixedStr(value), None) else Stored(value, Some(dtypes[name]))
    else Stored(value, None)
  }

  /** Whether h5py can make a dataset of the value: `numpy.string_` turns any
      value into text, but without a dtype None gives "One of data, shape or
      dtype must be specified", and a dict or a callable becomes a numpy
      object array, which has no HDF5 type; each raises TypeError. */
  predicate Storable(name: string, value: Value, dtypes: map<string, Value>) {
    || (name in dtypes && dtypes[name] == Str("S"))
    || (&& !value.Dict? && !value.Callable?
        && (name in dtypes || !value.Null?))
  }

  /** One iteration of `create_datasets_from_data`: `file.create_dataset`
      converts the value before it creates anything, then makes a new
      dataset under the name. */
  function CreateDatasetFromValue(f: File, name: string, value: Value, dtypes: map<string, Value>): (r: Result<File>)
    requires WellFormed(f)
    ensures !Storable(name, value, dtypes) ==> r == Err(TypeError)
    ensures r.Ok? <==> Storable(name, value, dtypes) && CreateNode(f, PathOf(name), Dataset(StoredContent(name, value, dtypes), map[])).Ok?
    ensures r.Ok? ==> r == CreateNode(f, PathOf(name), Dataset(StoredContent(name, value, dtypes), map[]))
  {
    if !Storable(name, value, dtypes) then Err(TypeError)
    else CreateNode(f, PathOf(name), Dataset(StoredContent(name, value, dtypes), map[]))
  }

  /** Every item became a new dataset holding its value, under a name that
      neither existed before nor was used by another item. */
  ghost predicate CreatedAll(items: seq<(string, Value)>, dtypes: map<string, Value>, f: File, g: File) {
    && (forall i :: 0 <= i < |items| ==>
          && PathOf(items[i].0) in g.nodes
          && g.nodes[PathOf(items[i].0)] == Dataset(StoredContent(items[i].0, items[i].1, dtypes), map[]))
    && (forall i :: 0 <= i < |items| ==> PathOf(items[i].0) !in f.nodes)
    && (forall i, j :: 0 <= i < j < |items| ==> PathOf(items[i].0) != PathOf(items[j].0))
  }

  lemma {:induction false} AppendDataset(items: seq<(string, Value)>, dtypes: map<string, Value>, f: File, g: File, h: File)
    requires |items| > 0
    requires var n := |items| - 1; var p := PathOf(items[n].0);
             && CreatedAll(items[..n], dtypes, f, g) && Extends(f, g) && Extends(g, h)
             && p !in g.nodes && p in h.nodes
             && h.nodes[p] == Dataset(StoredContent(items[n].0, items[n].1, dtypes), map[])
    ensures CreatedAll(items, dtypes, f, h)
  {
    var n := |items| - 1;
    assert forall i :: 0 <= i < n ==> items[..n][i] == items[i];
  }

  /** `create_datasets_from_data` over the dict items in their order. A
      missing `dataset_dtypes` (None) behaves as the empty map. Every item
      creates a new dataset, so a name that already exists, two items naming
      the same object, or a value h5py cannot store make it fail. */
  function CreateDatasetsFromData(f: File, items: seq<(string, Value)>, dtypes: map<string, Value>): (r: Result<File>)
    requires WellFormed(f)
    ensures r.Ok? ==> WellFormed(r.value) && Extends(f, r.value)
    ensures r.Ok? ==> CreatedAll(items, dtypes, f, r.value)
    ensures (exists i :: 0 <= i < |items| && PathOf(items[i].0) in f.nodes) ==> r.Err?
    ensures r.Ok? ==> AllStorable(items, dtypes)
    decreases |items|
  {
    if |items| == 0 then Ok(f)
    else
      var n := |items| - 1;
      var g :- CreateDatasetsFromData(f, items[..n], dtypes);
      var name := items[n].0;
      if !Storable(name, items[n].1, dtypes) then Err(TypeError)
      else
        var r := CreateNode(g, PathOf(name), Dataset(StoredContent(name, items[n].1, dtypes), map[]));
        if r.Ok? then
          AppendDataset(items, dtypes, f, g, r.value);
          StorableStep(items, dtypes);
          r
        else r
  }

  /** Every item's value can become a dataset. */
  predicate AllStorable(items: seq<(string, Value)>, dtypes: map<string, Value>) {
    forall i :: 0 <= i < |items| ==> Storable(items[i].0, items[i].1, dtypes)
  }

  lemma StorableStep(items: seq<(string, Value)>, dtypes: map<string, Value>)
    requires |items| > 0
    requires AllStorable(items[..|items| - 1], dtypes)
    requires Storable(items[|items| - 1].0, items[|items| - 1].1, dtypes)
    ensures AllStorable(items, dtypes)
  {
    var n := |items| - 1;
    assert forall i :: 0 <= i < n ==> items[..n][i] == items[i];
  }

  /** A None, dict or callable value without a dtype cannot become a dataset. */
  lemma UnstorableValueRaises(f: File, name: string, value: Value)
    requires WellFormed(f)
    requires value.Null? || value.Dict? || value.Callable?
    ensures CreateDatasetsFromData(f, [(name, value)], map[]) == Err(TypeError)
  {
    assert [(name, value)][..0] == [];
  }

  // ---------------------------------------------------------------------
  // set_group_attributes / set_dataset_attributes
  // ---------------------------------------------------------------------

  /** Attribute `t.1` of the object at `t.0` exists and holds `v`. */
  predicate AttrHolds(g: File, t: (Path, string), v: Value) {
    t.0 in g.nodes && !g.nodes[t.0].ExternalLink? && t.1 in g.nodes[t.0].attrs && g.nodes[t.0].attrs[t.1] == v
  }

  /** The effect one `path:attribute` item has on attributes: the target
      attribute holds `v`, every other attribute of an existing object keeps
      its value, and no object disappears or changes kind. */
  ghost predicate SetsOnly(f: File, g: File, t: (Path, string), v: Value) {
    && WellFormed(g)
    && AttrHolds(g, t, v)
    && (forall q :: q in f.nodes ==> q in g.nodes && g.nodes[q].Group? == f.nodes[q].Group?
                                     && g.nodes[q].ExternalLink? == f.nodes[q].ExternalLink?
                                     && (f.nodes[q].ExternalLink? ==> g.nodes[q] == f.nodes[q])
                                     && (f.nodes[q].Dataset? ==> g.nodes[q].content == f.nodes[q].content))
    && (forall q, a :: q in f.nodes && !f.nodes[q].ExternalLink? && a in f.nodes[q].attrs && (q, a) != t ==>
                         a in g.nodes[q].attrs && g.nodes[q].attrs[a] == f.nodes[q].attrs[a])
  }

  /** One iteration of `set_group_attributes`: `file.require_group(group)`
      then `group.attrs[attribute] = numpy.string_(value)`. */
  function SetGroupAttribute(f: File, key: string, value: Value): (r: Result<File>)
    requires WellFormed(f)
    ensures r.Ok? ==> Target(key).Some? && SetsOnly(f, r.value, Target(key).value, FixedStr(value))
    ensures r.Ok? ==> r.value.nodes[Target(key).value.0].Group?
    ensures Target(key).None? ==> r.Err? && r.error.ValueError?
  {
    var names :- SplitAttributeKey(key);
    var p := PathOf(names.0);
    var g :- RequireGroup(f, p);
    SetAttr(g, p, names.1, FixedStr(value))
  }

  /** Applying item after item: the value of every attribute is the one of
      the last item naming it. */
  ghost predicate LastWritersHold(items: seq<(string, Value)>, g: File, convert: Value -> Value) {
    && (forall i :: 0 <= i < |items| ==> Target(items[i].0).Some?)
    && (forall i :: 0 <= i < |items| && LastWriter(items, i) ==>
          AttrHolds(g, Target(items[i].0).value, convert(items[i].1)))
  }

  /** Objects and attributes no item names are left as they were. */
  ghost predicate KeepsUntargeted(items: seq<(string, Value)>, f: File, g: File) {
    && (forall q :: q in f.nodes ==> q in g.nodes && g.nodes[q].Group? == f.nodes[q].Group?
                                     && g.nodes[q].ExternalLink? == f.nodes[q].ExternalLink?
                                     && (f.nodes[q].ExternalLink? ==> g.nodes[q] == f.nodes[q])
                                     && (f.nodes[q].Dataset? ==> g.nodes[q].content == f.nodes[q].content))
    && (forall q, a :: q in f.nodes && !f.nodes[q].ExternalLink? && a in f.nodes[q].attrs && Untargeted(items, q, a) ==>
                         a in g.nodes[q].attrs && g.nodes[q].attrs[a] == f.nodes[q].attrs[a])
  }

  /** Appending one item to a run of items keeps both summaries. */
  lemma AppendItem(items: seq<(string, Value)>, f: File, g: File, h: File, convert: Value -> Value)
    requires |items| > 0
    requires var n := |items| - 1;
             && LastWritersHold(items[..n], g, convert) && KeepsUntargeted(items[..n], f, g)
             && Target(items[n].0).Some? && SetsOnly(g, h, Target(items[n].0).value, convert(items[n].1))
    ensures LastWritersHold(items, h, convert) && KeepsUntargeted(items, f, h)
  {
    var n := |items| - 1;
    var t := Target(items[n].0).value;
    SetsOnlyOthersKept(g, h, t, convert(items[n].1));
    AppendLastWriter(items, g, h, convert, t);
    AppendUntargeted(items, f, g, h, convert(items[n].1));
  }

  /** Every attribute other than `t` that held a value in `g` holds it in `h`. */
  ghost predicate OthersKept(g: File, h: File, t: (Path, string)) {
    forall u, w :: u != t && AttrHolds(g, u, w) ==> AttrHolds(h, u, w)
  }

  /** Setting attribute `t` leaves the value of every other attribute. */
  lemma SetsOnlyOthersKept(g: File, h: File, t: (Path, string), v: Value)
    requires SetsOnly(g, h, t, v)
    ensures AttrHolds(h, t, v) && OthersKept(g, h, t)
  {
  }

  /** The item just applied is the last writer of its attribute, and every
      earlier last writer of another attribute still holds. */
  lemma {:induction false} AppendLastWriter(items: seq<(string, Value)>, g: File, h: File, convert: Value -> Value,
                                            t: (Path, string))
    requires |items| > 0
    requires var n := |items| - 1;
             && LastWritersHold(items[..n], g, convert)
             && Target(items[n].0) == Some(t) && AttrHolds(h, t, convert(items[n].1)) && OthersKept(g, h, t)
    ensures LastWritersHold(items, h, convert)
  {
    var n := |items| - 1;
    forall i | 0 <= i < n
      ensures Target(items[i].0).Some?
    {
      assert items[..n][i] == items[i];
    }
    forall i | 0 <= i < |items| && LastWriter(items, i)
      ensures AttrHolds(h, Target(items[i].0).value, convert(items[i].1))
    {
      if i < n {
        EarlierLastWriter(items, g, h, convert, t, i);
      }
    }
  }

  /** An earlier item that stays the last writer of its attribute is not
      overwritten by the item just applied. */
  lemma EarlierLastWriter(items: seq<(string, Value)>, g: File, h: File, convert: Value -> Value,
                          t: (Path, string), i: nat)
    requires i < |items| - 1 && LastWriter(items, i)
    requires var n := |items| - 1;
             && LastWritersHold(items[..n], g, convert)
             && Target(items[n].0) == Some(t) && OthersKept(g, h, t)
    ensures Target(items[i].0).Some? && AttrHolds(h, Target(items[i].0).value, convert(items[i].1))
  {
    var n := |items| - 1;
    var init := items[..n];
    assert init[i] == items[i];
    assert LastWriter(init, i) by {
      forall j | i < j < n
        ensures Target(init[j].0) != Target(init[i].0)
      {
        assert init[j] == items[j];
      }
    }
    assert Target(items[n].0) != Target(items[i].0);
    assert AttrHolds(g, Target(items[i].0).value, convert(items[i].1));
  }

  /** An attribute no item names keeps its value across one more item. */
  lemma {:induction false} AppendUntargeted(items: seq<(string, Value)>, f: File, g: File, h: File, v: Value)
    requires |items| > 0
    requires var n := |items| - 1;
             && KeepsUntargeted(items[..n], f, g)
             && Target(items[n].0).Some? && SetsOnly(g, h, Target(items[n].0).value, v)
    ensures KeepsUntargeted(items, f, h)
  {
    var n := |items| - 1;
    var init := items[..n];
    assert forall i :: 0 <= i < n ==> init[i] == items[i];
    forall q, a | q in f.nodes && !f.nodes[q].ExternalLink? && a in f.nodes[q].attrs && Untargeted(items, q, a)
      ensures a in h.nodes[q].attrs && h.nodes[q].attrs[a] == f.nodes[q].attrs[a]
    {
      assert Untargeted(init, q, a);
      assert Target(items[n].0) != Some((q, a));
    }
  }

  function FixedString(v: Value): Value { FixedStr(v) }

  /** Every object a key names is a group. */
  ghost predicate TargetsAreGroups(items: seq<(string, Value)>, g: File) {
    forall i :: 0 <= i < |items| ==>
      (Target(items[i].0).Some? && var p := Target(items[i].0).value.0; p in g.nodes && g.nodes[p].Group?)
  }

  lemma {:induction false} AppendGroupItem(items: seq<(string, Value)>, g: File, h: File)
    requires |items| > 0
    requires var n := |items| - 1;
             && TargetsAreGroups(items[..n], g)
             && Target(items[n].0).Some? && SetsOnly(g, h, Target(items[n].0).value, FixedStr(items[n].1))
             && h.nodes[Target(items[n].0).value.0].Group?
    ensures TargetsAreGroups(items, h)
  {
    var n := |items| - 1;
    assert forall i :: 0 <= i < n ==> items[..n][i] == items[i];
  }

  /** `set_group_attributes` over the dict items in their order. */
  function SetGroupAttributes(f: File, items: seq<(string, Value)>): (r: Result<File>)
    requires WellFormed(f)
    ensures r.Ok? ==> WellFormed(r.value)
    ensures r.Ok? ==> LastWritersHold(items, r.value, FixedString) && KeepsUntargeted(items, f, r.value)
    ensures r.Ok? ==> TargetsAreGroups(items, r.value)
    ensures (exists i :: 0 <= i < |items| && Target(items[i].0).None?) ==> r.Err?
    decreases |items|
  {
    if |items| == 0 then Ok(f)
    else
      var n := |items| - 1;
      var g :- SetGroupAttributes(f, items[..n]);
      var r := SetGroupAttribute(g, items[n].0, items[n].1);
      if r.Ok? then
        AppendItem(items, f, g, r.value, FixedString);
        AppendGroupItem(items, g, r.value);
        r
      else r
  }

  /** `set_dataset_attributes` stores a `str` as a fixed-length string and
      any other value as given. */
  function DatasetAttributeValue(v: Value): (r: Value)
    ensures v.Str? ==> r == FixedStr(v)
    ensures !v.Str? ==> r == v
  {
    if v.Str? then FixedStr(v) else v
  }

  /** One iteration of `set_dataset_attributes`: the object must exist. */
  function SetDatasetAttribute(f: File, key: string, value: Value): (r: Result<File>)
    requires WellFormed(f)
    ensures r.Ok? ==> Target(key).Some? && SetsOnly(f, r.value, Target(key).value, DatasetAttributeValue(value))
    ensures r.Ok? ==> r.value.nodes.Keys == f.nodes.Keys
    ensures Target(key).None? ==> r.Err? && r.error.ValueError?
    ensures Target(key).Some? && Target(key).value.0 !in f.nodes ==>
              r == Err(ValueError("Dataset '" + key + "' does not exist."))
  {
    var names :- SplitAttributeKey(key);
    var p := PathOf(names.0);
    if p !in f.nodes then Err(ValueError("Dataset '" + key + "' does not exist."))
    else SetAttr(f, p, names.1, DatasetAttributeValue(value))
  }

  /** `set_dataset_attributes` over the dict items in their order. It creates
      nothing: a key naming a missing object raises ValueError. */
  function SetDatasetAttributes(f: File, items: seq<(string, Value)>): (r: Result<File>)
    requires WellFormed(f)
    ensures r.Ok? ==> WellFormed(r.value) && r.value.nodes.Keys == f.nodes.Keys
    ensures r.Ok? ==> LastWritersHold(items, r.value, DatasetAttributeValue) && KeepsUntargeted(items, f, r.value)
    ensures (exists i :: 0 <= i < |items| && Target(items[i].0).None?) ==> r.Err?
    ensures (exists i :: 0 <= i < |items| && Target(items[i].0).Some? && Target(items[i].0).value.0 !in f.nodes) ==> r.Err?
    decreases |items|
  {
    if |items| == 0 then Ok(f)
    else
      var n := |items| - 1;
      var g :- SetDatasetAttributes(f, items[..n]);
      var r := SetDatasetAttribute(g, items[n].0, items[n].1);
      assert forall i :: 0 <= i < n ==> items[..n][i] == items[i];
      if r.Ok? then
        AppendItem(items, f, g, r.value, DatasetAttributeValue);
        r
      else r
  }

  /** `populate_h5_file`: group attributes first, then datasets, then dataset
      attributes; a None argument behaves as an empty dict. */
  function PopulateH5File(f: File, groupAttributes: Option<seq<(string, Value)>>,
                          datasets: Option<seq<(string, Value)>>,
                          datasetAttributes: Option<seq<(string, Value)>>,
                          datasetDtypes: Option<map<string, Value>>): (r: Result<File>)
    requires WellFormed(f)
    ensures r.Ok? ==> WellFormed(r.value)
    ensures groupAttributes.GetOr([]) == [] && datasets.GetOr([]) == [] && datasetAttributes.GetOr([]) == [] ==>
              r == Ok(f)
    ensures r.Ok? ==> var ds := datasets.GetOr([]); var dtypes := datasetDtypes.GetOr(map[]);
                      forall i :: 0 <= i < |ds| ==> var p := PathOf(ds[i].0);
                        p in r.value.nodes && r.value.nodes[p].Dataset?
                        && r.value.nodes[p].content == StoredContent(ds[i].0, ds[i].1, dtypes)
    ensures r.Ok? ==> AllStorable(datasets.GetOr([]), datasetDtypes.GetOr(map[]))
    ensures r.Ok? ==> TargetsAreGroups(groupAttributes.GetOr([]), r.value)
    ensures r.Ok? ==> var ga := groupAttributes.GetOr([]); var ds := datasets.GetOr([]);
                      forall i, j :: 0 <= i < |ga| && 0 <= j < |ds| ==>
                        (Target(ga[i].0).Some? && Target(ga[i].0).value.0 != PathOf(ds[j].0))
    ensures r.Ok? ==> LastWritersHold(datasetAttributes.GetOr([]), r.value, DatasetAttributeValue)
    ensures r.Ok? ==> forall q :: q in f.nodes && f.nodes[q].ExternalLink? ==>
                        q in r.value.nodes && r.value.nodes[q] == f.nodes[q]
  {
    var g :- SetGroupAttributes(f, groupAttributes.GetOr([]));
    var h :- CreateDatasetsFromData(g, datasets.GetOr([]), datasetDtypes.GetOr(map[]));
    SetDatasetAttributes(h, datasetAttributes.GetOr([]))
  }

  // ---------------------------------------------------------------------
  // expand_dataset / compact_dataset
  // ---------------------------------------------------------------------

  /** `expand_dataset`: the first axis becomes `receivedFrameIndex + increaseStep`
      long, so with a positive step the received frame fits. */
  function ExpandDataset(f: File, p: Path, receivedFrameIndex: int, increaseStep: int): (r: Result<File>)
    requires WellFormed(f)
    ensures r.Ok? <==> Resizable(f, p) && receivedFrameIndex + increaseStep >= 0
    ensures r.Ok? ==> WellFormed(r.value) && Resizable(r.value, p)
    ensures r.Ok? ==> Length(r.value, p) == receivedFrameIndex + increaseStep
    ensures r.Ok? && increaseStep >= 1 ==> 0 <= receivedFrameIndex ==> receivedFrameIndex < Length(r.value, p)
    ensures r.Ok? ==> forall i :: i in r.value.nodes[p].content.frames <==>
                                  i in f.nodes[p].content.frames && i < receivedFrameIndex + increaseStep
    ensures r.Ok? ==> forall i :: i in r.value.nodes[p].content.frames ==>
                                  r.value.nodes[p].content.frames[i] == f.nodes[p].content.frames[i]
    ensures r.Ok? ==> r.value.nodes.Keys == f.nodes.Keys && r.value.nodes[p].attrs == f.nodes[p].attrs
    ensures r.Ok? ==> Rank(r.value, p) == Rank(f, p)
    ensures r.Ok? ==> forall q :: q in f.nodes && q != p ==> r.value.nodes[q] == f.nodes[q]
  {
    Resize(f, p, receivedFrameIndex + increaseStep)
  }

  /** `compact_dataset`: the first axis becomes `maxFrameIndex + 1` long and
      the frames up to `maxFrameIndex` are kept. */
  function CompactDataset(f: File, p: Path, maxFrameIndex: int): (r: Result<File>)
    requires WellFormed(f)
    ensures r.Ok? <==> Resizable(f, p) && maxFrameIndex >= -1
    ensures r.Ok? ==> WellFormed(r.value) && Resizable(r.value, p)
    ensures r.Ok? ==> Length(r.value, p) == maxFrameIndex + 1
    ensures r.Ok? ==> forall i :: i in r.value.nodes[p].content.frames <==>
                                  i in f.nodes[p].content.frames && i <= maxFrameIndex
    ensures r.Ok? ==> forall i :: i in r.value.nodes[p].content.frames ==>
                                  r.value.nodes[p].content.frames[i] == f.nodes[p].content.frames[i]
    ensures r.Ok? ==> r.value.nodes.Keys == f.nodes.Keys && r.value.nodes[p].attrs == f.nodes[p].attrs
    ensures r.Ok? ==> Rank(r.value, p) == Rank(f, p)
    ensures r.Ok? ==> forall q :: q in f.nodes && q != p ==> r.value.nodes[q] == f.nodes[q]
  {
    Resize(f, p, maxFrameIndex + 1)
  }
}

=== FILE: lz4_framing.dfy ===
/** The bitshuffle-LZ4 compression node: each frame is compressed and sent
    with a 12-byte big-endian prefix (the uncompressed byte count as a signed
    64-bit integer, then the block size in bytes as a signed 32-bit integer),
    under a copy of its header whose `encoding` says so. The compressor
    itself is foreign code: its output is a parameter. */
module Lz4Framing {
  import opened Wrappers
  import opened Values
  import Messages
  import Proxies

  // ---------------------------------------------------------------------
  // struct.pack / struct.unpack, big-endian, signed
  // ---------------------------------------------------------------------

  function Pow256(n: nat): (r: nat)
    ensures r >= 1
  {
    if n == 0 then 1 else 256 * Pow256(n - 1)
  }

  /** Half the range of an `n`-byte integer: signed values lie in
      `[-Half(n), Half(n))`. */
  function Half(n: nat): (r: int)
    requires n >= 1
    ensures r >= 1 && 2 * r == Pow256(n)
  {
    128 * Pow256(n - 1)
  }

  /** The `n` low bytes of `u`, most significant first. */
  function ToBigEndian(u: nat, n: nat): (r: seq<byte>)
    ensures |r| == n
    decreases n
  {
    if n == 0 then [] else ToBigEndian(u / 256, n - 1) + [u % 256]
  }

  /** The unsigned number big-endian bytes spell. */
  function FromBigEndian(bs: seq<byte>): (r: nat)
    ensures r < Pow256(|bs|)
    decreases |bs|
  {
    if |bs| == 0 then 0
    else
      var n := |bs| - 1;
      var high := FromBigEndian(bs[..n]);
      assert high * 256 + bs[n] < Pow256(|bs|) by {
        assert high + 1 <= Pow256(n);
        assert (high + 1) * 256 <= Pow256(n) * 256;
      }
      high * 256 + bs[n]
  }

  lemma {:induction false} FromToBigEndian(u: nat, n: nat)
    requires u < Pow256(n)
    ensures FromBigEndian(ToBigEndian(u, n)) == u
    decreases n
  {
    if n > 0 {
      var bs := ToBigEndian(u, n);
      assert bs[..n - 1] == ToBigEndian(u / 256, n - 1);
      assert u / 256 < Pow256(n - 1);
      FromToBigEndian(u / 256, n - 1);
    }
  }

  /** Every `n`-byte sequence is the encoding of the number it spells. */
  lemma {:induction false} ToFromBigEndian(bs: seq<byte>)
    ensures ToBigEndian(FromBigEndian(bs), |bs|) == bs
    decreases |bs|
  {
    if |bs| > 0 {
      var n := |bs| - 1;
      var high := FromBigEndian(bs[..n]);
      var u := high * 256 + bs[n];
      assert u / 256 == high && u % 256 == bs[n];
      ToFromBigEndian(bs[..n]);
      assert bs == bs[..n] + [bs[n]];
    }
  }

  /** `struct.pack('>q', v)` for `n == 8` and `struct.pack('>i', v)` for
      `n == 4`: two's complement, most significant byte first; a value out of
      range raises `struct.error`. */
  function PackSigned(v: int, n: nat): (r: Result<seq<byte>>)
    requires n >= 1
    ensures r.Ok? <==> -Half(n) <= v < Half(n)
    ensures r.Ok? ==> |r.value| == n
    ensures r.Err? ==> r.error == StructError
  {
    if -Half(n) <= v < Half(n) then
      Ok(ToBigEndian(if v >= 0 then v else v + Pow256(n), n))
    else Err(StructError)
  }

  /** `struct.unpack('>q', bs)` / `struct.unpack('>i', bs)`. */
  function UnpackSigned(bs: seq<byte>): (r: int)
    requires |bs| >= 1
    ensures -Half(|bs|) <= r < Half(|bs|)
  {
    var u := FromBigEndian(bs);
    if u >= Half(|bs|) then u - Pow256(|bs|) else u
  }

  /** Unpacking what was packed gives the value back. */
  lemma PackUnpack(v: int, n: nat)
    requires n >= 1 && -Half(n) <= v < Half(n)
    ensures UnpackSigned(PackSigned(v, n).value) == v
  {
    var u := if v >= 0 then v else v + Pow256(n);
    FromToBigEndian(u, n);
  }

  /** Packing what was unpacked gives the bytes back: the encoding is a
      bijection between `n`-byte sequences and the signed range. */
  lemma UnpackPack(bs: seq<byte>)
    requires |bs| >= 1
    ensures PackSigned(UnpackSigned(bs), |bs|) == Ok(bs)
  {
    ToFromBigEndian(bs);
  }

  // ---------------------------------------------------------------------
  // compress_as_chunk
  // ---------------------------------------------------------------------

  /** What the model knows of a numpy frame: its shape and item size. */
  datatype NdArray = NdArray(shape: seq<nat>, itemsize: nat)

  /** The 12-byte prefix and the payload as the receiver splits them. */
  datatype Chunk = Chunk(byteCount: int, blockBytes: int, compressed: seq<byte>)

  const PrefixLength: nat := 12

  /** `image.shape[0] * image.shape[1] * image.dtype.itemsize`: the bytes of
      a two-dimensional frame. */
  function ByteCount(image: NdArray): int
    requires |image.shape| >= 2
  {
    image.shape[0] * image.shape[1] * image.itemsize
  }

  /** The three parts of a payload sit where a reader looks for them. */
  lemma PayloadParts(size: seq<byte>, block: seq<byte>, bytes: seq<byte>)
    requires |size| == 8 && |block| == 4
    ensures var all := size + block + bytes;
            |all| == PrefixLength + |bytes| && all[..8] == size && all[8..12] == block && all[12..] == bytes
  {
  }

  /** `block_size * array.dtype.itemsize` as `struct.pack('>i', ...)` sees
      it: an integer (a bool counts as 0 or 1) gives the product; a float, or
      a string or sequence repeated `itemsize` times, is not an integer and
      `struct.pack` raises struct.error; `None`, a dict or a function cannot
      be multiplied and raise TypeError. */
  function BlockBytes(blockSize: Value, itemsize: nat): (r: Result<int>)
    ensures r.Ok? <==> IsIntegral(blockSize)
    ensures r.Ok? ==> r.value == AsInt(blockSize) * itemsize
    ensures (blockSize.Null? || blockSize.Dict? || blockSize.Callable?) ==> r == Err(TypeError)
    ensures !IsIntegral(blockSize) && !(blockSize.Null? || blockSize.Dict? || blockSize.Callable?) ==> r == Err(StructError)
  {
    match blockSize
    case Bool(_) => Ok(AsInt(blockSize) * itemsize)
    case Int(i) => Ok(i * itemsize)
    case Null => Err(TypeError)
    case Dict(_) => Err(TypeError)
    case Callable(_) => Err(TypeError)
    case _ => Err(StructError)
  }

  /** What `compress_as_chunk` needs beyond the compressor's own success: a
      frame with two axes and both prefix numbers in range. */
  predicate Frameable(image: NdArray, blockSize: Value) {
    && |image.shape| >= 2
    && -Half(8) <= ByteCount(image) < Half(8)
    && BlockBytes(blockSize, image.itemsize).Ok?
    && -Half(4) <= BlockBytes(blockSize, image.itemsize).value < Half(4)
  }

  /** `compress_as_chunk(image, block_size)`. `compressed` is what
      `bitshuffle.compress_lz4` returned or raised; it runs first. Then the
      byte count `rows * cols * itemsize` is packed in 8 bytes and the block
      size in bytes in 4; a frame with fewer than two axes raises IndexError. */
  function CompressAsChunk(image: NdArray, blockSize: Value, compressed: Result<seq<byte>>): (r: Result<seq<byte>>)
    ensures r.Ok? <==> compressed.Ok? && Frameable(image, blockSize)
    ensures r.Ok? ==> |r.value| == PrefixLength + |compressed.value|
                      && r.value[PrefixLength..] == compressed.value
    ensures r.Ok? ==> UnpackSigned(r.value[..8]) == ByteCount(image)
                      && UnpackSigned(r.value[8..12]) == BlockBytes(blockSize, image.itemsize).value
    ensures compressed.Err? ==> r == Err(compressed.error)
  {
    var bytes :- compressed;
    if |image.shape| < 2 then Err(IndexError)
    else
      var size :- PackSigned(ByteCount(image), 8);
      var blockBytes :- BlockBytes(blockSize, image.itemsize);
      var block :- PackSigned(blockBytes, 4);
      PackUnpack(ByteCount(image), 8);
      PackUnpack(blockBytes, 4);
      PayloadParts(size, block, bytes);
      Ok(size + block + bytes)
  }

  /** How a reader splits a payload: the two packed numbers, then the rest. */
  function ParseChunk(payload: seq<byte>): (r: Option<Chunk>)
    ensures r.Some? <==> |payload| >= PrefixLength
  {
    if |payload| < PrefixLength then None
    else Some(Chunk(UnpackSigned(payload[..8]), UnpackSigned(payload[8..12]), payload[12..]))
  }

  /** Parsing a framed payload recovers the byte count, the block size in
      bytes and the compressed bytes. */
  lemma ChunkRoundTrip(image: NdArray, blockSize: Value, compressed: Result<seq<byte>>)
    requires CompressAsChunk(image, blockSize, compressed).Ok?
    ensures ParseChunk(CompressAsChunk(image, blockSize, compressed).value)
            == Some(Chunk(ByteCount(image), AsInt(blockSize) * image.itemsize, compressed.value))
  {
  }

  // ---------------------------------------------------------------------
  // _compress_lz4 and the processor
  // ---------------------------------------------------------------------

  const Encoding: string := "bitshuffle_lz4"

  /** `header.copy()` with `encoding` set: a new dict, the input untouched. */
  function EncodedHeader(header: map<string, Value>): (r: map<string, Value>)
    ensures r.Keys == header.Keys + {"encoding"}
    ensures r["encoding"] == Str(Encoding)
    ensures forall k :: k in header && k != "encoding" ==> r[k] == header[k]
  {
    header["encoding" := Str(Encoding)]
  }

  /** The processor's parameters and its forwarder. It inherits `start`
      and `stop` from the older proxy, and its function slot holds the
      processor itself, which its own validation never checks. */
  datatype Compressor = Compressor(blockSize: Value, forwardingAddress: Value, forwarder: Option<Proxies.Stream>)

  /** The constructor: block size 2048, no address, no forwarder. */
  function NewCompressor(): (c: Compressor)
    ensures c.blockSize == Int(2048) && !Truthy(c.forwardingAddress) && c.forwarder.None?
  {
    Compressor(Int(2048), Null, None)
  }

  const BlockSizeMissing: string := "Parameter 'block_size' not set.\n"

  function ValidationMessage(c: Compressor): (r: string)
    ensures r == "" <==> Truthy(c.blockSize) && Truthy(c.forwardingAddress)
    ensures !Truthy(c.blockSize) ==> Text.StartsWith(r, BlockSizeMissing)
    ensures Truthy(c.blockSize) && !Truthy(c.forwardingAddress) ==> r == Proxies.ForwardingAddressMissing
  {
    var first := if Truthy(c.blockSize) then "" else BlockSizeMissing;
    var second := if Truthy(c.forwardingAddress) then "" else Proxies.ForwardingAddressMissing;
    assert (first + second)[..|first|] == first;
    first + second
  }

  function Start(c: Compressor): (r: Result<Compressor>)
    ensures r.Ok? <==> Truthy(c.blockSize) && Truthy(c.forwardingAddress)
    ensures r.Err? ==> r.error == ValueError(ValidationMessage(c))
    ensures r.Ok? ==> r.value == c.(forwarder := Some(Proxies.Stream(c.forwardingAddress, [], true)))
  {
    var _ :- RaiseIfAny(ValidationMessage(c));
    Ok(c.(forwarder := Some(Proxies.Stream(c.forwardingAddress, [], true))))
  }

  /** What the compressor needs of a message: a header with a numeric frame
      and a first data part. */
  predicate Receivable(m: Messages.Message) {
    "header" in m.data && "data" in m.data && Index(m.data["data"], 0).Ok? && Proxies.LogFrame(m.data["header"]).Ok?
  }

  /** `process_message(message)`. `image` is what the model knows of
      `message.data["data"][0]` and `compressed` what the compressor made of
      it. The header goes out first (with `send_more`), then the payload:
      one frame on the stream. The debug line needs a numeric frame number,
      and the new header must have a JSON form. */
  function ProcessMessage(c: Compressor, m: Messages.Message, image: NdArray,
                          compressed: Result<seq<byte>>): (r: Result<Compressor>)
    ensures r.Ok? <==> && Receivable(m) && compressed.Ok? && Frameable(image, c.blockSize) && c.forwarder.Some?
                       && m.data["header"].Dict? && JsonSerialisable(Dict(EncodedHeader(m.data["header"].entries)))
    ensures r.Ok? ==>
              && m.data["header"].Dict? && r.value.forwarder.Some?
              && r.value == c.(forwarder := Some(c.forwarder.value.(sent := c.forwarder.value.sent +
                   [Proxies.Frame(Dict(EncodedHeader(m.data["header"].entries)),
                                  Bytes(CompressAsChunk(image, c.blockSize, compressed).value))])))
    ensures Receivable(m) && compressed.Err? ==> r == Err(compressed.error)
    ensures && Receivable(m) && compressed.Ok? && Frameable(image, c.blockSize) && c.forwarder.Some?
            && m.data["header"].Dict? && !JsonSerialisable(Dict(EncodedHeader(m.data["header"].entries))) ==>
              r == Err(TypeError)
  {
    var header :- Messages.Part(m, "header");
    var frames :- Messages.Part(m, "data");
    var _ :- Index(frames, 0);
    var _ :- Proxies.LogFrame(header);
    var payload :- CompressAsChunk(image, c.blockSize, compressed);
    if !header.Dict? then Err(AttributeError("copy"))
    else if c.forwarder.None? then Err(AttributeError("stream"))
    else if !JsonSerialisable(Dict(EncodedHeader(header.entries))) then Err(TypeError)
    else
      var frame := Proxies.Frame(Dict(EncodedHeader(header.entries)), Bytes(payload));
      Ok(c.(forwarder := Some(c.forwarder.value.(sent := c.forwarder.value.sent + [frame]))))
  }

  /** A frame sent by the compressor parses back to the frame's byte count and
      block size, carries the compressor's bytes and keeps every header field
      except `encoding`. */
  lemma SentFrameDecodes(c: Compressor, m: Messages.Message, image: NdArray, compressed: Result<seq<byte>>)
    requires ProcessMessage(c, m, image, compressed).Ok?
    ensures var s := ProcessMessage(c, m, image, compressed).value.forwarder.value.sent;
            var frame := s[|s| - 1];
            && frame.data.Bytes?
            && |image.shape| >= 2 && IsIntegral(c.blockSize)
            && ParseChunk(frame.data.bs) == Some(Chunk(ByteCount(image), AsInt(c.blockSize) * image.itemsize, compressed.value))
            && frame.header.Dict? && frame.header.entries["encoding"] == Str(Encoding)
            && forall k :: k in m.data["header"].entries && k != "encoding" ==>
                 frame.header.entries[k] == m.data["header"].entries[k]
  {
    ChunkRoundTrip(image, c.blockSize, compressed);
  }
}

=== FILE: managed_process.dfy ===
/** What the two process wrappers, `NodeManager` and `ExternalProcessWrapper`,
    share: the parameters the user set, the queue that carries them to the
    processing side, the name and help they report, and the merged view of
    default and user parameters. */
module ManagedProcess {
  import opened Wrappers
  import opened Values
  import RestServer
  import Processors

  /** A `(name, value)` parameter tuple. */
  type Parameter = (string, Value)

  /** `current_parameters` and the parameter queue, oldest entry first. */
  datatype Channel = Channel(current: map<string, Value>, queue: seq<Parameter>)

  /** `initial_parameters or {}`, with nothing queued yet. */
  function NewChannel(initial: Option<map<string, Value>>): (c: Channel)
    ensures c.queue == []
    ensures initial.Some? ==> c.current == initial.value
    ensures initial.None? ==> c.current == map[]
  {
    Channel(initial.GetOr(map[]), [])
  }

  /** `set_parameter(parameter)`: record the value under its name, then queue
      the same tuple. */
  function Put(c: Channel, p: Parameter): (r: Channel)
    ensures r.current.Keys == c.current.Keys + {p.0} && r.current[p.0] == p.1
    ensures forall k :: k in c.current && k != p.0 ==> r.current[k] == c.current[k]
    ensures r.queue == c.queue + [p]
  {
    Channel(c.current[p.0 := p.1], c.queue + [p])
  }

  /** `set_parameter` for each tuple in turn. */
  function PutAll(c: Channel, ps: seq<Parameter>): (r: Channel)
    decreases |ps|
  {
    if |ps| == 0 then c else Put(PutAll(c, ps[..|ps| - 1]), ps[|ps| - 1])
  }

  /** The value the processing side is left with for `k` after taking every
      queued tuple: the last one naming `k` wins. */
  function LastValue(q: seq<Parameter>, k: string): (r: Option<Value>)
    ensures r.None? <==> forall i :: 0 <= i < |q| ==> q[i].0 != k
    decreases |q|
  {
    if |q| == 0 then None
    else if q[|q| - 1].0 == k then Some(q[|q| - 1].1)
    else LastValue(q[..|q| - 1], k)
  }

  /** Everything still queued agrees with `current_parameters`: draining the
      queue can only set a parameter to its recorded value. */
  ghost predicate Agrees(c: Channel) {
    forall k :: LastValue(c.queue, k).Some? ==> k in c.current && c.current[k] == LastValue(c.queue, k).value
  }

  /** `set_parameter` keeps the queue in agreement with the record. */
  lemma PutAgrees(c: Channel, p: Parameter)
    requires Agrees(c)
    ensures Agrees(Put(c, p))
  {
    var r := Put(c, p);
    forall k | LastValue(r.queue, k).Some?
      ensures k in r.current && r.current[k] == LastValue(r.queue, k).value
    {
      assert r.queue[..|r.queue| - 1] == c.queue;
    }
  }

  /** `_set_current_parameters`: re-setting every recorded parameter, in the
      dict's order, leaves the record as it was and queues each of them once
      more, so that afterwards every recorded parameter is in the queue with
      its recorded value as the last word. */
  lemma {:induction false} ReplayCurrent(c: Channel, order: seq<Parameter>)
    requires forall i :: 0 <= i < |order| ==> order[i].0 in c.current && c.current[order[i].0] == order[i].1
    ensures PutAll(c, order) == Channel(c.current, c.queue + order)
    decreases |order|
  {
    if |order| > 0 {
      var n := |order| - 1;
      ReplayCurrent(c, order[..n]);
      assert c.current[order[n].0 := order[n].1] == c.current;
      assert c.queue + order[..n] + [order[n]] == c.queue + order;
    } else {
      assert c.queue + order == c.queue;
    }
  }

  /** After the replay every name in `order` has its recorded value as the
      last queued word. */
  lemma {:induction false} ReplayedLast(c: Channel, order: seq<Parameter>, k: string)
    requires Agrees(c)
    requires forall i :: 0 <= i < |order| ==> order[i].0 in c.current && c.current[order[i].0] == order[i].1
    ensures LastValue(c.queue + order, k).Some? ==> k in c.current && LastValue(c.queue + order, k).value == c.current[k]
    ensures (exists i :: 0 <= i < |order| && order[i].0 == k) ==> LastValue(c.queue + order, k) == Some(c.current[k])
    decreases |order|
  {
    var q := c.queue + order;
    if |order| == 0 {
      assert q == c.queue;
    } else {
      var n := |order| - 1;
      assert q[..|q| - 1] == c.queue + order[..n];
      ReplayedLast(c, order[..n], k);
      if order[n].0 != k {
        if exists i :: 0 <= i < |order| && order[i].0 == k {
          var i :| 0 <= i < |order| && order[i].0 == k;
          assert order[..n][i] == order[i];
        }
      }
    }
  }

  /** The processing side taking every queued tuple through a stub
      processor's `set_parameter`. */
  function Drain(p: Processors.Processor, q: seq<Parameter>): (r: Processors.Processor)
    decreases |q|
  {
    if |q| == 0 then p
    else
      var before := Drain(p, q[..|q| - 1]);
      Processors.SetParameter(before, Tuple([Str(q[|q| - 1].0), q[|q| - 1].1])).value
  }

  /** Draining leaves each named attribute at its last queued value and
      every other attribute alone. */
  lemma {:induction false} DrainLastWins(p: Processors.Processor, q: seq<Parameter>, k: string)
    ensures LastValue(q, k).Some? ==> k in Drain(p, q).attrs && Drain(p, q).attrs[k] == LastValue(q, k).value
    ensures LastValue(q, k).None? ==> (k in Drain(p, q).attrs <==> k in p.attrs)
    ensures LastValue(q, k).None? && k in p.attrs ==> Drain(p, q).attrs[k] == p.attrs[k]
    decreases |q|
  {
    if |q| > 0 {
      DrainLastWins(p, q[..|q| - 1], k);
    }
  }

  /** `start` hands the processing side every recorded parameter: once the
      queue is drained, the processor holds each recorded value, whatever was
      queued before the start. */
  lemma StartDeliversCurrent(c: Channel, order: seq<Parameter>, p: Processors.Processor)
    requires Agrees(c)
    requires Enumerates(order, c.current)
    ensures var q := PutAll(c, order).queue;
            forall k :: k in c.current ==> k in Drain(p, q).attrs && Drain(p, q).attrs[k] == c.current[k]
  {
    ReplayCurrent(c, order);
    var q := c.queue + order;
    forall k | k in c.current ensures k in Drain(p, q).attrs && Drain(p, q).attrs[k] == c.current[k] {
      ReplayedLast(c, order, k);
      DrainLastWins(p, q, k);
    }
  }

  /** Name and help reported for an optional processor instance. */
  const UnknownProcessor: string := "Unknown processor"

  /** `getattr(instance, "__name__", instance.__class__.__name__) if instance
      else "Unknown processor"`. */
  function ProcessName(instance: Option<RestServer.ProcessObject>): (r: Value)
    ensures instance.None? ==> r == Str(UnknownProcessor)
    ensures instance.Some? ==> r == RestServer.GetProcessName(instance.value)
  {
    match instance
    case None => Str(UnknownProcessor)
    case Some(o) => RestServer.GetProcessName(o)
  }

  /** `RestInterfacedProcess.get_process_help(instance)`: the instance's
      docstring; without an instance there is none. */
  function ProcessHelp(instance: Option<RestServer.ProcessObject>): (r: Value)
    ensures Truthy(r)
    ensures instance.None? ==> r == Str(RestServer.NoHelp)
    ensures instance.Some? && Truthy(instance.value.doc) ==> r == instance.value.doc
  {
    match instance
    case None => RestServer.GetProcessHelp(Null)
    case Some(o) => RestServer.GetProcessHelp(o.doc)
  }

  /** `get_parameters` of the node manager and of the external-process
      wrapper alike: the instance's public attributes, in name order,
      updated with the user's parameters; without an instance, exactly the
      user's parameters. */
  method GetParameters(instance: Option<RestServer.ProcessObject>, current: map<string, Value>)
    returns (r: map<string, Value>)
    ensures forall k :: k in r <==>
              k in current || (instance.Some? && k in instance.value.attrs && !RestServer.IsPrivate(k))
    ensures forall k :: k in current ==> r[k] == current[k]
    ensures forall k :: k in r && k !in current ==> r[k] == instance.value.attrs[k]
    ensures instance.None? ==> r == current
  {
    var defaults: map<string, Value> := map[];
    if instance.Some? {
      var items := RestServer.GetParameters(instance.value);
      var i := 0;
      while i < |items|
        invariant 0 <= i <= |items|
        invariant forall k :: k in defaults <==> exists j :: 0 <= j < i && items[j].0 == k
        invariant forall j :: 0 <= j < i ==> defaults[items[j].0] == items[j].1
      {
        defaults := defaults[items[i].0 := items[i].1];
        i := i + 1;
      }
      assert forall k :: k in defaults <==> k in RestServer.PublicAttributes(instance.value.attrs);
    }
    r := defaults + current;
  }
}

=== FILE: messages.dfy ===
/** Stream messages: the per-`htype` accessors of the message handlers and
    the three dispatchers that pick a handler by the header's `htype`. */
module Messages {
  import opened Wrappers
  import opened Values
  import Text

  /** An mflow message: the dict of named parts the stream delivered. */
  datatype Message = Message(data: map<string, Value>)

  /** The handler classes. The first five are the `MessageHandler` classes
      of the handler modules; the last two are the handlers of the older
      stream-message helper. */
  datatype Handler =
    | ArrayHandler
    | DHeaderHandler
    | DImageHandler
    | DSeriesEndHandler
    | RawHandler
    | StreamArrayHandler
    | StreamDImageHandler

  /** `message.data[key]`. */
  function Part(m: Message, key: string): (r: Result<Value>)
    ensures r.Ok? <==> key in m.data
    ensures r.Ok? ==> r.value == m.data[key]
  {
    Lookup(Dict(m.data), key)
  }

  /** `message.data[part][key]`. */
  function Field(m: Message, part: string, key: string): (r: Result<Value>)
    ensures r.Ok? <==> part in m.data && m.data[part].Dict? && key in m.data[part].entries
    ensures r.Ok? ==> r.value == m.data[part].entries[key]
  {
    var p :- Part(m, part);
    Lookup(p, key)
  }

  /** Handlers whose frame index, shape and dtype live in the header. */
  predicate ReadsHeader(h: Handler) {
    h.ArrayHandler? || h.RawHandler? || h.StreamArrayHandler?
  }

  /** Handlers of the end-of-series and series-header messages, which carry
      no frame. */
  predicate FrameLess(h: Handler) {
    h.DHeaderHandler? || h.DSeriesEndHandler?
  }

  /** `get_header`. */
  function GetHeader(m: Message): (r: Result<Value>)
    ensures r.Ok? <==> "header" in m.data
    ensures r.Ok? ==> r.value == m.data["header"]
  {
    Part(m, "header")
  }

  /** `get_frame_index`. */
  function GetFrameIndex(h: Handler, m: Message): (r: Result<Value>)
    ensures FrameLess(h) ==> r == Ok(Int(-1))
    ensures !FrameLess(h) ==> r == Field(m, "header", "frame")
  {
    if FrameLess(h) then Ok(Int(-1)) else Field(m, "header", "frame")
  }

  /** Whether an element of the iterable given to `dict.update` is a
      key-value pair: it iterates to exactly two items, the first hashable.
      Iterating a dict yields its keys, which are strings. */
  predicate IsPair(e: Value) {
    match e
    case List(xs) => |xs| == 2 && Hashable(xs[0])
    case Tuple(xs) => |xs| == 2 && Hashable(xs[0])
    case Str(s) => |s| == 2
    case Bytes(bs) => |bs| == 2
    case Dict(m) => |m| == 2
    case _ => false
  }

  function UpdateLengthMessage(index: nat, length: nat): string {
    "dictionary update sequence element #" + Text.IntToString(index) + " has length "
      + Text.IntToString(length) + "; 2 is required"
  }

  /** `dict.update` turning element `index` of its argument into a pair: a
      value that does not iterate raises TypeError, one of another length
      ValueError, and an unhashable first item TypeError. */
  function UpdatePair(e: Value, index: nat): (r: Result<()>)
    ensures r.Ok? <==> IsPair(e)
    ensures (e.Null? || e.Bool? || e.Int? || e.Float? || e.Callable?) ==> r == Err(TypeError)
    ensures (e.List? || e.Tuple?) && |e.items| != 2 ==> r == Err(ValueError(UpdateLengthMessage(index, |e.items|)))
    ensures (e.List? || e.Tuple?) && |e.items| == 2 && !Hashable(e.items[0]) ==> r == Err(TypeError)
  {
    if e.Dict? then
      if |e.entries| == 2 then Ok(()) else Err(ValueError(UpdateLengthMessage(index, |e.entries|)))
    else
      var xs :- AsTuple(e);
      if |xs| != 2 then Err(ValueError(UpdateLengthMessage(index, |xs|)))
      else if !Hashable(xs[0]) then Err(TypeError)
      else Ok(())
  }

  /** The elements of `dict.update`'s argument, in order, up to the first
      that is not a pair; `index` is the position of the first of them. */
  function UpdatePairs(xs: seq<Value>, index: nat): (r: Result<()>)
    ensures r.Ok? <==> forall i :: 0 <= i < |xs| ==> IsPair(xs[i])
    decreases |xs|
  {
    if |xs| == 0 then Ok(())
    else
      var _ :- UpdatePair(xs[0], index);
      UpdatePairs(xs[1..], index + 1)
  }

  /** `dict.update(other)`: a dict merges its entries, and anything else must
      iterate to key-value pairs. A string iterates to one-character strings
      and a byte string to integers, so only empty ones merge. The series
      header handler throws the merged dict away, so only whether the update
      raises matters. */
  function Mergeable(v: Value): (r: Result<()>)
    ensures r.Ok? <==> || v.Dict? || v == Str("") || v == Bytes([])
                       || ((v.List? || v.Tuple?) && forall i :: 0 <= i < |v.items| ==> IsPair(v.items[i]))
    ensures (v.Null? || v.Bool? || v.Int? || v.Float? || v.Callable?) ==> r == Err(TypeError)
  {
    if v.Dict? then Ok(())
    else
      var xs :- AsTuple(v);
      assert v.Str? && |v.s| > 0 ==> !IsPair(xs[0]);
      assert v.Bytes? && |v.bs| > 0 ==> !IsPair(xs[0]);
      UpdatePairs(xs, 0)
  }

  /** The parts the series header handler merges when its header asks for
      all details, in the order it merges them. */
  const DetailParts: seq<string> := ["part_3", "part_4_raw", "part_5", "part_6_raw", "part_7", "part_8_raw"]

  /** `get_data`. The series-header handler merges the parts into a local
      dict and returns nothing; the lookups it makes on the way can still
      raise. */
  function GetData(h: Handler, m: Message): (r: Result<Value>)
    ensures (h.ArrayHandler? || h.StreamArrayHandler?) ==>
              (r.Ok? <==> "data" in m.data && Index(m.data["data"], 0).Ok?)
    ensures (h.ArrayHandler? || h.StreamArrayHandler?) && r.Ok? ==> r == Index(m.data["data"], 0)
    ensures (h.DImageHandler? || h.StreamDImageHandler?) ==> r == Part(m, "part_3_raw")
    ensures h.DSeriesEndHandler? ==> r == Ok(Null)
    ensures h.DHeaderHandler? ==> r.Ok? ==> r.value == Null
    ensures h.DHeaderHandler? && "part_2" !in m.data ==> r == Err(TypeError)
    ensures h.DHeaderHandler? ==>
              (r.Ok? <==> && Mergeable(Get(m.data, "part_2", Null)).Ok?
                          && Mergeable(Get(m.data, "appendix", Dict(map[]))).Ok?
                          && Field(m, "header", "header_detail").Ok?
                          && (Field(m, "header", "header_detail").value == Str("all") ==>
                                forall i :: 0 <= i < |DetailParts| ==>
                                  DetailParts[i] in m.data && Mergeable(m.data[DetailParts[i]]).Ok?))
    ensures h.RawHandler? && "data" in m.data && (m.data["data"].List? || m.data["data"].Tuple?) ==>
              if |m.data["data"].items| == 1 then r == Ok(m.data["data"].items[0]) else r == Ok(m.data["data"])
  {
    match h
    case ArrayHandler => var d :- Part(m, "data"); Index(d, 0)
    case StreamArrayHandler => var d :- Part(m, "data"); Index(d, 0)
    case DImageHandler => Part(m, "part_3_raw")
    case StreamDImageHandler => Part(m, "part_3_raw")
    case DSeriesEndHandler => Ok(Null)
    case DHeaderHandler =>
      var _ :- Mergeable(Get(m.data, "part_2", Null));
      var _ :- Mergeable(Get(m.data, "appendix", Dict(map[])));
      var detail :- Field(m, "header", "header_detail");
      if detail == Str("all") then
        var _ :- MergeParts(m, DetailParts);
        Ok(Null)
      else Ok(Null)
    case RawHandler =>
      var d :- Part(m, "data");
      var n :- Len(d);
      if n == 1 then Index(d, 0) else Ok(d)
  }

  /** `data.update(message.data[key])`. */
  function MergePart(m: Message, key: string): (r: Result<()>)
    ensures key !in m.data ==> r == Err(KeyError(key))
    ensures key in m.data ==> r == Mergeable(m.data[key])
  {
    var p :- Part(m, key);
    Mergeable(p)
  }

  /** `data.update(message.data[k])` for each key in turn, stopping at the
      first that raises. */
  function MergeParts(m: Message, keys: seq<string>): (r: Result<()>)
    ensures r.Ok? <==> forall i :: 0 <= i < |keys| ==> keys[i] in m.data && Mergeable(m.data[keys[i]]).Ok?
    ensures |keys| > 0 && keys[0] !in m.data ==> r == Err(KeyError(keys[0]))
    decreases |keys|
  {
    if |keys| == 0 then Ok(())
    else
      var _ :- MergePart(m, keys[0]);
      MergeParts(m, keys[1..])
  }

  /** `get_data_length`. `sizeOf` is what `message.data.__sizeof__()`
      reports for the frame-less handlers: CPython's in-memory size of the
      dict, which the model takes as given. `keys` is the iteration order of
      `message.data`, which the raw handler walks: it sums the lengths of the
      part NAMES, not of the payload. The older array handler computes the
      payload length and drops it. */
  function GetDataLength(h: Handler, m: Message, sizeOf: nat, keys: seq<string>): (r: Result<Value>)
    requires KeyOrder(keys, m.data)
    ensures h.ArrayHandler? ==>
              (r.Ok? <==> "data" in m.data && Index(m.data["data"], 0).Ok? && Len(Index(m.data["data"], 0).value).Ok?)
    ensures h.ArrayHandler? && r.Ok? ==> r.value == Int(Len(Index(m.data["data"], 0).value).value)
    ensures (h.DImageHandler? || h.StreamDImageHandler?) ==> r == Field(m, "part_2", "size")
    ensures h.StreamArrayHandler? ==> r.Ok? ==> r.value == Null
    ensures FrameLess(h) ==> r == Ok(Int(sizeOf))
    ensures h.RawHandler? ==> r.Ok? && r.value.Int? && r.value.i == NameLengths(keys)
  {
    match h
    case ArrayHandler =>
      var d :- Part(m, "data");
      var first :- Index(d, 0);
      var n :- Len(first);
      Ok(Int(n))
    case StreamArrayHandler =>
      var d :- Part(m, "data");
      var first :- Index(d, 0);
      var _ :- Len(first);
      Ok(Null)
    case DImageHandler => Field(m, "part_2", "size")
    case StreamDImageHandler => Field(m, "part_2", "size")
    case DHeaderHandler => Ok(Int(sizeOf))
    case DSeriesEndHandler => Ok(Int(sizeOf))
    case RawHandler => Ok(Int(NameLengths(keys)))
  }

  /** `keys` lists every part name of the message once. */
  ghost predicate KeyOrder(keys: seq<string>, data: map<string, Value>) {
    && DistinctNames(keys)
    && (forall k :: k in data <==> k in keys)
  }

  /** `sum(len(name) for name in names)`. */
  function NameLengths(names: seq<string>): (r: nat)
    ensures |names| == 1 ==> r == |names[0]|
    decreases |names|
  {
    if |names| == 0 then 0 else NameLengths(names[..|names| - 1]) + |names[|names| - 1]|
  }

  lemma {:induction false} NameLengthsAppend(a: seq<string>, b: seq<string>)
    ensures NameLengths(a + b) == NameLengths(a) + NameLengths(b)
    decreases |b|
  {
    if |b| == 0 {
      assert a + b == a;
    } else {
      var n := |b| - 1;
      assert (a + b)[..|a + b| - 1] == a + b[..n];
      NameLengthsAppend(a, b[..n]);
    }
  }

  /** Removing the name at `j` removes its length from the sum. */
  lemma NameLengthsRemove(names: seq<string>, j: nat)
    requires j < |names|
    ensures NameLengths(names) == NameLengths(names[..j] + names[j + 1..]) + |names[j]|
  {
    assert names == names[..j] + [names[j]] + names[j + 1..];
    NameLengthsAppend(names[..j] + [names[j]], names[j + 1..]);
    NameLengthsAppend(names[..j], [names[j]]);
    NameLengthsAppend(names[..j], names[j + 1..]);
  }

  predicate DistinctNames(names: seq<string>) {
    forall i, j :: 0 <= i < j < |names| ==> names[i] != names[j]
  }

  /** Dropping the name at `j` from distinct names leaves the others,
      still distinct. */
  lemma RemoveAt(names: seq<string>, j: nat)
    requires DistinctNames(names) && j < |names|
    ensures var rest := names[..j] + names[j + 1..];
            && DistinctNames(rest)
            && forall k :: k in rest <==> k in names && k != names[j]
  {
    var rest := names[..j] + names[j + 1..];
    assert forall i :: 0 <= i < |rest| ==> rest[i] == names[if i < j then i else i + 1];
    forall k | k in names && k != names[j] ensures k in rest {
      var l :| 0 <= l < |names| && names[l] == k;
      assert rest[if l < j then l else l - 1] == k;
    }
  }

  /** The raw length does not depend on the order the dict yields its keys:
      two listings of the same distinct names have the same sum. */
  lemma {:induction false} NameLengthsOrderFree(a: seq<string>, b: seq<string>)
    requires DistinctNames(a) && DistinctNames(b)
    requires forall k :: k in a <==> k in b
    ensures NameLengths(a) == NameLengths(b)
    decreases |a|
  {
    if |a| == 0 {
      assert forall i :: 0 <= i < |b| ==> b[i] in a;
    } else {
      var n := |a| - 1;
      var x := a[n];
      assert x in b;
      var j :| 0 <= j < |b| && b[j] == x;
      RemoveAt(a, n);
      assert a[..n] + a[n + 1..] == a[..n];
      RemoveAt(b, j);
      NameLengthsOrderFree(a[..n], b[..j] + b[j + 1..]);
      NameLengthsRemove(b, j);
    }
  }

  /** The raw handler's length of a message with just a header and a data
      part is 10, `len("header") + len("data")`, whatever the payload. */
  lemma RawLengthCountsNames(m: Message, keys: seq<string>)
    requires m.data.Keys == {"header", "data"} && KeyOrder(keys, m.data)
    ensures GetDataLength(RawHandler, m, 0, keys) == Ok(Int(10))
  {
    var names := ["header", "data"];
    assert names[0] == "header" && names[1] == "data";
    assert forall k :: k in names <==> k in keys;
    NameLengthsOrderFree(keys, names);
    assert names[..1] == ["header"];
    assert NameLengths(names) == 10;
  }

  /** `sum(len(d) for d in message.data["data"])`: the payload length the
      raw handler evidently means, the total length of the data parts. */
  function RawPayloadLength(m: Message): (r: Result<nat>)
    ensures r.Ok? ==> "data" in m.data && (m.data["data"].List? || m.data["data"].Tuple?)
    ensures "data" in m.data && (m.data["data"].List? || m.data["data"].Tuple?) ==> r == ItemLengths(m.data["data"].items)
  {
    var d :- Part(m, "data");
    if d.List? || d.Tuple? then ItemLengths(d.items) else Err(Unmodelled)
  }

  /** The summed `len` of the items, TypeError at the first item without one. */
  function ItemLengths(items: seq<Value>): (r: Result<nat>)
    ensures r.Ok? <==> forall i :: 0 <= i < |items| ==> Len(items[i]).Ok?
    decreases |items|
  {
    if |items| == 0 then Ok(0)
    else
      var n := |items| - 1;
      var head :- ItemLengths(items[..n]);
      var last :- Len(items[n]);
      Ok(head + last)
  }

  /** With the usual single payload, the corrected length is the length of
      exactly what `get_data` returns, whatever the message's part names. */
  lemma PayloadLengthIsDataLength(m: Message, bs: seq<byte>)
    requires "data" in m.data && m.data["data"] == List([Bytes(bs)])
    ensures GetData(RawHandler, m) == Ok(Bytes(bs))
    ensures RawPayloadLength(m) == Ok(|bs|)
  {
    var items := [Bytes(bs)];
    assert items[..0] == [];
    assert ItemLengths(items[..0]) == Ok(0);
    assert ItemLengths(items) == Ok(|bs|);
  }

  /** `get_frame_size`. */
  function GetFrameSize(h: Handler, m: Message): (r: Result<Value>)
    ensures ReadsHeader(h) ==> r == Field(m, "header", "shape")
    ensures h.StreamDImageHandler? ==> r == Field(m, "part_2", "shape")
    ensures h.DImageHandler? ==> (r.Ok? <==> Field(m, "part_2", "shape").Ok? && Reversed(Field(m, "part_2", "shape").value).Ok?)
    ensures FrameLess(h) ==> r == Err(ValueError("No frame size in message."))
  {
    match h
    case DImageHandler =>
      var shape :- Field(m, "part_2", "shape");
      Reversed(shape)
    case StreamDImageHandler => Field(m, "part_2", "shape")
    case DHeaderHandler => Err(ValueError("No frame size in message."))
    case DSeriesEndHandler => Err(ValueError("No frame size in message."))
    case _ => Field(m, "header", "shape")
  }

  /** `get_frame_dtype`. */
  function GetFrameDtype(h: Handler, m: Message): (r: Result<Value>)
    ensures ReadsHeader(h) ==> r == Field(m, "header", "type")
    ensures (h.DImageHandler? || h.StreamDImageHandler?) ==> r == Field(m, "part_2", "type")
    ensures FrameLess(h) ==> r == Err(ValueError("No dtype in message."))
  {
    match h
    case DImageHandler => Field(m, "part_2", "type")
    case StreamDImageHandler => Field(m, "part_2", "type")
    case DHeaderHandler => Err(ValueError("No dtype in message."))
    case DSeriesEndHandler => Err(ValueError("No dtype in message."))
    case _ => Field(m, "header", "type")
  }

  /** The dimage handler reports the frame size as (Y, X): the reverse of the
      (X, Y) shape the message carries and the older handler passes on. */
  lemma DImageShapeReversed(m: Message, xs: seq<Value>)
    requires Field(m, "part_2", "shape") == Ok(List(xs))
    ensures GetFrameSize(StreamDImageHandler, m) == Ok(List(xs))
    ensures GetFrameSize(DImageHandler, m) == Ok(List(ReverseSeq(xs)))
    ensures GetFrameSize(DImageHandler, m).Ok? && ReverseSeq(GetFrameSize(DImageHandler, m).value.items) == xs
  {
    assert ReverseSeq(ReverseSeq(xs)) == xs;
  }

  /** The `htype` names of the handler table shared by both `get_mflow_message`
      functions. */
  function HtypeName(h: Handler): (r: Option<string>)
    ensures r.Some? <==> h.ArrayHandler? || h.DHeaderHandler? || h.DImageHandler? || h.DSeriesEndHandler?
  {
    match h
    case ArrayHandler => Some("array-1.0")
    case DHeaderHandler => Some("dheader-1.0")
    case DImageHandler => Some("dimage-1.0")
    case DSeriesEndHandler => Some("dseries_end-1.0")
    case _ => None
  }

  /** `handlers_mapping.get(htype)`. A list or dict is unhashable and raises
      TypeError; any other value not in the table finds nothing. */
  function HandlerFor(htype: Value): (r: Result<Option<Handler>>)
    ensures r.Err? <==> !Hashable(htype)
    ensures r.Ok? && r.value.Some? ==> htype.Str? && HtypeName(r.value.value) == Some(htype.s)
    ensures r.Ok? && r.value.None? ==> !htype.Str? || forall h: Handler :: HtypeName(h) != Some(htype.s)
  {
    if !Hashable(htype) then Err(TypeError)
    else if htype == Str("array-1.0") then Ok(Some(ArrayHandler))
    else if htype == Str("dheader-1.0") then Ok(Some(DHeaderHandler))
    else if htype == Str("dimage-1.0") then Ok(Some(DImageHandler))
    else if htype == Str("dseries_end-1.0") then Ok(Some(DSeriesEndHandler))
    else Ok(None)
  }

  /** Every table handler is found again under its own name. */
  lemma HandlerForName(h: Handler)
    requires HtypeName(h).Some?
    ensures HandlerFor(Str(HtypeName(h).value)) == Ok(Some(h))
  {
  }

  /** `MFlowMessage`: the raw message, its `htype` and the bound handler. */
  datatype Wrapped = Wrapped(raw: Message, handler: Handler, htype: Value)

  /** `str(wrapper)` of the newer wrapper is the text of its bound
      `get_header()`; the model returns the header value that text shows. */
  function WrappedHeader(w: Wrapped): (r: Result<Value>)
    ensures r.Ok? <==> "header" in w.raw.data
    ensures r.Ok? ==> r.value == w.raw.data["header"]
    ensures r.Err? ==> r.error == KeyError("header")
  {
    GetHeader(w.raw)
  }

  /** `message.data["header"]["htype"]`. */
  function Htype(m: Message): (r: Result<Value>)
    ensures r.Ok? <==> "header" in m.data && m.data["header"].Dict? && "htype" in m.data["header"].entries
    ensures r.Ok? ==> r.value == m.data["header"].entries["htype"]
    ensures "header" !in m.data ==> r == Err(KeyError("header"))
    ensures "header" in m.data && m.data["header"].Dict? && "htype" !in m.data["header"].entries ==>
              r == Err(KeyError("htype"))
  {
    Field(m, "header", "htype")
  }

  /** `get_mflow_message` of the node library: None stays None, a known
      `htype` is wrapped with its handler, an unknown one is dropped. */
  function GetMflowMessage(message: Option<Message>): (r: Result<Option<Wrapped>>)
    ensures message.None? ==> r == Ok(None)
    ensures message.Some? && Htype(message.value).Err? ==> r.Err?
    ensures r.Ok? && r.value.Some? ==>
              && message.Some? && r.value.value.raw == message.value
              && Htype(message.value) == Ok(r.value.value.htype)
              && r.value.value.htype.Str? && HtypeName(r.value.value.handler) == Some(r.value.value.htype.s)
    ensures message.Some? && Htype(message.value).Ok? && Htype(message.value).value.Str? ==>
              (r.Ok? && r.value.None? <==> forall h: Handler :: HtypeName(h) != Some(Htype(message.value).value.s))
  {
    match message
    case None => Ok(None)
    case Some(m) =>
      var htype :- Htype(m);
      var handler :- HandlerFor(htype);
      match handler
      case None => Ok(None)
      case Some(h) => Ok(Some(Wrapped(m, h, htype)))
  }

  /** `get_mflow_message` of the tools package: a falsy message yields None,
      otherwise the same table decides. Message objects are always truthy,
      so only a missing message is falsy. */
  function GetToolsMessage(message: Option<Message>): (r: Result<Option<Wrapped>>)
    ensures r == GetMflowMessage(message)
  {
    if message.None? then Ok(None)
    else
      var htype :- Htype(message.value);
      var handler :- HandlerFor(htype);
      if handler.None? then Ok(None) else Ok(Some(Wrapped(message.value, handler.value, htype)))
  }

  /** `get_message` of the older stream-message helper: only `dimage-1.0` and
      `array-1.0` are known, compared with `==`, so no value is unhashable. */
  function GetStreamMessage(message: Option<Message>): (r: Result<Option<Wrapped>>)
    ensures message.None? ==> r == Ok(None)
    ensures r.Ok? && r.value.Some? ==>
              && message.Some? && r.value.value.raw == message.value
              && ((r.value.value.htype == Str("dimage-1.0") && r.value.value.handler == StreamDImageHandler)
                  || (r.value.value.htype == Str("array-1.0") && r.value.value.handler == StreamArrayHandler))
    ensures message.Some? && Htype(message.value).Ok? ==>
              r.Ok? && (r.value.None? <==> Htype(message.value).value !in {Str("dimage-1.0"), Str("array-1.0")})
  {
    match message
    case None => Ok(None)
    case Some(m) =>
      var htype :- Htype(m);
      if htype == Str("dimage-1.0") then Ok(Some(Wrapped(m, StreamDImageHandler, htype)))
      else if htype == Str("array-1.0") then Ok(Some(Wrapped(m, StreamArrayHandler, htype)))
      else Ok(None)
  }

  /** A wrapped message shows its header, and that header names the
      wrapper's `htype` and the handler bound to it, with either
      dispatcher. */
  lemma WrappedShowsItsHtype(m: Message)
    requires GetMflowMessage(Some(m)).Ok? && GetMflowMessage(Some(m)).value.Some?
    ensures var w := GetMflowMessage(Some(m)).value.value;
            && WrappedHeader(w).Ok? && WrappedHeader(w).value.Dict?
            && WrappedHeader(w).value.entries["htype"] == w.htype
            && w.htype.Str? && HtypeName(w.handler) == Some(w.htype.s)
    ensures GetToolsMessage(Some(m)) == GetMflowMessage(Some(m))
  {
  }
}

=== FILE: node_manager.dfy ===
/** The node manager of the newer library: a processor thread and a receiver
    thread, started and stopped together, fed with the user's parameters
    through a queue. Threads are abstracted to whether they are still
    alive; their loops are not part of this model. */
module NodeManager {
  import opened Wrappers
  import opened Values
  import RestServer
  import ManagedProcess
  import Processors

  /** A started thread or process; it stays alive until its function returns. */
  datatype Runner = Runner(alive: bool)

  /** The manager's state. The process name is fixed at construction. */
  datatype Manager = Manager(
    instance: Option<RestServer.ProcessObject>,
    processThread: Option<Runner>,
    receiverThread: Option<Runner>,
    stopEventSet: bool,
    parameters: ManagedProcess.Channel,
    processName: Value)

  const AlreadyRunning: string := "External process is already running."
  const AlreadyStopped: string := "External process is already stopped."

  /** The constructor: no threads yet, the stop event clear. */
  function New(initial: Option<map<string, Value>>, instance: Option<RestServer.ProcessObject>): (m: Manager)
    ensures !IsRunning(m) && m.processThread.None? && m.receiverThread.None? && !m.stopEventSet
    ensures m.parameters == ManagedProcess.NewChannel(initial)
    ensures m.processName == ManagedProcess.ProcessName(instance)
    ensures m.instance == instance
  {
    Manager(instance, None, None, false, ManagedProcess.NewChannel(initial), ManagedProcess.ProcessName(instance))
  }

  /** `is_running`: both threads exist and are alive. */
  predicate IsRunning(m: Manager) {
    && m.processThread.Some? && m.processThread.value.alive
    && m.receiverThread.Some? && m.receiverThread.value.alive
  }

  /** `start(order)`, where `order` is the iteration order of
      `current_parameters`: refused while running; otherwise two fresh
      threads, and every current parameter queued again before they start. */
  function Start(m: Manager, order: seq<ManagedProcess.Parameter>): (r: Result<Manager>)
    requires Enumerates(order, m.parameters.current)
    ensures r.Err? <==> IsRunning(m)
    ensures r.Err? ==> r.error == Exception(AlreadyRunning)
    ensures r.Ok? ==> IsRunning(r.value)
    ensures r.Ok? ==> r.value.parameters == ManagedProcess.Channel(m.parameters.current, m.parameters.queue + order)
    ensures r.Ok? ==> r.value.instance == m.instance && r.value.stopEventSet == m.stopEventSet
                      && r.value.processName == m.processName
  {
    if IsRunning(m) then Err(Exception(AlreadyRunning))
    else
      ManagedProcess.ReplayCurrent(m.parameters, order);
      Ok(m.(processThread := Some(Runner(true)), receiverThread := Some(Runner(true)),
            parameters := ManagedProcess.PutAll(m.parameters, order)))
  }

  /** `stop`: refused unless running; otherwise the stop event is set, both
      threads are joined, the event is cleared and both handles dropped. */
  function Stop(m: Manager): (r: Result<Manager>)
    ensures r.Err? <==> !IsRunning(m)
    ensures r.Err? ==> r.error == Exception(AlreadyStopped)
    ensures r.Ok? ==> !IsRunning(r.value)
    ensures r.Ok? ==> r.value.processThread.None? && r.value.receiverThread.None? && !r.value.stopEventSet
    ensures r.Ok? ==> r.value.parameters == m.parameters && r.value.instance == m.instance
                      && r.value.processName == m.processName
  {
    if !IsRunning(m) then Err(Exception(AlreadyStopped))
    else Ok(m.(processThread := None, receiverThread := None, stopEventSet := false))
  }

  /** Which thread's function returned on its own. */
  datatype Thread = ProcessorThread | ReceiverThread

  /** A thread ending without being asked to. */
  function ThreadExits(m: Manager, t: Thread): (r: Manager)
    ensures !IsRunning(r)
    ensures r.parameters == m.parameters
  {
    match t
    case ProcessorThread => m.(processThread := Some(Runner(false)))
    case ReceiverThread => m.(receiverThread := Some(Runner(false)))
  }

  /** `set_parameter(parameter)`: recorded and queued, running or not. */
  function SetParameter(m: Manager, p: ManagedProcess.Parameter): (r: Manager)
    ensures r.parameters == ManagedProcess.Put(m.parameters, p)
    ensures IsRunning(r) == IsRunning(m)
  {
    m.(parameters := ManagedProcess.Put(m.parameters, p))
  }

  /** The guard state machine from any stopped state (a new manager is
      one): start, a refused second start, stop, a refused second stop, and
      a restart. The recorded parameters are kept throughout. */
  lemma StartStopCycle(m: Manager, order: seq<ManagedProcess.Parameter>)
    requires !IsRunning(m)
    requires Enumerates(order, m.parameters.current)
    ensures var s1 := Start(m, order);
            && s1.Ok?
            && Start(s1.value, order) == Err(Exception(AlreadyRunning))
            && var s2 := Stop(s1.value);
               && s2.Ok?
               && Stop(s2.value) == Err(Exception(AlreadyStopped))
               && s2.value.parameters.current == m.parameters.current
               && Start(s2.value, order).Ok?
  {
  }

  /** When a thread dies on its own, `stop` is refused and the dead handles
      stay, while `start` is accepted and replaces them. */
  lemma DeadThreadBlocksStop(m: Manager, t: Thread, order: seq<ManagedProcess.Parameter>)
    requires IsRunning(m)
    requires Enumerates(order, m.parameters.current)
    ensures Stop(ThreadExits(m, t)) == Err(Exception(AlreadyStopped))
    ensures Start(ThreadExits(m, t), order).Ok?
  {
  }

  /** A parameter set while the node is stopped is what the processor ends
      up with after the next start, once the queue is drained. */
  lemma SetParameterReachesProcessor(m: Manager, p: ManagedProcess.Parameter,
                                     order: seq<ManagedProcess.Parameter>, proc: Processors.Processor)
    requires ManagedProcess.Agrees(m.parameters)
    requires !IsRunning(m)
    requires Enumerates(order, SetParameter(m, p).parameters.current)
    ensures var s := Start(SetParameter(m, p), order);
            && s.Ok?
            && var d := ManagedProcess.Drain(proc, s.value.parameters.queue);
               p.0 in d.attrs && d.attrs[p.0] == p.1
  {
    var m1 := SetParameter(m, p);
    ManagedProcess.PutAgrees(m.parameters, p);
    ManagedProcess.StartDeliversCurrent(m1.parameters, order, proc);
    ManagedProcess.ReplayCurrent(m1.parameters, order);
  }
}

=== FILE: nx_validator.dfy ===
/** NeXus (NXDL) schema handling: checking that an HDF5 file holds the
    required groups and datasets of a definition, creating the required
    groups, and walking an NXDL document to collect its definitions. */
module NxValidator {
  import opened Wrappers
  import opened Values
  import opened H5
  import Text
  import Ordered

  const NxClassAttributeName := "NX_class"

  /** A group definition as the validator reads it: the NeXus class stored
      under `"type"` and the `"required"` flag. */
  datatype GroupDefinition = GroupDefinition(nxType: Value, required: bool)

  datatype DatasetDefinition = DatasetDefinition(required: bool)

  /** The entries of a definitions dict whose flag is set, in the dict's
      iteration order. */
  function Required<D(!new)>(items: seq<(string, D)>, isRequired: D -> bool): (r: seq<(string, D)>)
    ensures forall x :: x in r <==> x in items && isRequired(x.1)
    ensures |r| <= |items|
  {
    if |items| == 0 then []
    else (if isRequired(items[0].1) then [items[0]] else []) + Required(items[1..], isRequired)
  }

  /** `NXSchemaValidator`: the definitions dicts (as their items, in
      iteration order) and the required subsets computed at construction. */
  datatype Validator = Validator(
    groups: seq<(string, GroupDefinition)>,
    datasets: seq<(string, DatasetDefinition)>,
    requiredGroups: seq<(string, GroupDefinition)>,
    requiredDatasets: seq<(string, DatasetDefinition)>)

  function NewValidator(groups: seq<(string, GroupDefinition)>, datasets: seq<(string, DatasetDefinition)>): (v: Validator)
    ensures v.groups == groups && v.datasets == datasets
    ensures forall x :: x in v.requiredGroups <==> x in groups && x.1.required
    ensures forall x :: x in v.requiredDatasets <==> x in datasets && x.1.required
  {
    Validator(groups, datasets,
              Required(groups, (d: GroupDefinition) => d.required),
              Required(datasets, (d: DatasetDefinition) => d.required))
  }

  /** `file_handle.get(name)`. An external link points into another file,
      which the model does not hold, so it resolves to nothing. */
  function Find(f: File, name: string): (r: Option<Node>)
    ensures r.Some? <==> PathOf(name) in f.nodes && !f.nodes[PathOf(name)].ExternalLink?
    ensures r.Some? ==> r.value == f.nodes[PathOf(name)]
  {
    var p := PathOf(name);
    if p in f.nodes && !f.nodes[p].ExternalLink? then Some(f.nodes[p]) else None
  }

  /** The required group `name` is present, is a group, and carries the
      expected NeXus class. */
  predicate GroupConforms(f: File, name: string, d: GroupDefinition) {
    var p := PathOf(name);
    && p in f.nodes && f.nodes[p].Group?
    && NxClassAttributeName in f.nodes[p].attrs
    && f.nodes[p].attrs[NxClassAttributeName] == d.nxType
  }

  predicate DatasetConforms(f: File, name: string) {
    PathOf(name) in f.nodes && f.nodes[PathOf(name)].Dataset?
  }

  datatype GroupProblem = GroupMissing | NotAGroup | NoClassAttribute | WrongClassAttribute

  /** The first failing check for one required group, in the order the
      validator tries them. */
  function CheckGroup(f: File, name: string, d: GroupDefinition): (r: Option<GroupProblem>)
    ensures r == Some(GroupMissing) <==> Find(f, name).None?
    ensures r == Some(NotAGroup) <==> Find(f, name).Some? && !Find(f, name).value.Group?
    ensures r == Some(NoClassAttribute) <==>
              Find(f, name).Some? && Find(f, name).value.Group?
              && NxClassAttributeName !in Find(f, name).value.attrs
    ensures r == Some(WrongClassAttribute) <==>
              Find(f, name).Some? && Find(f, name).value.Group?
              && NxClassAttributeName in Find(f, name).value.attrs
              && Find(f, name).value.attrs[NxClassAttributeName] != d.nxType
    ensures r.None? <==> GroupConforms(f, name, d)
  {
    match Find(f, name)
    case None => Some(GroupMissing)
    case Some(node) =>
      if !node.Group? then Some(NotAGroup)
      else if NxClassAttributeName !in node.attrs then Some(NoClassAttribute)
      else if node.attrs[NxClassAttributeName] != d.nxType then Some(WrongClassAttribute)
      else None
  }

  function GroupMessage(name: string, problem: GroupProblem): string {
    match problem
    case GroupMissing => "Group '" + name + "' missing in file.\n"
    case NotAGroup => "The object named '" + name + "' is not a group.\n"
    case NoClassAttribute => "The group '" + name + "' is missing the 'NX_class' attribute.\n"
    case WrongClassAttribute => "The group '" + name + "' has the wrong 'NX_class' attribute.\n"
  }

  datatype DatasetProblem = DatasetMissing | NotADataset

  function CheckDataset(f: File, name: string): (r: Option<DatasetProblem>)
    ensures r == Some(DatasetMissing) <==> Find(f, name).None?
    ensures r == Some(NotADataset) <==> Find(f, name).Some? && !Find(f, name).value.Dataset?
    ensures r.None? <==> DatasetConforms(f, name)
  {
    match Find(f, name)
    case None => Some(DatasetMissing)
    case Some(node) => if !node.Dataset? then Some(NotADataset) else None
  }

  function DatasetMessage(name: string, problem: DatasetProblem): string {
    match problem
    case DatasetMissing => "Dataset '" + name + "' missing in file.\n"
    case NotADataset => "The object named '" + name + "' is not a dataset.\n"
  }

  /** The error text the group loop accumulates: one line per failing group. */
  function GroupErrors(f: File, items: seq<(string, GroupDefinition)>): (r: string)
    ensures r == "" <==> forall i :: 0 <= i < |items| ==> GroupConforms(f, items[i].0, items[i].1)
  {
    if |items| == 0 then ""
    else
      var n := |items| - 1;
      assert forall i :: 0 <= i < n ==> items[..n][i] == items[i];
      var check := CheckGroup(f, items[n].0, items[n].1);
      GroupErrors(f, items[..n]) + (if check.Some? then GroupMessage(items[n].0, check.value) else "")
  }

  function DatasetErrors(f: File, items: seq<(string, DatasetDefinition)>): (r: string)
    ensures r == "" <==> forall i :: 0 <= i < |items| ==> DatasetConforms(f, items[i].0)
  {
    if |items| == 0 then ""
    else
      var n := |items| - 1;
      assert forall i :: 0 <= i < n ==> items[..n][i] == items[i];
      var check := CheckDataset(f, items[n].0);
      DatasetErrors(f, items[..n]) + (if check.Some? then DatasetMessage(items[n].0, check.value) else "")
  }

  /** `validate_h5_file`: raises ValueError, carrying every error line, unless
      every required group and dataset conforms. */
  function ValidateH5File(v: Validator, f: File): (r: Result<()>)
    ensures r.Ok? <==>
              (forall i :: 0 <= i < |v.requiredGroups| ==>
                 GroupConforms(f, v.requiredGroups[i].0, v.requiredGroups[i].1))
              && (forall i :: 0 <= i < |v.requiredDatasets| ==> DatasetConforms(f, v.requiredDatasets[i].0))
    ensures r.Err? ==> r.error.ValueError? && |r.error.message| > 0
  {
    RaiseIfAny(GroupErrors(f, v.requiredGroups) + DatasetErrors(f, v.requiredDatasets))
  }

  /** `g` differs from `f` only by new groups and by attributes of groups. */
  ghost predicate GroupsOnly(f: File, g: File) {
    && (forall q :: q in f.nodes ==> q in g.nodes && g.nodes[q].Group? == f.nodes[q].Group?)
    && (forall q :: q in f.nodes && !f.nodes[q].Group? ==> g.nodes[q] == f.nodes[q])
    && (forall q :: q in g.nodes && q !in f.nodes ==> g.nodes[q].Group?)
  }

  lemma GroupsOnlyBlocked(f: File, g: File, p: Path)
    requires GroupsOnly(f, g)
    ensures Blocked(f, p) <==> Blocked(g, p)
  {
    if Blocked(g, p) {
      var k :| 0 <= k <= |p| && p[..k] in g.nodes && !g.nodes[p[..k]].Group?;
      assert p[..k] in f.nodes;
    }
  }

  lemma GroupsOnlyTransitive(f: File, g: File, h: File)
    requires GroupsOnly(f, g) && GroupsOnly(g, h)
    ensures GroupsOnly(f, h)
  {
  }

  /** No later entry names the same path as entry `i`. */
  predicate LastOfPath(items: seq<(string, GroupDefinition)>, i: int)
    requires 0 <= i < |items|
  {
    forall j :: i < j < |items| ==> PathOf(items[j].0) != PathOf(items[i].0)
  }

  /** Each group written last for its path carries its definition's class. */
  ghost predicate ClassesSet(items: seq<(string, GroupDefinition)>, g: File) {
    forall i :: 0 <= i < |items| && LastOfPath(items, i) ==> GroupConforms(g, items[i].0, items[i].1)
  }

  lemma {:induction false} AppendClass(items: seq<(string, GroupDefinition)>, f: File, g: File, h: File, k: File)
    requires |items| > 0
    requires var n := |items| - 1;
             && ClassesSet(items[..n], g) && GroupsOnly(f, g)
             && WellFormed(h) && Extends(g, h) && OnlyGroupsTowards(g, h, PathOf(items[n].0))
             && PathOf(items[n].0) in h.nodes && h.nodes[PathOf(items[n].0)].Group?
             && SetAttr(h, PathOf(items[n].0), NxClassAttributeName, items[n].1.nxType) == Ok(k)
    ensures ClassesSet(items, k) && GroupsOnly(f, k)
  {
    var n := |items| - 1;
    ClassStep(g, h, k, PathOf(items[n].0), items[n].1.nxType);
    forall i | 0 <= i < |items| && LastOfPath(items, i) ensures GroupConforms(k, items[i].0, items[i].1) {
      if i < n {
        EarlierClassKept(items, g, k, i);
      }
    }
    GroupsOnlyTransitive(f, g, k);
  }

  /** Creating the groups towards `p` and setting the class of `p` changes
      groups only, and leaves `p` a group of that class. */
  lemma ClassStep(g: File, h: File, k: File, p: Path, nxClass: Value)
    requires WellFormed(h) && Extends(g, h) && OnlyGroupsTowards(g, h, p)
    requires p in h.nodes && h.nodes[p].Group?
    requires SetAttr(h, p, NxClassAttributeName, nxClass) == Ok(k)
    ensures GroupsOnly(g, k)
    ensures p in k.nodes && k.nodes[p].Group?
    ensures NxClassAttributeName in k.nodes[p].attrs && k.nodes[p].attrs[NxClassAttributeName] == nxClass
    ensures KeptExcept(g, k, p)
  {
  }

  /** An earlier entry written last for its path keeps its class when only
      the object at the last entry's path changes. */
  lemma EarlierClassKept(items: seq<(string, GroupDefinition)>, g: File, k: File, i: nat)
    requires i < |items| - 1 && LastOfPath(items, i)
    requires ClassesSet(items[..|items| - 1], g)
    requires KeptExcept(g, k, PathOf(items[|items| - 1].0))
    ensures GroupConforms(k, items[i].0, items[i].1)
  {
    var n := |items| - 1;
    assert items[..n][i] == items[i];
    assert LastOfPath(items[..n], i) by {
      forall j | i < j < n ensures PathOf(items[..n][j].0) != PathOf(items[..n][i].0) {
        assert items[..n][j] == items[j];
      }
    }
    assert PathOf(items[i].0) != PathOf(items[n].0);
  }

  /** Every object of `g` but the one at `p` is unchanged in `k`. */
  ghost predicate KeptExcept(g: File, k: File, p: Path) {
    forall q :: q in g.nodes && q != p ==> q in k.nodes && k.nodes[q] == g.nodes[q]
  }

  /** The loop of `create_required_groups` over `items`: `require_group`,
      then the class attribute. */
  function CreateGroups(f: File, items: seq<(string, GroupDefinition)>): (r: Result<File>)
    requires WellFormed(f)
    ensures r.Ok? <==> forall i :: 0 <= i < |items| ==> !Blocked(f, PathOf(items[i].0))
    ensures r.Err? ==> r.error == TypeError
    ensures r.Ok? ==> WellFormed(r.value) && GroupsOnly(f, r.value) && ClassesSet(items, r.value)
  {
    if |items| == 0 then Ok(f)
    else
      var n := |items| - 1;
      var p := PathOf(items[n].0);
      var rest := CreateGroups(f, items[..n]);
      PrefixItems(items, f);
      if rest.Err? then rest
      else
        var g := rest.value;
        GroupsOnlyBlocked(f, g, p);
        var required := RequireGroup(g, p);
        if required.Err? then Err(TypeError)
        else
          var h := required.value;
          var r := SetAttr(h, p, NxClassAttributeName, items[n].1.nxType);
          AppendClass(items, f, g, h, r.value);
          r
  }

  lemma PrefixItems(items: seq<(string, GroupDefinition)>, f: File)
    requires |items| > 0
    ensures var n := |items| - 1;
            (forall i :: 0 <= i < |items| ==> !Blocked(f, PathOf(items[i].0))) <==>
            (forall i :: 0 <= i < n ==> !Blocked(f, PathOf(items[..n][i].0))) && !Blocked(f, PathOf(items[n].0))
  {
    var n := |items| - 1;
    assert forall i :: 0 <= i < n ==> items[..n][i] == items[i];
  }

  /** `create_required_groups`. */
  function CreateRequiredGroups(v: Validator, f: File): (r: Result<File>)
    requires WellFormed(f)
    ensures r.Ok? <==> forall i :: 0 <= i < |v.requiredGroups| ==> !Blocked(f, PathOf(v.requiredGroups[i].0))
    ensures r.Err? ==> r.error == TypeError
    ensures r.Ok? ==> WellFormed(r.value) && GroupsOnly(f, r.value)
  {
    CreateGroups(f, v.requiredGroups)
  }

  predicate DistinctPaths(items: seq<(string, GroupDefinition)>) {
    forall i, j :: 0 <= i < j < |items| ==> PathOf(items[i].0) != PathOf(items[j].0)
  }

  /** After `create_required_groups`, validation finds no group errors. */
  lemma CreatedGroupsValidate(v: Validator, f: File)
    requires WellFormed(f) && CreateRequiredGroups(v, f).Ok?
    requires DistinctPaths(v.requiredGroups)
    ensures GroupErrors(CreateRequiredGroups(v, f).value, v.requiredGroups) == ""
  {
    var g := CreateRequiredGroups(v, f).value;
    assert ClassesSet(v.requiredGroups, g);
    forall i | 0 <= i < |v.requiredGroups|
      ensures GroupConforms(g, v.requiredGroups[i].0, v.requiredGroups[i].1)
    {
      assert LastOfPath(v.requiredGroups, i);
    }
  }

  /** Creating the required groups leaves every dataset in place, so a file
      whose datasets conformed still passes validation afterwards. */
  lemma CreatedGroupsPassValidation(v: Validator, f: File)
    requires WellFormed(f) && CreateRequiredGroups(v, f).Ok?
    requires DistinctPaths(v.requiredGroups)
    requires forall i :: 0 <= i < |v.requiredDatasets| ==> DatasetConforms(f, v.requiredDatasets[i].0)
    ensures ValidateH5File(v, CreateRequiredGroups(v, f).value).Ok?
  {
    var g := CreateRequiredGroups(v, f).value;
    CreatedGroupsValidate(v, f);
    forall i | 0 <= i < |v.requiredDatasets| ensures DatasetConforms(g, v.requiredDatasets[i].0) {
      assert PathOf(v.requiredDatasets[i].0) in f.nodes;
    }
  }

  /** `dict(items)`: later entries override earlier ones with the same key. */
  function ItemsMap<D>(items: seq<(string, D)>): (m: map<string, D>)
    ensures forall k :: k in m <==> exists i :: 0 <= i < |items| && items[i].0 == k
    ensures forall k :: k in m ==> (k, m[k]) in items
  {
    if |items| == 0 then map[]
    else
      var n := |items| - 1;
      assert forall i :: 0 <= i < n ==> items[..n][i] == items[i];
      ItemsMap(items[..n])[items[n].0 := items[n].1]
  }

  function ClassKey(path: string): string {
    path + ":" + NxClassAttributeName
  }

  /** `get_required_group_attributes`: one `"<path>:NX_class"` key per
      required group, in ascending path order, holding the class of the
      group that `dict(required_groups)` keeps under that path. */
  method GetRequiredGroupAttributes(v: Validator) returns (attributes: seq<(string, Value)>, paths: seq<string>)
    ensures |paths| == |attributes|
    ensures Ordered.StrictlySorted(paths)
    ensures forall i :: 0 <= i < |attributes| ==> attributes[i].0 == ClassKey(paths[i])
    ensures forall i :: 0 <= i < |attributes| ==>
              paths[i] in ItemsMap(v.requiredGroups) && attributes[i].1 == ItemsMap(v.requiredGroups)[paths[i]].nxType
    ensures forall j :: 0 <= j < |v.requiredGroups| ==> v.requiredGroups[j].0 in paths
  {
    var m := ItemsMap(v.requiredGroups);
    var items := Ordered.SortedItems(m);
    attributes := seq(|items|, i requires 0 <= i < |items| => (ClassKey(items[i].0), items[i].1.nxType));
    paths := seq(|items|, i requires 0 <= i < |items| => items[i].0);
    forall i, j | 0 <= i < j < |paths| ensures Ordered.Less(paths[i], paths[j]) {
      assert paths[i] == items[i].0 && paths[j] == items[j].0;
    }
    forall i | 0 <= i < |attributes|
      ensures attributes[i].0 == ClassKey(paths[i]) && paths[i] in m && attributes[i].1 == m[paths[i]].nxType
    {
      assert paths[i] == items[i].0;
    }
    forall j | 0 <= j < |v.requiredGroups| ensures v.requiredGroups[j].0 in paths {
      var k := v.requiredGroups[j].0;
      assert k in m;
      var i :| 0 <= i < |items| && items[i].0 == k;
      assert paths[i] == k;
    }
  }

  // ---------------------------------------------------------------------
  // Walking an NXDL document.

  /** An element of the parsed XML document, as ElementTree exposes it. */
  datatype Element = Element(tag: string, attrib: map<string, string>, text: Option<string>, children: seq<Element>)

  /** A collected group: its NeXus class, whether it is required, its doc. */
  datatype GroupEntry = GroupEntry(nxClass: string, required: bool, doc: Option<string>)

  /** A collected field. An empty `attributes` list stands for the absent key. */
  datatype DatasetEntry = DatasetEntry(
    dtype: Option<string>, required: bool, doc: Option<string>, attributes: seq<string>, rank: Option<int>)

  datatype Definitions = Definitions(groups: map<string, GroupEntry>, datasets: map<string, DatasetEntry>)

  /** The qualified tag names, `{namespace}` followed by the local name. */
  datatype Tags = Tags(group: string, field: string, doc: string, attribute: string, dimensions: string)

  function TagsOf(schema: string): Tags {
    Tags(schema + "group", schema + "field", schema + "doc", schema + "attribute", schema + "dimensions")
  }

  /** `is_required`: a missing `minOccurs` counts as `"1"`. */
  predicate IsRequired(e: Element) {
    "minOccurs" !in e.attrib || e.attrib["minOccurs"] != "0"
  }

  /** `element.attrib[key]`. */
  function Attribute(e: Element, key: string): (r: Result<string>)
    ensures r.Ok? <==> key in e.attrib
    ensures r.Ok? ==> r.value == e.attrib[key]
    ensures r.Err? ==> r.error == KeyError(key)
  {
    if key in e.attrib then Ok(e.attrib[key]) else Err(KeyError(key))
  }

  /** `strip_doc_whitespace(node.text)`; an element without text has None,
      on which `replace` raises AttributeError. */
  function StripDoc(text: Option<string>): (r: Result<string>)
    ensures r.Ok? <==> text.Some?
    ensures r.Ok? ==> '\t' !in r.value && '\n' !in r.value
    ensures r.Ok? && |r.value| > 0 ==> !Text.IsSpace(r.value[0]) && !Text.IsSpace(r.value[|r.value| - 1])
    ensures text.Some? && (forall i :: 0 <= i < |text.value| ==> !Text.IsSpace(text.value[i])) ==> r == Ok(text.value)
  {
    match text
    case None => Err(AttributeError("replace"))
    case Some(s) =>
      var joined := Text.ReplaceChar(Text.RemoveChar(s, '\t'), '\n', ' ');
      JoinedLines(s);
      Text.StripInfix(joined);
      NoSpaceUnchanged(s);
      Ok(Text.Strip(joined))
  }

  lemma JoinedLines(s: string)
    ensures var joined := Text.ReplaceChar(Text.RemoveChar(s, '\t'), '\n', ' ');
            '\t' !in joined && '\n' !in joined
  {
    var noTabs := Text.RemoveChar(s, '\t');
    var joined := Text.ReplaceChar(noTabs, '\n', ' ');
    forall i | 0 <= i < |joined| ensures joined[i] != '\t' && joined[i] != '\n' {
      assert noTabs[i] in noTabs;
    }
  }

  lemma NoSpaceUnchanged(s: string)
    ensures (forall i :: 0 <= i < |s| ==> !Text.IsSpace(s[i])) ==>
              Text.Strip(Text.ReplaceChar(Text.RemoveChar(s, '\t'), '\n', ' ')) == s
  {
    if forall i :: 0 <= i < |s| ==> !Text.IsSpace(s[i]) {
      assert Text.RemoveChar(s, '\t') == s;
      var joined := Text.ReplaceChar(s, '\n', ' ');
      forall i | 0 <= i < |s| ensures joined[i] == s[i] {
        assert s[i] != '\n' by { assert !Text.IsSpace(s[i]); }
      }
      assert joined == s;
      Text.StripNoSpace(s);
    }
  }

  /** `group.attrib.get("name") or group_type[2:]`. */
  function GroupName(e: Element, groupType: string): (r: string)
    ensures "name" in e.attrib && e.attrib["name"] != "" ==> r == e.attrib["name"]
    ensures ("name" !in e.attrib || e.attrib["name"] == "") && |groupType| >= 2 ==> r == groupType[2..]
    ensures ("name" !in e.attrib || e.attrib["name"] == "") && |groupType| < 2 ==> r == ""
  {
    if "name" in e.attrib && e.attrib["name"] != "" then e.attrib["name"]
    else if |groupType| >= 2 then groupType[2..]
    else ""
  }

  /** `key` names something below `dir`. */
  predicate Under(key: string, dir: string) {
    Text.StartsWith(key, dir + "/")
  }

  lemma UnderChild(key: string, dir: string, name: string)
    requires Under(key, dir + "/" + name)
    ensures Under(key, dir)
  {
    assert key[..|dir| + 1] == (dir + "/" + name + "/")[..|dir| + 1];
    assert (dir + "/" + name + "/")[..|dir| + 1] == dir + "/";
  }

  lemma ChildIsUnder(dir: string, name: string)
    ensures Under(dir + "/" + name, dir)
  {
    assert (dir + "/" + name)[..|dir| + 1] == dir + "/";
  }

  /** Every entry of `after` that differs from `before` lies below `dir`. */
  ghost predicate ChangesUnder(before: Definitions, after: Definitions, dir: string) {
    && before.groups.Keys <= after.groups.Keys
    && before.datasets.Keys <= after.datasets.Keys
    && (forall k :: k in after.groups ==> (k in before.groups && after.groups[k] == before.groups[k]) || Under(k, dir))
    && (forall k :: k in after.datasets ==> (k in before.datasets && after.datasets[k] == before.datasets[k]) || Under(k, dir))
  }

  /** `process_group(group, group_path)`. */
  function ProcessGroup(e: Element, parent: string, t: Tags, st: Definitions): (r: Result<Definitions>)
    ensures "type" !in e.attrib ==> r == Err(KeyError("type"))
    ensures r.Ok? ==> "type" in e.attrib && ChangesUnder(st, r.value, parent)
    ensures r.Ok? ==>
              var path := parent + "/" + GroupName(e, e.attrib["type"]);
              && path in r.value.groups
              && r.value.groups[path].nxClass == e.attrib["type"]
              && r.value.groups[path].required == IsRequired(e)
    decreases e, 1
  {
    var groupType :- Attribute(e, "type");
    var name := GroupName(e, groupType);
    var path := parent + "/" + name;
    var entered := st.(groups := st.groups[path := GroupEntry(groupType, IsRequired(e), None)]);
    var r := ProcessGroupNodes(e, 0, path, t, entered);
    if r.Ok? then
      GroupChanges(st, entered, r.value, parent, name);
      Ok(r.value)
    else r
  }

  /** Entering a group at `parent/name` and walking its children changes
      only entries below `parent`. */
  lemma GroupChanges(st: Definitions, entered: Definitions, after: Definitions, parent: string, name: string)
    requires var path := parent + "/" + name;
             && entered.datasets == st.datasets && path in entered.groups
             && entered.groups == st.groups[path := entered.groups[path]]
             && entered.groups.Keys <= after.groups.Keys && entered.datasets.Keys <= after.datasets.Keys
             && (forall k :: k in after.groups ==>
                   (k in entered.groups && after.groups[k] == entered.groups[k]) || Under(k, path) || k == path)
             && (forall k :: k in after.datasets ==>
                   (k in entered.datasets && after.datasets[k] == entered.datasets[k]) || Under(k, path))
    ensures ChangesUnder(st, after, parent)
  {
    var path := parent + "/" + name;
    ChildIsUnder(parent, name);
    forall k | k in after.groups && Under(k, path) ensures Under(k, parent) { UnderChild(k, parent, name); }
    forall k | k in after.datasets && Under(k, path) ensures Under(k, parent) { UnderChild(k, parent, name); }
  }

  /** The loop of `process_group` over the children of `e` from index `i`. */
  function ProcessGroupNodes(e: Element, i: nat, path: string, t: Tags, st: Definitions): (r: Result<Definitions>)
    requires i <= |e.children| && path in st.groups
    ensures r.Ok? ==> path in r.value.groups
                      && r.value.groups[path].nxClass == st.groups[path].nxClass
                      && r.value.groups[path].required == st.groups[path].required
    ensures r.Ok? ==> st.groups.Keys <= r.value.groups.Keys && st.datasets.Keys <= r.value.datasets.Keys
    ensures r.Ok? ==> forall k :: k in r.value.groups ==>
              (k in st.groups && r.value.groups[k] == st.groups[k]) || Under(k, path) || k == path
    ensures r.Ok? ==> forall k :: k in r.value.datasets ==>
              (k in st.datasets && r.value.datasets[k] == st.datasets[k]) || Under(k, path)
    decreases e, 0, |e.children| - i
  {
    if i == |e.children| then Ok(st)
    else
      var node := e.children[i];
      var next :-
        if node.tag == t.group then ProcessGroup(node, path, t, st)
        else if node.tag == t.field then ProcessDataset(node, path, t, st)
        else if node.tag == t.doc then
          var doc :- StripDoc(node.text);
          Ok(st.(groups := st.groups[path := st.groups[path].(doc := Some(doc))]))
        else Ok(st);
      assert !Under(path, path);
      ProcessGroupNodes(e, i + 1, path, t, next)
  }

  /** `process_dataset(dataset, group_path)`. */
  function ProcessDataset(e: Element, groupPath: string, t: Tags, st: Definitions): (r: Result<Definitions>)
    ensures "name" !in e.attrib ==> r == Err(KeyError("name"))
    ensures r.Ok? ==> "name" in e.attrib && r.value.groups == st.groups
    ensures r.Ok? ==>
              var path := groupPath + "/" + e.attrib["name"];
              && path in r.value.datasets
              && r.value.datasets[path].dtype == (if "type" in e.attrib then Some(e.attrib["type"]) else None)
              && r.value.datasets[path].required == IsRequired(e)
              && r.value.datasets.Keys == st.datasets.Keys + {path}
              && forall k :: k in st.datasets && k != path ==> r.value.datasets[k] == st.datasets[k]
  {
    var name :- Attribute(e, "name");
    var path := groupPath + "/" + name;
    var dtype := if "type" in e.attrib then Some(e.attrib["type"]) else None;
    var entered := st.(datasets := st.datasets[path := DatasetEntry(dtype, IsRequired(e), None, [], None)]);
    ProcessDatasetNodes(e, 0, path, t, entered)
  }

  /** The loop of `process_dataset` over the children of `e` from index `i`. */
  function ProcessDatasetNodes(e: Element, i: nat, path: string, t: Tags, st: Definitions): (r: Result<Definitions>)
    requires i <= |e.children| && path in st.datasets
    ensures r.Ok? ==> r.value.groups == st.groups && r.value.datasets.Keys == st.datasets.Keys
    ensures r.Ok? ==> r.value.datasets[path].dtype == st.datasets[path].dtype
                      && r.value.datasets[path].required == st.datasets[path].required
    ensures r.Ok? ==> forall k :: k in st.datasets && k != path ==> r.value.datasets[k] == st.datasets[k]
    decreases |e.children| - i
  {
    if i == |e.children| then Ok(st)
    else
      var next :- ProcessDatasetNode(e.children[i], t, st.datasets[path]);
      ProcessDatasetNodes(e, i + 1, path, t, st.(datasets := st.datasets[path := next]))
  }

  /** One child of a `field` element: its doc, an attribute name or the
      rank of its dimensions; other children leave the entry as it is. */
  function ProcessDatasetNode(node: Element, t: Tags, entry: DatasetEntry): (r: Result<DatasetEntry>)
    ensures r.Ok? ==> r.value.dtype == entry.dtype && r.value.required == entry.required
  {
    if node.tag == t.doc then
      var doc :- StripDoc(node.text);
      Ok(entry.(doc := Some(doc)))
    else if node.tag == t.attribute then
      var name :- Attribute(node, "name");
      Ok(entry.(attributes := entry.attributes + [name]))
    else if node.tag == t.dimensions then
      var rank :- Attribute(node, "rank");
      var value :- Text.ParseInt(rank);
      Ok(entry.(rank := Some(value)))
    else Ok(entry)
  }

  /** A `group` child has an entry at its path below `path`, and so has a
      `field` child. */
  ghost predicate ChildRecorded(node: Element, path: string, t: Tags, d: Definitions) {
    && (node.tag == t.group ==>
          "type" in node.attrib && path + "/" + GroupName(node, node.attrib["type"]) in d.groups)
    && (node.tag == t.field && node.tag != t.group ==>
          "name" in node.attrib && path + "/" + node.attrib["name"] in d.datasets)
  }

  /** An entry once made stays through a walk that only adds keys. */
  lemma RecordedStays(node: Element, path: string, t: Tags, d: Definitions, r: Result<Definitions>)
    requires ChildRecorded(node, path, t, d)
    requires r.Ok? ==> d.groups.Keys <= r.value.groups.Keys && d.datasets.Keys <= r.value.datasets.Keys
    ensures r.Ok? ==> ChildRecorded(node, path, t, r.value)
  {
  }

  /** When the walk over the children of a group succeeds, every `group`
      and `field` child it visited has left an entry. */
  lemma {:induction false} ChildrenRecorded(e: Element, i: nat, path: string, t: Tags, st: Definitions)
    requires i <= |e.children| && path in st.groups
    ensures var r := ProcessGroupNodes(e, i, path, t, st);
            r.Ok? ==> forall j :: i <= j < |e.children| ==> ChildRecorded(e.children[j], path, t, r.value)
    decreases |e.children| - i
  {
    if i < |e.children| {
      var node := e.children[i];
      var r := ProcessGroupNodes(e, i, path, t, st);
      if node.tag == t.group {
        var next := ProcessGroup(node, path, t, st);
        if next.Ok? {
          assert r == ProcessGroupNodes(e, i + 1, path, t, next.value);
          ChildrenRecorded(e, i + 1, path, t, next.value);
          RecordedStays(node, path, t, next.value, r);
        }
      } else if node.tag == t.field {
        var next := ProcessDataset(node, path, t, st);
        if next.Ok? {
          assert r == ProcessGroupNodes(e, i + 1, path, t, next.value);
          ChildrenRecorded(e, i + 1, path, t, next.value);
          RecordedStays(node, path, t, next.value, r);
        }
      } else if node.tag == t.doc {
        var doc := StripDoc(node.text);
        if doc.Ok? {
          ChildrenRecorded(e, i + 1, path, t, st.(groups := st.groups[path := st.groups[path].(doc := Some(doc.value))]));
        }
      } else {
        ChildrenRecorded(e, i + 1, path, t, st);
      }
    }
  }

  /** A group that `process_group` walks successfully has an entry for each
      of its `group` and `field` children. */
  lemma GroupChildrenRecorded(e: Element, parent: string, t: Tags, st: Definitions)
    ensures var r := ProcessGroup(e, parent, t, st);
            r.Ok? ==> forall j :: 0 <= j < |e.children| ==>
                        ChildRecorded(e.children[j], parent + "/" + GroupName(e, e.attrib["type"]), t, r.value)
  {
    if "type" in e.attrib {
      var path := parent + "/" + GroupName(e, e.attrib["type"]);
      var entered := st.(groups := st.groups[path := GroupEntry(e.attrib["type"], IsRequired(e), None)]);
      ChildrenRecorded(e, 0, path, t, entered);
    }
  }

  /** `root.find(tag)`: the first child with that tag. */
  function FindChild(children: seq<Element>, tag: string): (r: Option<Element>)
    ensures r.Some? ==> r.value in children && r.value.tag == tag
    ensures r.None? <==> forall i :: 0 <= i < |children| ==> children[i].tag != tag
    ensures r.Some? ==> exists i :: 0 <= i < |children| && children[i] == r.value
                                    && forall j :: 0 <= j < i ==> children[j].tag != tag
  {
    if |children| == 0 then None
    else if children[0].tag == tag then
      assert children[0] == children[0];
      Some(children[0])
    else
      var r := FindChild(children[1..], tag);
      if r.Some? then
        var i :| 0 <= i < |children[1..]| && children[1..][i] == r.value
                 && forall j :: 0 <= j < i ==> children[1..][j].tag != tag;
        assert children[i + 1] == r.value;
        r
      else r
  }

  /** `parse_nx_definition` on an already parsed document: the schema
      namespace is the root tag up to its first `}`, and the walk starts at
      the root's first group child with an empty parent path. */
  function ParseNxDefinition(root: Element): (r: Result<Definitions>)
    ensures Text.IndexOf(root.tag, "}").None? ==> r.Err? && r.error.ValueError?
    ensures r.Ok? ==> forall k :: k in r.value.groups ==> Under(k, "")
    ensures r.Ok? ==> forall k :: k in r.value.datasets ==> Under(k, "")
    ensures r.Ok? ==>
              var schema := root.tag[..Text.IndexOf(root.tag, "}").value + 1];
              var top := FindChild(root.children, schema + "group");
              && top.Some? && "type" in top.value.attrib
              && "/" + GroupName(top.value, top.value.attrib["type"]) in r.value.groups
  {
    match Text.IndexOf(root.tag, "}")
    case None => Err(ValueError("substring not found"))
    case Some(index) =>
      var schema := root.tag[..index + 1];
      var t := TagsOf(schema);
      match FindChild(root.children, t.group)
      case None => Err(AttributeError("attrib"))
      case Some(top) =>
        assert forall x: string :: "" + "/" + x == "/" + x;
        ProcessGroup(top, "", t, Definitions(map[], map[]))
  }

  /** A parsed definition has an entry for every `group` and `field` child
      of the top group `top`, at its path below the top group's path. */
  lemma ParsedChildrenRecorded(root: Element, index: nat, top: Element)
    requires Text.IndexOf(root.tag, "}") == Some(index)
    requires FindChild(root.children, TagsOf(root.tag[..index + 1]).group) == Some(top)
    ensures ParseNxDefinition(root).Ok? ==>
              && "type" in top.attrib
              && forall j :: 0 <= j < |top.children| ==>
                   ChildRecorded(top.children[j], "/" + GroupName(top, top.attrib["type"]),
                                 TagsOf(root.tag[..index + 1]), ParseNxDefinition(root).value)
  {
    var t := TagsOf(root.tag[..index + 1]);
    ParseIsTopGroup(root, index, top);
    TopChildrenRecorded(top, t);
  }

  /** With a namespace and a top group, parsing is walking that group. */
  lemma ParseIsTopGroup(root: Element, index: nat, top: Element)
    requires Text.IndexOf(root.tag, "}") == Some(index)
    requires FindChild(root.children, TagsOf(root.tag[..index + 1]).group) == Some(top)
    ensures ParseNxDefinition(root) == ProcessGroup(top, "", TagsOf(root.tag[..index + 1]), Definitions(map[], map[]))
  {
    var t := TagsOf(root.tag[..index + 1]);
    assert FindChild(root.children, t.group) == Some(top);
  }

  /** `GroupChildrenRecorded` for the top group, below the empty path. */
  lemma TopChildrenRecorded(top: Element, t: Tags)
    ensures var r := ProcessGroup(top, "", t, Definitions(map[], map[]));
            r.Ok? ==> && "type" in top.attrib
                      && forall j :: 0 <= j < |top.children| ==>
                           ChildRecorded(top.children[j], "/" + GroupName(top, top.attrib["type"]), t, r.value)
  {
    GroupChildrenRecorded(top, "", t, Definitions(map[], map[]));
    if "type" in top.attrib {
      var name := GroupName(top, top.attrib["type"]);
      assert "" + "/" + name == "/" + name;
    }
  }

  /** The returned `OrderedDict(sorted(...))` listings of both maps. */
  method ParseNxDefinitionSorted(root: Element)
    returns (r: Result<(seq<(string, GroupEntry)>, seq<(string, DatasetEntry)>)>)
    ensures r.Ok? <==> ParseNxDefinition(root).Ok?
    ensures r.Ok? ==> var d := ParseNxDefinition(root).value;
              && |r.value.0| == |d.groups| && |r.value.1| == |d.datasets|
              && (forall i, j :: 0 <= i < j < |r.value.0| ==> Ordered.Less(r.value.0[i].0, r.value.0[j].0))
              && (forall i, j :: 0 <= i < j < |r.value.1| ==> Ordered.Less(r.value.1[i].0, r.value.1[j].0))
              && (forall i :: 0 <= i < |r.value.0| ==> r.value.0[i].0 in d.groups && d.groups[r.value.0[i].0] == r.value.0[i].1)
              && (forall i :: 0 <= i < |r.value.1| ==> r.value.1[i].0 in d.datasets && d.datasets[r.value.1[i].0] == r.value.1[i].1)
  {
    var parsed := ParseNxDefinition(root);
    if parsed.Err? {
      return Err(parsed.error);
    }
    var groups := Ordered.SortedItems(parsed.value.groups);
    var datasets := Ordered.SortedItems(parsed.value.datasets);
    r := Ok((groups, datasets));
  }

  // ---------------------------------------------------------------------
  // Reading definition dicts.

  /** The dict `process_group` stores for a collected group: its class under
      `attributes`, its required flag, and its doc when it has one. */
  function ParsedGroupDict(e: GroupEntry): (r: Value)
    ensures r.Dict? && "type" !in r.entries
    ensures "attributes" in r.entries && r.entries["attributes"] == Dict(map[NxClassAttributeName := Str(e.nxClass)])
    ensures "required" in r.entries && r.entries["required"] == Bool(e.required)
    ensures "doc" in r.entries <==> e.doc.Some?
  {
    var base := map["attributes" := Dict(map[NxClassAttributeName := Str(e.nxClass)]), "required" := Bool(e.required)];
    Dict(if e.doc.Some? then base["doc" := Str(e.doc.value)] else base)
  }

  /** A group definition as the validator reads it: `definition["required"]`
      when it is built, `definition["type"]` when a class is checked, set or
      listed. */
  function GroupDefinitionAsWritten(definition: Value): (r: Result<GroupDefinition>)
    ensures r.Ok? <==> Lookup(definition, "required").Ok? && Lookup(definition, "type").Ok?
    ensures r.Ok? ==> r.value == GroupDefinition(definition.entries["type"], Truthy(definition.entries["required"]))
  {
    var required :- Lookup(definition, "required");
    var nxType :- Lookup(definition, "type");
    Ok(GroupDefinition(nxType, Truthy(required)))
  }

  /** Every group the parser collects lacks the `"type"` key the validator
      reads, so a validator built from parsed definitions raises
      `KeyError('type')` as soon as it looks at a group's class. */
  lemma ParsedGroupLacksType(e: GroupEntry)
    ensures GroupDefinitionAsWritten(ParsedGroupDict(e)) == Err(KeyError("type"))
  {
  }

  /** The corrected reading: the class is taken from
      `definition["attributes"]["NX_class"]`, where the parser puts it. */
  function GroupDefinitionOf(definition: Value): (r: Result<GroupDefinition>)
    ensures r.Ok? <==> && Lookup(definition, "required").Ok? && Lookup(definition, "attributes").Ok?
                       && Lookup(definition.entries["attributes"], NxClassAttributeName).Ok?
    ensures r.Ok? ==> r.value == GroupDefinition(definition.entries["attributes"].entries[NxClassAttributeName],
                                                 Truthy(definition.entries["required"]))
    ensures Lookup(definition, "required").Ok? && Lookup(definition, "attributes").Ok? ==>
              var attributes := Lookup(definition, "attributes").value;
              && (!attributes.Dict? ==> r == Err(TypeError))
              && (attributes.Dict? && NxClassAttributeName !in attributes.entries ==> r == Err(KeyError(NxClassAttributeName)))
  {
    var required :- Lookup(definition, "required");
    var attributes :- Lookup(definition, "attributes");
    var nxType :- Lookup(attributes, NxClassAttributeName);
    Ok(GroupDefinition(nxType, Truthy(required)))
  }

  /** What a collected group means to the validator: its class as a string
      and its required flag. */
  function DefinitionOfParsed(e: GroupEntry): GroupDefinition {
    GroupDefinition(Str(e.nxClass), e.required)
  }

  /** The corrected reading recovers each collected group's class and flag
      from the dict the parser stores. */
  lemma ParsedGroupRead(e: GroupEntry)
    ensures GroupDefinitionOf(ParsedGroupDict(e)) == Ok(DefinitionOfParsed(e))
  {
  }

  /** The group definitions a validator gets from parsed groups. */
  function ParsedDefinitions(items: seq<(string, GroupEntry)>): (r: seq<(string, GroupDefinition)>)
    ensures |r| == |items|
    ensures forall i :: 0 <= i < |items| ==> r[i] == (items[i].0, DefinitionOfParsed(items[i].1))
  {
    seq(|items|, i requires 0 <= i < |items| => (items[i].0, DefinitionOfParsed(items[i].1)))
  }

  /** With the corrected reading, creating the required groups of a parsed
      definition gives every required group the class the NXDL document
      declares for it. */
  lemma ParsedClassesCreated(items: seq<(string, GroupEntry)>, datasets: seq<(string, DatasetDefinition)>, f: File, i: nat)
    requires WellFormed(f)
    requires var v := NewValidator(ParsedDefinitions(items), datasets);
             CreateRequiredGroups(v, f).Ok? && DistinctPaths(v.requiredGroups)
    requires i < |items| && items[i].1.required
    ensures var g := CreateRequiredGroups(NewValidator(ParsedDefinitions(items), datasets), f).value;
            var p := PathOf(items[i].0);
            && p in g.nodes && g.nodes[p].Group?
            && NxClassAttributeName in g.nodes[p].attrs
            && g.nodes[p].attrs[NxClassAttributeName] == Str(items[i].1.nxClass)
  {
    var v := NewValidator(ParsedDefinitions(items), datasets);
    CreatedGroupsValidate(v, f);
    var x := ParsedDefinitions(items)[i];
    assert x in v.requiredGroups;
    var j :| 0 <= j < |v.requiredGroups| && v.requiredGroups[j] == x;
  }
}

=== FILE: nxmx_utils.dfy ===
/** The NXMX master-file helpers: naming the external links to the data
    files, and turning a detector header into dataset values. */
module NxmxUtils {
  import opened Wrappers
  import opened Values
  import Text
  import opened H5

  const MasterFilenameSuffix: string := "_master.h5"
  /** The dataset every data file holds its frames in. */
  const ExternalDatasetPath: string := "entry/data/data"

  // ---------------------------------------------------------------------
  // create_external_data_files_links
  // ---------------------------------------------------------------------

  /** The link name for one data file: `"/entry/data/"` followed by the
      basename from just after the `_` of its first `"_data_"` up to its last
      `".h5"`; `str.index`/`str.rindex` raise ValueError when either is
      missing. */
  function LinkName(filePath: string): (r: Result<string>)
    ensures var name := Text.Basename(filePath);
            r.Ok? <==> Text.IndexOf(name, "_data_").Some? && Text.RIndexOf(name, ".h5").Some?
    ensures r.Err? ==> r.error.ValueError?
    ensures r.Ok? ==> var name := Text.Basename(filePath);
                      var i := Text.IndexOf(name, "_data_").value;
                      var j := Text.RIndexOf(name, ".h5").value;
                      r.value == "/entry/data/" + Text.Slice(name, i + 1, j)
  {
    var name := Text.Basename(filePath);
    match (Text.IndexOf(name, "_data_"), Text.RIndexOf(name, ".h5"))
    case (Some(i), Some(j)) => Ok("/entry/data/" + Text.Slice(name, i + 1, j))
    case (None, _) => Err(ValueError("substring not found"))
    case (_, None) => Err(ValueError("substring not found"))
  }

  /** The name of data file `n` of an experiment, as the writer's
      `{chunk_number:06d}` template spells it. */
  function DataFileName(experimentId: string, n: nat): string {
    experimentId + "_data_" + Text.ZeroPad(n, 6) + ".h5"
  }

  /** The first `"_data_"` of a data file name is the one the template put
      after the experiment id, when the id holds no underscore. */
  lemma FirstDataMarker(experiment: string, rest: string)
    requires '_' !in experiment
    ensures Text.IndexOf(experiment + "_data_" + rest, "_data_") == Some(|experiment|)
  {
    var name := experiment + "_data_" + rest;
    var e := |experiment|;
    assert name[e..e + 6] == "_data_";
    assert Text.OccursAt(name, "_data_", e);
    forall j | 0 <= j < e ensures !Text.OccursAt(name, "_data_", j) {
      assert name[j] == experiment[j];
    }
  }

  /** Where the template puts the markers `LinkName` searches for. */
  lemma DataFileMarkers(experiment: string, n: nat)
    requires '/' !in experiment && '_' !in experiment
    ensures var name := DataFileName(experiment, n);
            var stemLength := |experiment| + 6 + |Text.ZeroPad(n, 6)|;
            && '/' !in name
            && Text.IndexOf(name, "_data_") == Some(|experiment|)
            && Text.RIndexOf(name, ".h5") == Some(stemLength)
            && |experiment| + 1 <= stemLength <= |name|
            && name[|experiment| + 1..stemLength] == "data_" + Text.ZeroPad(n, 6)
  {
    var digits := Text.ZeroPad(n, 6);
    var stem := experiment + "_data_" + digits;
    var name := DataFileName(experiment, n);
    assert name == stem + ".h5";
    forall i | 0 <= i < |name| ensures name[i] != '/' {
      if |experiment| + 6 <= i < |stem| { assert Text.IsDigit(digits[i - |experiment| - 6]); }
    }
    FirstDataMarker(experiment, digits + ".h5");
    assert experiment + "_data_" + (digits + ".h5") == name;
    Text.RIndexOfSuffix(stem, ".h5");
    assert name[|experiment| + 1..|stem|] == "data_" + digits;
  }

  /** Naming a link after a data file of the writer keeps `data_` and the
      chunk number: `x_data_000001.h5` links as `/entry/data/data_000001`. */
  lemma LinkNameOfDataFile(dir: string, experiment: string, n: nat)
    requires '/' !in experiment && '_' !in experiment
    ensures LinkName(dir + "/" + DataFileName(experiment, n)) == Ok("/entry/data/data_" + Text.ZeroPad(n, 6))
  {
    var name := DataFileName(experiment, n);
    DataFileMarkers(experiment, n);
    Text.BasenameAfter(dir, name);
    var stemLength := |experiment| + 6 + |Text.ZeroPad(n, 6)|;
    assert Text.Slice(name, |experiment| + 1, stemLength) == "data_" + Text.ZeroPad(n, 6);
    assert "/entry/data/" + ("data_" + Text.ZeroPad(n, 6)) == "/entry/data/data_" + Text.ZeroPad(n, 6);
  }

  /** Every file got a new external link at its link name. */
  ghost predicate LinkedAll(files: seq<string>, f: File, g: File) {
    forall i :: 0 <= i < |files| ==>
      && LinkName(files[i]).Ok?
      && var p := PathOf(LinkName(files[i]).value);
      && p in g.nodes && p !in f.nodes
      && g.nodes[p] == ExternalLink(Text.Basename(files[i]), ExternalDatasetPath)
  }

  lemma {:induction false} AppendLink(files: seq<string>, f: File, g: File, h: File)
    requires |files| > 0
    requires var n := |files| - 1;
             && LinkedAll(files[..n], f, g) && Extends(f, g) && Extends(g, h)
             && LinkName(files[n]).Ok?
             && var p := PathOf(LinkName(files[n]).value);
             && p !in g.nodes && p in h.nodes
             && h.nodes[p] == ExternalLink(Text.Basename(files[n]), ExternalDatasetPath)
    ensures LinkedAll(files, f, h)
  {
    var n := |files| - 1;
    forall i | 0 <= i < |files|
      ensures LinkName(files[i]).Ok?
      ensures var p := PathOf(LinkName(files[i]).value);
              && p in h.nodes && p !in f.nodes
              && h.nodes[p] == ExternalLink(Text.Basename(files[i]), ExternalDatasetPath)
    {
      if i < n {
        assert files[..n][i] == files[i];
      }
    }
  }

  /** The object path a data file is linked at. */
  function LinkPath(filePath: string): Path
    requires LinkName(filePath).Ok?
  {
    PathOf(LinkName(filePath).value)
  }

  /** `p` is new to `f` and its parent can still be made a group. */
  ghost predicate PathFree(f: File, p: Path) {
    p != [] && p !in f.nodes && !Blocked(f, Parent(p))
  }

  /** The object at `p` neither takes `q`'s place nor sits on the way to it. */
  predicate PathsApart(p: Path, q: Path) {
    q != [] && p != q && !IsPrefix(p, Parent(q))
  }

  /** Objects at `ps` can be made one after another: each path is free in
      the file, and no two collide or lie on each other's way. */
  ghost predicate PathsFit(f: File, ps: seq<Path>) {
    && (forall i :: 0 <= i < |ps| ==> PathFree(f, ps[i]))
    && (forall i, j :: 0 <= i < |ps| && 0 <= j < |ps| && i != j ==> PathsApart(ps[i], ps[j]))
  }

  /** `q` is `p` itself, or an empty group made on the way to it. */
  predicate MadeOnWay(q: Path, p: Path, node: Node) {
    q == p || (p != [] && IsPrefix(q, Parent(p)) && node == Group(map[]))
  }

  /** Everything `g` adds to `f` was made for one of the paths. */
  ghost predicate OnlyMadeFor(ps: seq<Path>, f: File, g: File) {
    forall q :: q in g.nodes && q !in f.nodes ==>
      exists j :: 0 <= j < |ps| && MadeOnWay(q, ps[j], g.nodes[q])
  }

  /** Every path holds a link in `g` that `f` did not have. */
  ghost predicate HoldsLinks(ps: seq<Path>, f: File, g: File) {
    forall i :: 0 <= i < |ps| ==> ps[i] in g.nodes && ps[i] !in f.nodes && g.nodes[ps[i]].ExternalLink?
  }

  lemma PathsFitPrefix(f: File, ps: seq<Path>, n: nat)
    requires n <= |ps| && PathsFit(f, ps)
    ensures PathsFit(f, ps[..n])
  {
    forall i | 0 <= i < n ensures PathFree(f, ps[..n][i]) { assert ps[..n][i] == ps[i]; }
    forall i, j | 0 <= i < n && 0 <= j < n && i != j ensures PathsApart(ps[..n][i], ps[..n][j]) {
      assert ps[..n][i] == ps[i] && ps[..n][j] == ps[j];
    }
  }

  /** The last path has room in `g` when all paths fit and `g` added only
      what the earlier ones needed. */
  lemma {:induction false} FittingPathIsFree(f: File, ps: seq<Path>, g: File)
    requires |ps| > 0 && Extends(f, g) && PathsFit(f, ps)
    requires OnlyMadeFor(ps[..|ps| - 1], f, g)
    ensures PathFree(g, ps[|ps| - 1])
  {
    var n := |ps| - 1;
    var p := ps[n];
    assert PathFree(f, p);
    forall j | 0 <= j < n ensures ps[..n][j] == ps[j] && PathsApart(ps[j], p) && PathsApart(p, ps[j]) { }
    assert p !in g.nodes;
    forall k | 0 <= k <= |Parent(p)| && Parent(p)[..k] in g.nodes ensures g.nodes[Parent(p)[..k]].Group? {
      var x := Parent(p)[..k];
      assert IsPrefix(x, Parent(p));
    }
  }

  /** A free path clears an existing non-group object both ways. */
  lemma FreePathIsApart(g: File, p: Path, q: Path)
    requires WellFormed(g) && PathFree(g, p)
    requires q != [] && q in g.nodes && !g.nodes[q].Group?
    ensures PathsApart(q, p) && PathsApart(p, q)
  {
    assert |q| <= |Parent(p)| ==> Parent(p)[..|q|] in g.nodes ==> g.nodes[Parent(p)[..|q|]].Group?;
    if |p| < |Parent(q)| {
      AncestorsAreGroups(g, Parent(q), |p|);
    } else {
      assert Parent(q) in g.nodes && Parent(q)[..|Parent(q)|] == Parent(q);
    }
  }

  /** A last path with room in `g` fits with the earlier ones. */
  lemma {:induction false} FreePathFits(f: File, ps: seq<Path>, g: File)
    requires |ps| > 0 && WellFormed(g) && Extends(f, g)
    requires var n := |ps| - 1;
             PathsFit(f, ps[..n]) && HoldsLinks(ps[..n], f, g) && PathFree(g, ps[n])
    ensures PathsFit(f, ps)
  {
    var n := |ps| - 1;
    var p := ps[n];
    forall k | 0 <= k <= |Parent(p)| && Parent(p)[..k] in f.nodes ensures f.nodes[Parent(p)[..k]].Group? {
      assert Parent(p)[..k] in g.nodes;
    }
    forall i | 0 <= i < |ps| ensures PathFree(f, ps[i]) {
      if i < n { assert PathFree(f, ps[..n][i]); assert ps[..n][i] == ps[i]; }
    }
    forall i, j | 0 <= i < |ps| && 0 <= j < |ps| && i != j ensures PathsApart(ps[i], ps[j]) {
      if i < n && j < n {
        assert PathsApart(ps[..n][i], ps[..n][j]);
        assert ps[..n][i] == ps[i] && ps[..n][j] == ps[j];
      } else {
        var e := if i < n then i else j;
        assert PathFree(f, ps[..n][e]) && ps[..n][e] == ps[e];
        assert ps[e] in g.nodes && !g.nodes[ps[e]].Group?;
        FreePathIsApart(g, p, ps[e]);
      }
    }
  }

  /** Making the last object adds only it and groups on its way. */
  lemma {:induction false} NextPathOnlyAdds(f: File, ps: seq<Path>, g: File, h: File)
    requires |ps| > 0 && Extends(f, g) && Extends(g, h)
    requires var n := |ps| - 1;
             && OnlyMadeFor(ps[..n], f, g) && ps[n] != [] && ps[n] in h.nodes
             && forall q :: q in h.nodes && q !in g.nodes && q != ps[n] ==>
                  IsPrefix(q, Parent(ps[n])) && h.nodes[q] == Group(map[])
    ensures OnlyMadeFor(ps, f, h)
  {
    var n := |ps| - 1;
    forall q | q in h.nodes && q !in f.nodes
      ensures exists j :: 0 <= j < |ps| && MadeOnWay(q, ps[j], h.nodes[q])
    {
      if q in g.nodes {
        var j :| 0 <= j < n && MadeOnWay(q, ps[..n][j], g.nodes[q]);
        assert ps[..n][j] == ps[j];
        assert MadeOnWay(q, ps[j], h.nodes[q]);
      } else {
        assert MadeOnWay(q, ps[n], h.nodes[q]);
      }
    }
  }

  /** Every file has a link name. */
  predicate AllNamed(files: seq<string>) {
    forall i :: 0 <= i < |files| ==> LinkName(files[i]).Ok?
  }

  /** The link paths of the files, in order. */
  function LinkPaths(files: seq<string>): (ps: seq<Path>)
    requires AllNamed(files)
    ensures |ps| == |files| && forall i :: 0 <= i < |files| ==> ps[i] == LinkPath(files[i])
  {
    seq(|files|, i requires 0 <= i < |files| => LinkPath(files[i]))
  }

  /** Every file has a link name and the links can all be made. */
  ghost predicate LinksFit(f: File, files: seq<string>) {
    AllNamed(files) && PathsFit(f, LinkPaths(files))
  }

  /** Everything `g` adds to `f` is a link for one of the files or a group on
      the way to one. */
  ghost predicate OnlyLinksAndGroups(files: seq<string>, f: File, g: File) {
    AllNamed(files) && OnlyMadeFor(LinkPaths(files), f, g)
  }

  lemma LinkPathsPrefix(files: seq<string>)
    requires |files| > 0 && AllNamed(files)
    ensures AllNamed(files[..|files| - 1])
    ensures LinkPaths(files)[..|files| - 1] == LinkPaths(files[..|files| - 1])
  {
    var n := |files| - 1;
    assert forall i :: 0 <= i < n ==> files[..n][i] == files[i];
  }

  lemma NamedStep(files: seq<string>)
    requires |files| > 0 && AllNamed(files[..|files| - 1]) && LinkName(files[|files| - 1]).Ok?
    ensures AllNamed(files)
  {
    var n := |files| - 1;
    forall i | 0 <= i < |files| ensures LinkName(files[i]).Ok? {
      if i < n { assert files[..n][i] == files[i]; }
    }
  }

  lemma LinkedAllHolds(files: seq<string>, f: File, g: File)
    requires LinkedAll(files, f, g) && AllNamed(files)
    ensures HoldsLinks(LinkPaths(files), f, g)
  {
  }

  /** The step of the fold: once the earlier links are made, the next one
      can be made exactly when all of them fit. */
  lemma {:induction false} NextLink(f: File, files: seq<string>, g: File)
    requires |files| > 0 && WellFormed(g) && Extends(f, g)
    requires var n := |files| - 1;
             && LinksFit(f, files[..n]) && LinkedAll(files[..n], f, g)
             && OnlyLinksAndGroups(files[..n], f, g) && LinkName(files[n]).Ok?
    ensures PathFree(g, LinkPath(files[|files| - 1])) <==> LinksFit(f, files)
  {
    var n := |files| - 1;
    NamedStep(files);
    LinkPathsPrefix(files);
    var ps := LinkPaths(files);
    assert ps[n] == LinkPath(files[n]);
    if LinksFit(f, files) {
      FittingPathIsFree(f, ps, g);
    }
    if PathFree(g, ps[n]) {
      LinkedAllHolds(files[..n], f, g);
      FreePathFits(f, ps, g);
    }
  }

  /** The fold keeps adding only links and their groups. */
  lemma {:induction false} NextLinkOnlyAdds(f: File, files: seq<string>, g: File, h: File)
    requires |files| > 0 && Extends(f, g) && Extends(g, h)
    requires var n := |files| - 1;
             && OnlyLinksAndGroups(files[..n], f, g) && LinkName(files[n]).Ok?
             && var p := LinkPath(files[n]);
             && p != [] && p in h.nodes
             && forall q :: q in h.nodes && q !in g.nodes && q != p ==>
                  IsPrefix(q, Parent(p)) && h.nodes[q] == Group(map[])
    ensures OnlyLinksAndGroups(files, f, h)
  {
    NamedStep(files);
    LinkPathsPrefix(files);
    NextPathOnlyAdds(f, LinkPaths(files), g, h);
  }

  /** `create_external_data_files_links`: one external link per data file,
      at its link name, to `entry/data/data` in the file of that basename. */
  function CreateExternalDataFilesLinks(f: File, files: seq<string>): (r: Result<File>)
    requires WellFormed(f)
    ensures r.Ok? <==> LinksFit(f, files)
    ensures r.Ok? ==> WellFormed(r.value) && Extends(f, r.value)
    ensures r.Ok? ==> LinkedAll(files, f, r.value)
    ensures r.Ok? ==> OnlyLinksAndGroups(files, f, r.value)
    ensures (exists i :: 0 <= i < |files| && LinkName(files[i]).Err?) ==> r.Err?
    decreases |files|
  {
    if |files| == 0 then Ok(f)
    else
      var n := |files| - 1;
      assert LinksFit(f, files) ==> LinksFit(f, files[..n]) by {
        if LinksFit(f, files) {
          LinkPathsPrefix(files);
          PathsFitPrefix(f, LinkPaths(files), n);
        }
      }
      var g :- CreateExternalDataFilesLinks(f, files[..n]);
      var name :- LinkName(files[n]);
      LastLink(f, files, g);
      CreateNode(g, PathOf(name), ExternalLink(Text.Basename(files[n]), ExternalDatasetPath))
  }

  /** The link for the last file, added to what the fold made of the others:
      it fits exactly when all the links fit, and then the fold's facts
      extend to every file. */
  lemma {:induction false} LastLink(f: File, files: seq<string>, g: File)
    requires |files| > 0 && WellFormed(g) && Extends(f, g)
    requires var n := |files| - 1;
             && LinksFit(f, files[..n]) && LinkedAll(files[..n], f, g)
             && OnlyLinksAndGroups(files[..n], f, g) && LinkName(files[n]).Ok?
    ensures var n := |files| - 1;
            var r := CreateNode(g, PathOf(LinkName(files[n]).value), ExternalLink(Text.Basename(files[n]), ExternalDatasetPath));
            && (r.Ok? <==> LinksFit(f, files))
            && (r.Ok? ==> && WellFormed(r.value) && Extends(f, r.value)
                          && LinkedAll(files, f, r.value) && OnlyLinksAndGroups(files, f, r.value))
  {
    var n := |files| - 1;
    var r := CreateNode(g, PathOf(LinkName(files[n]).value), ExternalLink(Text.Basename(files[n]), ExternalDatasetPath));
    NextLink(f, files, g);
    if r.Ok? {
      AppendLink(files, f, g, r.value);
      NextLinkOnlyAdds(f, files, g, r.value);
    }
  }

  // ---------------------------------------------------------------------
  // convert_header_to_dataset_values
  // ---------------------------------------------------------------------

  /** The header fields copied unchanged to a dataset of the master file. */
  datatype Field =
    | NumberOfExcludedPixels
    | DetectorTranslation
    | DataCollectionDate
    | FramePeriod
    | PixelMaskApplied
    | ThresholdEnergy
    | FrameCountTime
    | BeamCenterY
    | SoftwareVersion
    | CountrateCorrectionApplied
    | FlatfieldCorrectionApplied
    | VirtualPixelCorrectionApplied
    | DetectorNumber
    | CountTime
    | Element
    | FrameTime
    | SummationNimages
    | XPixelsInDetector
    | EfficiencyCorrectionApplied
    | SensorThickness
    | YPixelSize
    | Wavelength
    | DetectorOrientation
    | DetectorReadoutTime
    | BeamCenterX
    | BitDepthReadout
    | CountrateCorrectionBunchMode
    | TriggerMode
    | XPixelSize
    | CalibrationType
    | Description
    | NframesSum
    | YPixelsInDetector
    | Nimages
    | DetectorDistance
    | DetectorReadoutPeriod
    | PhotonEnergy
    | Ntrigger
    | SensorMaterial
    | AutoSummation

  /** The header key of a directly mapped field. */
  function HeaderKey(f: Field): string {
    match f
    case NumberOfExcludedPixels => "number_of_excluded_pixels"
    case DetectorTranslation => "detector_translation"
    case DataCollectionDate => "data_collection_date"
    case FramePeriod => "frame_period"
    case PixelMaskApplied => "pixel_mask_applied"
    case ThresholdEnergy => "threshold_energy"
    case FrameCountTime => "frame_count_time"
    case BeamCenterY => "beam_center_y"
    case SoftwareVersion => "software_version"
    case CountrateCorrectionApplied => "countrate_correction_applied"
    case FlatfieldCorrectionApplied => "flatfield_correction_applied"
    case VirtualPixelCorrectionApplied => "virtual_pixel_correction_applied"
    case DetectorNumber => "detector_number"
    case CountTime => "count_time"
    case Element => "element"
    case FrameTime => "frame_time"
    case SummationNimages => "summation_nimages"
    case XPixelsInDetector => "x_pixels_in_detector"
    case EfficiencyCorrectionApplied => "efficiency_correction_applied"
    case SensorThickness => "sensor_thickness"
    case YPixelSize => "y_pixel_size"
    case Wavelength => "wavelength"
    case DetectorOrientation => "detector_orientation"
    case DetectorReadoutTime => "detector_readout_time"
    case BeamCenterX => "beam_center_x"
    case BitDepthReadout => "bit_depth_readout"
    case CountrateCorrectionBunchMode => "countrate_correction_bunch_mode"
    case TriggerMode => "trigger_mode"
    case XPixelSize => "x_pixel_size"
    case CalibrationType => "calibration_type"
    case Description => "description"
    case NframesSum => "nframes_sum"
    case YPixelsInDetector => "y_pixels_in_detector"
    case Nimages => "nimages"
    case DetectorDistance => "detector_distance"
    case DetectorReadoutPeriod => "detector_readout_period"
    case PhotonEnergy => "photon_energy"
    case Ntrigger => "ntrigger"
    case SensorMaterial => "sensor_material"
    case AutoSummation => "auto_summation"
  }

  /** The dataset a directly mapped field is written to. */
  function FieldPath(f: Field): string {
    match f
    case NumberOfExcludedPixels => "/entry/instrument/detector/detectorSpecific/number_of_excluded_pixels"
    case DetectorTranslation => "/entry/instrument/detector/geometry/translation/distances"
    case DataCollectionDate => "/entry/instrument/detector/detectorSpecific/data_collection_date"
    case FramePeriod => "/entry/instrument/detector/detectorSpecific/frame_period"
    case PixelMaskApplied => "/entry/instrument/detector/pixel_mask_applied"
    case ThresholdEnergy => "/entry/instrument/detector/threshold_energy"
    case FrameCountTime => "/entry/instrument/detector/detectorSpecific/frame_count_time"
    case BeamCenterY => "/entry/instrument/detector/beam_center_y"
    case SoftwareVersion => "/entry/instrument/detector/detectorSpecific/software_version"
    case CountrateCorrectionApplied => "/entry/instrument/detector/countrate_correction_applied"
    case FlatfieldCorrectionApplied => "/entry/instrument/detector/flatfield_correction_applied"
    case VirtualPixelCorrectionApplied => "/entry/instrument/detector/virtual_pixel_correction_applied"
    case DetectorNumber => "/entry/instrument/detector/detector_number"
    case CountTime => "/entry/instrument/detector/count_time"
    case Element => "/entry/instrument/detector/detectorSpecific/element"
    case FrameTime => "/entry/instrument/detector/frame_time"
    case SummationNimages => "/entry/instrument/detector/detectorSpecific/summation_nimages"
    case XPixelsInDetector => "/entry/instrument/detector/detectorSpecific/x_pixels_in_detector"
    case EfficiencyCorrectionApplied => "/entry/instrument/detector/efficiency_correction_applied"
    case SensorThickness => "/entry/instrument/detector/sensor_thickness"
    case YPixelSize => "/entry/instrument/detector/y_pixel_size"
    case Wavelength => "/entry/instrument/beam/incident_wavelength"
    case DetectorOrientation => "/entry/instrument/detector/geometry/orientation/value"
    case DetectorReadoutTime => "/entry/instrument/detector/detector_readout_time"
    case BeamCenterX => "/entry/instrument/detector/beam_center_x"
    case BitDepthReadout => "/entry/instrument/detector/bit_depth_readout"
    case CountrateCorrectionBunchMode => "/entry/instrument/detector/detectorSpecific/countrate_correction_bunch_mode"
    case TriggerMode => "/entry/instrument/detector/detectorSpecific/trigger_mode"
    case XPixelSize => "/entry/instrument/detector/x_pixel_size"
    case CalibrationType => "/entry/instrument/detector/detectorSpecific/calibration_type"
    case Description => "/entry/instrument/detector/description"
    case NframesSum => "/entry/instrument/detector/detectorSpecific/nframes_sum"
    case YPixelsInDetector => "/entry/instrument/detector/detectorSpecific/y_pixels_in_detector"
    case Nimages => "/entry/instrument/detector/detectorSpecific/nimages"
    case DetectorDistance => "/entry/instrument/detector/detector_distance"
    case DetectorReadoutPeriod => "/entry/instrument/detector/detectorSpecific/detector_readout_period"
    case PhotonEnergy => "/entry/instrument/detector/detectorSpecific/photon_energy"
    case Ntrigger => "/entry/instrument/detector/detectorSpecific/ntrigger"
    case SensorMaterial => "/entry/instrument/detector/sensor_material"
    case AutoSummation => "/entry/instrument/detector/detectorSpecific/auto_summation"
  }

  /** Every directly mapped field, in the order of the mapping table. */
  const AllFields: seq<Field> := [NumberOfExcludedPixels, DetectorTranslation, DataCollectionDate, FramePeriod, PixelMaskApplied, ThresholdEnergy, FrameCountTime, BeamCenterY, SoftwareVersion, CountrateCorrectionApplied, FlatfieldCorrectionApplied, VirtualPixelCorrectionApplied, DetectorNumber, CountTime, Element, FrameTime, SummationNimages, XPixelsInDetector, EfficiencyCorrectionApplied, SensorThickness, YPixelSize, Wavelength, DetectorOrientation, DetectorReadoutTime, BeamCenterX, BitDepthReadout, CountrateCorrectionBunchMode, TriggerMode, XPixelSize, CalibrationType, Description, NframesSum, YPixelsInDetector, Nimages, DetectorDistance, DetectorReadoutPeriod, PhotonEnergy, Ntrigger, SensorMaterial, AutoSummation]

  lemma AllFieldsListed(f: Field)
    ensures f in AllFields
  {
  }

  /** The first field of `fs` whose header key is `h`. */
  function FindField(h: string, fs: seq<Field>): (r: Option<Field>)
    ensures r.Some? ==> HeaderKey(r.value) == h && r.value in fs
    ensures r.None? ==> forall i :: 0 <= i < |fs| ==> HeaderKey(fs[i]) != h
  {
    if |fs| == 0 then None
    else if HeaderKey(fs[0]) == h then Some(fs[0])
    else FindField(h, fs[1..])
  }

  /** Looks a header key up in the direct mapping. */
  function FieldOf(h: string): (r: Option<Field>)
    ensures r.Some? ==> HeaderKey(r.value) == h
    ensures r.None? ==> forall f: Field :: HeaderKey(f) != h
  {
    var r := FindField(h, AllFields);
    assert r.None? ==> forall f: Field :: HeaderKey(f) != h by {
      if r.None? {
        forall f: Field ensures HeaderKey(f) != h {
          AllFieldsListed(f);
          var i :| 0 <= i < |AllFields| && AllFields[i] == f;
        }
      }
    }
    r
  }

  /** The goniometer axes whose angles are calculated per image. */
  datatype Axis = TwoTheta | Chi | Omega | Kappa | Phi

  /** The dataset base path of an axis. */
  function AxisPath(a: Axis): string {
    match a
    case TwoTheta => "/entry/instrument/detector/goniometer/two_theta"
    case Chi => "/entry/sample/goniometer/chi"
    case Omega => "/entry/sample/goniometer/omega"
    case Kappa => "/entry/sample/goniometer/kappa"
    case Phi => "/entry/sample/goniometer/phi"
  }

  /** The header key giving the start (`_start`) or the step (`_increment`)
      of an axis. */
  function AxisKey(a: Axis, isStart: bool): string {
    var base := match a
      case TwoTheta => "two_theta"
      case Chi => "chi"
      case Omega => "omega"
      case Kappa => "kappa"
      case Phi => "phi";
    base + (if isStart then "_start" else "_increment")
  }

  /** Every axis, in the order of the mapping table. */
  const AllAxes: seq<Axis> := [TwoTheta, Chi, Omega, Kappa, Phi]

  lemma AllAxesListed(a: Axis)
    ensures a in AllAxes
  {
  }

  /** The first axis of `axes` with `h` as its start or step key. */
  function FindAxis(h: string, axes: seq<Axis>): (r: Option<(Axis, bool)>)
    ensures r.Some? ==> AxisKey(r.value.0, r.value.1) == h && r.value.0 in axes
    ensures r.None? ==> forall i, s: bool :: 0 <= i < |axes| ==> AxisKey(axes[i], s) != h
  {
    if |axes| == 0 then None
    else if AxisKey(axes[0], true) == h then Some((axes[0], true))
    else if AxisKey(axes[0], false) == h then Some((axes[0], false))
    else FindAxis(h, axes[1..])
  }

  /** Only start keys end with `"_start"`: step keys end with `"_increment"`. */
  lemma StartSuffix(a: Axis, isStart: bool)
    ensures isStart <==> Text.EndsWith(AxisKey(a, isStart), "_start")
  {
    var k := AxisKey(a, isStart);
    if !isStart {
      assert k[|k| - 6..] == "rement";
    }
  }

  /** Looks a header key up in the calculated mapping; the second component
      tells whether the key names the start, as `name.endswith("_start")`. */
  function AxisOf(h: string): (r: Option<(Axis, bool)>)
    ensures r.Some? ==> AxisKey(r.value.0, r.value.1) == h
    ensures r.Some? ==> (r.value.1 <==> Text.EndsWith(h, "_start"))
    ensures r.None? ==> forall a: Axis, s: bool :: AxisKey(a, s) != h
  {
    var r := FindAxis(h, AllAxes);
    if r.Some? then
      StartSuffix(r.value.0, r.value.1);
      r
    else
      assert forall a: Axis, s: bool :: AxisKey(a, s) != h by {
        forall a: Axis, s: bool ensures AxisKey(a, s) != h {
          AllAxesListed(a);
          var i :| 0 <= i < |AllAxes| && AllAxes[i] == a;
        }
      }
      r
  }

  /** The six datasets written for a calculated axis. */
  datatype Quantity = Start | RangeTotal | Increment | RangeAverage | Angles | End

  /** A key of the converted values: a directly mapped field or one quantity
      of an axis. */
  datatype Key = Direct(field: Field) | Calculated(axis: Axis, quantity: Quantity)

  /** The dataset path a key stands for. */
  function KeyPath(k: Key): string {
    match k
    case Direct(f) => FieldPath(f)
    case Calculated(a, q) =>
      AxisPath(a) + match q
        case Start => "_start"
        case RangeTotal => "_range_total"
        case Increment => "_increment"
        case RangeAverage => "_range_average"
        case Angles => ""
        case End => "_end"
  }

  /** Some header key of the axis is present. */
  predicate AxisPresent(header: map<string, Value>, a: Axis) {
    AxisKey(a, true) in header || AxisKey(a, false) in header
  }

  /** The angle of every image: `numpy.full(n, start)` for a zero step,
      `numpy.arange(start, start + n*step, step)` otherwise, in exact
      arithmetic. */
  function AngleSeries(start: Value, step: Value, imageCount: nat): (r: seq<Value>)
    requires IsNumber(start) && IsNumber(step)
    ensures |r| == imageCount
    ensures forall i :: 0 <= i < imageCount ==>
              IsNumber(r[i]) && AsReal(r[i]) == AsReal(start) + i as real * AsReal(step)
    ensures AsReal(step) == 0.0 ==> r == seq(imageCount, _ => start)
  {
    if AsReal(step) == 0.0 then seq(imageCount, _ => start)
    else seq(imageCount, i requires 0 <= i < imageCount => Angle(start, step, i))
  }

  /** `start + i*step`. */
  function Angle(start: Value, step: Value, i: nat): (r: Value)
    requires IsNumber(start) && IsNumber(step)
    ensures IsNumber(r) && AsReal(r) == AsReal(start) + i as real * AsReal(step)
  {
    var d := Mul(Int(i), step);
    assert AsReal(d) == i as real * AsReal(step);
    Add(start, d)
  }

  /** `angles + step`, element by element. */
  function ShiftAll(angles: seq<Value>, step: Value): (r: seq<Value>)
    requires IsNumber(step) && forall i :: 0 <= i < |angles| ==> IsNumber(angles[i])
    ensures |r| == |angles|
    ensures forall i :: 0 <= i < |r| ==> IsNumber(r[i]) && AsReal(r[i]) == AsReal(angles[i]) + AsReal(step)
  {
    seq(|angles|, i requires 0 <= i < |angles| => Add(angles[i], step))
  }

  /** `max_value - min_value`: the whole range swept by the images. */
  function TotalRange(start: Value, step: Value, imageCount: nat): (r: Value)
    requires IsNumber(start) && IsNumber(step)
    ensures IsNumber(r) && AsReal(r) == imageCount as real * AsReal(step)
  {
    if AsReal(step) == 0.0 then Sub(start, start)
    else Sub(Add(start, Mul(Int(imageCount), step)), start)
  }

  /** The values of the six datasets of one axis, from its start and step.
      A start or step that is not a number raises TypeError. */
  function AxisValues(start: Value, step: Value, imageCount: nat): (r: Result<map<Quantity, Value>>)
    ensures r.Ok? <==> IsNumber(start) && IsNumber(step)
    ensures r.Err? ==> r.error == TypeError
    ensures r.Ok? ==> r.value.Keys == {Start, RangeTotal, Increment, RangeAverage, Angles, End}
    ensures r.Ok? ==> r.value[Start] == start && r.value[Increment] == step && r.value[RangeAverage] == step
    ensures r.Ok? ==> IsNumber(r.value[RangeTotal])
                      && AsReal(r.value[RangeTotal]) == imageCount as real * AsReal(step)
    ensures r.Ok? ==> r.value[Angles] == List(AngleSeries(start, step, imageCount))
    ensures r.Ok? ==> r.value[End] == List(ShiftAll(AngleSeries(start, step, imageCount), step))
  {
    if !IsNumber(start) || !IsNumber(step) then Err(TypeError)
    else
      var angles := AngleSeries(start, step, imageCount);
      Ok(map[Start := start, RangeTotal := TotalRange(start, step, imageCount), Increment := step,
             RangeAverage := step, Angles := List(angles), End := List(ShiftAll(angles, step))])
  }

  /** The calculated values of every axis a header key is present for. */
  function CalculatedValues(header: map<string, Value>, imageCount: nat, axes: seq<Axis>): (r: Result<map<Key, Value>>)
    ensures r.Ok? ==> forall k :: k in r.value ==> k.Calculated? && k.axis in axes && AxisPresent(header, k.axis)
    ensures r.Ok? ==> forall a :: a in axes && AxisPresent(header, a) ==>
                        var v := AxisValues(Get(header, AxisKey(a, true), Null), Get(header, AxisKey(a, false), Null), imageCount);
                        v.Ok? && forall q :: q in v.value ==> Calculated(a, q) in r.value && r.value[Calculated(a, q)] == v.value[q]
    ensures r.Err? <==> exists a :: a in axes && AxisPresent(header, a) &&
                          AxisValues(Get(header, AxisKey(a, true), Null), Get(header, AxisKey(a, false), Null), imageCount).Err?
  {
    if |axes| == 0 then Ok(map[])
    else
      var a := axes[0];
      var rest :- CalculatedValues(header, imageCount, axes[1..]);
      if !AxisPresent(header, a) then Ok(rest)
      else
        var v :- AxisValues(Get(header, AxisKey(a, true), Null), Get(header, AxisKey(a, false), Null), imageCount);
        Ok(rest + map q | q in v :: Calculated(a, q) := v[q])
  }

  /** The directly mapped header values, under their fields. */
  function DirectValues(header: map<string, Value>): (r: map<Key, Value>)
    ensures forall h :: h in header && FieldOf(h).Some? ==>
              Direct(FieldOf(h).value) in r && r[Direct(FieldOf(h).value)] == header[h]
    ensures forall k :: k in r ==> k.Direct? && HeaderKey(k.field) in header
  {
    map h | h in header && FieldOf(h).Some? :: Direct(FieldOf(h).value) := header[h]
  }

  /** `convert_header_to_dataset_values`: the directly mapped header values
      unchanged, plus the six calculated datasets of every axis the header
      names a start or step for. Other header keys are ignored. */
  function ConvertHeader(header: map<string, Value>, imageCount: nat): (r: Result<map<Key, Value>>)
    ensures r.Ok? ==> forall h :: h in header && FieldOf(h).Some? ==>
                        Direct(FieldOf(h).value) in r.value && r.value[Direct(FieldOf(h).value)] == header[h]
    ensures r.Ok? ==> forall k :: k in r.value && k.Direct? ==> HeaderKey(k.field) in header
    ensures r.Ok? ==> forall k :: k in r.value && k.Calculated? ==> AxisPresent(header, k.axis)
    ensures r.Ok? ==> forall a :: AxisPresent(header, a) ==>
                        var v := AxisValues(Get(header, AxisKey(a, true), Null), Get(header, AxisKey(a, false), Null), imageCount);
                        v.Ok? && forall q :: q in v.value ==> Calculated(a, q) in r.value && r.value[Calculated(a, q)] == v.value[q]
    ensures r.Err? <==> exists a :: AxisPresent(header, a) &&
                          !(IsNumber(Get(header, AxisKey(a, true), Null)) && IsNumber(Get(header, AxisKey(a, false), Null)))
  {
    var c := CalculatedValues(header, imageCount, AllAxes);
    assert forall a: Axis :: a in AllAxes by {
      forall a: Axis ensures a in AllAxes { AllAxesListed(a); }
    }
    var calculated :- c;
    Ok(calculated + DirectValues(header))
  }

  /** A header key that is neither directly mapped nor an axis start or step
      is the source of no converted value. */
  lemma UnmappedKeyIgnored(header: map<string, Value>, imageCount: nat, h: string)
    requires ConvertHeader(header, imageCount).Ok?
    requires FieldOf(h).None? && AxisOf(h).None?
    ensures forall k :: k in ConvertHeader(header, imageCount).value ==>
              (k.Direct? ==> HeaderKey(k.field) != h)
              && (k.Calculated? ==> AxisKey(k.axis, true) != h && AxisKey(k.axis, false) != h)
  {
  }
}

=== FILE: nxmx_writer.dfy ===
/** The NXMX master-file writer: it configures and starts a remote data-file
    writer, and on stop writes a master file that links every data file the
    remote writer produced and holds the user's attributes and datasets.
    Remote calls are modelled by their JSON responses, given as parameters;
    the directory listing `glob` sees is a parameter as well. */
module NxmxWriter {
  import opened Wrappers
  import opened Values
  import opened H5
  import Text
  import H5Utils
  import NxmxUtils

  /** `DATA_FILENAME_TEMPLATE` after `.format(experiment_id=...)`: what
      follows the experiment id. The doubled braces of the template become
      the single-braced field the data writer fills in. */
  const DataFileSuffix: string := "_data_{chunk_number:06d}.h5"
  /** The part of `DataFileSuffix` before its chunk-number field. */
  const DataFileMarker: string := "_data_"

  /** The writer's public attributes by name, including `__name__`, and its
      private state. */
  datatype Writer = Writer(
    attrs: map<string, Value>,
    file: Option<File>,
    running: bool,
    dataFilenameFormat: Option<string>)

  /** The attributes the constructor sets before applying any parameter. */
  function InitialAttributes(address: Value, name: string): map<string, Value> {
    map["__name__" := Str(name),
        "h5_writer_address" := address,
        "filename" := Null,
        "frames_per_file" := Null,
        "h5_group_attributes" := Dict(map[]),
        "h5_datasets" := Dict(map[]),
        "h5_dataset_attributes" := Dict(map[])]
  }

  // ---------------------------------------------------------------------
  // set_parameter and the constructor
  // ---------------------------------------------------------------------

  function Current(attrs: map<string, Value>, name: string): Option<Value> {
    if name in attrs then Some(attrs[name]) else None
  }

  /** The value `set_parameter` leaves in one attribute. A dict value is
      merged into the attribute's current dict, its own keys winning; an
      absent attribute starts from `{}`; any other current value has no
      `update` and raises. A value that is not a dict replaces the attribute. */
  function Assigned(current: Option<Value>, value: Value): (r: Result<Value>)
    ensures !value.Dict? ==> r == Ok(value)
    ensures value.Dict? ==> (r.Ok? <==> current.None? || current.value.Dict?)
    ensures value.Dict? && r.Err? ==> r.error == AttributeError("update")
    ensures value.Dict? && r.Ok? ==>
              && r.value.Dict?
              && (forall k :: k in value.entries ==> k in r.value.entries && r.value.entries[k] == value.entries[k])
              && (current.None? ==> r.value.entries.Keys == value.entries.Keys)
    ensures value.Dict? && r.Ok? && current.Some? && current.value.Dict? ==>
              && r.value.entries.Keys == current.value.entries.Keys + value.entries.Keys
              && (forall k :: k in current.value.entries && k !in value.entries ==>
                    r.value.entries[k] == current.value.entries[k])
  {
    if !value.Dict? then Ok(value)
    else
      var base := if current.Some? then current.value else Dict(map[]);
      if !base.Dict? then Err(AttributeError("update"))
      else Ok(Dict(base.entries + value.entries))
  }

  /** `set_parameter((name, value))`: only attribute `name` changes. */
  function SetParameter(w: Writer, parameter: (string, Value)): (r: Result<Writer>)
    ensures r.Ok? <==> Assigned(Current(w.attrs, parameter.0), parameter.1).Ok?
    ensures r.Ok? ==>
              && r.value.attrs.Keys == w.attrs.Keys + {parameter.0}
              && r.value.attrs[parameter.0] == Assigned(Current(w.attrs, parameter.0), parameter.1).value
              && (forall k :: k in w.attrs && k != parameter.0 ==> r.value.attrs[k] == w.attrs[k])
              && r.value == w.(attrs := r.value.attrs)
    ensures r.Err? ==> r.error == AttributeError("update")
  {
    var v :- Assigned(Current(w.attrs, parameter.0), parameter.1);
    Ok(w.(attrs := w.attrs[parameter.0 := v]))
  }

  /** `set_parameter` over the parameters in order, stopping at the first
      that raises. */
  function SetParameters(w: Writer, parameters: seq<(string, Value)>): (r: Result<Writer>)
    ensures r.Ok? ==> r.value == w.(attrs := r.value.attrs)
    decreases |parameters|
  {
    if |parameters| == 0 then Ok(w)
    else
      var n := |parameters| - 1;
      var v :- SetParameters(w, parameters[..n]);
      SetParameter(v, parameters[n])
  }

  /** The constructor: the initial attributes, not running, then every
      initial parameter through `set_parameter`. `parameters` are the items
      of the dict passed in; None and `{}` both give no items. */
  function NewWriter(address: Value, parameters: seq<(string, Value)>, name: string): (r: Result<Writer>)
    ensures r.Ok? ==> !r.value.running && r.value.file.None? && r.value.dataFilenameFormat.None?
    ensures parameters == [] ==> r == Ok(Writer(InitialAttributes(address, name), None, false, None))
  {
    SetParameters(Writer(InitialAttributes(address, name), None, false, None), parameters)
  }

  predicate DistinctNames(parameters: seq<(string, Value)>) {
    forall i, j :: 0 <= i < j < |parameters| ==> parameters[i].0 != parameters[j].0
  }

  predicate Named(parameters: seq<(string, Value)>, k: string) {
    exists i :: 0 <= i < |parameters| && parameters[i].0 == k
  }

  predicate AllAssignable(attrs: map<string, Value>, parameters: seq<(string, Value)>) {
    forall i :: 0 <= i < |parameters| ==> Assigned(Current(attrs, parameters[i].0), parameters[i].1).Ok?
  }

  /** `after` holds, for each named attribute, what `set_parameter` computes
      from its value in `before`, and every other attribute of `before`. */
  ghost predicate AppliedAll(before: map<string, Value>, parameters: seq<(string, Value)>, after: map<string, Value>) {
    && AllAssignable(before, parameters)
    && (forall i :: 0 <= i < |parameters| ==>
          parameters[i].0 in after
          && after[parameters[i].0] == Assigned(Current(before, parameters[i].0), parameters[i].1).value)
    && (forall k :: k in before && !Named(parameters, k) ==> k in after && after[k] == before[k])
    && (forall k :: k in after ==> k in before || Named(parameters, k))
  }

  /** Setting the items of a dict one by one gives each named attribute the
      value `set_parameter` computes from its value before the loop; the loop
      raises iff one of them does, and attributes not named keep their value. */
  lemma {:induction false} ParametersApplied(w: Writer, parameters: seq<(string, Value)>)
    requires DistinctNames(parameters)
    ensures SetParameters(w, parameters).Ok? <==> AllAssignable(w.attrs, parameters)
    ensures SetParameters(w, parameters).Ok? ==> AppliedAll(w.attrs, parameters, SetParameters(w, parameters).value.attrs)
    decreases |parameters|
  {
    if |parameters| > 0 {
      var n := |parameters| - 1;
      var prefix := parameters[..n];
      assert forall i :: 0 <= i < n ==> prefix[i] == parameters[i];
      ParametersApplied(w, prefix);
      var prev := SetParameters(w, prefix);
      if prev.Ok? {
        AppendParameter(w.attrs, parameters, prev.value.attrs);
      } else {
        assert !AllAssignable(w.attrs, prefix);
      }
    }
  }

  lemma AppendParameter(before: map<string, Value>, parameters: seq<(string, Value)>,
                        prev: map<string, Value>)
    requires DistinctNames(parameters) && |parameters| > 0
    requires AppliedAll(before, parameters[..|parameters| - 1], prev)
    ensures var p := parameters[|parameters| - 1];
            Current(prev, p.0) == Current(before, p.0)
    ensures var p := parameters[|parameters| - 1];
            var v := Assigned(Current(prev, p.0), p.1);
            && (v.Ok? <==> AllAssignable(before, parameters))
            && (v.Ok? ==> AppliedAll(before, parameters, prev[p.0 := v.value]))
  {
    var p := parameters[|parameters| - 1];
    UnsetBefore(before, parameters, prev);
    var v := Assigned(Current(prev, p.0), p.1);
    if v.Ok? {
      AppendApplied(before, parameters, prev, v.value);
    }
  }

  /** The last item's attribute was not touched by the items before it. */
  lemma {:induction false} UnsetBefore(before: map<string, Value>, parameters: seq<(string, Value)>,
                                       prev: map<string, Value>)
    requires DistinctNames(parameters) && |parameters| > 0
    requires AppliedAll(before, parameters[..|parameters| - 1], prev)
    ensures Current(prev, parameters[|parameters| - 1].0) == Current(before, parameters[|parameters| - 1].0)
  {
    var n := |parameters| - 1;
    var prefix := parameters[..n];
    var name := parameters[n].0;
    assert forall i :: 0 <= i < n ==> prefix[i] == parameters[i];
    assert !Named(prefix, name);
    if name in prev {
      assert name in before;
    }
  }

  lemma {:induction false} AppendApplied(before: map<string, Value>, parameters: seq<(string, Value)>,
                                         prev: map<string, Value>, value: Value)
    requires DistinctNames(parameters) && |parameters| > 0
    requires AppliedAll(before, parameters[..|parameters| - 1], prev)
    requires var p := parameters[|parameters| - 1];
             Assigned(Current(before, p.0), p.1) == Ok(value)
    ensures AppliedAll(before, parameters, prev[parameters[|parameters| - 1].0 := value])
  {
    AppendAssigned(before, parameters, prev, value);
    AppendKeepsOthers(before, parameters, prev, value);
  }

  /** Every named attribute, the last one included, holds its computed value. */
  lemma AppendAssigned(before: map<string, Value>, parameters: seq<(string, Value)>,
                       prev: map<string, Value>, value: Value)
    requires DistinctNames(parameters) && |parameters| > 0
    requires AppliedAll(before, parameters[..|parameters| - 1], prev)
    requires var p := parameters[|parameters| - 1];
             Assigned(Current(before, p.0), p.1) == Ok(value)
    ensures AllAssignable(before, parameters)
    ensures var after := prev[parameters[|parameters| - 1].0 := value];
            forall i :: 0 <= i < |parameters| ==>
              parameters[i].0 in after
              && after[parameters[i].0] == Assigned(Current(before, parameters[i].0), parameters[i].1).value
  {
    var n := |parameters| - 1;
    assert forall i :: 0 <= i < n ==> parameters[..n][i] == parameters[i];
  }

  /** Attributes no item names keep their value, and no other attribute
      appears. */
  lemma AppendKeepsOthers(before: map<string, Value>, parameters: seq<(string, Value)>,
                          prev: map<string, Value>, value: Value)
    requires |parameters| > 0
    requires AppliedAll(before, parameters[..|parameters| - 1], prev)
    ensures var after := prev[parameters[|parameters| - 1].0 := value];
            && (forall k :: k in before && !Named(parameters, k) ==> k in after && after[k] == before[k])
            && (forall k :: k in after ==> k in before || Named(parameters, k))
  {
    var n := |parameters| - 1;
    var prefix := parameters[..n];
    var name := parameters[n].0;
    var after := prev[name := value];
    forall k | k in after ensures k in before || Named(parameters, k) {
      if k != name && !(k in before) {
        assert Named(prefix, k);
        var i :| 0 <= i < n && prefix[i].0 == k;
        assert parameters[i].0 == k;
      }
    }
    forall k | k in before && !Named(parameters, k) ensures k in after && after[k] == before[k] {
      assert k != name;
    }
  }

  /** The constructor applies each initial parameter as `set_parameter` would
      to the initial attributes: `h5_datasets={"a": 1}` is merged into the
      initial `{}`, `filename="x_master.h5"` replaces None. */
  lemma ConstructorAppliesParameters(address: Value, parameters: seq<(string, Value)>, name: string)
    requires DistinctNames(parameters)
    ensures var r := NewWriter(address, parameters, name);
            var init := InitialAttributes(address, name);
            r.Ok? <==> forall i :: 0 <= i < |parameters| ==> Assigned(Current(init, parameters[i].0), parameters[i].1).Ok?
    ensures var r := NewWriter(address, parameters, name);
            var init := InitialAttributes(address, name);
            r.Ok? ==> forall i :: 0 <= i < |parameters| ==>
              && parameters[i].0 in r.value.attrs
              && Assigned(Current(init, parameters[i].0), parameters[i].1).Ok?
              && r.value.attrs[parameters[i].0] == Assigned(Current(init, parameters[i].0), parameters[i].1).value
  {
    ParametersApplied(Writer(InitialAttributes(address, name), None, false, None), parameters);
  }

  // ---------------------------------------------------------------------
  // _validate_parameters
  // ---------------------------------------------------------------------

  /** The required attributes with the line reported when one is falsy. */
  const Required: seq<(string, string)> := [
    ("h5_writer_address", "Parameter 'h5_writer_address' not set.\n"),
    ("filename", "Parameter 'master_file_format' not set.\n"),
    ("frames_per_file", "Parameter 'frames_per_file' not set.\n"),
    ("h5_group_attributes", "Parameter 'h5_group_attributes' not set.\n"),
    ("h5_datasets", "Parameter 'h5_datasets' not set.\n"),
    ("h5_dataset_attributes", "Parameter 'h5_dataset_attributes' not set.\n")]

  predicate IsSet(attrs: map<string, Value>, name: string) {
    Truthy(Get(attrs, name, Null))
  }

  /** The lines for the first `n` required attributes. */
  function MissingLines(attrs: map<string, Value>, n: nat): (r: string)
    requires n <= |Required|
    ensures r == "" <==> forall i :: 0 <= i < n ==> IsSet(attrs, Required[i].0)
    ensures forall i :: 0 <= i < n && !IsSet(attrs, Required[i].0) ==> |r| > 0
    decreases n
  {
    if n == 0 then ""
    else
      var prev := MissingLines(attrs, n - 1);
      prev + (if IsSet(attrs, Required[n - 1].0) then "" else Required[n - 1].1)
  }

  /** The message `_validate_parameters` accumulates, in the order of the
      checks. */
  function ValidationMessage(attrs: map<string, Value>): (r: string)
    ensures r == "" <==> forall i :: 0 <= i < |Required| ==> IsSet(attrs, Required[i].0)
    ensures !IsSet(attrs, "h5_writer_address") ==> Text.StartsWith(r, Required[0].1)
  {
    var rest := MissingLines(attrs, |Required|);
    if IsSet(attrs, "h5_writer_address") then
      assert Required[0].0 == "h5_writer_address";
      rest
    else
      MissingLinesFirst(attrs, |Required|);
      rest
  }

  lemma {:induction false} MissingLinesFirst(attrs: map<string, Value>, n: nat)
    requires 1 <= n <= |Required|
    requires !IsSet(attrs, Required[0].0)
    ensures Text.StartsWith(MissingLines(attrs, n), Required[0].1)
    decreases n
  {
    if n > 1 {
      MissingLinesFirst(attrs, n - 1);
      var prev := MissingLines(attrs, n - 1);
      var line := if IsSet(attrs, Required[n - 1].0) then "" else Required[n - 1].1;
      assert (prev + line)[..|Required[0].1|] == prev[..|Required[0].1|];
    } else {
      assert MissingLines(attrs, 0) == "";
    }
  }

  /** `_validate_parameters`: ValueError with the accumulated message iff a
      required attribute is falsy. */
  function ValidateParameters(attrs: map<string, Value>): (r: Result<()>)
    ensures r.Ok? <==> forall i :: 0 <= i < |Required| ==> IsSet(attrs, Required[i].0)
    ensures r.Err? ==> r.error == ValueError(ValidationMessage(attrs)) && ValidationMessage(attrs) != ""
  {
    RaiseIfAny(ValidationMessage(attrs))
  }

  // ---------------------------------------------------------------------
  // Filenames
  // ---------------------------------------------------------------------

  /** `os.path.join(a, b)`: an absolute `b` replaces `a`. */
  function PathJoin(a: string, b: string): (r: string)
    ensures Text.StartsWith(b, "/") ==> r == b
    ensures !Text.StartsWith(b, "/") ==> Text.StartsWith(r, a) && Text.EndsWith(r, b)
  {
    if Text.StartsWith(b, "/") then b
    else if a == [] || Text.EndsWith(a, "/") then a + b
    else a + "/" + b
  }

  /** `os.path.abspath(name)` for a process whose working directory is
      `cwd`; `normpath` is not modelled. */
  function AbsPath(cwd: string, name: string): (r: string)
    ensures Text.StartsWith(cwd, "/") ==> Text.StartsWith(r, "/")
  {
    PathJoin(cwd, name)
  }

  /** The experiment id: the master filename up to its last `"_master.h5"`;
      `str.rindex` raises ValueError when there is none. */
  function ExperimentId(master: string): (r: Result<string>)
    ensures r.Ok? <==> exists j :: Text.OccursAt(master, NxmxUtils.MasterFilenameSuffix, j)
    ensures r.Ok? ==> Text.StartsWith(master, r.value + NxmxUtils.MasterFilenameSuffix)
    ensures r.Ok? ==> forall j :: |r.value| < j ==> !Text.OccursAt(master, NxmxUtils.MasterFilenameSuffix, j)
    ensures r.Err? ==> r.error == ValueError("substring not found")
  {
    match Text.RIndexOf(master, NxmxUtils.MasterFilenameSuffix)
    case None => Err(ValueError("substring not found"))
    case Some(i) =>
      assert master[..i + |NxmxUtils.MasterFilenameSuffix|] == master[..i] + NxmxUtils.MasterFilenameSuffix;
      Ok(master[..i])
  }

  /** Naming the master file `<id>_master.h5` gives back `<id>`. */
  lemma ExperimentIdOfMaster(experimentId: string)
    ensures ExperimentId(experimentId + NxmxUtils.MasterFilenameSuffix) == Ok(experimentId)
  {
    Text.RIndexOfSuffix(experimentId, NxmxUtils.MasterFilenameSuffix);
    assert (experimentId + NxmxUtils.MasterFilenameSuffix)[..|experimentId|] == experimentId;
  }

  /** The data filename format `start` derives from the absolute master
      filename: the formatted template joined to the master's directory. */
  function DataFilenameFormat(master: string): (r: Result<string>)
    ensures r.Ok? <==> ExperimentId(master).Ok?
    ensures r.Err? ==> r == Err(ValueError("substring not found"))
    ensures r.Ok? && Text.StartsWith(master, "/") ==> r.value == ExperimentId(master).value + DataFileSuffix
  {
    var experimentId :- ExperimentId(master);
    if Text.StartsWith(master, "/") then
      AbsoluteExperimentId(master, experimentId);
      Ok(PathJoin(Text.Dirname(master), experimentId + DataFileSuffix))
    else
      Ok(PathJoin(Text.Dirname(master), experimentId + DataFileSuffix))
  }

  /** An absolute master filename gives an absolute experiment id, since the
      id cannot be empty when the name starts with `/`. */
  lemma AbsoluteExperimentId(master: string, experimentId: string)
    requires Text.StartsWith(master, "/")
    requires Text.StartsWith(master, experimentId + NxmxUtils.MasterFilenameSuffix)
    ensures Text.StartsWith(experimentId + DataFileSuffix, "/")
  {
    if experimentId == [] {
      assert master[0] == NxmxUtils.MasterFilenameSuffix[0];
    } else {
      assert experimentId[0] == master[0];
    }
  }

  // ---------------------------------------------------------------------
  // Remote responses
  // ---------------------------------------------------------------------

  const SetParametersFailed: string := "Cannot set writer parameters. Original error:"
  const StartFailed: string := "Cannot start writer. Original error:"
  const StopFailed: string := "Cannot stop writer. Original error:"

  predicate StatusOk(response: Value) {
    Lookup(response, "status") == Ok(Str("ok"))
  }

  /** `if response["status"] != "ok": raise ValueError(what + "%s\n" %
      response["message"])`. */
  function CheckResponse(response: Value, what: string): (r: Result<()>)
    ensures r.Ok? <==> StatusOk(response)
    ensures !StatusOk(response) && Lookup(response, "status").Ok? && Lookup(response, "message").Ok?
            && Display(Lookup(response, "message").value).Ok? ==>
              r == Err(ValueError(what + Display(Lookup(response, "message").value).value + "\n"))
  {
    var status :- Lookup(response, "status");
    if status == Str("ok") then Ok(())
    else
      var message :- Lookup(response, "message");
      var text :- Display(message);
      Err(ValueError(what + text + "\n"))
  }

  /** The JSON body `start` posts to the data writer's `/parameters`. */
  function WriterParameters(format: string, framesPerFile: Value): Value {
    Dict(map["output_file" := Str(format),
             "dataset_name" := Str("entry/data/data"),
             "frames_per_file" := framesPerFile,
             "h5_group_attributes" := Dict(map["/entry:NX_class" := Str("NXentry"),
                                               "/entry/data:NX_class" := Str("NXdata")])])
  }

  // ---------------------------------------------------------------------
  // start
  // ---------------------------------------------------------------------

  /** The writer after a call and whether the call raised: `start` keeps
      the data filename format it derived even when a remote call fails. */
  datatype Transition = Transition(writer: Writer, outcome: Result<()>)

  /** A running writer holds an open master file and its data filename
      format. */
  ghost predicate Valid(w: Writer) {
    w.running ==> w.file.Some? && WellFormed(w.file.value) && w.dataFilenameFormat.Some?
  }

  predicate Startable(w: Writer, cwd: string, parametersResponse: Value, startResponse: Value) {
    && !w.running
    && ValidateParameters(w.attrs).Ok?
    && Get(w.attrs, "filename", Null).Str?
    && ExperimentId(AbsPath(cwd, Get(w.attrs, "filename", Null).s)).Ok?
    && StatusOk(parametersResponse)
    && StatusOk(startResponse)
  }

  /** `start`. The responses are what the data writer answers to the
      parameters post and to the start request. */
  function Start(w: Writer, cwd: string, parametersResponse: Value, startResponse: Value): (r: Transition)
    ensures w.running ==> r == Transition(w, Err(ValueError("Writer already running.")))
    ensures !w.running && ValidateParameters(w.attrs).Err? ==> r == Transition(w, ValidateParameters(w.attrs))
    ensures r.outcome.Ok? <==> Startable(w, cwd, parametersResponse, startResponse)
    ensures r.outcome.Ok? ==>
              && r.writer.running && r.writer.file == Some(Fresh())
              && r.writer.attrs == w.attrs
              && r.writer.dataFilenameFormat == Some(DataFilenameFormat(AbsPath(cwd, w.attrs["filename"].s)).value)
    ensures r.outcome.Ok? && Text.StartsWith(cwd, "/") ==>
              var experimentId := ExperimentId(AbsPath(cwd, w.attrs["filename"].s)).value;
              r.writer.dataFilenameFormat == Some(experimentId + DataFileSuffix)
    ensures r.outcome.Err? ==> r.writer == w.(dataFilenameFormat := r.writer.dataFilenameFormat)
    ensures Valid(w) ==> Valid(r.writer)
  {
    if w.running then Transition(w, Err(ValueError("Writer already running.")))
    else match ValidateParameters(w.attrs)
      case Err(e) => Transition(w, Err(e))
      case Ok(_) =>
        var filename := Get(w.attrs, "filename", Null);
        if !filename.Str? then Transition(w, Err(TypeError))
        else
          var master := AbsPath(cwd, filename.s);
          match DataFilenameFormat(master)
          case Err(e) => Transition(w, Err(e))
          case Ok(format) =>
            var configured := w.(dataFilenameFormat := Some(format));
            match CheckResponse(parametersResponse, SetParametersFailed)
            case Err(e) => Transition(configured, Err(e))
            case Ok(_) =>
              match CheckResponse(startResponse, StartFailed)
              case Err(e) => Transition(configured, Err(e))
              case Ok(_) => Transition(configured.(file := Some(Fresh()), running := true), Ok(()))
  }

  // ---------------------------------------------------------------------
  // stop
  // ---------------------------------------------------------------------

  /** `glob.glob(prefix + "*.h5")` matches a path that starts with `prefix`
      and ends with `.h5`, with no slash in between: `*` stays inside one
      directory. */
  predicate GlobMatch(prefix: string, path: string) {
    && |prefix| + 3 <= |path|
    && path[..|prefix|] == prefix
    && path[|path| - 3..] == ".h5"
    && forall k :: |prefix| <= k < |path| - 3 ==> path[k] != '/'
  }

  /** The matches among the existing paths, in listing order. */
  function Glob(prefix: string, listing: seq<string>): (r: seq<string>)
    ensures forall x :: x in r <==> x in listing && GlobMatch(prefix, x)
    ensures |r| <= |listing|
    decreases |listing|
  {
    if |listing| == 0 then []
    else
      var n := |listing| - 1;
      var prev := Glob(prefix, listing[..n]);
      assert forall x :: x in listing <==> x in listing[..n] || x == listing[n];
      if GlobMatch(prefix, listing[n]) then prev + [listing[n]] else prev
  }

  /** The files `stop` links: those matching the data filename format up to
      the last occurrence of `marker`. */
  function FilesToLink(format: string, marker: string, listing: seq<string>): (r: Result<seq<string>>)
    ensures r.Ok? <==> exists j :: Text.OccursAt(format, marker, j)
    ensures r.Err? ==> r == Err(ValueError("substring not found"))
  {
    match Text.RIndexOf(format, marker)
    case None => Err(ValueError("substring not found"))
    case Some(i) => Ok(Glob(format[..i], listing))
  }

  /** `dict or {}` followed by `.items()`: a falsy value gives no items, a
      dict gives `items`, anything else has no `items`. */
  function ItemsArgument(v: Value, items: seq<(string, Value)>): (r: Result<Option<seq<(string, Value)>>>)
    ensures !Truthy(v) ==> r == Ok(None)
    ensures Truthy(v) && v.Dict? ==> r == Ok(Some(items))
    ensures Truthy(v) && !v.Dict? ==> r == Err(AttributeError("items"))
  {
    if !Truthy(v) then Ok(None)
    else if v.Dict? then Ok(Some(items))
    else Err(AttributeError("items"))
  }

  /** `items` is the item listing of the dict attribute `name`, when it is
      one. */
  ghost predicate ItemsOf(attrs: map<string, Value>, name: string, items: seq<(string, Value)>) {
    var v := Get(attrs, name, Null);
    v.Dict? ==> Enumerates(items, v.entries)
  }

  /** How far a pass over the master file got: the file as the pass left it,
      and whether it raised. Items before the failing one stay applied. */
  datatype Progress = Progress(file: File, outcome: Result<()>)

  /** The link for one globbed data file. */
  function LinkFile(f: File, path: string): (r: Result<File>)
    requires WellFormed(f)
    ensures r.Ok? ==> WellFormed(r.value) && Extends(f, r.value)
  {
    var name :- NxmxUtils.LinkName(path);
    CreateNode(f, PathOf(name), ExternalLink(Text.Basename(path), NxmxUtils.ExternalDatasetPath))
  }

  /** `create_external_data_files_links` one file at a time. */
  function LinksMade(f: File, files: seq<string>): (p: Progress)
    requires WellFormed(f)
    ensures WellFormed(p.file) && Extends(f, p.file)
    decreases |files|
  {
    if |files| == 0 then Progress(f, Ok(()))
    else
      var prev := LinksMade(f, files[..|files| - 1]);
      if prev.outcome.Err? then prev
      else match LinkFile(prev.file, files[|files| - 1])
        case Ok(g) => Progress(g, Ok(()))
        case Err(e) => Progress(prev.file, Err(e))
  }

  /** Linking file by file ends where linking all files at once does, and
      raises exactly when that raises, with the same error. */
  lemma {:induction false} LinksMadeAgrees(f: File, files: seq<string>)
    requires WellFormed(f)
    ensures var whole := NxmxUtils.CreateExternalDataFilesLinks(f, files);
            && (LinksMade(f, files).outcome.Ok? <==> whole.Ok?)
            && (whole.Ok? ==> LinksMade(f, files).file == whole.value)
            && (whole.Err? ==> LinksMade(f, files).outcome == Err(whole.error))
    decreases |files|
  {
    if |files| > 0 {
      LinksMadeAgrees(f, files[..|files| - 1]);
    }
  }

  /** The three passes of `populate_h5_file`. */
  datatype Pass = GroupAttributes | Datasets | DatasetAttributes

  /** One item of a pass; the writer passes no dtypes. */
  function ApplyItem(pass: Pass, f: File, item: (string, Value)): (r: Result<File>)
    requires WellFormed(f)
    ensures r.Ok? ==> WellFormed(r.value)
    ensures r.Ok? ==> forall q :: q in f.nodes && f.nodes[q].ExternalLink? ==>
                        q in r.value.nodes && r.value.nodes[q] == f.nodes[q]
  {
    match pass
    case GroupAttributes => H5Utils.SetGroupAttribute(f, item.0, item.1)
    case Datasets => H5Utils.CreateDatasetFromValue(f, item.0, item.1, map[])
    case DatasetAttributes => H5Utils.SetDatasetAttribute(f, item.0, item.1)
  }

  /** A pass item by item. */
  function ItemsApplied(pass: Pass, f: File, items: seq<(string, Value)>): (p: Progress)
    requires WellFormed(f)
    ensures WellFormed(p.file)
    ensures forall q :: q in f.nodes && f.nodes[q].ExternalLink? ==>
              q in p.file.nodes && p.file.nodes[q] == f.nodes[q]
    decreases |items|
  {
    if |items| == 0 then Progress(f, Ok(()))
    else
      var prev := ItemsApplied(pass, f, items[..|items| - 1]);
      if prev.outcome.Err? then prev
      else match ApplyItem(pass, prev.file, items[|items| - 1])
        case Ok(g) => Progress(g, Ok(()))
        case Err(e) => Progress(prev.file, Err(e))
  }

  /** The whole pass as the helper module states it. */
  function WholePass(pass: Pass, f: File, items: seq<(string, Value)>): Result<File>
    requires WellFormed(f)
  {
    match pass
    case GroupAttributes => H5Utils.SetGroupAttributes(f, items)
    case Datasets => H5Utils.CreateDatasetsFromData(f, items, map[])
    case DatasetAttributes => H5Utils.SetDatasetAttributes(f, items)
  }

  /** A pass item by item ends where the whole pass does, and raises exactly
      when it raises, with the same error. */
  lemma {:induction false} ItemsAppliedAgrees(pass: Pass, f: File, items: seq<(string, Value)>)
    requires WellFormed(f)
    ensures var whole := WholePass(pass, f, items);
            && (ItemsApplied(pass, f, items).outcome.Ok? <==> whole.Ok?)
            && (whole.Ok? ==> ItemsApplied(pass, f, items).file == whole.value)
            && (whole.Err? ==> ItemsApplied(pass, f, items).outcome == Err(whole.error))
    decreases |items|
  {
    if |items| > 0 {
      ItemsAppliedAgrees(pass, f, items[..|items| - 1]);
    }
  }

  /** `populate_h5_file` with the writer's three dict attributes, as the
      helper module states it. */
  function Populated(f: File, attrs: map<string, Value>, groupItems: seq<(string, Value)>,
                     datasetItems: seq<(string, Value)>, attributeItems: seq<(string, Value)>): Result<File>
    requires WellFormed(f)
  {
    var groupAttributes :- ItemsArgument(Get(attrs, "h5_group_attributes", Null), groupItems);
    var datasets :- ItemsArgument(Get(attrs, "h5_datasets", Null), datasetItems);
    var datasetAttributes :- ItemsArgument(Get(attrs, "h5_dataset_attributes", Null), attributeItems);
    H5Utils.PopulateH5File(f, groupAttributes, datasets, datasetAttributes, None)
  }

  /** The writer after `stop` and the master file it closed, or the error it
      raised. */
  datatype Stopped = Stopped(writer: Writer, outcome: Result<File>)

  /** One pass of `populate_h5_file` inside `stop`: `dict or {}` is listed
      first, then the items are applied one by one. */
  function StopPass(pass: Pass, f: File, items: Result<Option<seq<(string, Value)>>>): (p: Progress)
    requires WellFormed(f)
    ensures WellFormed(p.file)
    ensures items.Err? ==> p == Progress(f, Err(items.error))
    ensures forall q :: q in f.nodes && f.nodes[q].ExternalLink? ==>
              q in p.file.nodes && p.file.nodes[q] == f.nodes[q]
  {
    match items
    case Err(e) => Progress(f, Err(e))
    case Ok(listed) => ItemsApplied(pass, f, listed.GetOr([]))
  }

  /** `stop` with the glob prefix cut at the last `marker`. `groupItems`,
      `datasetItems` and `attributeItems` list the three dict attributes in
      their insertion order. A raise after the stop request leaves the
      writer running, with its master file open and holding whatever links
      and attributes were made before the raise. */
  function StopWith(w: Writer, marker: string, stopResponse: Value, listing: seq<string>,
                    groupItems: seq<(string, Value)>, datasetItems: seq<(string, Value)>,
                    attributeItems: seq<(string, Value)>): (r: Stopped)
    requires Valid(w)
    ensures !w.running ==> r == Stopped(w, Err(ValueError("Writer not running.")))
    ensures w.running && !StatusOk(stopResponse) ==> r.writer == w && r.outcome.Err?
    ensures Valid(r.writer)
    ensures r.outcome.Ok? ==> r.writer == w.(file := None, running := false)
    ensures r.outcome.Err? ==> r.writer == w.(file := r.writer.file)
    ensures r.outcome.Err? && w.running && StatusOk(stopResponse) && FilesToLink(w.dataFilenameFormat.value, marker, listing).Ok? ==>
              var made := LinksMade(w.file.value, FilesToLink(w.dataFilenameFormat.value, marker, listing).value);
              made.outcome.Ok? ==>
                forall q :: q in made.file.nodes && made.file.nodes[q].ExternalLink? ==>
                  q in r.writer.file.value.nodes && r.writer.file.value.nodes[q] == made.file.nodes[q]
  {
    if !w.running then Stopped(w, Err(ValueError("Writer not running.")))
    else match CheckResponse(stopResponse, StopFailed)
      case Err(e) => Stopped(w, Err(e))
      case Ok(_) =>
        match FilesToLink(w.dataFilenameFormat.value, marker, listing)
        case Err(e) => Stopped(w, Err(e))
        case Ok(files) =>
          var p0 := LinksMade(w.file.value, files);
          if p0.outcome.Err? then Stopped(w.(file := Some(p0.file)), Err(p0.outcome.error))
          else
            var p1 := StopPass(GroupAttributes, p0.file, ItemsArgument(Get(w.attrs, "h5_group_attributes", Null), groupItems));
            if p1.outcome.Err? then Stopped(w.(file := Some(p1.file)), Err(p1.outcome.error))
            else
              var p2 := StopPass(Datasets, p1.file, ItemsArgument(Get(w.attrs, "h5_datasets", Null), datasetItems));
              if p2.outcome.Err? then Stopped(w.(file := Some(p2.file)), Err(p2.outcome.error))
              else
                var p3 := StopPass(DatasetAttributes, p2.file, ItemsArgument(Get(w.attrs, "h5_dataset_attributes", Null), attributeItems));
                if p3.outcome.Err? then Stopped(w.(file := Some(p3.file)), Err(p3.outcome.error))
                else Stopped(w.(file := None, running := false), Ok(p3.file))
  }

  /** What `stop` needs to close the master file: a running writer, a stop
      the data writer accepted, a glob pattern, links that can all be made,
      and attributes and datasets that can all be written. */
  ghost predicate Stoppable(w: Writer, marker: string, stopResponse: Value, listing: seq<string>,
                            groupItems: seq<(string, Value)>, datasetItems: seq<(string, Value)>,
                            attributeItems: seq<(string, Value)>)
    requires Valid(w)
  {
    && w.running && StatusOk(stopResponse)
    && FilesToLink(w.dataFilenameFormat.value, marker, listing).Ok?
    && var files := FilesToLink(w.dataFilenameFormat.value, marker, listing).value;
       && NxmxUtils.LinksFit(w.file.value, files)
       && Populated(NxmxUtils.CreateExternalDataFilesLinks(w.file.value, files).value,
                    w.attrs, groupItems, datasetItems, attributeItems).Ok?
  }

  /** The three passes one after another end where `populate_h5_file` does,
      and raise exactly when it raises. */
  lemma PassesAgree(f: File, attrs: map<string, Value>, groupItems: seq<(string, Value)>,
                    datasetItems: seq<(string, Value)>, attributeItems: seq<(string, Value)>)
    requires WellFormed(f)
    ensures var p1 := StopPass(GroupAttributes, f, ItemsArgument(Get(attrs, "h5_group_attributes", Null), groupItems));
            var whole := Populated(f, attrs, groupItems, datasetItems, attributeItems);
            && (p1.outcome.Err? ==> whole.Err?)
            && (p1.outcome.Ok? ==>
                  var p2 := StopPass(Datasets, p1.file, ItemsArgument(Get(attrs, "h5_datasets", Null), datasetItems));
                  && (p2.outcome.Err? ==> whole.Err?)
                  && (p2.outcome.Ok? ==>
                        var p3 := StopPass(DatasetAttributes, p2.file, ItemsArgument(Get(attrs, "h5_dataset_attributes", Null), attributeItems));
                        && (p3.outcome.Ok? <==> whole.Ok?)
                        && (p3.outcome.Ok? ==> p3.file == whole.value)))
  {
    GroupPassAgrees(f, attrs, groupItems, datasetItems, attributeItems);
    DatasetPassAgrees(f, attrs, groupItems, datasetItems, attributeItems);
    AttributePassAgrees(f, attrs, groupItems, datasetItems, attributeItems);
  }

  /** A raise in the group-attribute pass is a raise of `populate_h5_file`. */
  lemma GroupPassAgrees(f: File, attrs: map<string, Value>, groupItems: seq<(string, Value)>,
                        datasetItems: seq<(string, Value)>, attributeItems: seq<(string, Value)>)
    requires WellFormed(f)
    ensures var p1 := StopPass(GroupAttributes, f, ItemsArgument(Get(attrs, "h5_group_attributes", Null), groupItems));
            p1.outcome.Err? ==> Populated(f, attrs, groupItems, datasetItems, attributeItems).Err?
  {
    var ga := ItemsArgument(Get(attrs, "h5_group_attributes", Null), groupItems);
    if ga.Ok? {
      ItemsAppliedAgrees(GroupAttributes, f, ga.value.GetOr([]));
    }
  }

  /** A raise in the dataset pass is a raise of `populate_h5_file`. */
  lemma DatasetPassAgrees(f: File, attrs: map<string, Value>, groupItems: seq<(string, Value)>,
                          datasetItems: seq<(string, Value)>, attributeItems: seq<(string, Value)>)
    requires WellFormed(f)
    ensures var p1 := StopPass(GroupAttributes, f, ItemsArgument(Get(attrs, "h5_group_attributes", Null), groupItems));
            p1.outcome.Ok? ==>
              var p2 := StopPass(Datasets, p1.file, ItemsArgument(Get(attrs, "h5_datasets", Null), datasetItems));
              p2.outcome.Err? ==> Populated(f, attrs, groupItems, datasetItems, attributeItems).Err?
  {
    var ga := ItemsArgument(Get(attrs, "h5_group_attributes", Null), groupItems);
    var ds := ItemsArgument(Get(attrs, "h5_datasets", Null), datasetItems);
    var p1 := StopPass(GroupAttributes, f, ga);
    if ga.Ok? && p1.outcome.Ok? {
      ItemsAppliedAgrees(GroupAttributes, f, ga.value.GetOr([]));
      if ds.Ok? {
        ItemsAppliedAgrees(Datasets, p1.file, ds.value.GetOr([]));
      }
    }
  }

  /** After two clean passes, the last pass succeeds exactly when
      `populate_h5_file` does, and ends on the same file. */
  lemma AttributePassAgrees(f: File, attrs: map<string, Value>, groupItems: seq<(string, Value)>,
                            datasetItems: seq<(string, Value)>, attributeItems: seq<(string, Value)>)
    requires WellFormed(f)
    ensures var p1 := StopPass(GroupAttributes, f, ItemsArgument(Get(attrs, "h5_group_attributes", Null), groupItems));
            var whole := Populated(f, attrs, groupItems, datasetItems, attributeItems);
            p1.outcome.Ok? ==>
              var p2 := StopPass(Datasets, p1.file, ItemsArgument(Get(attrs, "h5_datasets", Null), datasetItems));
              p2.outcome.Ok? ==>
                var p3 := StopPass(DatasetAttributes, p2.file, ItemsArgument(Get(attrs, "h5_dataset_attributes", Null), attributeItems));
                && (p3.outcome.Ok? <==> whole.Ok?)
                && (p3.outcome.Ok? ==> p3.file == whole.value)
  {
    var ga := ItemsArgument(Get(attrs, "h5_group_attributes", Null), groupItems);
    var ds := ItemsArgument(Get(attrs, "h5_datasets", Null), datasetItems);
    var da := ItemsArgument(Get(attrs, "h5_dataset_attributes", Null), attributeItems);
    var p1 := StopPass(GroupAttributes, f, ga);
    if ga.Ok? && p1.outcome.Ok? && ds.Ok? {
      ItemsAppliedAgrees(GroupAttributes, f, ga.value.GetOr([]));
      var p2 := StopPass(Datasets, p1.file, ds);
      if p2.outcome.Ok? && da.Ok? {
        ItemsAppliedAgrees(Datasets, p1.file, ds.value.GetOr([]));
        ItemsAppliedAgrees(DatasetAttributes, p2.file, da.value.GetOr([]));
      }
    }
  }

  /** `stop` closes the master file exactly when it is stoppable, and the
      file it closes is the one linking and `populate_h5_file` make. */
  lemma StopWrites(w: Writer, marker: string, stopResponse: Value, listing: seq<string>,
                   groupItems: seq<(string, Value)>, datasetItems: seq<(string, Value)>,
                   attributeItems: seq<(string, Value)>)
    requires Valid(w)
    ensures var r := StopWith(w, marker, stopResponse, listing, groupItems, datasetItems, attributeItems);
            r.outcome.Ok? <==> Stoppable(w, marker, stopResponse, listing, groupItems, datasetItems, attributeItems)
    ensures var r := StopWith(w, marker, stopResponse, listing, groupItems, datasetItems, attributeItems);
            r.outcome.Ok? ==>
              var files := FilesToLink(w.dataFilenameFormat.value, marker, listing).value;
              var linked := NxmxUtils.CreateExternalDataFilesLinks(w.file.value, files);
              && linked.Ok?
              && r.outcome.value == Populated(linked.value, w.attrs, groupItems, datasetItems, attributeItems).value
  {
    if w.running && StatusOk(stopResponse) && FilesToLink(w.dataFilenameFormat.value, marker, listing).Ok? {
      var files := FilesToLink(w.dataFilenameFormat.value, marker, listing).value;
      LinksMadeAgrees(w.file.value, files);
      var p0 := LinksMade(w.file.value, files);
      if p0.outcome.Ok? {
        PassesAgree(p0.file, w.attrs, groupItems, datasetItems, attributeItems);
      }
    }
  }

  /** `populate_h5_file` keeps every link of the file it fills and holds
      every dataset of `h5_datasets` with its value. */
  lemma PopulatedContent(f: File, attrs: map<string, Value>,
                         groupItems: seq<(string, Value)>, datasetItems: seq<(string, Value)>,
                         attributeItems: seq<(string, Value)>)
    requires WellFormed(f) && Populated(f, attrs, groupItems, datasetItems, attributeItems).Ok?
    ensures var out := Populated(f, attrs, groupItems, datasetItems, attributeItems).value;
            forall q :: q in f.nodes && f.nodes[q].ExternalLink? ==> q in out.nodes && out.nodes[q] == f.nodes[q]
    ensures var out := Populated(f, attrs, groupItems, datasetItems, attributeItems).value;
            Truthy(Get(attrs, "h5_datasets", Null)) && Get(attrs, "h5_datasets", Null).Dict? ==>
              forall i :: 0 <= i < |datasetItems| ==>
                && PathOf(datasetItems[i].0) in out.nodes
                && out.nodes[PathOf(datasetItems[i].0)].Dataset?
                && out.nodes[PathOf(datasetItems[i].0)].content == H5Utils.StoredContent(datasetItems[i].0, datasetItems[i].1, map[])
  {
    var ga := ItemsArgument(Get(attrs, "h5_group_attributes", Null), groupItems).value;
    var ds := ItemsArgument(Get(attrs, "h5_datasets", Null), datasetItems).value;
    var da := ItemsArgument(Get(attrs, "h5_dataset_attributes", Null), attributeItems).value;
    assert Populated(f, attrs, groupItems, datasetItems, attributeItems) == H5Utils.PopulateH5File(f, ga, ds, da, None);
  }

  /** What linking and `populate_h5_file` leave in a master file: every
      link, and every dataset of `h5_datasets` with its value. */
  lemma ClosedFileContent(f: File, files: seq<string>, attrs: map<string, Value>,
                          groupItems: seq<(string, Value)>, datasetItems: seq<(string, Value)>,
                          attributeItems: seq<(string, Value)>, out: File)
    requires WellFormed(f) && NxmxUtils.CreateExternalDataFilesLinks(f, files).Ok?
    requires var linked := NxmxUtils.CreateExternalDataFilesLinks(f, files).value;
             var populated := Populated(linked, attrs, groupItems, datasetItems, attributeItems);
             populated.Ok? && out == populated.value
    ensures forall i :: 0 <= i < |files| ==>
              && NxmxUtils.LinkName(files[i]).Ok?
              && NxmxUtils.LinkPath(files[i]) in out.nodes
              && out.nodes[NxmxUtils.LinkPath(files[i])] == ExternalLink(Text.Basename(files[i]), NxmxUtils.ExternalDatasetPath)
    ensures Truthy(Get(attrs, "h5_datasets", Null)) && Get(attrs, "h5_datasets", Null).Dict? ==>
              forall i :: 0 <= i < |datasetItems| ==>
                && PathOf(datasetItems[i].0) in out.nodes
                && out.nodes[PathOf(datasetItems[i].0)].Dataset?
                && out.nodes[PathOf(datasetItems[i].0)].content == H5Utils.StoredContent(datasetItems[i].0, datasetItems[i].1, map[])
  {
    var linked := NxmxUtils.CreateExternalDataFilesLinks(f, files).value;
    PopulatedContent(linked, attrs, groupItems, datasetItems, attributeItems);
    assert NxmxUtils.LinkedAll(files, f, linked);
  }

  /** The master file a successful `stop` closes links every globbed data
      file at its link name and holds every dataset of `h5_datasets` with its
      value. */
  lemma StopLinksAndPopulates(w: Writer, marker: string, stopResponse: Value, listing: seq<string>,
                              groupItems: seq<(string, Value)>, datasetItems: seq<(string, Value)>,
                              attributeItems: seq<(string, Value)>)
    requires Valid(w)
    requires StopWith(w, marker, stopResponse, listing, groupItems, datasetItems, attributeItems).outcome.Ok?
    ensures var out := StopWith(w, marker, stopResponse, listing, groupItems, datasetItems, attributeItems).outcome.value;
            var files := FilesToLink(w.dataFilenameFormat.value, marker, listing).value;
            && (forall i :: 0 <= i < |files| ==>
                  && NxmxUtils.LinkName(files[i]).Ok?
                  && NxmxUtils.LinkPath(files[i]) in out.nodes
                  && out.nodes[NxmxUtils.LinkPath(files[i])] == ExternalLink(Text.Basename(files[i]), NxmxUtils.ExternalDatasetPath))
            && (Truthy(Get(w.attrs, "h5_datasets", Null)) && Get(w.attrs, "h5_datasets", Null).Dict? ==>
                  forall i :: 0 <= i < |datasetItems| ==>
                    && PathOf(datasetItems[i].0) in out.nodes
                    && out.nodes[PathOf(datasetItems[i].0)].Dataset?
                    && out.nodes[PathOf(datasetItems[i].0)].content == H5Utils.StoredContent(datasetItems[i].0, datasetItems[i].1, map[]))
  {
    StopWrites(w, marker, stopResponse, listing, groupItems, datasetItems, attributeItems);
    var files := FilesToLink(w.dataFilenameFormat.value, marker, listing).value;
    var out := StopWith(w, marker, stopResponse, listing, groupItems, datasetItems, attributeItems).outcome.value;
    ClosedFileContent(w.file.value, files, w.attrs, groupItems, datasetItems, attributeItems, out);
  }

  /** A link already in the master file blocks linking the same data file
      again. */
  lemma TakenLinkBlocks(f: File, files: seq<string>)
    requires |files| > 0 && NxmxUtils.LinkName(files[0]).Ok? && NxmxUtils.LinkPath(files[0]) in f.nodes
    ensures !NxmxUtils.LinksFit(f, files)
  {
    if NxmxUtils.AllNamed(files) {
      assert NxmxUtils.LinkPaths(files)[0] == NxmxUtils.LinkPath(files[0]);
    }
  }

  /** A `stop` that raises after linking leaves the links in the open master
      file, so trying `stop` again raises too, whatever parameters were set
      in between: the first link name is taken. */
  lemma RetriedStopRaises(w: Writer, marker: string, stopResponse: Value, listing: seq<string>,
                          groupItems: seq<(string, Value)>, datasetItems: seq<(string, Value)>,
                          attributeItems: seq<(string, Value)>,
                          attrs: map<string, Value>, groupItems2: seq<(string, Value)>,
                          datasetItems2: seq<(string, Value)>, attributeItems2: seq<(string, Value)>)
    requires Valid(w) && w.running && StatusOk(stopResponse)
    requires FilesToLink(w.dataFilenameFormat.value, marker, listing).Ok?
    requires var files := FilesToLink(w.dataFilenameFormat.value, marker, listing).value;
             |files| > 0 && NxmxUtils.LinksFit(w.file.value, files)
    requires StopWith(w, marker, stopResponse, listing, groupItems, datasetItems, attributeItems).outcome.Err?
    ensures var failed := StopWith(w, marker, stopResponse, listing, groupItems, datasetItems, attributeItems).writer;
            && failed.running
            && StopWith(failed.(attrs := attrs), marker, stopResponse, listing,
                        groupItems2, datasetItems2, attributeItems2).outcome.Err?
  {
    var files := FilesToLink(w.dataFilenameFormat.value, marker, listing).value;
    var failed := StopWith(w, marker, stopResponse, listing, groupItems, datasetItems, attributeItems).writer;
    LinksMadeAgrees(w.file.value, files);
    var made := LinksMade(w.file.value, files);
    assert NxmxUtils.LinkedAll(files, w.file.value, made.file);
    assert NxmxUtils.LinkPath(files[0]) in failed.file.value.nodes;
    TakenLinkBlocks(failed.file.value, files);
    StopWrites(failed.(attrs := attrs), marker, stopResponse, listing, groupItems2, datasetItems2, attributeItems2);
  }

  /** `stop` as written: the glob prefix is cut at the last `%`, a
      placeholder style the `{chunk_number:06d}` template no longer uses. */
  function StopAsWritten(w: Writer, stopResponse: Value, listing: seq<string>,
                         groupItems: seq<(string, Value)>, datasetItems: seq<(string, Value)>,
                         attributeItems: seq<(string, Value)>): (r: Stopped)
    requires Valid(w)
    requires ItemsOf(w.attrs, "h5_group_attributes", groupItems)
    requires ItemsOf(w.attrs, "h5_datasets", datasetItems)
    requires ItemsOf(w.attrs, "h5_dataset_attributes", attributeItems)
    ensures r.outcome.Ok? ==> w.dataFilenameFormat.Some? && exists j :: Text.OccursAt(w.dataFilenameFormat.value, "%", j)
  {
    StopWith(w, "%", stopResponse, listing, groupItems, datasetItems, attributeItems)
  }

  /** `stop` with the glob prefix cut where the chunk-number field starts, so
      that it matches the data files of this experiment. */
  function Stop(w: Writer, stopResponse: Value, listing: seq<string>,
                groupItems: seq<(string, Value)>, datasetItems: seq<(string, Value)>,
                attributeItems: seq<(string, Value)>): (r: Stopped)
    requires Valid(w)
    requires ItemsOf(w.attrs, "h5_group_attributes", groupItems)
    requires ItemsOf(w.attrs, "h5_datasets", datasetItems)
    requires ItemsOf(w.attrs, "h5_dataset_attributes", attributeItems)
    ensures !w.running ==> r == Stopped(w, Err(ValueError("Writer not running.")))
    ensures r.outcome.Ok? <==> Stoppable(w, "{", stopResponse, listing, groupItems, datasetItems, attributeItems)
    ensures r.outcome.Ok? ==> r.writer == w.(file := None, running := false)
    ensures r.outcome.Err? ==> r.writer.running == w.running && r.writer.attrs == w.attrs
  {
    StopWrites(w, "{", stopResponse, listing, groupItems, datasetItems, attributeItems);
    StopWith(w, "{", stopResponse, listing, groupItems, datasetItems, attributeItems)
  }

  // ---------------------------------------------------------------------
  // What start leaves for stop
  // ---------------------------------------------------------------------

  lemma NoPercentInSuffix()
    ensures forall k :: 0 <= k < |DataFileSuffix| ==> DataFileSuffix[k] != '%'
  {
  }

  /** After a successful start from a master filename without `%`, stop as
      written always raises ValueError: the data filename format holds no
      `%` to cut the glob pattern at, so no master file is ever written. */
  lemma {:induction false} StopAsWrittenRaises(w: Writer, cwd: string, parametersResponse: Value, startResponse: Value,
                                               stopResponse: Value, listing: seq<string>,
                                               groupItems: seq<(string, Value)>, datasetItems: seq<(string, Value)>,
                                               attributeItems: seq<(string, Value)>)
    requires Valid(w)
    requires Text.StartsWith(cwd, "/")
    requires Start(w, cwd, parametersResponse, startResponse).outcome.Ok?
    requires '%' !in AbsPath(cwd, w.attrs["filename"].s)
    requires ItemsOf(w.attrs, "h5_group_attributes", groupItems)
    requires ItemsOf(w.attrs, "h5_datasets", datasetItems)
    requires ItemsOf(w.attrs, "h5_dataset_attributes", attributeItems)
    ensures var started := Start(w, cwd, parametersResponse, startResponse).writer;
            StopAsWritten(started, stopResponse, listing, groupItems, datasetItems, attributeItems).outcome.Err?
  {
    var master := AbsPath(cwd, w.attrs["filename"].s);
    var experimentId := ExperimentId(master).value;
    var format := experimentId + DataFileSuffix;
    var started := Start(w, cwd, parametersResponse, startResponse).writer;
    assert started.dataFilenameFormat == Some(format);
    NoPercentInSuffix();
    assert forall k :: 0 <= k < |format| ==> format[k] != '%' by {
      forall k | 0 <= k < |format| ensures format[k] != '%' {
        if k < |experimentId| {
          assert format[k] == master[k];
        } else {
          assert format[k] == DataFileSuffix[k - |experimentId|];
        }
      }
    }
    Text.CharAbsent(format, '%');
  }

  /** After a successful start, the corrected stop globs exactly the files
      named `<experiment id>_data_*.h5` in the master's directory. */
  lemma StopGlobsDataFiles(w: Writer, cwd: string, parametersResponse: Value, startResponse: Value,
                            listing: seq<string>)
    requires Text.StartsWith(cwd, "/")
    requires Start(w, cwd, parametersResponse, startResponse).outcome.Ok?
    ensures var started := Start(w, cwd, parametersResponse, startResponse).writer;
            var experimentId := ExperimentId(AbsPath(cwd, w.attrs["filename"].s)).value;
            FilesToLink(started.dataFilenameFormat.value, "{", listing) == Ok(Glob(experimentId + DataFileMarker, listing))
  {
    var experimentId := ExperimentId(AbsPath(cwd, w.attrs["filename"].s)).value;
    assert Start(w, cwd, parametersResponse, startResponse).writer.dataFilenameFormat == Some(experimentId + DataFileSuffix);
    FormatGlobsDataFiles(experimentId, listing);
  }

  /** Cutting a data filename format at its last `{` leaves the experiment id
      followed by `_data_`. */
  lemma FormatGlobsDataFiles(experimentId: string, listing: seq<string>)
    ensures FilesToLink(experimentId + DataFileSuffix, "{", listing) == Ok(Glob(experimentId + DataFileMarker, listing))
  {
    var format := experimentId + DataFileSuffix;
    var cut := |experimentId| + |DataFileMarker|;
    assert format[cut] == DataFileSuffix[|DataFileMarker|] == '{';
    assert format[cut..cut + 1] == "{";
    assert Text.OccursAt(format, "{", cut);
    assert forall k :: cut < k < |format| ==> format[k] != '{' by {
      forall k | cut < k < |format| ensures format[k] != '{' {
        assert format[k] == DataFileSuffix[k - |experimentId|];
      }
    }
    var i := Text.RIndexOf(format, "{");
    assert i.Some?;
    assert format[i.value..i.value + 1][0] == format[i.value];
    assert i.value == cut;
    assert format[..cut] == experimentId + DataFileMarker;
  }

  /** Every file the corrected stop globs has a link name: its basename
      holds `_data_` and ends in `.h5`, so linking cannot fail on a name. */
  lemma {:induction false} GlobbedFilesHaveLinkNames(experimentId: string, listing: seq<string>)
    ensures forall x :: x in Glob(experimentId + DataFileMarker, listing) ==> NxmxUtils.LinkName(x).Ok?
  {
    forall x | x in Glob(experimentId + DataFileMarker, listing) ensures NxmxUtils.LinkName(x).Ok? {
      GlobbedLinkName(experimentId, x);
    }
  }

  lemma {:induction false} GlobbedLinkName(experimentId: string, x: string)
    requires GlobMatch(experimentId + DataFileMarker, x)
    ensures NxmxUtils.LinkName(x).Ok?
  {
    var tail := x[|experimentId|..];
    GlobbedTail(experimentId, x);
    Text.BasenameAppend(experimentId, tail);
    MarkersInName(Text.Basename(experimentId), tail);
  }

  /** What follows the experiment id in a globbed path starts with the data
      file marker, ends in `.h5` and holds no slash. */
  lemma GlobbedTail(experimentId: string, x: string)
    requires GlobMatch(experimentId + DataFileMarker, x)
    ensures |experimentId| <= |x|
    ensures var tail := x[|experimentId|..];
            && x == experimentId + tail
            && (forall k :: 0 <= k < |tail| ==> tail[k] != '/')
            && |tail| >= |DataFileMarker| + 3
            && tail[..|DataFileMarker|] == DataFileMarker
            && tail[|tail| - 3..] == ".h5"
  {
    var e := |experimentId|;
    var tail := x[e..];
    assert x == experimentId + tail;
    forall k | 0 <= k < |tail| ensures tail[k] != '/' {
      if k < |DataFileMarker| {
        assert tail[k] == (experimentId + DataFileMarker)[e + k];
      } else if e + k >= |x| - 3 {
        assert tail[k] == x[|x| - 3..][e + k - (|x| - 3)];
      }
    }
    assert tail[..|DataFileMarker|] == x[e..e + |DataFileMarker|];
    assert tail[|tail| - 3..] == x[|x| - 3..];
  }

  lemma MarkersInName(b: string, tail: string)
    requires |tail| >= |DataFileMarker| + 3
    requires tail[..|DataFileMarker|] == DataFileMarker
    requires tail[|tail| - 3..] == ".h5"
    ensures Text.IndexOf(b + tail, "_data_").Some?
    ensures Text.RIndexOf(b + tail, ".h5").Some?
  {
    var name := b + tail;
    assert name[|b|..|b| + 6] == tail[..6];
    assert Text.OccursAt(name, "_data_", |b|);
    assert name[|name| - 3..] == tail[|tail| - 3..];
    assert Text.OccursAt(name, ".h5", |name| - 3);
  }
}

=== FILE: ordered.dfy ===
/** Python's ordering of `str` values and `sorted(d.items())`, which the
    library uses to build ordered listings of dictionaries. */
module Ordered {

  /** `a < b` on Python strings: lexicographic by code point. */
  predicate Less(a: string, b: string)
    decreases |a|
  {
    if |b| == 0 then false
    else if |a| == 0 then true
    else a[0] < b[0] || (a[0] == b[0] && Less(a[1..], b[1..]))
  }

  lemma {:induction false} LessIrreflexive(a: string)
    ensures !Less(a, a)
    decreases |a|
  {
    if |a| > 0 { LessIrreflexive(a[1..]); }
  }

  lemma {:induction false} LessTransitive(a: string, b: string, c: string)
    requires Less(a, b) && Less(b, c)
    ensures Less(a, c)
    decreases |a|
  {
    if |a| > 0 && a[0] == b[0] && b[0] == c[0] {
      LessTransitive(a[1..], b[1..], c[1..]);
    }
  }

  lemma {:induction false} LessTotal(a: string, b: string)
    ensures a == b || Less(a, b) || Less(b, a)
    decreases |a|
  {
    if |a| > 0 && |b| > 0 && a[0] == b[0] {
      LessTotal(a[1..], b[1..]);
      if a[1..] == b[1..] {
        assert a == [a[0]] + a[1..] && b == [b[0]] + b[1..];
      }
    }
  }

  predicate StrictlySorted(xs: seq<string>) {
    forall i, j :: 0 <= i < j < |xs| ==> Less(xs[i], xs[j])
  }

  /** Inserts a new key into a strictly sorted sequence at its place. */
  function Insert(xs: seq<string>, k: string): (r: seq<string>)
    requires StrictlySorted(xs) && k !in xs
    ensures StrictlySorted(r)
    ensures |r| == |xs| + 1
    ensures forall x :: x in r <==> x in xs || x == k
  {
    if |xs| == 0 then [k]
    else if Less(k, xs[0]) then
      var r := [k] + xs;
      forall i, j | 0 <= i < j < |r| ensures Less(r[i], r[j]) {
        if i == 0 && j > 1 { LessTransitive(k, xs[0], xs[j - 1]); }
      }
      r
    else
      var tail := Insert(xs[1..], k);
      var r := [xs[0]] + tail;
      LessTotal(k, xs[0]);
      forall i, j | 0 <= i < j < |r| ensures Less(r[i], r[j]) {
        if i == 0 {
          assert r[j] in tail;
          assert r[j] in xs[1..] || r[j] == k;
        }
      }
      r
  }

  /** `sorted(s)` for a set of strings. */
  method SortedKeys(s: set<string>) returns (xs: seq<string>)
    ensures StrictlySorted(xs)
    ensures forall x :: x in xs <==> x in s
    ensures |xs| == |s|
  {
    xs := [];
    var rest := s;
    while rest != {}
      invariant StrictlySorted(xs)
      invariant forall x :: x in s <==> x in xs || x in rest
      invariant forall x :: x in xs ==> x !in rest
      invariant |xs| + |rest| == |s|
      decreases rest
    {
      var k :| k in rest;
      xs := Insert(xs, k);
      rest := rest - {k};
    }
  }

  /** `OrderedDict(sorted(m.items()))`: the entries of `m` in ascending key order. */
  method SortedItems<V>(m: map<string, V>) returns (items: seq<(string, V)>)
    ensures forall i, j :: 0 <= i < j < |items| ==> Less(items[i].0, items[j].0)
    ensures forall i :: 0 <= i < |items| ==> items[i].0 in m && items[i].1 == m[items[i].0]
    ensures forall k :: k in m ==> exists i :: 0 <= i < |items| && items[i].0 == k
    ensures |items| == |m|
  {
    var keys := SortedKeys(m.Keys);
    items := seq(|keys|, i requires 0 <= i < |keys| => (keys[i], m[keys[i]]));
    forall k | k in m ensures exists i :: 0 <= i < |items| && items[i].0 == k {
      var i :| 0 <= i < |keys| && keys[i] == k;
      assert items[i].0 == k;
    }
  }
}

=== FILE: processors.dfy ===
/** The stub stream processors every node processor extends: `set_parameter`
    turns a `(name, value)` tuple into an attribute; the lifecycle hooks only
    log; the newer base class always reports itself running. The older
    `StreamProcessor` and the newer `BaseProcessor` share this behaviour. */
module Processors {
  import opened Wrappers
  import opened Values

  /** A processor's attributes by name. */
  datatype Processor = Processor(attrs: map<string, Value>)

  /** The error text: its `%s` is never filled in. */
  const NotATuple: string :=
    "Received parameter '%s' value is not in tuple format. All parameters must be in format: (name, value)."

  /** `set_parameter(parameter)`: only a tuple is accepted; its first item
      names the attribute, its second is the value, and `setattr` overwrites
      whatever the attribute held. Indexing a shorter tuple raises IndexError
      and `setattr` with a non-string name raises TypeError. */
  function SetParameter(p: Processor, parameter: Value): (r: Result<Processor>)
    ensures !parameter.Tuple? ==> r == Err(ValueError(NotATuple))
    ensures r.Ok? <==> parameter.Tuple? && |parameter.items| >= 2 && parameter.items[0].Str?
    ensures r.Ok? ==>
              var name := parameter.items[0].s;
              && r.value.attrs.Keys == p.attrs.Keys + {name}
              && r.value.attrs[name] == parameter.items[1]
              && forall k :: k in p.attrs && k != name ==> r.value.attrs[k] == p.attrs[k]
  {
    if !parameter.Tuple? then Err(ValueError(NotATuple))
    else
      var name :- Index(parameter, 0);
      var value :- Index(parameter, 1);
      if !name.Str? then Err(TypeError)
      else Ok(Processor(p.attrs[name.s := value]))
  }

  /** A later set of the same name overwrites the earlier value: setting
      `name` twice is the same as setting it once to the second value. */
  lemma LaterSetWins(p: Processor, name: string, first: Value, second: Value)
    ensures var once := SetParameter(p, Tuple([Str(name), first]));
            once.Ok? && SetParameter(once.value, Tuple([Str(name), second])) == SetParameter(p, Tuple([Str(name), second]))
  {
    var once := SetParameter(p, Tuple([Str(name), first]));
    assert once.value.attrs[name := second] == p.attrs[name := second];
  }

  /** Setting two different names gives the same attributes in either order. */
  lemma DistinctSetsCommute(p: Processor, a: string, va: Value, b: string, vb: Value)
    requires a != b
    ensures var ab := SetParameter(SetParameter(p, Tuple([Str(a), va])).value, Tuple([Str(b), vb]));
            var ba := SetParameter(SetParameter(p, Tuple([Str(b), vb])).value, Tuple([Str(a), va]));
            ab.Ok? && ab == ba
  {
    assert p.attrs[a := va][b := vb] == p.attrs[b := vb][a := va];
  }

  /** `is_running` of the newer base class: a stub processor never stops on
      its own. */
  function IsRunning(p: Processor): (r: bool)
    ensures r
  {
    true
  }

  /** `start`, `process_message` and `stop` only log. */
  function Start(p: Processor): Processor { p }

  function ProcessMessage(p: Processor, message: Value): Processor { p }

  function Stop(p: Processor): Processor { p }

  function ProcessAll(p: Processor, messages: seq<Value>): Processor
    decreases |messages|
  {
    if |messages| == 0 then p
    else ProcessMessage(ProcessAll(p, messages[..|messages| - 1]), messages[|messages| - 1])
  }

  /** A parameter set before a run is still there after start, any number of
      messages and stop: the lifecycle hooks change no attribute. */
  lemma {:induction false} LifecycleKeepsParameters(p: Processor, messages: seq<Value>)
    ensures Stop(ProcessAll(Start(p), messages)) == p
    decreases |messages|
  {
    if |messages| > 0 {
      LifecycleKeepsParameters(p, messages[..|messages| - 1]);
    }
  }
}

=== FILE: proxies.dfy ===
/** The proxy processors and the forwarders they send through. The older
    proxy calls its function with the frame's header and data and forwards
    what the function returns, or the original frame; the newer proxy calls
    its function with the message and forwards the raw message unchanged
    when the function's answer is truthy. The proxy functions are foreign
    code: their answers are parameters. */
module Proxies {
  import opened Wrappers
  import opened Values
  import Messages

  // ---------------------------------------------------------------------
  // Forwarders
  // ---------------------------------------------------------------------

  /** One frame on the output stream: the JSON header part (sent with
      `send_more`) followed by the data part. */
  datatype Frame = Frame(header: Value, data: Value)

  /** The stream an older `MFlowForwarder` connects on `start(address)`, with
      every frame sent on it so far. */
  datatype Stream = Stream(address: Value, sent: seq<Frame>, connected: bool)

  /** `"%d" % v`: only numbers format as integers. */
  function FormatInteger(v: Value): (r: Result<()>)
    ensures r.Ok? <==> IsNumber(v)
    ensures r.Err? ==> r.error == TypeError
  {
    if IsNumber(v) then Ok(()) else Err(TypeError)
  }

  /** The debug line `"... '%d'" % header["frame"]` is built before anything
      is sent, so the header must hold a numeric frame. */
  function LogFrame(header: Value): (r: Result<()>)
    ensures r.Ok? <==> Lookup(header, "frame").Ok? && IsNumber(Lookup(header, "frame").value)
  {
    var frame :- Lookup(header, "frame");
    FormatInteger(frame)
  }

  /** The older forwarder's `send(header, data)`: one frame, appended. The
      header goes out as JSON text, so a header holding a byte string, a
      numpy string or a function raises TypeError before anything is sent. */
  function Send(s: Stream, header: Value, data: Value): (r: Result<Stream>)
    ensures r.Ok? <==> LogFrame(header).Ok? && JsonSerialisable(header)
    ensures LogFrame(header).Ok? && !JsonSerialisable(header) ==> r == Err(TypeError)
    ensures r.Ok? ==> r.value == s.(sent := s.sent + [Frame(header, data)])
  {
    var _ :- LogFrame(header);
    if !JsonSerialisable(header) then Err(TypeError)
    else Ok(s.(sent := s.sent + [Frame(header, data)]))
  }

  /** The stream a newer `MFlowForwarder` connects, with every message
      forwarded on it so far. */
  datatype NodeStream = NodeStream(address: Value, forwarded: seq<Messages.Message>, connected: bool)

  /** The newer forwarder's `forward(message)`: the debug line reads the
      message's header part, then the message's data goes out unchanged. */
  function Forward(s: NodeStream, m: Messages.Message): (r: Result<NodeStream>)
    ensures r.Ok? <==> "header" in m.data
    ensures r.Ok? ==> r.value == s.(forwarded := s.forwarded + [m])
  {
    var _ :- Messages.Part(m, "header");
    Ok(s.(forwarded := s.forwarded + [m]))
  }

  const ForwardingAddressMissing: string := "Parameter 'forwarding_address' not set.\n"
  const BindingAddressMissing: string := "Parameter 'binding_address' not set.\n"
  const ProxyFunctionInvalid: string := "Parameter 'proxy_function' is not a valid function\n"

  /** The message both proxies' `_validate_parameters` accumulate: the
      address line, then the function line. */
  function ProxyValidationMessage(address: Value, proxyFunction: Value, addressLine: string): (r: string)
    requires addressLine != ""
    ensures r == "" <==> Truthy(address) && IsCallable(proxyFunction)
    ensures !Truthy(address) ==> Text.StartsWith(r, addressLine)
    ensures Truthy(address) && !IsCallable(proxyFunction) ==> r == ProxyFunctionInvalid
  {
    var first := if Truthy(address) then "" else addressLine;
    var second := if IsCallable(proxyFunction) then "" else ProxyFunctionInvalid;
    assert (first + second)[..|first|] == first;
    first + second
  }

  // ---------------------------------------------------------------------
  // The older proxy: forwards the function's frame, or the original
  // ---------------------------------------------------------------------

  datatype Proxy = Proxy(proxyFunction: Value, forwardingAddress: Value, forwarder: Option<Stream>)

  /** The constructor: no forwarder, no address. */
  function NewProxy(proxyFunction: Value): (p: Proxy)
    ensures p.forwarder.None? && !Truthy(p.forwardingAddress) && p.proxyFunction == proxyFunction
  {
    Proxy(proxyFunction, Null, None)
  }

  function ValidateProxy(p: Proxy): (r: Result<()>)
    ensures r.Ok? <==> Truthy(p.forwardingAddress) && IsCallable(p.proxyFunction)
    ensures r.Err? ==> r.error == ValueError(ProxyValidationMessage(p.forwardingAddress, p.proxyFunction, ForwardingAddressMissing))
  {
    RaiseIfAny(ProxyValidationMessage(p.forwardingAddress, p.proxyFunction, ForwardingAddressMissing))
  }

  /** `start`: validation comes first, so an invalid proxy creates no
      forwarder; a valid one gets a fresh stream on its address. */
  function StartProxy(p: Proxy): (r: Result<Proxy>)
    ensures r.Ok? <==> Truthy(p.forwardingAddress) && IsCallable(p.proxyFunction)
    ensures r.Ok? ==> r.value == p.(forwarder := Some(Stream(p.forwardingAddress, [], true)))
  {
    var _ :- ValidateProxy(p);
    Ok(p.(forwarder := Some(Stream(p.forwardingAddress, [], true))))
  }

  /** The frame the older proxy forwards for a message whose header and data
      are `header` and `data`, given what the proxy function returned: a
      truthy result supplies `(result[0], result[1])`. */
  function ForwardedFrame(header: Value, data: Value, proxyResult: Value): (r: Result<Frame>)
    ensures !Truthy(proxyResult) ==> r == Ok(Frame(header, data))
    ensures Truthy(proxyResult) && (proxyResult.List? || proxyResult.Tuple?) && |proxyResult.items| >= 2 ==>
              r == Ok(Frame(proxyResult.items[0], proxyResult.items[1]))
    ensures Truthy(proxyResult) && r.Ok? ==> (proxyResult.List? || proxyResult.Tuple?) && |proxyResult.items| >= 2
  {
    if Truthy(proxyResult) then
      var h :- Index(proxyResult, 0);
      var d :- Index(proxyResult, 1);
      Ok(Frame(h, d))
    else Ok(Frame(header, data))
  }

  /** What the older proxy needs of a message and its function's result:
      a header with a numeric frame, a first data part, a usable result, and
      a header to send on that has a numeric frame and a JSON form. */
  predicate Processable(m: Messages.Message, proxyResult: Value) {
    && "header" in m.data && "data" in m.data && Index(m.data["data"], 0).Ok?
    && LogFrame(m.data["header"]).Ok?
    && var f := ForwardedFrame(m.data["header"], Index(m.data["data"], 0).value, proxyResult);
       f.Ok? && LogFrame(f.value.header).Ok? && JsonSerialisable(f.value.header)
  }

  /** `process_message(message)` of the older proxy, with `proxyResult` the
      value its function returned for the frame. Exactly one frame is sent
      when it succeeds. */
  function ProcessMessage(p: Proxy, m: Messages.Message, proxyResult: Value): (r: Result<Proxy>)
    ensures r.Ok? ==> && p.forwarder.Some? && r.value.forwarder.Some?
                      && r.value == p.(forwarder := r.value.forwarder)
                      && |r.value.forwarder.value.sent| == |p.forwarder.value.sent| + 1
                      && r.value.forwarder.value.sent[..|p.forwarder.value.sent|] == p.forwarder.value.sent
    ensures r.Ok? ==> && "header" in m.data && "data" in m.data && Index(m.data["data"], 0).Ok?
                      && LogFrame(m.data["header"]).Ok?
    ensures r.Ok? && !Truthy(proxyResult) ==>
              Last(r.value.forwarder.value.sent) == Frame(m.data["header"], Index(m.data["data"], 0).value)
    ensures r.Ok? && Truthy(proxyResult) ==>
              (proxyResult.List? || proxyResult.Tuple?) && |proxyResult.items| >= 2
              && Last(r.value.forwarder.value.sent) == Frame(proxyResult.items[0], proxyResult.items[1])
    ensures r.Ok? <==> Processable(m, proxyResult) && p.forwarder.Some?
    ensures p.forwarder.None? && Messages.Part(m, "header").Ok? && Messages.Part(m, "data").Ok?
            && Index(m.data["data"], 0).Ok? && LogFrame(m.data["header"]).Ok?
            && ForwardedFrame(m.data["header"], Index(m.data["data"], 0).value, proxyResult).Ok? ==>
              r == Err(AttributeError("send"))
  {
    var header :- Messages.Part(m, "header");
    var frames :- Messages.Part(m, "data");
    var data :- Index(frames, 0);
    var _ :- LogFrame(header);
    var frame :- ForwardedFrame(header, data, proxyResult);
    if p.forwarder.None? then Err(AttributeError("send"))
    else
      var s :- Send(p.forwarder.value, frame.header, frame.data);
      Ok(p.(forwarder := Some(s)))
  }

  function Last(frames: seq<Frame>): Frame
    requires |frames| > 0
  {
    frames[|frames| - 1]
  }

  /** The older proxy over a run of messages, each with its function result,
      stopping at the first that raises. */
  function ProcessAll(p: Proxy, ms: seq<(Messages.Message, Value)>): (r: Result<Proxy>)
    decreases |ms|
  {
    if |ms| == 0 then Ok(p)
    else
      var q :- ProcessAll(p, ms[..|ms| - 1]);
      ProcessMessage(q, ms[|ms| - 1].0, ms[|ms| - 1].1)
  }

  /** A run that goes through sends one frame per message, after those
      already sent, and changes nothing else about the proxy. */
  lemma {:induction false} OneSendPerMessage(p: Proxy, ms: seq<(Messages.Message, Value)>)
    requires p.forwarder.Some?
    ensures var r := ProcessAll(p, ms);
            r.Ok? ==> && r.value.forwarder.Some?
                      && |r.value.forwarder.value.sent| == |p.forwarder.value.sent| + |ms|
                      && r.value.forwarder.value.sent[..|p.forwarder.value.sent|] == p.forwarder.value.sent
                      && r.value == p.(forwarder := r.value.forwarder)
    decreases |ms|
  {
    if |ms| > 0 {
      var n := |ms| - 1;
      OneSendPerMessage(p, ms[..n]);
      var q := ProcessAll(p, ms[..n]);
      if q.Ok? {
        var r := ProcessMessage(q.value, ms[n].0, ms[n].1);
        assert ProcessAll(p, ms) == r;
        if r.Ok? {
          PrefixGrows(p.forwarder.value.sent, q.value.forwarder.value.sent, r.value.forwarder.value.sent);
        }
      }
    }
  }

  /** A prefix of a prefix is a prefix. */
  lemma PrefixGrows(before: seq<Frame>, mid: seq<Frame>, after: seq<Frame>)
    requires |before| <= |mid| <= |after|
    requires mid[..|before|] == before && after[..|mid|] == mid
    ensures after[..|before|] == before
  {
    assert after[..|before|] == mid[..|before|];
  }

  /** A started proxy gets through a run of messages exactly when every
      message of the run is processable: no other state can make it raise. */
  lemma {:induction false} RunSucceeds(p: Proxy, ms: seq<(Messages.Message, Value)>)
    requires p.forwarder.Some?
    ensures ProcessAll(p, ms).Ok? <==> forall i :: 0 <= i < |ms| ==> Processable(ms[i].0, ms[i].1)
    decreases |ms|
  {
    if |ms| > 0 {
      var n := |ms| - 1;
      RunSucceeds(p, ms[..n]);
      KeepsForwarder(p, ms[..n]);
      AllProcessableStep(ms);
    }
  }

  /** A run that goes through leaves the proxy with a forwarder. */
  lemma KeepsForwarder(p: Proxy, ms: seq<(Messages.Message, Value)>)
    requires p.forwarder.Some?
    ensures ProcessAll(p, ms).Ok? ==> ProcessAll(p, ms).value.forwarder.Some?
  {
    OneSendPerMessage(p, ms);
  }

  lemma AllProcessableStep(ms: seq<(Messages.Message, Value)>)
    requires |ms| > 0
    ensures var n := |ms| - 1;
            (forall i :: 0 <= i < |ms| ==> Processable(ms[i].0, ms[i].1)) <==>
            (forall i :: 0 <= i < n ==> Processable(ms[..n][i].0, ms[..n][i].1)) && Processable(ms[n].0, ms[n].1)
  {
    var n := |ms| - 1;
    assert forall i :: 0 <= i < n ==> ms[..n][i] == ms[i];
  }

  /** `stop`: disconnects the stream; with no forwarder it raises. */
  function StopProxy(p: Proxy): (r: Result<Proxy>)
    ensures r.Ok? <==> p.forwarder.Some?
    ensures r.Ok? ==> r.value == p.(forwarder := Some(p.forwarder.value.(connected := false)))
  {
    if p.forwarder.None? then Err(AttributeError("stop"))
    else Ok(p.(forwarder := Some(p.forwarder.value.(connected := false))))
  }

  // ---------------------------------------------------------------------
  // The newer proxy: forwards the raw message when its function says so
  // ---------------------------------------------------------------------

  datatype NodeProxy = NodeProxy(proxyFunction: Value, bindingAddress: Value, forwarder: Option<NodeStream>)

  function NewNodeProxy(proxyFunction: Value): (p: NodeProxy)
    ensures p.forwarder.None? && !Truthy(p.bindingAddress) && p.proxyFunction == proxyFunction
  {
    NodeProxy(proxyFunction, Null, None)
  }

  function ValidateNodeProxy(p: NodeProxy): (r: Result<()>)
    ensures r.Ok? <==> Truthy(p.bindingAddress) && IsCallable(p.proxyFunction)
    ensures r.Err? ==> r.error == ValueError(ProxyValidationMessage(p.bindingAddress, p.proxyFunction, BindingAddressMissing))
  {
    RaiseIfAny(ProxyValidationMessage(p.bindingAddress, p.proxyFunction, BindingAddressMissing))
  }

  /** `start`: validation before the forwarder exists. */
  function StartNodeProxy(p: NodeProxy): (r: Result<NodeProxy>)
    ensures r.Ok? <==> Truthy(p.bindingAddress) && IsCallable(p.proxyFunction)
    ensures r.Ok? ==> r.value == p.(forwarder := Some(NodeStream(p.bindingAddress, [], true)))
  {
    var _ :- ValidateNodeProxy(p);
    Ok(p.(forwarder := Some(NodeStream(p.bindingAddress, [], true))))
  }

  /** The message's frame index formats with `%d`. */
  predicate Loggable(m: Messages.Wrapped) {
    var idx := Messages.GetFrameIndex(m.handler, m.raw);
    idx.Ok? && IsNumber(idx.value)
  }

  /** `process_message(message)` of the newer proxy, with `decision` the value
      its function returned for the message: a truthy decision forwards the
      raw message unchanged, a falsy one forwards nothing. */
  function ProcessNodeMessage(p: NodeProxy, m: Messages.Wrapped, decision: Value): (r: Result<NodeProxy>)
    ensures r.Ok? ==> Loggable(m)
    ensures r.Ok? && !Truthy(decision) ==> r.value == p
    ensures r.Ok? && Truthy(decision) ==>
              p.forwarder.Some? && r.value == p.(forwarder := Some(p.forwarder.value.(forwarded := p.forwarder.value.forwarded + [m.raw])))
    ensures Loggable(m) && !Truthy(decision) ==> r.Ok?
    ensures Loggable(m) && Truthy(decision) ==> (r.Ok? <==> p.forwarder.Some? && "header" in m.raw.data)
  {
    var idx :- Messages.GetFrameIndex(m.handler, m.raw);
    var _ :- FormatInteger(idx);
    if !Truthy(decision) then Ok(p)
    else if p.forwarder.None? then Err(AttributeError("forward"))
    else
      var s :- Forward(p.forwarder.value, m.raw);
      Ok(p.(forwarder := Some(s)))
  }

  /** The raw messages whose decision is truthy, in order. */
  function Selected(ms: seq<(Messages.Wrapped, Value)>): (r: seq<Messages.Message>)
    ensures |r| <= |ms|
    decreases |ms|
  {
    if |ms| == 0 then []
    else
      var n := |ms| - 1;
      Selected(ms[..n]) + (if Truthy(ms[n].1) then [ms[n].0.raw] else [])
  }

  function ProcessAllNode(p: NodeProxy, ms: seq<(Messages.Wrapped, Value)>): (r: Result<NodeProxy>)
    decreases |ms|
  {
    if |ms| == 0 then Ok(p)
    else
      var q :- ProcessAllNode(p, ms[..|ms| - 1]);
      ProcessNodeMessage(q, ms[|ms| - 1].0, ms[|ms| - 1].1)
  }

  /** Every message is readable: its frame index formats and it has a header. */
  predicate Forwardable(ms: seq<(Messages.Wrapped, Value)>) {
    forall i :: 0 <= i < |ms| ==> Loggable(ms[i].0) && "header" in ms[i].0.raw.data
  }

  /** A started proxy forwards exactly the messages its function selects, in
      the order they arrived and unchanged. */
  lemma {:induction false} ForwardsSelected(p: NodeProxy, ms: seq<(Messages.Wrapped, Value)>)
    requires p.forwarder.Some?
    requires Forwardable(ms)
    ensures var r := ProcessAllNode(p, ms);
            && r.Ok?
            && r.value == p.(forwarder := Some(p.forwarder.value.(forwarded := p.forwarder.value.forwarded + Selected(ms))))
    decreases |ms|
  {
    if |ms| > 0 {
      var n := |ms| - 1;
      assert Forwardable(ms[..n]) by {
        assert forall i :: 0 <= i < n ==> ms[..n][i] == ms[i];
      }
      ForwardsSelected(p, ms[..n]);
      var s := p.forwarder.value;
      var prefix := s.forwarded + Selected(ms[..n]);
      var q := ProcessAllNode(p, ms[..n]);
      assert ProcessAllNode(p, ms) == ProcessNodeMessage(q.value, ms[n].0, ms[n].1);
      assert Loggable(ms[n].0) && "header" in ms[n].0.raw.data;
      if Truthy(ms[n].1) {
        assert prefix + [ms[n].0.raw] == s.forwarded + Selected(ms);
      } else {
        assert Selected(ms) == Selected(ms[..n]) + [];
        assert Selected(ms[..n]) + [] == Selected(ms[..n]);
      }
    } else {
      assert p.forwarder.value.forwarded + Selected(ms) == p.forwarder.value.forwarded;
    }
  }

  /** `stop` of the newer proxy. */
  function StopNodeProxy(p: NodeProxy): (r: Result<NodeProxy>)
    ensures r.Ok? <==> p.forwarder.Some?
    ensures r.Ok? ==> r.value == p.(forwarder := Some(p.forwarder.value.(connected := false)))
  {
    if p.forwarder.None? then Err(AttributeError("stop"))
    else Ok(p.(forwarder := Some(p.forwarder.value.(connected := false))))
  }
}

=== FILE: rest_server.dfy ===
/** The REST layer of a node: the URL layout of its web interface, the host
    it binds, and the defaults of `RestInterfacedProcess`, the base class of
    every process the web interface controls. */
module RestServer {
  import opened Wrappers
  import opened Values
  import Text
  import Ordered
  import Config
  import Processors

  // ---------------------------------------------------------------------
  // str.format with one keyword argument
  // ---------------------------------------------------------------------

  /** Neither brace occurs in `s`. */
  predicate Braceless(s: string) {
    forall k :: 0 <= k < |s| ==> s[k] != '{' && s[k] != '}'
  }

  /** The first `}` at or after position `i`. */
  function FieldClose(t: string, i: nat): (r: Option<nat>)
    requires i <= |t|
    ensures r.Some? ==> i <= r.value < |t| && t[r.value] == '}'
    ensures r.Some? ==> forall k :: i <= k < r.value ==> t[k] != '}'
    ensures r.None? ==> forall k :: i <= k < |t| ==> t[k] != '}'
    decreases |t| - i
  {
    if i == |t| then None
    else if t[i] == '}' then Some(i)
    else FieldClose(t, i + 1)
  }

  /** `t.format(field=value)`, left to right: `{{` and `}}` stand for one
      brace, `{field}` for `value`; any other replacement field or a lone
      brace raises, as Python's formatter does on the first one it meets.
      Field names with a conversion, a format spec, an index or an attribute
      are read as plain names. */
  function Format(t: string, field: string, value: string): (r: Result<string>)
    decreases |t|
  {
    if |t| == 0 then Ok("")
    else if t[0] == '{' && |t| >= 2 && t[1] == '{' then
      var rest :- Format(t[2..], field, value);
      Ok("{" + rest)
    else if t[0] == '{' && |t| == 1 then Err(ValueError("Single '{' encountered in format string"))
    else if t[0] == '{' then
      match FieldClose(t, 1)
      case None => Err(ValueError("expected '}' before end of string"))
      case Some(c) =>
        var name := t[1..c];
        if '{' in name then Err(ValueError("unexpected '{' in field name"))
        else if name == field then
          var rest :- Format(t[c + 1..], field, value);
          Ok(value + rest)
        else if name == "" then Err(IndexError)
        else Err(KeyError(name))
    else if t[0] == '}' && |t| >= 2 && t[1] == '}' then
      var rest :- Format(t[2..], field, value);
      Ok("}" + rest)
    else if t[0] == '}' then Err(ValueError("Single '}' encountered in format string"))
    else
      var rest :- Format(t[1..], field, value);
      Ok([t[0]] + rest)
  }

  /** Text without braces is copied through the formatter unchanged. */
  lemma {:induction false} FormatLiteral(a: string, b: string, field: string, value: string)
    requires Braceless(a)
    ensures Format(a + b, field, value).Ok? == Format(b, field, value).Ok?
    ensures Format(b, field, value).Ok? ==> Format(a + b, field, value) == Ok(a + Format(b, field, value).value)
    ensures Format(b, field, value).Err? ==> Format(a + b, field, value) == Format(b, field, value)
    decreases |a|
  {
    if |a| > 0 {
      var t := a + b;
      assert t[0] == a[0];
      assert t[1..] == a[1..] + b;
      assert a[0] != '{' && a[0] != '}';
      assert Braceless(a[1..]) by {
        forall k | 0 <= k < |a[1..]| ensures a[1..][k] != '{' && a[1..][k] != '}' {
          assert a[1..][k] == a[k + 1];
        }
      }
      FormatLiteral(a[1..], b, field, value);
      var tail := Format(t[1..], field, value);
      assert Format(t, field, value) == if tail.Ok? then Ok([t[0]] + tail.value) else tail;
      if Format(b, field, value).Ok? {
        assert a == [a[0]] + a[1..];
        assert [t[0]] + (a[1..] + Format(b, field, value).value) == a + Format(b, field, value).value;
      }
    } else {
      assert a == [];
      assert a + b == b;
      if Format(b, field, value).Ok? {
        assert a + Format(b, field, value).value == Format(b, field, value).value;
      }
    }
  }

  /** A replacement field naming the keyword is replaced by its value. */
  lemma FormatNamedField(field: string, b: string, value: string)
    requires Braceless(field) && field != ""
    ensures var t := "{" + field + "}" + b;
            && Format(t, field, value).Ok? == Format(b, field, value).Ok?
            && (Format(b, field, value).Ok? ==> Format(t, field, value) == Ok(value + Format(b, field, value).value))
  {
    var t := "{" + field + "}" + b;
    var c := |field| + 1;
    assert t[c] == '}';
    assert forall k :: 1 <= k < c ==> t[k] == field[k - 1];
    assert FieldClose(t, 1) == Some(c);
    assert t[1..c] == field;
    assert t[c + 1..] == b;
    assert forall k :: 0 <= k < |field| ==> field[k] != '{';
    assert '{' !in field;
  }

  /** A doubled brace stands for one brace. */
  lemma FormatEscapes(b: string, field: string, value: string)
    ensures Format("{{" + b, field, value).Ok? == Format(b, field, value).Ok?
    ensures Format(b, field, value).Ok? ==> Format("{{" + b, field, value) == Ok("{" + Format(b, field, value).value)
    ensures Format("}}" + b, field, value).Ok? == Format(b, field, value).Ok?
    ensures Format(b, field, value).Ok? ==> Format("}}" + b, field, value) == Ok("}" + Format(b, field, value).value)
  {
    assert ("{{" + b)[2..] == b;
    assert ("}}" + b)[2..] == b;
  }

  // ---------------------------------------------------------------------
  // URL layout
  // ---------------------------------------------------------------------

  /** `API_PATH_FORMAT.format(instance_name=instance)`, then `.format(url=url)`. */
  function ApiPath(instance: string, url: string): (r: Result<string>)
  {
    var template :- Format(Config.ApiPathFormat, "instance_name", instance);
    Format(template, "url", url)
  }

  /** `HTML_PATH_FORMAT.format(instance_name=instance)`, then `.format(url=url)`. */
  function HtmlPath(instance: string, url: string): (r: Result<string>)
  {
    var template :- Format(Config.HtmlPathFormat, "instance_name", instance);
    Format(template, "url", url)
  }

  function ApiPrefix(instance: string): string { "/api/v1/" + instance + "/" }

  function HtmlPrefix(instance: string): string { "/" + instance + "/" }

  /** The endpoint a request path names under `prefix`, if it lies there. */
  function UrlUnder(prefix: string, path: string): (r: Option<string>)
    ensures r.Some? <==> Text.StartsWith(path, prefix)
    ensures r.Some? ==> prefix + r.value == path
  {
    if Text.StartsWith(path, prefix) then
      assert path == path[..|prefix|] + path[|prefix|..];
      Some(path[|prefix|..])
    else None
  }

  /** The second fill of a filled-in template: only `{url}` is left. */
  lemma FillUrl(prefix: string, url: string)
    requires Braceless(prefix)
    ensures Format(prefix + "{url}", "url", url) == Ok(prefix + url)
  {
    FormatNamedField("url", "", url);
    assert "{url}" == "{" + "url" + "}" + "";
    assert Format("", "url", url) == Ok("");
    assert url + "" == url;
    assert Format("{url}", "url", url) == Ok(url);
    FormatLiteral(prefix, "{url}", "url", url);
  }

  /** The part of both templates after the instance field. */
  const UrlTail: string := "/{{url}}"

  /** `/{{url}}` fills to `/{url}`, whatever the keyword. */
  lemma FillUrlTail(field: string, value: string)
    ensures Format(UrlTail, field, value) == Ok("/{url}")
  {
    FillEscapedUrl(field, value);
    FormatLiteral("/", "{{url}}", field, value);
    assert "/" + "{{url}}" == UrlTail;
    assert "/" + "{url}" == "/{url}";
  }

  /** `{{url}}` fills to `{url}`, whatever the keyword. */
  lemma FillEscapedUrl(field: string, value: string)
    ensures Format("{{url}}", field, value) == Ok("{url}")
  {
    FormatEscapes("", field, value);
    assert "}}" + "" == "}}";
    assert "}" + "" == "}";
    assert Format("}}", field, value) == Ok("}");
    FormatLiteral("url", "}}", field, value);
    assert "url" + "}}" == "url}}";
    assert "url" + "}" == "url}";
    FormatEscapes("url}}", field, value);
    assert "{{" + "url}}" == "{{url}}";
    assert "{" + "url}" == "{url}";
  }

  /** The instance keyword is a plain field name. */
  lemma InstanceFieldBraceless()
    ensures Braceless("instance_name")
  {
  }

  /** The API route prefix holds no braces. */
  lemma ApiRootBraceless()
    ensures Braceless("/api/v1/")
  {
  }

  /** The first fill of a template `<prefix>{instance_name}/{{url}}`. */
  lemma FillInstance(prefix: string, instance: string)
    requires Braceless(prefix)
    ensures Format(prefix + "{instance_name}" + UrlTail, "instance_name", instance) == Ok(prefix + instance + "/{url}")
  {
    var field := "instance_name";
    FillUrlTail(field, instance);
    InstanceFieldBraceless();
    FormatNamedField(field, UrlTail, instance);
    InstanceFieldText();
    var rest := "{instance_name}" + UrlTail;
    assert rest == "{" + field + "}" + UrlTail;
    FormatLiteral(prefix, rest, field, instance);
    assert prefix + "{instance_name}" + UrlTail == prefix + rest;
    assert prefix + (instance + "/{url}") == prefix + instance + "/{url}";
  }

  /** The instance field as the template spells it. */
  lemma InstanceFieldText()
    ensures "{instance_name}" == "{" + "instance_name" + "}"
  {
  }

  /** A template filled with a brace-free instance name and then a URL. */
  lemma FillBoth(prefix: string, instance: string, url: string)
    requires Braceless(prefix) && Braceless(instance)
    ensures Format(prefix + "{instance_name}" + UrlTail, "instance_name", instance).Ok?
    ensures Format(Format(prefix + "{instance_name}" + UrlTail, "instance_name", instance).value, "url", url)
            == Ok(prefix + instance + "/" + url)
  {
    FillInstance(prefix, instance);
    var filled := prefix + instance + "/";
    assert Braceless(filled) by {
      forall k | 0 <= k < |filled| ensures filled[k] != '{' && filled[k] != '}' {
        if k < |prefix| { assert filled[k] == prefix[k]; }
        else if k < |prefix| + |instance| { assert filled[k] == instance[k - |prefix|]; }
        else { assert filled[k] == '/'; }
      }
    }
    assert prefix + instance + "/{url}" == filled + "{url}";
    FillUrl(filled, url);
  }

  /** For an instance name without braces, an API route is
      `/api/v1/<instance>/<url>`. */
  lemma ApiPathShape(instance: string, url: string)
    requires Braceless(instance)
    ensures ApiPath(instance, url) == Ok(ApiPrefix(instance) + url)
  {
    assert Config.ApiPathFormat == "/api/v1/" + "{instance_name}" + UrlTail;
    ApiRootBraceless();
    FillBoth("/api/v1/", instance, url);
  }

  /** For an instance name without braces, an HTML route is `/<instance>/<url>`. */
  lemma HtmlPathShape(instance: string, url: string)
    requires Braceless(instance)
    ensures HtmlPath(instance, url) == Ok(HtmlPrefix(instance) + url)
  {
    assert Config.HtmlPathFormat == "/" + "{instance_name}" + UrlTail;
    FillBoth("/", instance, url);
  }

  /** Routing a request back to its endpoint: a path lies under the instance's
      API prefix exactly when it is the API route of the endpoint after it, so
      two endpoints never share a route. */
  lemma ApiRouteRoundTrip(instance: string, url: string, path: string)
    requires Braceless(instance)
    ensures ApiPath(instance, url).Ok? && UrlUnder(ApiPrefix(instance), ApiPath(instance, url).value) == Some(url)
    ensures UrlUnder(ApiPrefix(instance), path) == Some(url) <==> ApiPath(instance, url) == Ok(path)
  {
    ApiPathShape(instance, url);
    var p := ApiPrefix(instance);
    assert (p + url)[..|p|] == p;
    assert (p + url)[|p|..] == url;
    assert UrlUnder(p, p + url) == Some(url);
    if UrlUnder(p, path) == Some(url) {
      assert path == p + url;
    }
  }

  /** The same for the HTML pages. */
  lemma HtmlRouteRoundTrip(instance: string, url: string, path: string)
    requires Braceless(instance)
    ensures HtmlPath(instance, url).Ok? && UrlUnder(HtmlPrefix(instance), HtmlPath(instance, url).value) == Some(url)
    ensures UrlUnder(HtmlPrefix(instance), path) == Some(url) <==> HtmlPath(instance, url) == Ok(path)
  {
    HtmlPathShape(instance, url);
    var p := HtmlPrefix(instance);
    assert (p + url)[..|p|] == p;
    assert (p + url)[|p|..] == url;
    assert UrlUnder(p, p + url) == Some(url);
    if UrlUnder(p, path) == Some(url) {
      assert path == p + url;
    }
  }

  /** A replacement field other than the keyword raises KeyError. */
  lemma UnknownFieldRejected(name: string, after: string, field: string, value: string)
    requires Braceless(name) && name != "" && name != field
    ensures Format("{" + name + "}" + after, field, value) == Err(KeyError(name))
  {
    var rest := "{" + name + "}" + after;
    var c := |name| + 1;
    assert rest[c] == '}';
    assert forall k :: 1 <= k < c ==> rest[k] == name[k - 1];
    assert FieldClose(rest, 1) == Some(c);
    assert rest[1..c] == name;
    assert rest[1] == name[0];
    assert forall k :: 0 <= k < |name| ==> name[k] != '{';
    assert '{' !in name;
  }

  /** Gluing brace-free texts gives a brace-free text. */
  lemma BracelessConcat(a: string, b: string)
    requires Braceless(a) && Braceless(b)
    ensures Braceless(a + b)
  {
    forall k | 0 <= k < |a + b| ensures (a + b)[k] != '{' && (a + b)[k] != '}' {
      if k >= |a| { assert (a + b)[k] == b[k - |a|]; }
    }
  }

  /** The first fill of the API template with a braced instance name. */
  lemma BracedTemplate(instance: string, before: string, name: string, after: string)
    requires instance == before + "{" + name + "}" + after
    ensures Format(Config.ApiPathFormat, "instance_name", instance)
            == Ok(("/api/v1/" + before) + ("{" + name + "}" + (after + "/{url}")))
  {
    assert Config.ApiPathFormat == "/api/v1/" + "{instance_name}" + UrlTail;
    FillInstance("/api/v1/", instance);
    assert Format(Config.ApiPathFormat, "instance_name", instance) == Ok("/api/v1/" + instance + "/{url}");
    assert "/api/v1/" + instance + "/{url}" == ("/api/v1/" + before) + ("{" + name + "}" + (after + "/{url}")) by {
      SeqShape(instance, before, name, after);
    }
  }

  /** Regrouping the filled template around the braced part. */
  lemma SeqShape(instance: string, before: string, name: string, after: string)
    requires instance == before + "{" + name + "}" + after
    ensures "/api/v1/" + instance + "/{url}" == ("/api/v1/" + before) + ("{" + name + "}" + (after + "/{url}"))
  {
  }

  /** An instance name holding a replacement field is filled in verbatim by
      the first fill and then read as a field by the second, which raises
      KeyError for it. */
  lemma BracedInstanceRejected(before: string, name: string, after: string, url: string)
    requires Braceless(before) && Braceless(name) && name != "" && name != "url"
    ensures ApiPath(before + "{" + name + "}" + after, url) == Err(KeyError(name))
  {
    BracedTemplate(before + "{" + name + "}" + after, before, name, after);
    var head := "/api/v1/" + before;
    ApiRootBraceless();
    BracelessConcat("/api/v1/", before);
    UnknownFieldRejected(name, after + "/{url}", "url", url);
    FormatLiteral(head, "{" + name + "}" + (after + "/{url}"), "url", url);
  }

  // ---------------------------------------------------------------------
  // Binding host
  // ---------------------------------------------------------------------

  const Http: string := "http://"
  const Https: string := "https://"

  ghost predicate Mentions(s: string, pat: string) {
    exists j :: Text.OccursAt(s, pat, j)
  }

  /** `host.replace("http://", "").replace("https://", "")`. */
  function StripScheme(host: string): (r: string)
  {
    Text.ReplaceAll(Text.ReplaceAll(host, Http, ""), Https, "")
  }

  /** A bare host name is bound as given. */
  lemma StripSchemeKeepsBareHost(host: string)
    requires Schemeless(host)
    ensures StripScheme(host) == host
  {
    Text.ReplaceAbsent(host, Http, "");
    Text.ReplaceAbsent(host, Https, "");
  }

  /** Neither scheme occurs in `h`. */
  ghost predicate Schemeless(h: string) {
    !Mentions(h, Http) && !Mentions(h, Https)
  }

  /** `https://h` holds `http://` nowhere: the prefix cannot start one. */
  lemma HttpAbsentAfterHttps(h: string)
    requires Schemeless(h)
    ensures forall j :: !Text.OccursAt(Https + h, Http, j)
  {
    var s := Https + h;
    forall j ensures !Text.OccursAt(s, Http, j) {
      if 0 <= j && j + 7 <= |s| {
        if j >= 8 {
          assert s[j..j + 7] == h[j - 8..j - 1];
          assert !Text.OccursAt(h, Http, j - 8);
        } else if j == 0 {
          assert s[j..j + 7][4] == 's';
        } else {
          assert s[j..j + 7][0] == s[j];
          assert s[j] != 'h';
        }
      }
    }
  }

  /** `http://h` binds `h`. */
  lemma StripHttp(h: string)
    requires Schemeless(h)
    ensures StripScheme(Http + h) == h
  {
    Text.ReplaceLeading(Http, h, "");
    Text.ReplaceAbsent(h, Http, "");
    assert "" + h == h;
    Text.ReplaceAbsent(h, Https, "");
  }

  /** `https://h` binds `h`. */
  lemma StripHttps(h: string)
    requires Schemeless(h)
    ensures StripScheme(Https + h) == h
  {
    HttpAbsentAfterHttps(h);
    Text.ReplaceAbsent(Https + h, Http, "");
    Text.ReplaceLeading(Https, h, "");
    Text.ReplaceAbsent(h, Https, "");
    assert "" + h == h;
  }

  /** A URL-style host loses its scheme: `http://h` and `https://h` both bind `h`. */
  lemma StripSchemeOfUrl(h: string)
    requires Schemeless(h)
    ensures StripScheme(Http + h) == h
    ensures StripScheme(Https + h) == h
  {
    StripHttp(h);
    StripHttps(h);
  }

  /** The default REST host binds every interface. */
  lemma DefaultHostBindsAllInterfaces()
    ensures StripScheme(Config.DefaultRestHost) == "0.0.0.0"
  {
    var h := "0.0.0.0";
    forall j ensures !Text.OccursAt(h, Http, j) && !Text.OccursAt(h, Https, j) {
      if 0 <= j && j + 7 <= |h| { assert h[j..j + 7][0] == h[j]; }
    }
    StripHttp(h);
    assert Config.DefaultRestHost == Http + h;
  }

  // ---------------------------------------------------------------------
  // RestInterfacedProcess defaults
  // ---------------------------------------------------------------------

  /** A Python object as the REST layer sees it: its class name, its instance
      attributes (`vars(obj)`) and its docstring (`Null` when it has none). */
  datatype ProcessObject = ProcessObject(className: string, attrs: map<string, Value>, doc: Value)

  const NoHelp: string := "Sorry, no help available."

  /** `getattr(obj, "__name__", obj.__class__.__name__)`: an instance has a
      `__name__` only when one was assigned to it. */
  function GetProcessName(o: ProcessObject): (r: Value)
    ensures "__name__" in o.attrs ==> r == o.attrs["__name__"]
    ensures "__name__" !in o.attrs ==> r == Str(o.className)
  {
    if "__name__" in o.attrs then o.attrs["__name__"] else Str(o.className)
  }

  /** `doc or "Sorry, no help available."`: help text is never empty. */
  function GetProcessHelp(doc: Value): (r: Value)
    ensures Truthy(r)
    ensures Truthy(doc) ==> r == doc
    ensures !Truthy(doc) ==> r == Str(NoHelp)
  {
    if Truthy(doc) then doc else Str(NoHelp)
  }

  /** An attribute whose name starts with `_` is private and never reported. */
  predicate IsPrivate(name: string) {
    Text.StartsWith(name, "_")
  }

  /** The attributes `get_parameters` reports. */
  function PublicAttributes(attrs: map<string, Value>): (r: map<string, Value>)
    ensures forall k :: k in r <==> k in attrs && !IsPrivate(k)
    ensures forall k :: k in r ==> r[k] == attrs[k]
  {
    map k | k in attrs && !IsPrivate(k) :: attrs[k]
  }

  /** The default `get_parameters`: the public attributes in ascending name
      order, values unchanged. */
  method GetParameters(o: ProcessObject) returns (items: seq<(string, Value)>)
    ensures forall i, j :: 0 <= i < j < |items| ==> Ordered.Less(items[i].0, items[j].0)
    ensures forall i :: 0 <= i < |items| ==>
              !IsPrivate(items[i].0) && items[i].0 in o.attrs && items[i].1 == o.attrs[items[i].0]
    ensures forall k :: k in o.attrs && !IsPrivate(k) ==> exists i :: 0 <= i < |items| && items[i].0 == k
    ensures Enumerates(items, PublicAttributes(o.attrs))
  {
    items := Ordered.SortedItems(PublicAttributes(o.attrs));
    forall i, j | 0 <= i < j < |items| ensures items[i].0 != items[j].0 {
      if items[i].0 == items[j].0 { Ordered.LessIrreflexive(items[i].0); }
    }
  }

  /** A parameter set through a processor's `set_parameter` is reported by
      `get_parameters` with its new value, unless its name is private; no
      other reported parameter changes. */
  lemma SetParameterIsReported(p: Processors.Processor, name: string, v: Value)
    ensures var q := Processors.SetParameter(p, Tuple([Str(name), v]));
            && q.Ok?
            && (!IsPrivate(name) ==> PublicAttributes(q.value.attrs) == PublicAttributes(p.attrs)[name := v])
            && (IsPrivate(name) ==> PublicAttributes(q.value.attrs) == PublicAttributes(p.attrs))
  {
  }

  /** The commands whose default is `pass`. */
  datatype Command = Start | Stop | SetParameters(parameter: Value) | Reset

  /** The default `start`, `stop`, `set_parameters` and `reset` leave the
      process as it was. The node manager does not override the plural
      `set_parameters` the web interface calls, so this is what runs there. */
  function Perform(o: ProcessObject, c: Command): (r: ProcessObject)
    ensures r == o
  {
    o
  }

  /** The default `is_running` returns None, which reads as not running. */
  function IsRunning(o: ProcessObject): (r: Value)
    ensures !Truthy(r)
  {
    Null
  }

  /** The default `get_statistics_raw` returns None. */
  function GetStatisticsRaw(o: ProcessObject): (r: Value)
    ensures r == Null
  {
    Null
  }

  /** The default `get_statistics` hands back the raw statistics. */
  function GetStatistics(o: ProcessObject): (r: Value)
    ensures r == GetStatisticsRaw(o)
  {
    GetStatisticsRaw(o)
  }
}

=== FILE: ring_buffer.dfy ===
/** The shared-memory ring buffer of the example pipeline: `n_slots` slots of
    `slot_bytes` bytes in a data file, and one full/empty flag per slot in a
    header file. A writer fills slots in cursor order; a reader takes them in
    the same order and releases them. The model follows one buffer object;
    the two memory maps are sequences. */
module RingBuffer {
  import opened Wrappers
  import opened Values
  import Text

  /** Which `initialize_for_*` was called last. */
  datatype Role = Reading | Writing

  /** The buffer object: its sizes, the data map and the header flags
      (`None` until initialised), its role and its cursor `_next_index`. */
  datatype Ring = Ring(nSlots: int, slotBytes: int, data: Option<seq<byte>>, full: Option<seq<bool>>,
                       role: Option<Role>, cursor: Option<int>)

  /** The constructor only records the sizes. */
  function New(nSlots: int, slotBytes: int): (r: Ring)
    ensures !Initialised(r) && Valid(r)
    ensures r.nSlots == nSlots && r.slotBytes == slotBytes
  {
    Ring(nSlots, slotBytes, None, None, None, None)
  }

  /** Both memory maps exist. */
  predicate Initialised(r: Ring) {
    r.data.Some? && r.full.Some?
  }

  /** What every reachable buffer object satisfies: the two maps come and go
      together, and once they exist they have their declared sizes and the
      cursor names a slot. */
  ghost predicate Valid(r: Ring) {
    && (r.data.Some? <==> r.full.Some?)
    && (Initialised(r) ==>
          && r.nSlots >= 1 && r.slotBytes >= 1
          && r.cursor.Some? && 0 <= r.cursor.value < r.nSlots
          && |r.full.value| == r.nSlots
          && |r.data.value| == r.nSlots * r.slotBytes
          && r.role.Some?)
  }

  // ---------------------------------------------------------------------
  // Slot geometry
  // ---------------------------------------------------------------------

  /** `_get_slot_interval_indexes(i)`: slot `i` is the byte range
      `[i * slot_bytes, i * slot_bytes + slot_bytes)`. */
  function SlotInterval(slotBytes: int, i: int): (iv: (int, int))
    ensures iv.1 - iv.0 == slotBytes
  {
    var start := i * slotBytes;
    (start, start + slotBytes)
  }

  /** Multiplying by a non-negative number keeps the order. */
  lemma {:induction false} MulLe(a: int, b: int, c: int)
    requires 0 <= a <= b && 0 <= c
    ensures a * c <= b * c
    decreases b - a
  {
    if a < b {
      MulLe(a, b - 1, c);
      assert (b - 1) * c == b * c - c;
    }
  }

  /** A slot lies inside the data map. */
  lemma SlotWithin(n: int, sb: int, i: int)
    requires sb >= 1 && 0 <= i < n
    ensures 0 <= SlotInterval(sb, i).0 && SlotInterval(sb, i).1 <= n * sb
  {
    MulLe(0, i, sb);
    MulLe(i + 1, n, sb);
    assert (i + 1) * sb == i * sb + sb;
  }

  /** Slots do not overlap: an earlier slot ends where a later one may begin
      at the earliest. */
  lemma SlotsDisjoint(sb: int, i: int, j: int)
    requires sb >= 1 && 0 <= i < j
    ensures SlotInterval(sb, i).1 <= SlotInterval(sb, j).0
  {
    MulLe(i + 1, j, sb);
    assert (i + 1) * sb == i * sb + sb;
  }

  /** `a[lo:hi]` bounds on a sequence of length `len`, as Python normalises
      them: negative bounds count from the end, and both are clamped. */
  function SliceBounds(len: nat, lo: int, hi: int): (b: (nat, nat))
    ensures b.0 <= b.1 <= len
    ensures 0 <= lo <= hi <= len ==> b == (lo, hi)
  {
    var a := if lo < 0 then (if lo + len < 0 then 0 else lo + len) else (if lo > len then len else lo);
    var z := if hi < 0 then (if hi + len < 0 then 0 else hi + len) else (if hi > len then len else hi);
    (a, if z < a then a else z)
  }

  /** The header flag a numpy index names: negative indices count from the
      end; anything else out of range raises IndexError. */
  function HeaderSlot(n: int, i: int): (h: Option<nat>)
    ensures h.Some? ==> h.value < n
    ensures 0 <= i < n ==> h == Some(i)
    ensures h.None? <==> !(-n <= i < n)
  {
    if 0 <= i < n then Some(i)
    else if -n <= i < 0 then Some(n + i)
    else None
  }

  /** Below the modulus, `%` leaves a number alone. */
  lemma SmallMod(a: int, n: int)
    requires 0 <= a < n
    ensures a % n == a
  {
  }

  /** Moving on by one slot wraps to the first slot after the last. */
  lemma WrapAround(i: int, n: int)
    requires 0 <= i < n
    ensures (i + 1) % n == if i + 1 == n then 0 else i + 1
  {
    if i + 1 < n {
      SmallMod(i + 1, n);
    }
  }

  /** `_get_slot_index(data_index)`: an explicit index is used as given; the
      automatic one is the cursor, which then moves on by one slot, wrapping
      at the end of the buffer. */
  function NextSlot(r: Ring, dataIndex: Option<int>): (res: (int, Ring))
    requires Valid(r) && Initialised(r)
    ensures Valid(res.1) && Initialised(res.1)
    ensures dataIndex.Some? ==> res.0 == dataIndex.value && res.1 == r
    ensures dataIndex.None? ==> res.0 == r.cursor.value && 0 <= res.0 < r.nSlots
    ensures dataIndex.None? ==> res.1 == r.(cursor := Some((r.cursor.value + 1) % r.nSlots))
    ensures dataIndex.None? ==> res.1.cursor == Some(if r.cursor.value + 1 == r.nSlots then 0 else r.cursor.value + 1)
  {
    match dataIndex
    case Some(i) => (i, r)
    case None =>
      var i := r.cursor.value;
      WrapAround(i, r.nSlots);
      (i, r.(cursor := Some((i + 1) % r.nSlots)))
  }

  // ---------------------------------------------------------------------
  // Initialisation
  // ---------------------------------------------------------------------

  /** Every slot empty, the cursor at the first slot. */
  ghost predicate Fresh(r: Ring) {
    && Valid(r) && Initialised(r)
    && r.cursor == Some(0)
    && forall i :: 0 <= i < r.nSlots ==> !r.full.value[i]
  }

  /** `initialize_for_writing`: both files are created zero-filled. Sizes
      below one slot of one byte are left to numpy and not modelled. */
  function InitializeForWriting(r: Ring): (res: Result<Ring>)
    requires Valid(r)
    ensures res.Ok? <==> r.nSlots >= 1 && r.slotBytes >= 1
    ensures res.Ok? ==> Fresh(res.value) && res.value.role == Some(Writing)
    ensures res.Ok? ==> res.value.nSlots == r.nSlots && res.value.slotBytes == r.slotBytes
    ensures res.Ok? ==> forall b :: 0 <= b < |res.value.data.value| ==> res.value.data.value[b] == 0
  {
    if r.nSlots < 1 || r.slotBytes < 1 then Err(Unmodelled)
    else
      Ok(r.(data := Some(seq(r.nSlots * r.slotBytes, _ => 0)), full := Some(seq(r.nSlots, _ => false)),
            role := Some(Writing), cursor := Some(0)))
  }

  /** `initialize_for_reading(file)`: the data file is mapped read-only and
      must be long enough; the header file is created anew, so every slot
      reads as empty. */
  function InitializeForReading(r: Ring, file: seq<byte>): (res: Result<Ring>)
    requires Valid(r)
    ensures res.Ok? <==> r.nSlots >= 1 && r.slotBytes >= 1 && |file| >= r.nSlots * r.slotBytes
    ensures res.Ok? ==> Fresh(res.value) && res.value.role == Some(Reading)
    ensures res.Ok? ==> res.value.nSlots == r.nSlots && res.value.slotBytes == r.slotBytes
    ensures res.Ok? ==> res.value.data.value == file[..r.nSlots * r.slotBytes]
  {
    if r.nSlots < 1 || r.slotBytes < 1 then Err(Unmodelled)
    else if |file| < r.nSlots * r.slotBytes then Err(ValueError("mmap length is greater than file size"))
    else
      Ok(r.(data := Some(file[..r.nSlots * r.slotBytes]), full := Some(seq(r.nSlots, _ => false)),
            role := Some(Reading), cursor := Some(0)))
  }

  // ---------------------------------------------------------------------
  // write / read / release
  // ---------------------------------------------------------------------

  /** The buffer after a call and whether the call raised: the cursor can
      move even when the call then raises. */
  datatype Step<T> = Step(ring: Ring, outcome: Result<T>)

  const NotInitialisedMessage: string :=
    "RingBuffer not initialized. Call 'initialize_for_writing' or 'initialize_for_reading'."
  const OnlyBytes: string :=
    "Only bytes can be written to the ring buffer. Variable data should be of type bytes."
  const ReadOnly: string := "assignment destination is read-only"

  function TooLong(n: int, slotBytes: int): string {
    "Trying to store " + Text.IntToString(n) + " bytes in a " + Text.IntToString(slotBytes) + " slot."
  }

  function AlreadyFull(i: int): string {
    "Buffer slot at index '" + Text.IntToString(i) + "' already full."
  }

  function AlreadyReleased(i: int): string {
    "Buffer slot at index '" + Text.IntToString(i) + "' already released."
  }

  function CannotBroadcast(n: int, len: int): string {
    "could not broadcast input array from shape (" + Text.IntToString(n) + ",) into shape ("
    + Text.IntToString(len) + ",)"
  }

  /** `buffer[lo:hi] = numpy.frombuffer(bs)`: the bytes must match the slice
      length, except that a single byte is broadcast over the whole slice. */
  function Assign(buffer: seq<byte>, lo: nat, hi: nat, bs: seq<byte>): (r: Result<seq<byte>>)
    requires lo <= hi <= |buffer|
    ensures r.Ok? <==> |bs| == hi - lo || |bs| == 1
    ensures r.Err? ==> r.error == ValueError(CannotBroadcast(|bs|, hi - lo))
    ensures r.Ok? ==> |r.value| == |buffer| && r.value[..lo] == buffer[..lo] && r.value[hi..] == buffer[hi..]
    ensures r.Ok? && |bs| == hi - lo ==> r.value[lo..hi] == bs
    ensures r.Ok? && |bs| == 1 ==> forall k :: lo <= k < hi ==> r.value[k] == bs[0]
  {
    if |bs| == hi - lo then
      var b := buffer[..lo] + bs + buffer[hi..];
      assert b[lo..hi] == bs;
      Ok(b)
    else if |bs| == 1 then
      var b := buffer[..lo] + seq(hi - lo, _ => bs[0]) + buffer[hi..];
      assert forall k :: lo <= k < hi ==> b[k] == bs[0];
      Ok(b)
    else Err(ValueError(CannotBroadcast(|bs|, hi - lo)))
  }

  /** How much of the slot a write assigns: the whole slot, as written, or
      only as many bytes as the data holds. */
  datatype Span = WholeSlot | DataLength

  /** The part of `write` after the index `i` is taken: the flag is
      checked, the bytes are assigned, and only then is the slot marked full.
      A call that raises leaves the buffer as it found it. */
  function Store(r: Ring, i: int, bs: seq<byte>, span: Span): (s: Step<()>)
    requires Valid(r) && Initialised(r) && |bs| <= r.slotBytes
    ensures Valid(s.ring) && Initialised(s.ring)
    ensures s.ring.cursor == r.cursor && s.ring.role == r.role
    ensures s.ring.nSlots == r.nSlots && s.ring.slotBytes == r.slotBytes
    ensures s.outcome.Err? ==> s.ring == r
    ensures HeaderSlot(r.nSlots, i).None? ==> s.outcome == Err(IndexError)
    ensures var h := HeaderSlot(r.nSlots, i);
            h.Some? && r.full.value[h.value] ==> s.outcome == Err(ValueError(AlreadyFull(i)))
    ensures s.outcome.Ok? ==>
              var h := HeaderSlot(r.nSlots, i);
              && h.Some? && !r.full.value[h.value] && r.role == Some(Writing)
              && s.ring.full == Some(r.full.value[h.value := true])
  {
    match HeaderSlot(r.nSlots, i)
    case None => Step(r, Err(IndexError))
    case Some(h) =>
      if r.full.value[h] then Step(r, Err(ValueError(AlreadyFull(i))))
      else if r.role == Some(Reading) then Step(r, Err(ValueError(ReadOnly)))
      else
        var buffer := r.data.value;
        var iv := SlotInterval(r.slotBytes, i);
        var end := if span == WholeSlot then iv.1 else iv.0 + |bs|;
        var b := SliceBounds(|buffer|, iv.0, end);
        match Assign(buffer, b.0, b.1, bs)
        case Err(e) => Step(r, Err(e))
        case Ok(written) =>
          assert r.role.Some? && r.role.value != Reading;
          assert r.role == Some(Writing);
          Step(r.(data := Some(written), full := Some(r.full.value[h := true])), Ok(()))
  }

  /** `write(data, data_index)` with the given assignment span. The checks
      run in this order: initialised, bytes, length; then the index is taken,
      moving an automatic cursor even if the store that follows raises. */
  function WriteSpan(r: Ring, data: Value, dataIndex: Option<int>, span: Span): (s: Step<()>)
    requires Valid(r)
    ensures Valid(s.ring)
    ensures s.ring.nSlots == r.nSlots && s.ring.slotBytes == r.slotBytes && s.ring.role == r.role
    ensures !Initialised(r) ==> s == Step(r, Err(Exception(NotInitialisedMessage)))
    ensures Initialised(r) && !data.Bytes? ==> s == Step(r, Err(ValueError(OnlyBytes)))
    ensures Initialised(r) && data.Bytes? && |data.bs| > r.slotBytes ==>
              s == Step(r, Err(ValueError(TooLong(|data.bs|, r.slotBytes))))
    ensures Initialised(r) && data.Bytes? && |data.bs| <= r.slotBytes ==>
              var next := NextSlot(r, dataIndex);
              s == Store(next.1, next.0, data.bs, span)
  {
    if !Initialised(r) then Step(r, Err(Exception(NotInitialisedMessage)))
    else if !data.Bytes? then Step(r, Err(ValueError(OnlyBytes)))
    else if |data.bs| > r.slotBytes then Step(r, Err(ValueError(TooLong(|data.bs|, r.slotBytes))))
    else
      var next := NextSlot(r, dataIndex);
      Store(next.1, next.0, data.bs, span)
  }

  /** `write` as the source has it: the data is assigned to the whole slot. */
  function Write(r: Ring, data: Value, dataIndex: Option<int>): (s: Step<()>)
    requires Valid(r)
    ensures Valid(s.ring)
    ensures !Initialised(r) ==> s.outcome == Err(Exception(NotInitialisedMessage))
    ensures s.outcome.Ok? ==> data.Bytes? && |data.bs| <= r.slotBytes
  {
    WriteSpan(r, data, dataIndex, WholeSlot)
  }

  /** `write` with the data assigned to the start of the slot, as the length
      check before it intends. */
  function WriteCorrected(r: Ring, data: Value, dataIndex: Option<int>): (s: Step<()>)
    requires Valid(r)
    ensures Valid(s.ring)
    ensures !Initialised(r) ==> s.outcome == Err(Exception(NotInitialisedMessage))
    ensures s.outcome.Ok? ==> data.Bytes? && |data.bs| <= r.slotBytes
  {
    WriteSpan(r, data, dataIndex, DataLength)
  }

  /** What `read` finds: the slot's bytes, or an empty slot it would wait on. */
  datatype Reading = Ready(index: int, view: seq<byte>) | Waiting(index: int)

  /** `read(data_index)`: the index is taken like `write` takes it; an empty
      slot makes the call poll until a writer fills it (the wait and its
      timeout are not modelled); a full slot gives its bytes. */
  function Read(r: Ring, dataIndex: Option<int>): (s: Step<Reading>)
    requires Valid(r)
    ensures Valid(s.ring)
    ensures !Initialised(r) ==> s == Step(r, Err(Exception(NotInitialisedMessage)))
    ensures Initialised(r) ==> s.ring == NextSlot(r, dataIndex).1
    ensures Initialised(r) && dataIndex.None? ==> s.outcome.Ok? && s.outcome.value.index == r.cursor.value
    ensures s.outcome.Ok? && s.outcome.value.Ready? ==>
              var i := s.outcome.value.index;
              0 <= i < r.nSlots ==> r.full.value[i] && s.outcome.value.view == SlotContents(r, i)
  {
    if !Initialised(r) then Step(r, Err(Exception(NotInitialisedMessage)))
    else
      var next := NextSlot(r, dataIndex);
      var i := next.0;
      var r1 := next.1;
      match HeaderSlot(r.nSlots, i)
      case None => Step(r1, Err(IndexError))
      case Some(h) =>
        if !r1.full.value[h] then Step(r1, Ok(Waiting(i)))
        else
          var buffer := r1.data.value;
          var iv := SlotInterval(r.slotBytes, i);
          var b := SliceBounds(|buffer|, iv.0, iv.1);
          if 0 <= i < r.nSlots then
            SlotWithin(r.nSlots, r.slotBytes, i);
            Step(r1, Ok(Ready(i, buffer[b.0..b.1])))
          else Step(r1, Ok(Ready(i, buffer[b.0..b.1])))
  }

  /** The bytes of slot `i`. */
  function SlotContents(r: Ring, i: int): (v: seq<byte>)
    requires Valid(r) && Initialised(r) && 0 <= i < r.nSlots
    ensures |v| == r.slotBytes
  {
    SlotWithin(r.nSlots, r.slotBytes, i);
    var iv := SlotInterval(r.slotBytes, i);
    r.data.value[iv.0..iv.1]
  }

  /** `release(data_index)`: only a full slot can be released; the header map
      must exist (indexing `None` raises TypeError). */
  function Release(r: Ring, dataIndex: int): (res: Result<Ring>)
    requires Valid(r)
    ensures r.full.None? ==> res == Err(TypeError)
    ensures r.full.Some? && !(-r.nSlots <= dataIndex < r.nSlots) ==> res == Err(IndexError)
    ensures r.full.Some? && 0 <= dataIndex < r.nSlots && !r.full.value[dataIndex] ==>
              res == Err(ValueError(AlreadyReleased(dataIndex)))
    ensures r.full.Some? && 0 <= dataIndex < r.nSlots && r.full.value[dataIndex] ==>
              res == Ok(r.(full := Some(r.full.value[dataIndex := false])))
    ensures res.Ok? ==> Valid(res.value) && res.value.cursor == r.cursor && res.value.data == r.data
  {
    if r.full.None? then Err(TypeError)
    else match HeaderSlot(r.nSlots, dataIndex)
      case None => Err(IndexError)
      case Some(h) =>
        if !r.full.value[h] then Err(ValueError(AlreadyReleased(dataIndex)))
        else Ok(r.(full := Some(r.full.value[h := false])))
  }

  // ---------------------------------------------------------------------
  // Properties
  // ---------------------------------------------------------------------

  /** A write of exactly one slot's bytes into an empty slot reads back as
      written, and the flag is set. */
  lemma ExactWriteReadsBack(r: Ring, bs: seq<byte>, i: int)
    requires Valid(r) && Initialised(r) && r.role == Some(Writing)
    requires 0 <= i < r.nSlots && !r.full.value[i] && |bs| == r.slotBytes
    ensures var w := Write(r, Bytes(bs), Some(i));
            && w.outcome.Ok?
            && w.ring.full.value[i]
            && Read(w.ring, Some(i)) == Step(w.ring, Ok(Ready(i, bs)))
  {
    SlotWithin(r.nSlots, r.slotBytes, i);
  }

  /** As written, a shorter write (other than a single byte, which numpy
      broadcasts) raises once the cursor has already moved. */
  lemma ShortWriteRaises(r: Ring, bs: seq<byte>)
    requires Valid(r) && Initialised(r) && r.role == Some(Writing)
    requires !r.full.value[r.cursor.value]
    requires |bs| < r.slotBytes && |bs| != 1
    ensures var w := Write(r, Bytes(bs), None);
            && w.outcome == Err(ValueError(CannotBroadcast(|bs|, r.slotBytes)))
            && w.ring.cursor == Some((r.cursor.value + 1) % r.nSlots)
  {
    SlotWithin(r.nSlots, r.slotBytes, r.cursor.value);
  }

  /** With the span fixed, any data up to a slot's length lands at the start
      of the slot and the rest of the slot is kept. */
  lemma CorrectedWriteReadsBack(r: Ring, bs: seq<byte>, i: int)
    requires Valid(r) && Initialised(r) && r.role == Some(Writing)
    requires 0 <= i < r.nSlots && !r.full.value[i] && |bs| <= r.slotBytes
    ensures var w := WriteCorrected(r, Bytes(bs), Some(i));
            && w.outcome.Ok?
            && w.ring.full.value[i]
            && var v := SlotContents(w.ring, i);
               && v[..|bs|] == bs
               && v[|bs|..] == SlotContents(r, i)[|bs|..]
               && Read(w.ring, Some(i)) == Step(w.ring, Ok(Ready(i, v)))
  {
    SlotWithin(r.nSlots, r.slotBytes, i);
    var w := WriteCorrected(r, Bytes(bs), Some(i));
    var iv := SlotInterval(r.slotBytes, i);
    var before := r.data.value;
    var after := w.ring.data.value;
    var mid := iv.0 + |bs|;
    assert after[iv.0..mid] == bs;
    assert after[mid..] == before[mid..];
    assert after[iv.0..iv.1][..|bs|] == after[iv.0..mid];
    assert after[iv.0..iv.1][|bs|..] == after[mid..][..iv.1 - mid];
    assert before[iv.0..iv.1][|bs|..] == before[mid..][..iv.1 - mid];
  }

  /** A released slot can be written again; releasing it twice raises. */
  lemma ReleaseCycle(r: Ring, bs: seq<byte>, i: int)
    requires Valid(r) && Initialised(r) && r.role == Some(Writing)
    requires 0 <= i < r.nSlots && !r.full.value[i] && |bs| == r.slotBytes
    ensures var w := Write(r, Bytes(bs), Some(i));
            && w.outcome.Ok?
            && var freed := Release(w.ring, i);
               && freed.Ok?
               && !freed.value.full.value[i]
               && Release(freed.value, i) == Err(ValueError(AlreadyReleased(i)))
               && Write(freed.value, Bytes(bs), Some(i)).outcome.Ok?
  {
    SlotWithin(r.nSlots, r.slotBytes, i);
  }

  /** A writer writing each item in turn with the automatic index, stopping
      at the first call that raises. */
  function WriteAll(r: Ring, items: seq<seq<byte>>): (s: Step<()>)
    requires Valid(r)
    ensures Valid(s.ring)
    ensures s.ring.nSlots == r.nSlots && s.ring.slotBytes == r.slotBytes && s.ring.role == r.role
    decreases |items|
  {
    if |items| == 0 then Step(r, Ok(()))
    else
      var prev := WriteAll(r, items[..|items| - 1]);
      if prev.outcome.Err? then prev else Write(prev.ring, Bytes(items[|items| - 1]), None)
  }

  /** A slot-sized store into an empty slot of a writer replaces exactly
      that slot's bytes and sets its flag. */
  lemma StoreWholeSlot(r: Ring, i: int, bs: seq<byte>)
    requires Valid(r) && Initialised(r) && r.role == Some(Writing)
    requires 0 <= i < r.nSlots && !r.full.value[i] && |bs| == r.slotBytes
    ensures var iv := SlotInterval(r.slotBytes, i);
            var s := Store(r, i, bs, WholeSlot);
            && 0 <= iv.0 <= iv.1 <= |r.data.value|
            && s.outcome.Ok?
            && s.ring == r.(data := Some(r.data.value[..iv.0] + bs + r.data.value[iv.1..]),
                            full := Some(r.full.value[i := true]))
  {
    SlotWithin(r.nSlots, r.slotBytes, i);
  }

  /** Splicing `bs` over `[lo, hi)` puts it there and keeps any range that
      ends at or before `lo`. */
  lemma Splice(d: seq<byte>, lo: int, hi: int, bs: seq<byte>, a: int, b: int)
    requires 0 <= a <= b <= lo <= hi <= |d| && |bs| == hi - lo
    ensures (d[..lo] + bs + d[hi..])[lo..hi] == bs
    ensures (d[..lo] + bs + d[hi..])[a..b] == d[a..b]
  {
    var e := d[..lo] + bs + d[hi..];
    assert e[..lo] == d[..lo];
    assert e[a..b] == e[..lo][a..b];
  }

  /** One automatic slot-sized write into the empty slot under the cursor
      fills that slot and leaves every earlier slot as it was. */
  lemma AppendSlot(s: Ring, item: seq<byte>)
    requires Valid(s) && Initialised(s) && s.role == Some(Writing)
    requires !s.full.value[s.cursor.value] && |item| == s.slotBytes
    ensures var k := s.cursor.value;
            var w := Write(s, Bytes(item), None);
            && w.outcome.Ok? && Initialised(w.ring)
            && w.ring.cursor == Some(if k + 1 == s.nSlots then 0 else k + 1)
            && w.ring.full == Some(s.full.value[k := true])
            && SlotContents(w.ring, k) == item
            && forall j :: 0 <= j < k ==> SlotContents(w.ring, j) == SlotContents(s, j)
  {
    var k := s.cursor.value;
    var next := NextSlot(s, None);
    StoreWholeSlot(next.1, k, item);
    var w := Write(s, Bytes(item), None);
    assert w == Store(next.1, k, item, WholeSlot);
    var iv := SlotInterval(s.slotBytes, k);
    var d := s.data.value;
    assert w.ring.data.value == d[..iv.0] + item + d[iv.1..];
    Splice(d, iv.0, iv.1, item, iv.0, iv.0);
    forall j | 0 <= j < k ensures SlotContents(w.ring, j) == SlotContents(s, j) {
      SlotsDisjoint(s.slotBytes, j, k);
      SlotWithin(s.nSlots, s.slotBytes, j);
      var jv := SlotInterval(s.slotBytes, j);
      Splice(d, iv.0, iv.1, item, jv.0, jv.1);
    }
  }

  /** A writer that has written `items` in order from slot 0: item `j` is in
      slot `j`, exactly those slots are full, and the cursor is after them. */
  ghost predicate FilledWith(s: Ring, items: seq<seq<byte>>) {
    && Valid(s) && Initialised(s) && s.role == Some(Writing)
    && |items| <= s.nSlots
    && s.cursor == Some(|items| % s.nSlots)
    && (forall j :: 0 <= j < s.nSlots ==> s.full.value[j] == (j < |items|))
    && (forall j :: 0 <= j < |items| ==> SlotContents(s, j) == items[j])
  }

  /** One more slot-sized item, written with the automatic index, extends
      the filled prefix by one slot. */
  lemma FillStep(s: Ring, items: seq<seq<byte>>, item: seq<byte>)
    requires FilledWith(s, items) && |items| < s.nSlots && |item| == s.slotBytes
    ensures var w := Write(s, Bytes(item), None);
            w.outcome.Ok? && FilledWith(w.ring, items + [item])
  {
    var k := |items|;
    SmallMod(k, s.nSlots);
    AppendSlot(s, item);
    var w := Write(s, Bytes(item), None);
    if k + 1 < s.nSlots {
      SmallMod(k + 1, s.nSlots);
    }
    var more := items + [item];
    forall j | 0 <= j < |more| ensures SlotContents(w.ring, j) == more[j] {
      if j < k {
        assert more[j] == items[j];
      }
    }
  }

  /** The induction behind `FillsInOrder`. */
  lemma {:induction false} FillsPrefix(r: Ring, items: seq<seq<byte>>)
    requires Fresh(r) && r.role == Some(Writing)
    requires |items| <= r.nSlots
    requires forall j :: 0 <= j < |items| ==> |items[j]| == r.slotBytes
    ensures var s := WriteAll(r, items);
            s.outcome.Ok? && FilledWith(s.ring, items)
    decreases |items|
  {
    if |items| == 0 {
      SmallMod(0, r.nSlots);
    } else {
      var k := |items| - 1;
      var front := items[..k];
      FillsPrefix(r, front);
      var prev := WriteAll(r, front);
      FillStep(prev.ring, front, items[k]);
      assert front + [items[k]] == items;
    }
  }

  /** Writing up to `n_slots` slot-sized items into a fresh writer puts item
      `j` into slot `j`, marks exactly those slots full, and leaves the cursor
      after the last one, wrapped to 0 once every slot is used. */
  lemma FillsInOrder(r: Ring, items: seq<seq<byte>>)
    requires Fresh(r) && r.role == Some(Writing)
    requires |items| <= r.nSlots
    requires forall j :: 0 <= j < |items| ==> |items[j]| == r.slotBytes
    ensures var s := WriteAll(r, items);
            && s.outcome.Ok? && Initialised(s.ring)
            && s.ring.cursor == Some(|items| % r.nSlots)
            && (forall j :: 0 <= j < r.nSlots ==> s.ring.full.value[j] == (j < |items|))
            && (forall j :: 0 <= j < |items| ==> SlotContents(s.ring, j) == items[j])
  {
    FillsPrefix(r, items);
  }

  /** Once every slot is full, the next automatic write raises for slot 0,
      and the cursor has moved on to slot 1 regardless. */
  lemma OverfullWriteRaises(r: Ring, items: seq<seq<byte>>, extra: seq<byte>)
    requires Fresh(r) && r.role == Some(Writing)
    requires |items| == r.nSlots
    requires forall j :: 0 <= j < |items| ==> |items[j]| == r.slotBytes
    requires |extra| <= r.slotBytes
    ensures var s := WriteAll(r, items);
            var w := Write(s.ring, Bytes(extra), None);
            && w.outcome == Err(ValueError(AlreadyFull(0)))
            && w.ring.cursor == Some(1 % r.nSlots)
  {
    FillsInOrder(r, items);
  }
}

=== FILE: stream_node.dfy ===
/** The older node library's process side: the bounded statistics buffer a
    listener fills, and the wrapper that runs the listener in a separate
    process. The process itself is abstracted to whether it is alive; its
    receive loop is not part of this model. */
module StreamNode {
  import opened Wrappers
  import opened Values
  import RestServer
  import ManagedProcess
  import NodeManager
  import Processors

  // ---------------------------------------------------------------------
  // BasicStatistics
  // ---------------------------------------------------------------------

  /** The constructor's default `buffer_length`. */
  const DefaultBufferLength: int := 1000

  /** One saved entry: the message's data length, the processing time in
      seconds and the frame index. */
  datatype Record = Record(messageLength: Value, processingTime: real, frame: Value)

  /** The buffer length and the shared list, newest record first. */
  datatype Statistics = Statistics(bufferLength: int, records: seq<Record>)

  /** The constructor resets the shared list. */
  function NewStatistics(bufferLength: int): (s: Statistics)
    ensures s.records == [] && s.bufferLength == bufferLength
  {
    Statistics(bufferLength, [])
  }

  /** Python's `xs[:k]`: a negative `k` counts from the end, and the bound is
      clamped to the list. */
  function Head<T>(xs: seq<T>, k: int): (r: seq<T>)
    ensures 0 <= k ==> |r| == (if k < |xs| then k else |xs|)
    ensures k < 0 ==> |r| == (if |xs| + k < 0 then 0 else |xs| + k)
    ensures |r| <= |xs| && r == xs[..|r|]
  {
    if k >= |xs| then xs
    else if k >= 0 then xs[..k]
    else if |xs| + k >= 0 then xs[..|xs| + k]
    else []
  }

  /** `save_statistics`: the new record goes in front of the first
      `buffer_length - 1` older ones. */
  function Save(s: Statistics, rec: Record): (r: Statistics)
    ensures r.bufferLength == s.bufferLength
    ensures |r.records| >= 1 && r.records[0] == rec
    ensures s.bufferLength >= 1 ==> |r.records| <= s.bufferLength
    ensures s.bufferLength >= 1 ==> |r.records| == (if |s.records| < s.bufferLength then |s.records| + 1 else s.bufferLength)
    ensures |r.records| <= |s.records| + 1 && r.records[1..] == s.records[..|r.records| - 1]
  {
    Statistics(s.bufferLength, [rec] + Head(s.records, s.bufferLength - 1))
  }

  /** `get_statistics_raw`: at most `buffer_length` records, newest first. */
  function Raw(s: Statistics): (r: seq<Record>)
    ensures s.bufferLength >= 0 ==> |r| <= s.bufferLength
    ensures |r| <= |s.records| && r == s.records[..|r|]
  {
    Head(s.records, s.bufferLength)
  }

  /** Saving each record in turn. */
  function SaveAll(s: Statistics, rs: seq<Record>): (r: Statistics)
    ensures r.bufferLength == s.bufferLength
    decreases |rs|
  {
    if |rs| == 0 then s else Save(SaveAll(s, rs[..|rs| - 1]), rs[|rs| - 1])
  }

  /** One save of the last record on top of the newest-first view of the
      others gives the newest-first view of all of them. */
  lemma PrependNewest(bufferLength: int, rs: seq<Record>)
    requires bufferLength >= 1 && |rs| > 0
    ensures var n := |rs| - 1;
            [rs[n]] + Head(Head(ReverseSeq(rs[..n]), bufferLength), bufferLength - 1)
            == Head(ReverseSeq(rs), bufferLength)
  {
    var n := |rs| - 1;
    var front := rs[..n];
    var before := Head(ReverseSeq(front), bufferLength);
    var kept := Head(before, bufferLength - 1);
    var after := [rs[n]] + kept;
    var rev := ReverseSeq(rs);
    var want := Head(rev, bufferLength);
    assert |after| == |want|;
    forall i | 0 <= i < |after| ensures after[i] == want[i] {
      assert want[i] == rev[i] == rs[n - i];
      if i > 0 {
        assert after[i] == kept[i - 1] == before[i - 1];
        assert before[i - 1] == ReverseSeq(front)[i - 1] == front[n - i];
      }
    }
  }

  /** From a fresh buffer, the list holds the last `buffer_length` records
      saved, newest first: a full buffer drops its oldest record, and the
      records it keeps stay in order. */
  lemma KeepsNewest(bufferLength: int, rs: seq<Record>)
    requires bufferLength >= 1
    ensures SaveAll(NewStatistics(bufferLength), rs).records == Head(ReverseSeq(rs), bufferLength)
    ensures Raw(SaveAll(NewStatistics(bufferLength), rs)) == Head(ReverseSeq(rs), bufferLength)
  {
    NewestRecords(bufferLength, rs);
    RawOfShortList(SaveAll(NewStatistics(bufferLength), rs));
  }

  /** The list part of `KeepsNewest`, by induction on the records saved. */
  lemma {:induction false} NewestRecords(bufferLength: int, rs: seq<Record>)
    requires bufferLength >= 1
    ensures SaveAll(NewStatistics(bufferLength), rs).records == Head(ReverseSeq(rs), bufferLength)
    decreases |rs|
  {
    if |rs| > 0 {
      NewestRecords(bufferLength, rs[..|rs| - 1]);
      NewestStep(bufferLength, rs);
    }
  }

  /** One inductive step of `NewestRecords`: the last record saved. */
  lemma NewestStep(bufferLength: int, rs: seq<Record>)
    requires bufferLength >= 1 && |rs| > 0
    requires var n := |rs| - 1;
             SaveAll(NewStatistics(bufferLength), rs[..n]).records == Head(ReverseSeq(rs[..n]), bufferLength)
    ensures SaveAll(NewStatistics(bufferLength), rs).records == Head(ReverseSeq(rs), bufferLength)
  {
    SaveLast(bufferLength, rs);
    PrependNewest(bufferLength, rs);
  }

  /** Saving a sequence saves the last record on top of the others. */
  lemma SaveLast(bufferLength: int, rs: seq<Record>)
    requires |rs| > 0
    ensures var n := |rs| - 1;
            SaveAll(NewStatistics(bufferLength), rs).records
            == [rs[n]] + Head(SaveAll(NewStatistics(bufferLength), rs[..n]).records, bufferLength - 1)
  {
  }

  /** A list no longer than the buffer is seen whole. */
  lemma RawOfShortList(s: Statistics)
    requires 0 <= |s.records| <= s.bufferLength
    ensures Raw(s) == s.records
  {
  }

  /** Every entry is an `int`, `bool` or `float`. */
  predicate AllNumbers(vs: seq<Value>) {
    forall i :: 0 <= i < |vs| ==> IsNumber(vs[i])
  }

  /** The mathematical sum of numbers, first to last. */
  function Total(vs: seq<Value>): real
    requires AllNumbers(vs)
    decreases |vs|
  {
    if |vs| == 0 then 0.0 else AsReal(vs[0]) + Total(vs[1..])
  }

  /** Adding one more number at the end adds its value. */
  lemma {:induction false} TotalAppend(vs: seq<Value>, x: Value)
    requires AllNumbers(vs) && IsNumber(x)
    ensures AllNumbers(vs + [x])
    ensures Total(vs + [x]) == Total(vs) + AsReal(x)
    decreases |vs|
  {
    if |vs| > 0 {
      assert (vs + [x])[1..] == vs[1..] + [x];
      TotalAppend(vs[1..], x);
    }
  }

  /** `sum(vs)`: starting from `0`, add each entry in turn; anything other
      than a number raises TypeError. */
  function Sum(vs: seq<Value>): (r: Result<Value>)
    ensures r.Ok? <==> AllNumbers(vs)
    ensures r.Err? ==> r.error == TypeError
    ensures r.Ok? ==> IsNumber(r.value) && AsReal(r.value) == Total(vs)
    decreases |vs|
  {
    if |vs| == 0 then Ok(Int(0))
    else
      var n := |vs| - 1;
      var prev :- Sum(vs[..n]);
      if IsNumber(vs[n]) then
        assert vs == vs[..n] + [vs[n]];
        TotalAppend(vs[..n], vs[n]);
        Ok(Add(prev, vs[n]))
      else Err(TypeError)
  }

  /** The processing times of some records, as Python floats. */
  function Times(rs: seq<Record>): (r: seq<Value>)
    ensures |r| == |rs| && AllNumbers(r)
  {
    seq(|rs|, i requires 0 <= i < |rs| => Float(rs[i].processingTime))
  }

  /** The message lengths of some records. */
  function Lengths(rs: seq<Record>): (r: seq<Value>)
    ensures |r| == |rs| && forall i :: 0 <= i < |rs| ==> r[i] == rs[i].messageLength
  {
    seq(|rs|, i requires 0 <= i < |rs| => rs[i].messageLength)
  }

  /** The two rates `get_statistics` reports. */
  function Rates(frameRate: real, bytesRate: real): Value {
    Dict(map["frame_per_second" := Float(frameRate), "bytes_per_second" := Float(bytesRate)])
  }

  /** `get_statistics`: `{}` without records; otherwise frames and bytes per
      second of processing time over the records kept. A length that is not
      a number raises TypeError and zero total time ZeroDivisionError. */
  function GetStatistics(s: Statistics): (r: Result<Value>)
    ensures Raw(s) == [] ==> r == Ok(Dict(map[]))
    ensures Raw(s) != [] && !AllNumbers(Lengths(Raw(s))) ==> r == Err(TypeError)
    ensures Raw(s) != [] && AllNumbers(Lengths(Raw(s))) && Total(Times(Raw(s))) == 0.0 ==> r == Err(ZeroDivisionError)
    ensures Raw(s) != [] && AllNumbers(Lengths(Raw(s))) && Total(Times(Raw(s))) != 0.0 ==> r.Ok?
    ensures r.Ok? && Raw(s) != [] ==>
              && AllNumbers(Lengths(Raw(s))) && Total(Times(Raw(s))) != 0.0
              && r.value == Rates(|Raw(s)| as real / Total(Times(Raw(s))),
                                  Total(Lengths(Raw(s))) / Total(Times(Raw(s))))
  {
    var raw := Raw(s);
    if |raw| == 0 then Ok(Dict(map[]))
    else
      var totalTime := Sum(Times(raw)).value;
      var totalBytes :- Sum(Lengths(raw));
      if AsReal(totalTime) == 0.0 then Err(ZeroDivisionError)
      else Ok(Rates(|raw| as real / AsReal(totalTime), AsReal(totalBytes) / AsReal(totalTime)))
  }

  /** `n` copies of the same number add up to `n` times it. */
  lemma {:induction false} ConstantTotal(vs: seq<Value>, x: Value)
    requires IsNumber(x) && forall i :: 0 <= i < |vs| ==> vs[i] == x
    ensures AllNumbers(vs) && Total(vs) == |vs| as real * AsReal(x)
    decreases |vs|
  {
    if |vs| > 0 {
      ConstantTotal(vs[1..], x);
    }
  }

  /** A common factor of numerator and denominator cancels: totals of `n`
      records of time `t` and length `b` give the rates of one record. */
  lemma Cancel(n: real, t: real, b: real, totalTime: real, totalBytes: real)
    requires n > 0.0 && t > 0.0
    requires totalTime == n * t && totalBytes == n * b
    ensures totalTime > 0.0
    ensures n / totalTime == 1.0 / t && totalBytes / totalTime == b / t
  {
    assert n * t > 0.0;
  }

  /** The statistics in terms of the two totals. */
  lemma RatesFromTotals(s: Statistics, totalTime: real, totalBytes: real)
    requires Raw(s) != [] && AllNumbers(Lengths(Raw(s)))
    requires Total(Times(Raw(s))) == totalTime && totalTime != 0.0
    requires Total(Lengths(Raw(s))) == totalBytes
    ensures GetStatistics(s) == Ok(Rates(|Raw(s)| as real / totalTime, totalBytes / totalTime))
  {
  }

  /** A steady stream: when every kept record has the same length `b` and
      took the same positive time `t`, the node reports `1/t` frames and
      `b/t` bytes per second, whatever the number of records. */
  lemma SteadyRates(s: Statistics, b: int, t: real)
    requires t > 0.0 && Raw(s) != []
    requires forall i :: 0 <= i < |Raw(s)| ==> Raw(s)[i].messageLength == Int(b) && Raw(s)[i].processingTime == t
    ensures GetStatistics(s) == Ok(Rates(1.0 / t, b as real / t))
  {
    var raw := Raw(s);
    var n := |raw| as real;
    SteadyTotals(raw, b, t);
    var totalTime := Total(Times(raw));
    var totalBytes := Total(Lengths(raw));
    Cancel(n, t, b as real, totalTime, totalBytes);
    RatesFromTotals(s, totalTime, totalBytes);
  }

  /** Over records of one length `b` and one time `t`, the totals are the
      record count times `t` and times `b`. */
  lemma SteadyTotals(raw: seq<Record>, b: int, t: real)
    requires forall i :: 0 <= i < |raw| ==> raw[i].messageLength == Int(b) && raw[i].processingTime == t
    ensures AllNumbers(Lengths(raw))
    ensures Total(Times(raw)) == |raw| as real * t
    ensures Total(Lengths(raw)) == |raw| as real * (b as real)
  {
    ConstantTotal(Times(raw), Float(t));
    ConstantTotal(Lengths(raw), Int(b));
  }

  /** A record whose length is unknown (`None`) makes `get_statistics` raise,
      as long as it is kept. */
  lemma NullLengthRaises(s: Statistics, i: int)
    requires 0 <= i < |Raw(s)| && Raw(s)[i].messageLength == Null
    ensures GetStatistics(s) == Err(TypeError)
  {
    assert !IsNumber(Lengths(Raw(s))[i]);
  }

  // ---------------------------------------------------------------------
  // ExternalProcessWrapper
  // ---------------------------------------------------------------------

  /** The wrapper's state: the optional processor instance, the process
      handle, the parameter record and queue, and the name fixed at
      construction. */
  datatype Wrapper = Wrapper(
    instance: Option<RestServer.ProcessObject>,
    process: Option<NodeManager.Runner>,
    parameters: ManagedProcess.Channel,
    processName: Value)

  /** The constructor: no process yet. */
  function NewWrapper(initial: Option<map<string, Value>>, instance: Option<RestServer.ProcessObject>): (w: Wrapper)
    ensures !IsRunning(w) && w.process.None?
    ensures w.parameters == ManagedProcess.NewChannel(initial)
    ensures w.processName == ManagedProcess.ProcessName(instance)
    ensures w.instance == instance
  {
    Wrapper(instance, None, ManagedProcess.NewChannel(initial), ManagedProcess.ProcessName(instance))
  }

  /** `is_running`: there is a process and it is alive. */
  predicate IsRunning(w: Wrapper) {
    w.process.Some? && w.process.value.alive
  }

  /** `start(order)`, where `order` is the iteration order of
      `current_parameters`: refused while running; otherwise a new process,
      with every current parameter queued again before it starts. */
  function Start(w: Wrapper, order: seq<ManagedProcess.Parameter>): (r: Result<Wrapper>)
    requires Enumerates(order, w.parameters.current)
    ensures r.Err? <==> IsRunning(w)
    ensures r.Err? ==> r.error == Exception(NodeManager.AlreadyRunning)
    ensures r.Ok? ==> IsRunning(r.value)
    ensures r.Ok? ==> r.value.parameters == ManagedProcess.Channel(w.parameters.current, w.parameters.queue + order)
    ensures r.Ok? ==> r.value.instance == w.instance && r.value.processName == w.processName
  {
    if IsRunning(w) then Err(Exception(NodeManager.AlreadyRunning))
    else
      ManagedProcess.ReplayCurrent(w.parameters, order);
      Ok(w.(process := Some(NodeManager.Runner(true)), parameters := ManagedProcess.PutAll(w.parameters, order)))
  }

  /** `stop`: refused only when there is no process handle at all; a dead
      process is stopped like a live one. The handle is dropped. */
  function Stop(w: Wrapper): (r: Result<Wrapper>)
    ensures r.Err? <==> w.process.None?
    ensures r.Err? ==> r.error == Exception(NodeManager.AlreadyStopped)
    ensures r.Ok? ==> r.value.process.None? && !IsRunning(r.value)
    ensures r.Ok? ==> r.value.parameters == w.parameters && r.value.instance == w.instance
                      && r.value.processName == w.processName
  {
    if w.process.None? then Err(Exception(NodeManager.AlreadyStopped))
    else Ok(w.(process := None))
  }

  /** The process exiting on its own. */
  function ProcessExits(w: Wrapper): (r: Wrapper)
    requires w.process.Some?
    ensures !IsRunning(r) && r.process.Some?
    ensures r.parameters == w.parameters
  {
    w.(process := Some(NodeManager.Runner(false)))
  }

  /** `set_parameter(parameter)`: recorded and queued, running or not. */
  function SetParameter(w: Wrapper, p: ManagedProcess.Parameter): (r: Wrapper)
    ensures r.parameters == ManagedProcess.Put(w.parameters, p)
    ensures IsRunning(r) == IsRunning(w) && r.process == w.process
  {
    w.(parameters := ManagedProcess.Put(w.parameters, p))
  }

  /** `get_process_help`: the instance's docstring, or the fallback text. */
  function GetProcessHelp(w: Wrapper): (r: Value)
    ensures Truthy(r)
    ensures r == ManagedProcess.ProcessHelp(w.instance)
  {
    ManagedProcess.ProcessHelp(w.instance)
  }

  /** `get_statistics` and `get_statistics_raw` compute the buffer's view but
      do not return it, so the caller receives `None`. */
  function WrapperStatistics(w: Wrapper): (r: Value)
    ensures r == Null && !Truthy(r)
  {
    Null
  }

  /** The guard state machine from any state without a process (a new
      wrapper is one): start, a refused second start, stop, a refused second
      stop, and a restart, keeping the recorded parameters. */
  lemma WrapperStartStopCycle(w: Wrapper, order: seq<ManagedProcess.Parameter>)
    requires w.process.None?
    requires Enumerates(order, w.parameters.current)
    ensures var s1 := Start(w, order);
            && s1.Ok?
            && Start(s1.value, order) == Err(Exception(NodeManager.AlreadyRunning))
            && var s2 := Stop(s1.value);
               && s2.Ok?
               && Stop(s2.value) == Err(Exception(NodeManager.AlreadyStopped))
               && s2.value.parameters.current == w.parameters.current
               && Start(s2.value, order).Ok?
  {
  }

  /** Unlike the node manager, the wrapper lets a process that died on its
      own be stopped, which drops its handle; it can also be restarted
      directly. */
  lemma DeadProcessCanBeStopped(w: Wrapper, order: seq<ManagedProcess.Parameter>)
    requires IsRunning(w)
    requires Enumerates(order, w.parameters.current)
    ensures Stop(ProcessExits(w)).Ok? && Stop(ProcessExits(w)).value.process.None?
    ensures Start(ProcessExits(w), order).Ok?
    ensures var m := NodeManager.Manager(w.instance, Some(NodeManager.Runner(false)), Some(NodeManager.Runner(true)),
                                         false, w.parameters, w.processName);
            NodeManager.Stop(m).Err?
  {
  }

  /** A parameter set before a start reaches the listener's processor: the
      listener drains the queue before it starts the processor. */
  lemma WrapperDeliversParameter(w: Wrapper, p: ManagedProcess.Parameter,
                                 order: seq<ManagedProcess.Parameter>, proc: Processors.Processor)
    requires ManagedProcess.Agrees(w.parameters)
    requires !IsRunning(w)
    requires Enumerates(order, SetParameter(w, p).parameters.current)
    ensures var s := Start(SetParameter(w, p), order);
            && s.Ok?
            && var d := ManagedProcess.Drain(proc, s.value.parameters.queue);
               p.0 in d.attrs && d.attrs[p.0] == p.1
  {
    var w1 := SetParameter(w, p);
    ManagedProcess.PutAgrees(w.parameters, p);
    ManagedProcess.StartDeliversCurrent(w1.parameters, order, proc);
    ManagedProcess.ReplayCurrent(w1.parameters, order);
  }
}

=== FILE: text.dfy ===
/** The Python `str` operations the node library relies on, over `seq<char>`:
    `index`/`rindex`, `startswith`/`endswith`, `replace`, `split`/`join`,
    `rstrip`/`strip`, `os.path.basename`/`dirname`, `str(int)` and `int(str)`. */
module Text {
  import opened Wrappers

  /** `pat` occurs in `s` starting at position `i`. */
  predicate OccursAt(s: string, pat: string, i: int) {
    0 <= i && i + |pat| <= |s| && s[i..i + |pat|] == pat
  }

  predicate StartsWith(s: string, prefix: string) {
    |prefix| <= |s| && s[..|prefix|] == prefix
  }

  predicate EndsWith(s: string, suffix: string) {
    |suffix| <= |s| && s[|s| - |suffix|..] == suffix
  }

  // ---------------------------------------------------------------------
  // str.index / str.rindex
  // ---------------------------------------------------------------------

  function IndexFrom(s: string, pat: string, k: nat): (r: Option<nat>)
    ensures r.Some? ==> k <= r.value && OccursAt(s, pat, r.value)
    ensures r.Some? ==> forall j :: k <= j < r.value ==> !OccursAt(s, pat, j)
    ensures r.None? ==> forall j :: k <= j ==> !OccursAt(s, pat, j)
    decreases |s| - k
  {
    if k + |pat| > |s| then None
    else if s[k..k + |pat|] == pat then Some(k)
    else IndexFrom(s, pat, k + 1)
  }

  /** First occurrence of `pat` in `s` (`str.index`, which raises when absent). */
  function IndexOf(s: string, pat: string): (r: Option<nat>)
    ensures r.Some? ==> OccursAt(s, pat, r.value)
    ensures r.Some? ==> forall j :: 0 <= j < r.value ==> !OccursAt(s, pat, j)
    ensures r.None? ==> forall j :: !OccursAt(s, pat, j)
  {
    IndexFrom(s, pat, 0)
  }

  function RIndexFrom(s: string, pat: string, k: int): (r: Option<nat>)
    requires k <= |s| - |pat|
    ensures r.Some? ==> r.value <= k && OccursAt(s, pat, r.value)
    ensures r.Some? ==> forall j :: r.value < j <= k ==> !OccursAt(s, pat, j)
    ensures r.None? ==> forall j :: j <= k ==> !OccursAt(s, pat, j)
    decreases k + 1
  {
    if k < 0 then None
    else if s[k..k + |pat|] == pat then Some(k)
    else RIndexFrom(s, pat, k - 1)
  }

  /** Last occurrence of `pat` in `s` (`str.rindex`, which raises when absent). */
  function RIndexOf(s: string, pat: string): (r: Option<nat>)
    ensures r.Some? ==> OccursAt(s, pat, r.value)
    ensures r.Some? ==> forall j :: r.value < j ==> !OccursAt(s, pat, j)
    ensures r.None? ==> forall j :: !OccursAt(s, pat, j)
  {
    RIndexFrom(s, pat, |s| - |pat|)
  }

  /** A character the text does not hold occurs nowhere in it. */
  lemma CharAbsent(s: string, c: char)
    requires forall k :: 0 <= k < |s| ==> s[k] != c
    ensures forall j :: !OccursAt(s, [c], j)
  {
    forall j ensures !OccursAt(s, [c], j) {
      if 0 <= j < |s| {
        assert s[j..j + 1][0] == s[j];
      }
    }
  }

  /** A suffix is always the last occurrence of itself. */
  lemma {:induction false} RIndexOfSuffix(x: string, suffix: string)
    ensures RIndexOf(x + suffix, suffix) == Some(|x|)
  {
    var s := x + suffix;
    assert s[|x|..|x| + |suffix|] == suffix;
    assert OccursAt(s, suffix, |x|);
  }

  // ---------------------------------------------------------------------
  // Python slicing s[a:b] with non-negative bounds
  // ---------------------------------------------------------------------

  /** `s[a:b]` for `0 <= a` and `0 <= b`: clamped to the string, empty when `b <= a`. */
  function Slice(s: string, a: nat, b: nat): (r: string)
    ensures a <= b <= |s| ==> r == s[a..b]
    ensures b <= a ==> r == []
  {
    var hi := if b <= |s| then b else |s|;
    var lo := if a <= hi then a else hi;
    s[lo..hi]
  }

  // ---------------------------------------------------------------------
  // str.replace
  // ---------------------------------------------------------------------

  /** `s.replace(pat, rep)`: one left-to-right pass over non-overlapping occurrences. */
  function ReplaceAll(s: string, pat: string, rep: string): string
    requires |pat| > 0
    decreases |s|
  {
    if |s| == 0 then []
    else if StartsWith(s, pat) then rep + ReplaceAll(s[|pat|..], pat, rep)
    else [s[0]] + ReplaceAll(s[1..], pat, rep)
  }

  /** An occurrence in the tail is an occurrence one place further on. */
  lemma OccursShift(s: string, pat: string, j: int)
    requires |s| > 0
    ensures OccursAt(s[1..], pat, j) ==> OccursAt(s, pat, j + 1)
  {
    if 0 <= j && j + |pat| <= |s| - 1 {
      assert s[1..][j..j + |pat|] == s[j + 1..j + 1 + |pat|];
    }
  }

  /** A string without occurrences of `pat` is left unchanged. */
  lemma {:induction false} ReplaceAbsent(s: string, pat: string, rep: string)
    requires |pat| > 0
    requires forall j :: !OccursAt(s, pat, j)
    ensures ReplaceAll(s, pat, rep) == s
    decreases |s|
  {
    if |s| > 0 {
      assert !OccursAt(s, pat, 0);
      assert !StartsWith(s, pat) by { if |pat| <= |s| { assert s[..|pat|] == s[0..|pat|]; } }
      forall j ensures !OccursAt(s[1..], pat, j) {
        OccursShift(s, pat, j);
      }
      ReplaceAbsent(s[1..], pat, rep);
      assert s == [s[0]] + s[1..];
    }
  }

  /** A leading occurrence is replaced and the scan resumes after it. */
  lemma ReplaceLeading(pat: string, t: string, rep: string)
    requires |pat| > 0
    ensures ReplaceAll(pat + t, pat, rep) == rep + ReplaceAll(t, pat, rep)
  {
    assert (pat + t)[..|pat|] == pat;
    assert (pat + t)[|pat|..] == t;
  }

  /** A leading character that cannot start `pat` is copied. */
  lemma ReplaceSkip(c: char, t: string, pat: string, rep: string)
    requires |pat| > 0 && c != pat[0]
    ensures ReplaceAll([c] + t, pat, rep) == [c] + ReplaceAll(t, pat, rep)
  {
    assert ([c] + t)[1..] == t;
  }

  // ---------------------------------------------------------------------
  // str.split(sep) / sep.join(parts) for a one-character separator
  // ---------------------------------------------------------------------

  function Split(s: string, sep: char): (r: seq<string>)
    ensures |r| >= 1
    ensures forall i :: 0 <= i < |r| ==> sep !in r[i]
    decreases |s|
  {
    if |s| == 0 then [""]
    else
      var rest := Split(s[1..], sep);
      if s[0] == sep then [""] + rest
      else [[s[0]] + rest[0]] + rest[1..]
  }

  function Join(parts: seq<string>, sep: char): string
    requires |parts| >= 1
  {
    if |parts| == 1 then parts[0]
    else parts[0] + [sep] + Join(parts[1..], sep)
  }

  /** Joining the pieces of a split gives the original string back. */
  lemma {:induction false} JoinSplit(s: string, sep: char)
    ensures Join(Split(s, sep), sep) == s
    decreases |s|
  {
    if |s| > 0 {
      var rest := Split(s[1..], sep);
      JoinSplit(s[1..], sep);
      if s[0] == sep {
        assert Split(s, sep)[1..] == rest;
      } else {
        var r := Split(s, sep);
        if |rest| == 1 {
          assert r == [[s[0]] + rest[0]];
        } else {
          assert r[1..] == rest[1..];
          assert Join(rest, sep) == rest[0] + [sep] + Join(rest[1..], sep);
        }
      }
      assert s == [s[0]] + s[1..];
    }
  }

  lemma {:induction false} SplitNoSep(a: string, sep: char)
    requires sep !in a
    ensures Split(a, sep) == [a]
    decreases |a|
  {
    if |a| > 0 {
      SplitNoSep(a[1..], sep);
      assert a == [a[0]] + a[1..];
    }
  }

  lemma {:induction false} SplitAfter(a: string, b: string, sep: char)
    requires sep !in a
    ensures Split(a + [sep] + b, sep) == [a] + Split(b, sep)
    decreases |a|
  {
    var s := a + [sep] + b;
    if |a| == 0 {
      assert s[1..] == b;
    } else {
      assert s[1..] == a[1..] + [sep] + b;
      SplitAfter(a[1..], b, sep);
      assert a == [a[0]] + a[1..];
    }
  }

  /** `s.count(c)` for one character. */
  function CountChar(s: string, c: char): nat
    decreases |s|
  {
    if |s| == 0 then 0 else (if s[0] == c then 1 else 0) + CountChar(s[1..], c)
  }

  /** A split yields one piece more than there are separators. */
  lemma {:induction false} SplitLength(s: string, sep: char)
    ensures |Split(s, sep)| == CountChar(s, sep) + 1
    decreases |s|
  {
    if |s| > 0 {
      SplitLength(s[1..], sep);
    }
  }

  /** Joining one more piece appends the separator and the piece. */
  lemma {:induction false} JoinAppend(parts: seq<string>, x: string, sep: char)
    requires |parts| >= 1
    ensures Join(parts + [x], sep) == Join(parts, sep) + [sep] + x
    decreases |parts|
  {
    if |parts| > 1 {
      assert (parts + [x])[1..] == parts[1..] + [x];
      JoinAppend(parts[1..], x, sep);
    }
  }

  /** Splitting a join of separator-free pieces gives the pieces back. */
  lemma {:induction false} SplitJoin(parts: seq<string>, sep: char)
    requires |parts| >= 1
    requires forall i :: 0 <= i < |parts| ==> sep !in parts[i]
    ensures Split(Join(parts, sep), sep) == parts
    decreases |parts|
  {
    if |parts| == 1 {
      SplitNoSep(parts[0], sep);
    } else {
      SplitJoin(parts[1..], sep);
      SplitAfter(parts[0], Join(parts[1..], sep), sep);
      assert parts == [parts[0]] + parts[1..];
    }
  }

  // ---------------------------------------------------------------------
  // rstrip / strip
  // ---------------------------------------------------------------------

  /** `s.rstrip(c)` for one character `c`. */
  function RStripChar(s: string, c: char): (r: string)
    ensures |r| <= |s| && r == s[..|r|]
    ensures forall i :: |r| <= i < |s| ==> s[i] == c
    ensures |r| == 0 || r[|r| - 1] != c
    decreases |s|
  {
    if |s| > 0 && s[|s| - 1] == c then RStripChar(s[..|s| - 1], c) else s
  }

  /** The characters Python's `str.isspace` accepts. */
  predicate IsSpace(c: char) {
    c == ' ' || ('\t' <= c <= '\r') || ('\U{1C}' <= c <= '\U{1F}')
    || c == '\U{85}' || c == '\U{A0}' || c == '\U{1680}'
    || ('\U{2000}' <= c <= '\U{200A}') || c == '\U{2028}' || c == '\U{2029}'
    || c == '\U{202F}' || c == '\U{205F}' || c == '\U{3000}'
  }

  function LStripSpaceFrom(s: string, i: nat): (k: nat)
    requires i <= |s|
    ensures i <= k <= |s|
    ensures forall j :: i <= j < k ==> IsSpace(s[j])
    ensures k == |s| || !IsSpace(s[k])
    decreases |s| - i
  {
    if i < |s| && IsSpace(s[i]) then LStripSpaceFrom(s, i + 1) else i
  }

  function RStripSpaceTo(s: string, j: nat): (k: nat)
    requires j <= |s|
    ensures k <= j
    ensures forall i :: k <= i < j ==> IsSpace(s[i])
    ensures k == 0 || !IsSpace(s[k - 1])
  {
    if j > 0 && IsSpace(s[j - 1]) then RStripSpaceTo(s, j - 1) else j
  }

  /** `s.strip()`: the longest infix with no leading or trailing whitespace. */
  function Strip(s: string): (r: string)
    ensures exists i, j :: 0 <= i <= j <= |s| && r == s[i..j]
              && (forall k :: 0 <= k < i ==> IsSpace(s[k]))
              && (forall k :: j <= k < |s| ==> IsSpace(s[k]))
    ensures |r| > 0 ==> !IsSpace(r[0]) && !IsSpace(r[|r| - 1])
    ensures |r| <= |s|
  {
    var j := RStripSpaceTo(s, |s|);
    var i := LStripSpaceFrom(s[..j], 0);
    assert forall k :: 0 <= k < i ==> IsSpace(s[k]) by {
      forall k | 0 <= k < i ensures IsSpace(s[k]) { assert s[..j][k] == s[k]; }
    }
    s[i..j]
  }

  lemma StripInfix(s: string)
    ensures forall c :: c in Strip(s) ==> c in s
  {
    var j := RStripSpaceTo(s, |s|);
    var i := LStripSpaceFrom(s[..j], 0);
    assert Strip(s) == s[i..j];
  }

  /** A string without whitespace is its own strip. */
  lemma StripNoSpace(s: string)
    requires forall k :: 0 <= k < |s| ==> !IsSpace(s[k])
    ensures Strip(s) == s
  {
    assert RStripSpaceTo(s, |s|) == |s|;
    assert s[..|s|] == s;
    assert LStripSpaceFrom(s, 0) == 0;
  }

  /** `s.replace(c, "")` for one character. */
  function RemoveChar(s: string, c: char): (r: string)
    ensures c !in r
    ensures forall x :: x in r ==> x in s
    ensures c !in s ==> r == s
  {
    if |s| == 0 then []
    else (if s[0] == c then [] else [s[0]]) + RemoveChar(s[1..], c)
  }

  /** `s.replace(c, d)` for two characters. */
  function ReplaceChar(s: string, c: char, d: char): (r: string)
    ensures |r| == |s|
    ensures forall i :: 0 <= i < |s| ==> r[i] == (if s[i] == c then d else s[i])
  {
    seq(|s|, i requires 0 <= i < |s| => if s[i] == c then d else s[i])
  }

  // ---------------------------------------------------------------------
  // os.path.basename / os.path.dirname (POSIX)
  // ---------------------------------------------------------------------

  function LastSlashEnd(p: string): (k: nat)
    ensures k <= |p|
    ensures k > 0 ==> p[k - 1] == '/'
    ensures forall i :: k <= i < |p| ==> p[i] != '/'
  {
    if |p| == 0 then 0
    else if p[|p| - 1] == '/' then |p|
    else LastSlashEnd(p[..|p| - 1])
  }

  /** `os.path.basename`: everything after the last slash. */
  function Basename(p: string): (r: string)
    ensures '/' !in r
    ensures EndsWith(p, r)
  {
    var k := LastSlashEnd(p);
    p[k..]
  }

  /** A name without slashes after a final slash is the whole tail. */
  lemma {:induction false} LastSlashEndAfter(dir: string, name: string)
    requires '/' !in name
    ensures LastSlashEnd(dir + "/" + name) == |dir| + 1
    decreases |name|
  {
    var p := dir + "/" + name;
    if |name| > 0 {
      assert p[..|p| - 1] == dir + "/" + name[..|name| - 1];
      LastSlashEndAfter(dir, name[..|name| - 1]);
    } else {
      assert p[|p| - 1] == '/';
    }
  }

  lemma BasenameAfter(dir: string, name: string)
    requires '/' !in name
    ensures Basename(dir + "/" + name) == name
  {
    LastSlashEndAfter(dir, name);
    assert (dir + "/" + name)[|dir| + 1..] == name;
  }

  /** Text without slashes appended to a path extends its basename. */
  lemma {:induction false} BasenameAppend(a: string, b: string)
    requires forall k :: 0 <= k < |b| ==> b[k] != '/'
    ensures LastSlashEnd(a + b) == LastSlashEnd(a)
    ensures Basename(a + b) == Basename(a) + b
    decreases |b|
  {
    if |b| > 0 {
      var p := a + b;
      assert p[..|p| - 1] == a + b[..|b| - 1];
      assert p[|p| - 1] == b[|b| - 1];
      BasenameAppend(a, b[..|b| - 1]);
    } else {
      assert a + b == a;
    }
    SliceAppend(a, b, LastSlashEnd(a));
  }

  lemma SliceAppend(a: string, b: string, k: nat)
    requires k <= |a|
    ensures (a + b)[k..] == a[k..] + b
  {
  }

  /** `os.path.dirname`: everything before the last slash, trailing slashes
      removed unless the head is made of slashes only. */
  function Dirname(p: string): (r: string)
    ensures StartsWith(p, r)
  {
    var head := p[..LastSlashEnd(p)];
    if head != [] && exists i :: 0 <= i < |head| && head[i] != '/' then RStripChar(head, '/')
    else head
  }

  // ---------------------------------------------------------------------
  // str(int) and int(str)
  // ---------------------------------------------------------------------

  predicate IsDigit(c: char) { '0' as int <= c as int <= '9' as int }

  function DigitChar(d: nat): char
    requires d < 10
  {
    "0123456789"[d]
  }

  function NatToString(n: nat): (r: string)
    ensures |r| >= 1
    ensures forall i :: 0 <= i < |r| ==> IsDigit(r[i])
  {
    if n < 10 then [DigitChar(n)] else NatToString(n / 10) + [DigitChar(n % 10)]
  }

  /** `"{:0<width>d}".format(n)` for a natural number: left-padded with zeros. */
  function ZeroPad(n: nat, width: nat): (r: string)
    ensures |r| >= width
    ensures forall i :: 0 <= i < |r| ==> IsDigit(r[i])
  {
    var digits := NatToString(n);
    if |digits| >= width then digits
    else seq(width - |digits|, _ => '0') + digits
  }

  /** `str(n)` for a Python int. */
  function IntToString(n: int): string {
    if n < 0 then "-" + NatToString(-n) else NatToString(n)
  }

  function DigitsValue(ds: string): nat
    requires forall i :: 0 <= i < |ds| ==> IsDigit(ds[i])
  {
    if |ds| == 0 then 0
    else
      assert IsDigit(ds[|ds| - 1]);
      DigitsValue(ds[..|ds| - 1]) * 10 + ((ds[|ds| - 1] as int) - ('0' as int))
  }

  /** Decimal digits in groups joined by single underscores, as `int()`
      accepts them after the sign: only digits and `_`, a digit first and
      last, and no two `_` in a row. */
  predicate DigitGroups(ds: string) {
    && |ds| >= 1 && IsDigit(ds[0]) && IsDigit(ds[|ds| - 1])
    && (forall i :: 0 <= i < |ds| ==> IsDigit(ds[i]) || ds[i] == '_')
    && (forall i, j :: 0 <= i < |ds| && 0 <= j < |ds| && j == i + 1 ==> ds[i] != '_' || ds[j] != '_')
  }

  /** The digits of `ds` with the underscores dropped. */
  function WithoutUnderscores(ds: string): (r: string)
    ensures (forall i :: 0 <= i < |ds| ==> IsDigit(ds[i]) || ds[i] == '_') ==>
              forall i :: 0 <= i < |r| ==> IsDigit(r[i])
    ensures (forall i :: 0 <= i < |ds| ==> ds[i] != '_') ==> r == ds
    decreases |ds|
  {
    if |ds| == 0 then []
    else
      var n := |ds| - 1;
      assert forall i :: 0 <= i < n ==> ds[..n][i] == ds[i];
      var front := WithoutUnderscores(ds[..n]);
      if ds[n] == '_' then front
      else
        assert ds == ds[..n] + [ds[n]];
        front + [ds[n]]
  }

  /** The sign `int()` reads: one leading `+` or `-`. */
  function SignLength(t: string): (k: nat)
    ensures k <= |t|
  {
    if |t| > 0 && (t[0] == '-' || t[0] == '+') then 1 else 0
  }

  /** `int()` on text already stripped of whitespace: an optional sign,
      then decimal digits in underscore-joined groups; `None` otherwise. */
  function ParseSigned(t: string): (r: Option<int>)
    ensures r.Some? <==> DigitGroups(t[SignLength(t)..])
  {
    var sign := SignLength(t);
    var ds := t[sign..];
    if !DigitGroups(ds) then None
    else
      var magnitude: int := DigitsValue(WithoutUnderscores(ds));
      if sign == 1 && t[0] == '-' then Some(-magnitude) else Some(magnitude)
  }

  /** `int(s)` on a `str`: surrounding whitespace is ignored, then an
      optional sign and decimal digits in underscore-joined groups; anything
      else raises ValueError. */
  function ParseInt(s: string): (r: Result<int>)
    ensures r.Ok? <==> DigitGroups(Strip(s)[SignLength(Strip(s))..])
    ensures r.Ok? ==> |s| >= 1
    ensures r.Err? ==> r == Err(ValueError(s))
  {
    match ParseSigned(Strip(s))
    case None => Err(ValueError(s))
    case Some(v) => Ok(v)
  }

  lemma StripPadded()
    ensures Strip(" 1_0 ") == "1_0"
  {
    assert RStripSpaceTo(" 1_0 ", 5) == 4;
    assert LStripSpaceFrom(" 1_0 "[..4], 0) == 1;
  }

  lemma GroupsWithoutUnderscore()
    ensures DigitGroups("1_0") && WithoutUnderscores("1_0") == "10"
  {
    assert "1_0"[..2] == "1_" && "1_"[..1] == "1" && "1"[..0] == "";
  }

  lemma ParseGroups()
    ensures ParseSigned("1_0") == Some(10)
  {
    GroupsWithoutUnderscore();
    assert SignLength("1_0") == 0 && "1_0"[0..] == "1_0";
    assert DigitsValue("10") == 10 by { assert "10"[..1] == "1"; }
  }

  /** `int(" 1_0 ")` is 10: the padding is stripped and the underscore
      joins two digit groups. */
  lemma ParseIntPaddedGroups()
    ensures ParseInt(" 1_0 ") == Ok(10)
  {
    StripPadded();
    ParseGroups();
    ParseStripped(" 1_0 ", 10);
  }

  /** `int()` refuses two underscores in a row. */
  lemma ParseIntRefusesDoubleUnderscore()
    ensures ParseInt("1__0") == Err(ValueError("1__0"))
  {
    var s := "1__0";
    StripNoSpace(s);
    assert SignLength(s) == 0 && s[0..] == s;
    DoubleUnderscoreRefused(s, 1);
  }

  /** Two underscores in a row break the digit groups. */
  lemma DoubleUnderscoreRefused(ds: string, i: nat)
    requires i + 1 < |ds| && ds[i] == '_' && ds[i + 1] == '_'
    ensures !DigitGroups(ds)
  {
  }

  /** `int()` refuses a leading underscore. */
  lemma ParseIntRefusesLeadingUnderscore()
    ensures ParseInt("_1") == Err(ValueError("_1"))
  {
    StripNoSpace("_1");
    assert SignLength("_1") == 0 && "_1"[0..] == "_1";
  }

  /** `int()` refuses the empty string. */
  lemma ParseIntRefusesEmpty()
    ensures ParseInt("") == Err(ValueError(""))
  {
  }

  lemma {:induction false} DigitsOfNat(n: nat)
    ensures DigitsValue(NatToString(n)) == n
  {
    var r := NatToString(n);
    if n >= 10 {
      DigitsOfNat(n / 10);
      assert r[..|r| - 1] == NatToString(n / 10);
    }
  }

  /** Plain decimal digits are one group and have no underscore to drop. */
  lemma PlainDigits(ds: string)
    requires |ds| >= 1
    requires forall k :: 0 <= k < |ds| ==> IsDigit(ds[k])
    ensures DigitGroups(ds) && WithoutUnderscores(ds) == ds
    ensures forall k :: 0 <= k < |ds| ==> !IsSpace(ds[k])
  {
    assert forall k :: 0 <= k < |ds| ==> ds[k] != '_';
  }

  /** Digits after an optional minus sign carry no whitespace to strip. */
  lemma SignedDigitsStrip(t: string)
    requires |t| >= 1 && (t[0] == '-' || IsDigit(t[0]))
    requires forall k :: 1 <= k < |t| ==> IsDigit(t[k])
    ensures Strip(t) == t
  {
    forall k | 0 <= k < |t| ensures !IsSpace(t[k]) {
      assert t[k] == '-' || IsDigit(t[k]);
    }
    StripNoSpace(t);
  }

  /** Text parses as its stripped form does. */
  lemma ParseStripped(s: string, n: int)
    requires ParseSigned(Strip(s)) == Some(n)
    ensures ParseInt(s) == Ok(n)
  {
  }

  /** Plain digits read as their value. */
  lemma ParseUnsignedDigits(ds: string)
    requires |ds| >= 1
    requires forall k :: 0 <= k < |ds| ==> IsDigit(ds[k])
    ensures ParseSigned(ds) == Some(DigitsValue(ds) as int)
  {
    PlainDigits(ds);
    assert SignLength(ds) == 0 by { assert IsDigit(ds[0]); }
    assert ds[0..] == ds;
    assert ParseSigned(ds).Some?;
    var magnitude: int := DigitsValue(WithoutUnderscores(ds[0..]));
    assert magnitude == DigitsValue(ds);
    assert ParseSigned(ds).value == magnitude;
  }

  /** Plain digits after a minus sign read as their negated value. */
  lemma ParseNegatedDigits(t: string)
    requires |t| >= 2 && t[0] == '-'
    requires forall k :: 1 <= k < |t| ==> IsDigit(t[k])
    ensures ParseSigned(t) == Some(-(DigitsValue(t[1..]) as int))
  {
    var ds := t[1..];
    assert forall k :: 0 <= k < |ds| ==> IsDigit(ds[k]) by {
      forall k | 0 <= k < |ds| ensures IsDigit(ds[k]) { assert ds[k] == t[k + 1]; }
    }
    PlainDigits(ds);
    assert SignLength(t) == 1;
    assert ParseSigned(t).Some?;
    var magnitude: int := DigitsValue(WithoutUnderscores(ds));
    assert magnitude == DigitsValue(ds);
    assert ParseSigned(t).value == -magnitude;
  }

  /** `int(str(n)) == n`. */
  lemma ParseIntToString(n: int)
    ensures ParseInt(IntToString(n)) == Ok(n)
  {
    var m := if n < 0 then -n else n;
    var ds := NatToString(m);
    DigitsOfNat(m);
    var s := IntToString(n);
    if n < 0 {
      assert s == "-" + ds && s[1..] == ds;
      ParseNegatedDigits(s);
    } else {
      ParseUnsignedDigits(s);
    }
    SignedDigitsStrip(s);
    ParseStripped(s, n);
  }
}

=== FILE: values.dfy ===
/** Python values as the node library handles them: JSON-like headers,
    parameters and configuration, plus the few numpy/h5py value forms that
    matter to the model. */
module Values {
  import opened Wrappers
  import Text

  type byte = x: int | 0 <= x < 256

  datatype Value =
    | Null
    | Bool(b: bool)
    | Int(i: int)
    | Float(r: real)
    | Str(s: string)
      /** `numpy.string_(v)`: a fixed-length byte string; it never compares
          equal to a `str`. */
    | FixedStr(source: Value)
    | Bytes(bs: seq<byte>)
    | List(items: seq<Value>)
    | Tuple(items: seq<Value>)
    | Dict(entries: map<string, Value>)
      /** A Python function object, identified by an opaque id. */
    | Callable(id: nat)

  /** Python truthiness, `bool(v)`. */
  predicate Truthy(v: Value) {
    match v
    case Null => false
    case Bool(b) => b
    case Int(i) => i != 0
    case Float(r) => r != 0.0
    case Str(s) => |s| > 0
    case FixedStr(_) => true
    case Bytes(bs) => |bs| > 0
    case List(xs) => |xs| > 0
    case Tuple(xs) => |xs| > 0
    case Dict(m) => |m| > 0
    case Callable(_) => true
  }

  /** The `callable(v)` builtin. */
  predicate IsCallable(v: Value) { v.Callable? }

  /** Python `bool`, `int` and `float` take part in arithmetic. */
  predicate IsNumber(v: Value) { v.Bool? || v.Int? || v.Float? }

  /** `bool` and `int` arithmetic stays integral. */
  predicate IsIntegral(v: Value) { v.Bool? || v.Int? }

  function AsInt(v: Value): int
    requires IsIntegral(v)
  {
    if v.Bool? then (if v.b then 1 else 0) else v.i
  }

  function AsReal(v: Value): real
    requires IsNumber(v)
  {
    if v.Float? then v.r else AsInt(v) as real
  }

  /** `a + b` on numbers: integral when both operands are, float otherwise. */
  function Add(a: Value, b: Value): (r: Value)
    requires IsNumber(a) && IsNumber(b)
    ensures IsNumber(r) && AsReal(r) == AsReal(a) + AsReal(b)
  {
    if IsIntegral(a) && IsIntegral(b) then Int(AsInt(a) + AsInt(b)) else Float(AsReal(a) + AsReal(b))
  }

  function Sub(a: Value, b: Value): (r: Value)
    requires IsNumber(a) && IsNumber(b)
    ensures IsNumber(r) && AsReal(r) == AsReal(a) - AsReal(b)
  {
    if IsIntegral(a) && IsIntegral(b) then Int(AsInt(a) - AsInt(b)) else Float(AsReal(a) - AsReal(b))
  }

  function Mul(a: Value, b: Value): (r: Value)
    requires IsNumber(a) && IsNumber(b)
    ensures IsNumber(r) && AsReal(r) == AsReal(a) * AsReal(b)
  {
    if IsIntegral(a) && IsIntegral(b) then Int(AsInt(a) * AsInt(b)) else Float(AsReal(a) * AsReal(b))
  }

  /** `v[key]` on a dict: KeyError when absent, TypeError on a non-dict. */
  function Lookup(v: Value, key: string): (r: Result<Value>)
    ensures r.Ok? <==> v.Dict? && key in v.entries
    ensures r.Ok? ==> r.value == v.entries[key]
    ensures v.Dict? && key !in v.entries ==> r == Err(KeyError(key))
  {
    if !v.Dict? then Err(TypeError)
    else if key in v.entries then Ok(v.entries[key])
    else Err(KeyError(key))
  }

  /** `v[i]` on a list or tuple, with Python's negative indices. */
  function Index(v: Value, i: int): (r: Result<Value>)
    ensures r.Ok? <==> (v.List? || v.Tuple?) && -|v.items| <= i < |v.items|
    ensures r.Ok? && i >= 0 ==> r.value == v.items[i]
  {
    if !(v.List? || v.Tuple?) then Err(TypeError)
    else if 0 <= i < |v.items| then Ok(v.items[i])
    else if -|v.items| <= i < 0 then Ok(v.items[|v.items| + i])
    else Err(IndexError)
  }

  /** `len(v)`. */
  function Len(v: Value): (r: Result<nat>)
    ensures r.Ok? <==> v.Str? || v.Bytes? || v.List? || v.Tuple? || v.Dict?
  {
    match v
    case Str(s) => Ok(|s|)
    case Bytes(bs) => Ok(|bs|)
    case List(xs) => Ok(|xs|)
    case Tuple(xs) => Ok(|xs|)
    case Dict(m) => Ok(|m|)
    case _ => Err(TypeError)
  }

  function ReverseSeq<T>(xs: seq<T>): (r: seq<T>)
    ensures |r| == |xs|
    ensures forall i :: 0 <= i < |xs| ==> r[i] == xs[|xs| - 1 - i]
  {
    seq(|xs|, i requires 0 <= i < |xs| => xs[|xs| - 1 - i])
  }

  /** `v[::-1]` on a list, tuple or string. */
  function Reversed(v: Value): (r: Result<Value>)
    ensures r.Ok? <==> v.List? || v.Tuple? || v.Str?
    ensures r.Ok? && v.List? ==> r.value == List(ReverseSeq(v.items))
  {
    match v
    case List(xs) => Ok(List(ReverseSeq(xs)))
    case Tuple(xs) => Ok(Tuple(ReverseSeq(xs)))
    case Str(s) => Ok(Str(ReverseSeq(s)))
    case _ => Err(TypeError)
  }

  /** `tuple(v)` for the iterables the model knows; other values raise
      TypeError. Iterating a dict yields its keys in insertion order, which a
      map does not keep. */
  function AsTuple(v: Value): (r: Result<seq<Value>>)
    ensures (v.List? || v.Tuple?) ==> r == Ok(v.items)
    ensures v.Str? ==> r.Ok? && |r.value| == |v.s|
    ensures (v.Null? || v.Bool? || v.Int? || v.Float? || v.Callable?) ==> r == Err(TypeError)
  {
    match v
    case List(xs) => Ok(xs)
    case Tuple(xs) => Ok(xs)
    case Str(s) => Ok(seq(|s|, i requires 0 <= i < |s| => Str([s[i]])))
    case Bytes(bs) => Ok(seq(|bs|, i requires 0 <= i < |bs| => Int(bs[i])))
    case Dict(_) => Err(Unmodelled)
    case FixedStr(_) => Err(Unmodelled)
    case _ => Err(TypeError)
  }

  /** `hash(v)` succeeds: lists and dicts are unhashable, and so is a tuple
      holding one. */
  predicate Hashable(v: Value) {
    match v
    case List(_) => false
    case Dict(_) => false
    case Tuple(xs) => forall i :: 0 <= i < |xs| ==> Hashable(xs[i])
    case _ => true
  }

  /** `json.dumps(v)` succeeds: byte strings, numpy strings and functions
      have no JSON form, and neither has a container holding one. */
  predicate JsonSerialisable(v: Value) {
    match v
    case Bytes(_) => false
    case FixedStr(_) => false
    case Callable(_) => false
    case List(xs) => forall i :: 0 <= i < |xs| ==> JsonSerialisable(xs[i])
    case Tuple(xs) => forall i :: 0 <= i < |xs| ==> JsonSerialisable(xs[i])
    case Dict(m) => forall k :: k in m ==> JsonSerialisable(m[k])
    case _ => true
  }

  /** `items` lists every entry of `m` once: it is one possible insertion order
      of the dict. */
  ghost predicate Enumerates<V>(items: seq<(string, V)>, m: map<string, V>) {
    && (forall i, j :: 0 <= i < j < |items| ==> items[i].0 != items[j].0)
    && (forall i :: 0 <= i < |items| ==> items[i].0 in m && m[items[i].0] == items[i].1)
    && (forall k :: k in m ==> exists i :: 0 <= i < |items| && items[i].0 == k)
  }

  /** `dict.get(key, default)`. */
  function Get(m: map<string, Value>, key: string, default: Value): (r: Value)
    ensures key in m ==> r == m[key]
    ensures key !in m ==> r == default
  {
    if key in m then m[key] else default
  }

  /** `"%s" % v` for the scalar values whose text the model knows. Python
      formats every value; the text of a float, a byte string, a container or
      a function depends on float printing, dict order or object addresses,
      which the model does not fix, so those give `Unmodelled`. */
  function Display(v: Value): (r: Result<string>)
    ensures r.Ok? <==> v.Null? || v.Bool? || v.Int? || v.Str?
    ensures r.Err? ==> r.error == Unmodelled
    ensures v.Str? ==> r == Ok(v.s)
    ensures v.Int? ==> r == Ok(Text.IntToString(v.i))
    ensures v.Null? ==> r == Ok("None")
    ensures v.Bool? ==> r == Ok(if v.b then "True" else "False")
  {
    match v
    case Str(s) => Ok(s)
    case Int(i) => Ok(Text.IntToString(i))
    case Bool(b) => Ok(if b then "True" else "False")
    case Null => Ok("None")
    case _ => Err(Unmodelled)
  }
}

=== FILE: wrappers.dfy ===
/** Failure-compatible result types shared by every module.

    Python raises exceptions; the model returns them as `Err` values of a
    `Result`, naming the exception class the source would raise. */
module Wrappers {

  datatype Option<+T> = None | Some(value: T) {
    predicate IsFailure() { None? }

    function PropagateFailure<U>(): Option<U>
      requires None?
    {
      None
    }

    function Extract(): T
      requires Some?
    {
      value
    }

    function GetOr(default: T): T {
      match this
      case Some(v) => v
      case None => default
    }
  }

  /** The Python exception a step raises. */
  datatype Error =
    | ValueError(message: string)
    | KeyError(key: string)
    | TypeError
    | IndexError
    | AttributeError(name: string)
    | ZeroDivisionError
      /** A Python integer that does not fit the C integer type it is passed as. */
    | OverflowError
    | StructError
    | NotInitialized
    | FileNotFound(path: string)
    | MalformedJson(path: string)
    | Exception(message: string)
    | Unmodelled

  datatype Result<+T> = Ok(value: T) | Err(error: Error) {
    predicate IsFailure() { Err? }

    function PropagateFailure<U>(): Result<U>
      requires Err?
    {
      Err(error)
    }

    function Extract(): T
      requires Ok?
    {
      value
    }
  }

  /** `raise ValueError(message)` when the accumulated message is non-empty. */
  function RaiseIfAny(message: string): (r: Result<()>)
    ensures r.Ok? <==> message == ""
    ensures r.Err? ==> r.error == ValueError(message)
  {
    if message == "" then Ok(()) else Err(ValueError(message))
  }
}

=== FILE: writer_plugins.dfy ===
/** The frame-index writer plugin: a function a writer calls with itself and
    each message, appending the message's frame index to a list in the
    writer's `h5_datasets` map. */
module WriterPlugins {
  import opened Wrappers
  import opened Values
  import Messages

  /** The closure `write_frame_index_to_dataset(target)` returns. */
  datatype FrameIndexPlugin = FrameIndexPlugin(target: string)

  /** The factory binds the dataset name it is given. */
  function WriteFrameIndexToDataset(targetDataset: string): (p: FrameIndexPlugin)
    ensures p.target == targetDataset
  {
    FrameIndexPlugin(targetDataset)
  }

  /** What one plugin call leaves behind: the writer's `h5_datasets` map and
      whether the call raised. The map can change even when the call raises. */
  datatype PluginStep = PluginStep(datasets: map<string, Value>, outcome: Result<()>)

  /** One call `plugin(writer, message)` on the writer's `h5_datasets`.
      `setdefault` runs first, so an absent target becomes an empty list even
      when reading the frame index then raises; `.append` is looked up before
      the frame index is read, so a target holding anything but a list raises
      AttributeError without reading the message. */
  function Apply(p: FrameIndexPlugin, datasets: map<string, Value>, m: Messages.Wrapped): (r: PluginStep)
    ensures var idx := Messages.GetFrameIndex(m.handler, m.raw);
            p.target !in datasets && idx.Ok? ==>
              r == PluginStep(datasets[p.target := List([idx.value])], Ok(()))
    ensures var idx := Messages.GetFrameIndex(m.handler, m.raw);
            p.target in datasets && datasets[p.target].List? && idx.Ok? ==>
              r == PluginStep(datasets[p.target := List(datasets[p.target].items + [idx.value])], Ok(()))
    ensures p.target in datasets && !datasets[p.target].List? ==>
              r == PluginStep(datasets, Err(AttributeError("append")))
    ensures r.outcome.Ok? <==>
              Messages.GetFrameIndex(m.handler, m.raw).Ok?
              && (p.target in datasets ==> datasets[p.target].List?)
    ensures r.datasets.Keys == datasets.Keys + {p.target}
            || (r.datasets == datasets && r.outcome.Err?)
    ensures forall k :: k in datasets && k != p.target ==> k in r.datasets && r.datasets[k] == datasets[k]
  {
    var list := if p.target in datasets then datasets[p.target] else List([]);
    var afterDefault := datasets[p.target := list];
    if !list.List? then PluginStep(datasets, Err(AttributeError("append")))
    else match Messages.GetFrameIndex(m.handler, m.raw)
      case Err(e) => PluginStep(afterDefault, Err(e))
      case Ok(idx) =>
        assert list.items == [] ==> list.items + [idx] == [idx];
        PluginStep(datasets[p.target := List(list.items + [idx])], Ok(()))
  }

  /** The writer calling the plugin once per message, in order, until a call
      raises. */
  function ApplyAll(p: FrameIndexPlugin, datasets: map<string, Value>, ms: seq<Messages.Wrapped>): (r: PluginStep)
    decreases |ms|
  {
    if |ms| == 0 then PluginStep(datasets, Ok(()))
    else
      var prev := ApplyAll(p, datasets, ms[..|ms| - 1]);
      if prev.outcome.Err? then prev else Apply(p, prev.datasets, ms[|ms| - 1])
  }

  /** Every message's frame index can be read. */
  predicate IndicesReadable(ms: seq<Messages.Wrapped>) {
    forall i :: 0 <= i < |ms| ==> Messages.GetFrameIndex(ms[i].handler, ms[i].raw).Ok?
  }

  function FrameIndices(ms: seq<Messages.Wrapped>): (r: seq<Value>)
    requires IndicesReadable(ms)
    ensures |r| == |ms|
    ensures forall i :: 0 <= i < |ms| ==> r[i] == Messages.GetFrameIndex(ms[i].handler, ms[i].raw).value
  {
    seq(|ms|, i requires 0 <= i < |ms| => Messages.GetFrameIndex(ms[i].handler, ms[i].raw).value)
  }

  /** The `h5_datasets` map a writer without the target dataset is expected
      to hold after the messages `ms`. */
  function Collected(p: FrameIndexPlugin, datasets: map<string, Value>, ms: seq<Messages.Wrapped>): map<string, Value>
    requires IndicesReadable(ms)
  {
    if |ms| == 0 then datasets else datasets[p.target := List(FrameIndices(ms))]
  }

  /** One more message extends the collected list by its frame index. */
  lemma CollectStep(p: FrameIndexPlugin, datasets: map<string, Value>, prefix: seq<Messages.Wrapped>,
                    m: Messages.Wrapped)
    requires p.target !in datasets && IndicesReadable(prefix + [m])
    ensures IndicesReadable(prefix)
    ensures Apply(p, Collected(p, datasets, prefix), m) == PluginStep(Collected(p, datasets, prefix + [m]), Ok(()))
  {
    var ms := prefix + [m];
    assert forall i :: 0 <= i < |prefix| ==> ms[i] == prefix[i];
    assert ms[|prefix|] == m;
    assert FrameIndices(ms) == FrameIndices(prefix) + [FrameIndices(ms)[|prefix|]];
  }

  /** The induction behind `CollectsFrameIndices`. */
  lemma {:induction false} CollectsPrefix(p: FrameIndexPlugin, datasets: map<string, Value>,
                                          ms: seq<Messages.Wrapped>)
    requires p.target !in datasets && IndicesReadable(ms)
    ensures ApplyAll(p, datasets, ms) == PluginStep(Collected(p, datasets, ms), Ok(()))
    decreases |ms|
  {
    if |ms| > 0 {
      var n := |ms| - 1;
      var prefix := ms[..n];
      assert prefix + [ms[n]] == ms;
      CollectStep(p, datasets, prefix, ms[n]);
      CollectsPrefix(p, datasets, prefix);
    }
  }

  /** Starting from a writer without the target dataset, the plugin collects
      the frame indices of all messages in the order they arrived, and leaves
      every other dataset alone. */
  lemma CollectsFrameIndices(p: FrameIndexPlugin, datasets: map<string, Value>, ms: seq<Messages.Wrapped>)
    requires p.target !in datasets
    requires IndicesReadable(ms)
    ensures ApplyAll(p, datasets, ms).outcome == Ok(())
    ensures |ms| > 0 ==> ApplyAll(p, datasets, ms).datasets == datasets[p.target := List(FrameIndices(ms))]
    ensures |ms| == 0 ==> ApplyAll(p, datasets, ms).datasets == datasets
  {
    CollectsPrefix(p, datasets, ms);
  }
}
